=== FILE: README.md ===
# cacholote and callcache, modelled in Dafny

cacholote caches the results of Python function calls. To cache a call it does three things:

- It encodes the call as a tagged JSON record: `{"type": "python_call", "callable": …, "args": …, "kwargs": …}`.
- It keeps the first 32 hexadecimal digits of the SHA3-224 digest of that record's compact JSON text as the key.
- It looks the key up in an SQL table of entries keyed by (key, expiration).

On a hit it decodes the stored JSON and returns it. On a miss it locks the key with a `"__locked__"` placeholder row, calls the function, and stores the result. Values JSON cannot hold travel through encoders and decoders. Datetimes, dates, timedeltas and bytes become call records of their constructors; bytes use RFC 4648 base64. Files become content-addressed copies in a cache directory. Two cleaners evict entries and files, least recently or least frequently used first, until the cache directory fits a size bound. Settings can be overridden for the duration of a `with` block and are restored on exit.

callcache is the package's older generation, with a different API. It is modelled separately:

- `callcache.py`: an in-memory dictionary cache keyed by the full digest of a call signature.
- `callcache/`: an encoder, a decoder, a cache over a key → JSON text store, and two settings contexts.

The Dafny modules follow the source files:

| module | file | source |
|---|---|---|
| `Results`, `Py` | results.dfy, python.dfy | Python values, exceptions, and the foreign primitives (import, attribute lookup, signature binding, hashing, pickling, calling) as fields of an `Env` parameter |
| `Json`, `Text`, `IsoDates`, `Base64`, `Sorting` | json.dfy, text.dfy, isodates.dfy, base64.dfy, sorting.dfy | the JSON document tree and its compact text, string helpers, ISO 8601 dates, RFC 4648 base64 as `binascii` writes it, a stable sort |
| `Utils` | utils.dfy | cacholote/utils.py: the key digest, the buffered copy, the file lock |
| `Encode`, `Files`, `Codec` | encode.dfy, files.dfy, codec.dfy | cacholote/encode.py and the IO part of cacholote/extra_encoders.py |
| `Decode` | decode.dfy | cacholote/decode.py |
| `EngineSettings`, `Database` | settings.dfy, database.dfy | the settings record and cacholote/database.py |
| `Cache` | cache.dfy | cacholote/cache.py |
| `Eviction`, `Clean`, `Cleaner` | eviction.dfy, clean.dfy, cleaner.dfy | the shared eviction order, cacholote/clean.py, cacholote/cleaner.py |
| `Overrides`, `Config` | overrides.dfy, config.dfy | the save/update/restore pattern and cacholote/config.py |
| `JsonDumps`, `CallcacheEncode`, `CallcacheDecode`, `CallcacheCache` | json_dumps.dfy, callcache_encode.dfy, callcache_decode.dfy, callcache_cache.dfy | `json.dumps` with a `default` hook, and callcache/encode.py, decode.py, cache.py |
| `CallcacheConfig`, `CallcacheSettings` | callcache_config.dfy, callcache_settings.dfy | callcache/config.py, callcache/settings.py |
| `LegacyCallcache` | legacy_callcache.dfy | callcache.py |

## Model

| member | source | states |
|---|---|---|
| IsoDates.MaxIsLast | cacholote/database.py:39-41 | no valid date-time comes after datetime.max, the expiration of entries that never expire |
| IsoDates.DateIsoFormat | cacholote/encode.py:94-95 | the ISO text of a date is ten characters long |
| IsoDates.DateTimeIsoFormat | cacholote/encode.py:89-91 | the ISO text of a naive datetime is 19 characters long, or 26 with microseconds |
| IsoDates.ParseDate | cacholote/decode.py:54 | date.fromisoformat only ever produces valid dates |
| IsoDates.ParseDateTime | cacholote/decode.py:54 | datetime.fromisoformat only ever produces valid datetimes |
| IsoDates.ParseDateOfIsoFormat | cacholote/encode.py:94-95 | parsing a date's ISO text gives back the date |
| IsoDates.ParseDateTimeOfIsoFormat | cacholote/encode.py:89-91 | parsing a datetime's ISO text gives back the datetime |
| IsoDates.NewTimedelta | cacholote/encode.py:98-101 | the timedelta built is normalised and has the same total number of microseconds as its arguments |
| IsoDates.NewTimedeltaOfNormal | cacholote/encode.py:98-101 | a timedelta rebuilt from its own days, seconds and microseconds is itself |
| Base64.EncodeGroups | cacholote/encode.py:105 | the base64 body is ASCII and a whole number of four-character groups |
| Base64.B2aBase64 | cacholote/encode.py:105 | the base64 text is ASCII, so decoding it as ASCII cannot fail |
| Base64.DecodeEncodeGroups | cacholote/encode.py:105 | decoding the groups recovers the bytes |
| Base64.A2bOfB2a | cacholote/encode.py:104-106 | a2b_base64 of the text b2a_base64 writes recovers the bytes |
| Text.Partition | cacholote/decode.py:29 | the part before the first separator holds no separator, and the parts rejoin to the text when the separator occurs |
| Text.PartitionOfJoined | cacholote/decode.py:29 | partitioning module:rest recovers the module and the rest when the module holds no ':' |
| Text.Split | cacholote/decode.py:31 | splitting gives at least one part and no part contains the separator |
| Text.JoinSplit | cacholote/decode.py:31 | joining the parts of a split restores the text |
| Text.SplitJoin | cacholote/decode.py:31 | splitting joined parts that hold no separator recovers the parts |
| Text.HexLower | cacholote/utils.py:36 | the hexadecimal digest has two lower-case hexadecimal digits per byte |
| Text.Utf8Encode | cacholote/utils.py:35 | the UTF-8 encoding is never shorter than the text |
| Text.Utf8OfAscii | cacholote/utils.py:35 | on ASCII text the encoding is the code points themselves |
| Text.Basename | cacholote/extra_encoders.py:91 | the base name holds no '/' |
| Text.SplitExt | cacholote/extra_encoders.py:291 | a non-empty extension starts with '.' and holds no '/' |
| Json.EscapeChar | cacholote/encode.py:179 | every character is written as ASCII (json's default ensure_ascii) |
| Json.Quote | cacholote/encode.py:179 | a JSON string literal is pure ASCII |
| Json.SerializeAscii | cacholote/utils.py:35 | with ASCII separators the whole JSON text is ASCII, so the digest input is its code points |
| Sorting.Insert | cacholote/encode.py:84 | inserting adds exactly the one element |
| Sorting.SortBy | cacholote/cache.py:149 | sorting permutes its input |
| Sorting.InsertSorted | cacholote/encode.py:84 | inserting into a sorted sequence keeps it sorted |
| Sorting.SortBySorted | cacholote/cache.py:149 | the sorted sequence is ordered by the comparison |
| Sorting.HeadsTie | cacholote/encode.py:84 | two sorted orderings of the same elements begin with tied elements |
| Sorting.SortedUnique | cacholote/encode.py:84 | two sorted orderings of the same elements are equal when no two distinct elements tie |
| Py.Lookup | cacholote/decode.py:41 | a key is found exactly when some entry holds it, and what is found is the value of one of its entries |
| Py.Put | cacholote/config.py:89-90 | the key now maps to the new value, every other key keeps its value, keys stay unique and an existing key keeps its position |
| Py.DictOf | cacholote/decode.py:91 | building a dictionary from pairs gives one entry per key and answers every lookup as the pairs do (the last occurrence wins) |
| Py.BindDecodeIoObject | cacholote/extra_encoders.py:181-188 | binding against the file decoder yields exactly its two named parameters positionally, with neither left among the keywords |
| Py.Bind | cacholote/encode.py:72-80 | binding a value that is not callable fails with TypeError |
| Py.ImportObject | cacholote/decode.py:24-33 | a name without ':' is refused with ValueError |
| Py.ImportObjectOfJoined | cacholote/decode.py:29-33 | a name built as module:attr1.attr2 imports that module and walks exactly those attributes in order |
| Encode.InspectFullyQualifiedName | cacholote/encode.py:33-38 | fails (ValueError) exactly when no module is found; otherwise splitting the name at its first ':' gives back the module name and the qualified name |
| Encode.TargetName | cacholote/encode.py:41-48 | a string target is accepted exactly when it contains ':' and is then recorded unchanged; every refusal is a ValueError |
| Encode.DictifyPythonObject | cacholote/encode.py:41-52 | the record has exactly the keys "type" and "fully_qualified_name", in that order, with type "python_object" and the given name; a string without ':' is refused with ValueError |
| Encode.SortKwargs | cacholote/encode.py:84 | the keyword record is a permutation of the keyword mapping, sorted by name, with each name once |
| Encode.SortKwargsIgnoresOrder | cacholote/encode.py:84 | two keyword spellings with the same bindings in any order give the same sorted record |
| Encode.CallRecord | cacholote/encode.py:62-86 | the call record never holds a key twice |
| Encode.CallRecordPositional | cacholote/encode.py:81-84 | a call with positional arguments only has exactly the entries type, callable and args |
| Encode.CallRecordFields | cacholote/encode.py:62-86 | a reader finds "python_call" under type, the name under callable, "args" present exactly when there are positional arguments and "kwargs" exactly when there are keyword arguments |
| Encode.CallRecordIgnoresKeywordOrder | cacholote/encode.py:81-84 | the record depends on the keyword arguments only as a mapping, not on their order |
| Encode.SortKwargsOfSameMapping | cacholote/encode.py:84 | two keyword lists with unique names that answer every lookup alike give the same sorted record |
| Encode.DictifyPythonCallIgnoresKeywordOrder | cacholote/encode.py:55-86 | the call record of a call does not depend on the order its keyword arguments were passed in |
| Encode.DictifyPythonCall | cacholote/encode.py:55-86 | a string target without ':' fails with ValueError; every success is a call record of the target's name |
| Encode.DictifyPythonCallBound | cacholote/encode.py:72-80 | a callable whose binding succeeds is recorded with the bound arguments |
| Encode.DictifyPythonCallUnbound | cacholote/encode.py:67-76 | callables without a signature are recorded with the arguments exactly as given |
| Encode.DictifyDateRecord | cacholote/encode.py:94-95 | a date is recorded as a call of date.fromisoformat on its ISO text |
| Encode.DictifyDateTimeRecord | cacholote/encode.py:89-91 | a datetime is recorded as a call of datetime.fromisoformat on its ISO text |
| Encode.DictifyTimedeltaRecord | cacholote/encode.py:98-101 | a timedelta is recorded as a call of timedelta on its days, seconds and microseconds |
| Encode.DictifyBytesRecord | cacholote/encode.py:104-106 | bytes are recorded as a call of binascii.a2b_base64 on their base64 text |
| Codec.RegisterAll | cacholote/extra_encoders.py:312-320 | the registry grows by exactly the four file classes, each served by the file encoder, and the encoders registered before are kept in place |
| Codec.RunEncoder | cacholote/encode.py:147-150 | only the file encoder can change the filesystem |
| Codec.FilecacheDefault | cacholote/encode.py:127-155 | a value no registered class accepts gives EncodeError("can't encode object") and writes nothing; with errors not raised, every failure is that EncodeError |
| Codec.LastMatchingEncoderDecides | cacholote/encode.py:147-153 | the last registered encoder whose class accepts the value decides, when it succeeds and also when it fails with errors raised |
| Codec.FailingEncoderSkipped | cacholote/encode.py:151-154 | with errors not raised, a failing encoder is passed over for the earlier ones, on the filesystem it left behind |
| Codec.ObjectAlwaysApplies | cacholote/encode.py:113-114 | the first default entry, `object`, accepts every value |
| Codec.DateTimeBeforeDate | cacholote/encode.py:117-118 | a datetime is written by the datetime encoder although the date encoder, registered earlier, also accepts it |
| Codec.DefaultRegistryServes | cacholote/encode.py:113-120 | bytes, dates, datetimes and timedeltas are each accepted by their own default entry and by no entry registered after it |
| Codec.DefaultEncodesBytes | cacholote/encode.py:116 | under the default registry bytes are written by the bytes encoder |
| Codec.DateEncoderOfDate | cacholote/encode.py:94-95 | the date encoder writes nothing to the filesystem and gives the date record |
| Codec.DefaultEncodesDate | cacholote/encode.py:117 | under the default registry a plain date is written by the date encoder |
| Codec.DefaultEncodesTimedelta | cacholote/encode.py:119 | under the default registry a timedelta is written by the timedelta encoder |
| Codec.RegisteredIoEncoderDecides | cacholote/extra_encoders.py:312-320 | after registration an open file of any of the four classes is written by the file encoder |
| Codec.ToJsonPlain | cacholote/encode.py:175-179 | values JSON represents never reach `default`: their document is their own and the filesystem is untouched |
| Codec.ApplyDumpsDefaults | cacholote/encode.py:175-176 | options the caller gave are kept; missing separators become (",", ":") and missing skipkeys becomes false |
| Codec.ApplyDumpsDefaultsIdempotent | cacholote/encode.py:175-176 | filling in the defaults twice is the same as once |
| Codec.Dumps | cacholote/encode.py:158-179 | a value JSON represents is written as its own document with the chosen separators and writes nothing; with ASCII separators, and always with the default ones, the text is ASCII; with errors not raised, every failure is EncodeError("can't encode object") or running out of nesting |
| Codec.DumpsPythonCall | cacholote/encode.py:182-203 | a string target without ':' is a ValueError that writes nothing; every text is ASCII |
| Codec.DumpsPythonCallIgnoresKeywordOrder | cacholote/encode.py:182-203 | the text of a call does not depend on the order its keyword arguments were passed in |
| Codec.DumpsPythonCallPlain | cacholote/encode.py:182-203 | the record of a call with plain arguments is rendered compactly with no encoder involved and nothing written |
| Codec.LoadsPlainList | cacholote/decode.py:77-91 | decoding the document of a plain value without dictionaries gives back the value |
| Codec.LoadsPlainDict | cacholote/decode.py:77-91 | the document of a dictionary of plain values decodes to what the object hook makes of that dictionary |
| Codec.LoadsCallRecord | cacholote/decode.py:77-91 | the document of a positional call record decodes as the object hook decodes the record itself |
| Codec.ToJsonViaDefault | cacholote/encode.py:177 | a value JSON cannot represent is written as whatever `default` turns it into, one level of nesting deeper |
| Codec.ToJsonOfCallRecord | cacholote/encode.py:177 | a value `default` turns into a positional call record of plain arguments is written as that record's document, with nothing stored |
| Codec.RoundTripViaRecord | cacholote/encode.py:177 | a value whose record the object hook turns back into it survives dumps followed by loads |
| Codec.RoundTripBytes | cacholote/encode.py:104-106 | loads(dumps(b)) == b for bytes, writing nothing |
| Codec.RoundTripDate | cacholote/encode.py:94-95 | loads(dumps(d)) == d for dates, writing nothing |
| Codec.RoundTripDateTime | cacholote/encode.py:89-91 | loads(dumps(t)) == t for datetimes, writing nothing |
| Codec.RoundTripTimedelta | cacholote/encode.py:98-101 | loads(dumps(td)) == td for timedeltas, writing nothing |
| Codec.DumpsRoundTrip | cacholote/encode.py:158-179 | under the default encoders, bytes, dates, datetimes and timedeltas are written, with any options, as a text whose document loads back to the value, and nothing is written to the filesystem |
| Decode.Apply | cacholote/decode.py:54 | calling a value that is not callable fails with TypeError |
| Decode.StarArgs | cacholote/decode.py:52-54 | a list spreads as its items; only lists, strings, dictionaries and bytes can be spread at all |
| Decode.StarStarKwargs | cacholote/decode.py:53-54 | only a dictionary can be spread as keywords, and it gives its entries |
| Decode.GetOr | cacholote/decode.py:52-53 | a present key gives its value, a missing key gives the default |
| Decode.ImportName | cacholote/decode.py:51 | a stored string name is imported as `import_object` does |
| Decode.DecodePythonObject | cacholote/decode.py:40-43 | a python_object dictionary with a name gives the imported object; any other dictionary gives None |
| Decode.DecodeDictifiedObject | cacholote/decode.py:40-43 | the object record written for a target decodes to what importing the target's name gives |
| Decode.DecodePythonCall | cacholote/decode.py:46-55 | a dictionary that is not a python_call record with a callable gives None |
| Decode.DecodePythonCallApplies | cacholote/decode.py:47-54 | a python_call record calls the callable it names or holds, with its args and kwargs, each defaulting to none |
| Decode.TryDecoders | cacholote/decode.py:64-74 | every failure is a DecodeError; when every decoder answers None the dictionary comes back as it is |
| Decode.TryDecodersLastAnswerWins | cacholote/decode.py:66-72 | the last registered decoder whose answer is not None decides: its value, or its exception wrapped in DecodeError |
| Decode.ObjectHook | cacholote/decode.py:58-74 | every failure of the object hook is a DecodeError |
| Decode.ObjectHookOrder | cacholote/decode.py:58-74 | a python_call record is answered by the call decoder first; a dictionary with neither tag comes back unchanged |
| Decode.Loads | cacholote/decode.py:77-91 | strings and integers decode to themselves and every failure is a DecodeError |
| Decode.LoadsItems | cacholote/decode.py:91 | an array decodes element by element, each as it would decode alone |
| Decode.LoadsFields | cacholote/decode.py:91 | an object's members decode one by one under their own keys, each as it would decode alone |
| Decode.ApplyTimedelta | cacholote/decode.py:54 | calling timedelta on a timedelta's days, seconds and microseconds rebuilds it |
| Decode.ApplyDate | cacholote/decode.py:54 | date.fromisoformat on a date's ISO text rebuilds the date |
| Decode.ApplyDateTime | cacholote/decode.py:54 | datetime.fromisoformat on a datetime's ISO text rebuilds the datetime |
| Decode.ApplyA2b | cacholote/decode.py:54 | a2b_base64 on the base64 text of some bytes gives back the bytes |
| Decode.ApplyDateText | cacholote/decode.py:54 | date.fromisoformat succeeds exactly on the text of a valid date and gives that date; other strings are a ValueError and other values a TypeError |
| Decode.ApplyDateTimeText | cacholote/decode.py:54 | datetime.fromisoformat succeeds exactly on the text of a valid naive datetime; other strings are a ValueError and other values a TypeError |
| Decode.ApplyTimedeltaArgs | cacholote/decode.py:54 | timedelta on up to three positional arguments is a TypeError when one is not an integer, and otherwise a normalised timedelta or OverflowError |
| Decode.ApplyA2bRejects | cacholote/decode.py:54 | a2b_base64 refuses a non-ASCII string with ValueError and a value that is neither string nor bytes with TypeError |
| Decode.DecodeTimedeltaRecord | cacholote/decode.py:46-55 | the timedelta encoder's record decodes to the timedelta |
| Decode.DecodeDateRecord | cacholote/decode.py:46-55 | the date encoder's record decodes to the date |
| Decode.DecodeDateTimeRecord | cacholote/decode.py:46-55 | the datetime encoder's record decodes to the datetime |
| Decode.DecodeBytesRecord | cacholote/decode.py:46-55 | the bytes encoder's record decodes to the bytes |
| Decode.RecordDecodesAsCall | cacholote/decode.py:46-55 | a positional call record whose name imports to a callable decodes as the call of that callable on those arguments |
| Utils.Prefix | cacholote/utils.py:36 | slicing to n keeps the first n items, or all of them when there are fewer |
| Utils.FullHexdigest | cacholote/utils.py:35-36 | the full digest is lower-case hexadecimal, two digits per byte of SHA3-224 |
| Utils.Hexdigestify | cacholote/utils.py:33-36 | the key is hexadecimal, 32 digits long, and a prefix of the full SHA3-224 digest |
| Utils.ReadChunk | cacholote/utils.py:67-70 | a read is empty exactly when the size asked for is 0 or the file is exhausted |
| Utils.Utf8Concat | cacholote/utils.py:70 | encoding text piecewise and joining gives the encoding of the whole text |
| Utils.CopyBufferedFile | cacholote/utils.py:49-70 | without a size the buffer is 8192; a size of 0 writes nothing; any other size writes the whole input, encoded, in order |
| Utils.Lockfile | cacholote/utils.py:79-81 | the lock file is the locked path followed by ".lock" |
| Utils.Acquire | cacholote/utils.py:83-84 | afterwards the lock is held and every other path is as before |
| Utils.Release | cacholote/utils.py:86-88 | afterwards the lock is free, every other path is as before, and a free lock leaves the filesystem untouched |
| Utils.ReleaseIdempotent | cacholote/utils.py:86-88 | releasing twice is releasing once |
| Utils.ReleaseUndoesAcquire | cacholote/utils.py:83-88 | acquiring then releasing a free lock restores the filesystem |
| Utils.SleepSeconds | cacholote/utils.py:104 | `min(1, timeout or 1)`: one second when the timeout is absent, zero or at least one second, and the timeout itself when it lies strictly between zero and one; never zero and never over one second for a non-negative timeout |
| Utils.WaitUntilReleased | cacholote/utils.py:94-104 | warns at most once; times out only after a locked check that exceeded the timeout; returns only after a check that found the lock free; every sleep has the same length |
| Utils.WaitWarnsOnceIfLocked | cacholote/utils.py:98-103 | a free lock is passed with no warning or sleep; a lock held at the first check warns exactly once |
| Utils.Enter | cacholote/utils.py:94-109 | the lock is taken only after an observation found the lock file gone, every earlier observation having found it present within the timeout; the answer then says whether the locked file exists. The only failure is TimeoutError, after an observation found the file still present past the timeout |
| Utils.WaitEndsAt | cacholote/utils.py:94-104 | the wait ends at the first observation that finds the lock file gone or still present past the timeout, and every observation before it found the file present within the timeout |
| Utils.Exit | cacholote/utils.py:111-117 | leaving always frees the lock |
| Utils.EnterExit | cacholote/utils.py:106-117 | entering and leaving a free lock leaves the filesystem as it was |
| Files.FileType | cacholote/extra_encoders.py:78-84 | never empty: the extension's guess when it is non-empty; with no guess, the content sniffer's non-empty answer other than "application/octet-stream"; "unknown" with no guess and no sniffer, with the octet-stream answer, or with an empty guess |
| Files.DictifyFile | cacholote/extra_encoders.py:76-98 | succeeds exactly when the file exists (FileNotFoundError otherwise) and then has exactly the five file keys, in order |
| Files.DictifyFileFields | cacholote/extra_encoders.py:86-96 | the description holds the file's type, public URL under the read-only or the writable cache directory, checksum, size and local path |
| Files.AreFileArgs | cacholote/extra_encoders.py:101-116 | fails (IndexError) exactly when there are no arguments; true exactly for one or two dictionaries the first of which has exactly the five file keys |
| Files.DictifyFileIsFileArgs | cacholote/extra_encoders.py:101-116 | every file description passes the file-argument test, alone or followed by the storage options |
| Files.StrField | cacholote/extra_encoders.py:125 | gives the string under the key exactly when there is one; a missing key is a KeyError |
| Files.Field | cacholote/extra_encoders.py:140 | gives the value under the key exactly when there is one, and KeyError otherwise |
| Files.GetFsAndUrlpath | cacholote/extra_encoders.py:119-153 | without validation the recorded local path comes back as it is; with validation only an existing path comes back; a description that is not a dictionary is a TypeError |
| Files.ValidateLocalFirst | cacholote/extra_encoders.py:134-142 | an existing local copy decides by its checksum alone: a mismatch is "checksum mismatch" even when the public URL exists |
| Files.ValidateFallsBackToHref | cacholote/extra_encoders.py:144-153 | a missing local copy falls back to the public URL when that exists and otherwise fails naming both paths |
| Files.GetFsAndUrlpathOfDictifyFile | cacholote/extra_encoders.py:119-153 | a description made from a file leads back to that file, with or without validation |
| Files.StoreIoObject | cacholote/extra_encoders.py:257-274 | succeeds exactly when the input exists; the output then holds the input's content; the original survives exactly when originals are kept; no other path changes |
| Files.DictifyIoObject | cacholote/extra_encoders.py:277-309 | write-mode objects are refused with ValueError and nothing written; a success needs an existing input, after which the file named by its checksum is in the cache directory, holding the input's content when it was not there already, and an artifact already there leaves the filesystem untouched |
| Files.DictifyIoObjectRecord | cacholote/extra_encoders.py:300-309 | the record's positional arguments are the stored file's description and the storage options, and its keywords are the open parameters |
| Files.BindOneFileArg | cacholote/extra_encoders.py:181-183 | binding one positional argument against decode_io_object takes the storage options from the keywords |
| Files.DecodeIoObject | cacholote/extra_encoders.py:181-187 | succeeds exactly when the validated lookup does and then opens the existing path it found |
| Files.DecodeDictifiedIoObject | cacholote/extra_encoders.py:181-187 | decoding what the file encoder recorded, on the filesystem it left, reopens the stored artifact in the object's own mode with the object's own open parameters |
| Database.NewEntry | cacholote/database.py:35-71 | an inserted row keeps its key, result and tag, keeps a given expiration, starts its counter at 0 and is stamped with the insertion time |
| Database.NewEntryWithoutExpirationNeverExpires | cacholote/database.py:65-71 | a row inserted without an expiration gets datetime.max and so never expires |
| Database.PrimaryKeys | cacholote/database.py:57-59 | the primary-key dictionary has exactly the keys "key" and "expiration", holding the row's values |
| Database.PrimaryKeysIdentifyRow | cacholote/database.py:51 | in a table that keeps the unique constraint, two rows with the same primary-key dictionary are the same row |
| Database.Insert | cacholote/database.py:51 | an insert fails (IntegrityError) exactly when the primary key is taken, otherwise appends the row and keeps the constraint |
| Database.Delete | cacholote/cache.py:58 | deleting removes exactly the rows with that primary key, keeps the constraint and never grows the table |
| Database.DeleteUndoesInsert | cacholote/cache.py:58 | deleting a row just inserted restores the table |
| Database.Update | cacholote/database.py:43-47 | an update replaces only the row with the same primary key and refreshes its timestamp |
| Database.UpdateKeepsPks | cacholote/database.py:43-47 | updating keeps every primary key, and therefore the unique constraint |
| Database.Flush | cacholote/database.py:74-78 | a flush fails only with IntegrityError and keeps the unique constraint |
| Database.CommitOrRollback | cacholote/database.py:74-78 | afterwards nothing is pending; the table holds every pending change when the flush succeeds and none of them otherwise, and the failure is passed on |
| Database.CommitOrRollbackNothingPending | cacholote/database.py:74-78 | with nothing pending, committing changes nothing |
| Database.CommitAdd | cacholote/database.py:74-78 | a row added alone is committed exactly when its primary key is free |
| Database.MatchingRows | cacholote/cache.py:131-143 | keeps exactly the rows with the key, not yet expired, and with the configured expiration when one is set |
| Database.Candidates | cacholote/cache.py:145-151 | the lookup visits exactly the matching rows |
| Database.CandidatesNewestFirst | cacholote/cache.py:149 | the rows the lookup visits come newest first |
| Cache.HexdigestifyPythonCall | cacholote/cache.py:64-69 | the key is the 32-digit digest of the compact JSON text of the call record, and a failure to encode the call is passed on |
| Cache.Touched | cacholote/cache.py:40-51 | a row read back keeps its primary key and result, counts one more use, and takes the configured tag when there is one |
| Cache.TryCandidatesHit | cacholote/cache.py:146-156 | a hit returns the decode of one of the candidates |
| Cache.TryCandidatesMiss | cacholote/cache.py:146-156 | a miss happens only when no candidate decodes |
| Cache.TryCandidatesMissDeletes | cacholote/cache.py:146-156 | after a miss every candidate's row has been deleted from the table |
| Cache.DeleteAll | cacholote/cache.py:54-59 | exactly the rows sharing a primary key with a deleted row are gone |
| Cache.FirstDecodableCandidateWins | cacholote/cache.py:152-153 | the newest decodable candidate is returned and only its row is updated |
| Cache.UndecodableCandidateDeleted | cacholote/cache.py:154-156 | an undecodable candidate is deleted and the search goes on with the next one |
| Cache.ConfiguredExpiration | cacholote/cache.py:136-140 | no configured expiration gives none; a configured one is parsed as ISO text, and text that does not parse is a ValueError |
| Cache.Placeholder | cacholote/cache.py:79-84 | the placeholder row holds the "__locked__" text under the digest, with the configured tag and an unused counter |
| Cache.Compute | cacholote/cache.py:158-167 | corrected: the function runs exactly once, and its exception, an EncodeError included, is passed on with the table and filesystem as they were |
| Cache.Lookup | cacholote/cache.py:121-156 | with the cache off the function runs once and nothing changes; a miss is only reached with the cache on |
| Cache.Cacheable | cacholote/cache.py:104-169 | the function runs at most once, and with the cache off it runs once and nothing changes |
| Cache.TryCandidatesLocked | cacholote/cache.py:146-156 | the lookup loop never gives a key the placeholder that it did not already have |
| Cache.LookupLocked | cacholote/cache.py:121-156 | the stage before the miss never gives a key the placeholder that it did not already have |
| Cache.ComputeLocked | cacholote/cache.py:97-101 | once the placeholder of a fresh key is committed, the corrected step leaves no placeholder behind, whatever the function does |
| Cache.PlaceholderNeverSurvives | cacholote/cache.py:97-101 | after any call of the corrected wrapper, no key holds the placeholder that did not hold it before |
| Cache.ComputeAsWritten | cacholote/cache.py:158-167 | the function runs exactly once; when it raises, the placeholder is deleted and the exception passed on, except that its own EncodeError is caught and becomes UnboundLocalError |
| Cache.CacheableAsWritten | cacholote/cache.py:104-169 | the wrapper as written runs the function at most once |
| Cache.UnimportableRecordFailsToDecode | cacholote/decode.py:40-43 | a python_object dictionary whose name does not import fails to decode |
| Cache.ComputeUndecodable | cacholote/cache.py:161-164 | a result that encodes but does not decode: as written the placeholder stays committed; corrected, the table is as before |
| Cache.AsWrittenLeavesPlaceholder | cacholote/cache.py:158-167 | on an empty table, the first call returning such a result raises and, as written, leaves the placeholder committed; the corrected wrapper leaves the table empty |
| Cache.EmptyTableMisses | cacholote/cache.py:145-158 | with no rows the lookup misses and goes on with the digest |
| Cache.LeftoverPlaceholderIsAHit | cacholote/cache.py:146-153 | as written, the next call finds the leftover placeholder live and returns the "__locked__" text without running the function |
| Cache.UnencodableCallRunsUncached | cacholote/cache.py:125-129 | a call that cannot be encoded runs the function once with the table untouched |
| Cache.HitDoesNotCall | cacholote/cache.py:145-153 | a hit does not run the function: the value is the decode of a live row for the digest, and every row of another digest is still in the table afterwards |
| Cache.TryFrame | cacholote/cache.py:146-156 | the lookup loop deletes or updates only rows of the digest it searches: every row with another key survives, on a hit as on a miss |
| Cache.MissComputes | cacholote/cache.py:158-160 | after a miss the placeholder is committed before the function runs |
| Cache.MissStoresResult | cacholote/cache.py:161-164 | after a miss, a result that encodes and decodes is stored in the placeholder's row, counted once, and the caller receives the decode of the stored document |
| Cache.FunctionErrorRemovesPlaceholder | cacholote/cache.py:97-101 | when the function raises, the placeholder is deleted; the corrected step passes every exception on, and the step as written passes on every exception but EncodeError, which becomes UnboundLocalError |
| Cache.AsWrittenFunctionEncodeError | cacholote/cache.py:161-167 | on a fresh key, a function raising EncodeError makes the wrapper as written raise UnboundLocalError, while the corrected wrapper raises the function's error; both leave no placeholder |
| Cache.UnencodableResultReturnedRaw | cacholote/cache.py:165-167 | a result that cannot be encoded is returned raw and its placeholder deleted |
| Cache.LockerResultNotKept | cacholote/cache.py:97-101 | a function returning the placeholder text itself is not cached: the row it was stored in is deleted |
| Eviction.ParseMethod | cacholote/clean.py:42-47 | "LRU" and "LFU" are accepted, each as itself, and every other method is a ValueError |
| Eviction.EvictionOrder | cacholote/clean.py:59 | the rows are visited in the sort order of the method (timestamp then counter for LRU, counter then timestamp for LFU), each row once |
| Eviction.ArgsColumn | cacholote/clean.py:57 | a stored result that is not an object has no arguments column (SQL NULL) |
| Eviction.FieldOf | cacholote/clean.py:57 | a member found is one stored under the key, and none is found only when no member has that key |
| Eviction.Unpack | cacholote/clean.py:60 | spreading the column fails (TypeError) exactly when it is NULL or not an array, string or object; an array spreads into as many arguments as it has items |
| Eviction.RowFile | cacholote/clean.py:60-66 | arguments that are not file arguments name no file; a file named is the recorded path of the first argument, removed recursively exactly when its type is the zarr type |
| Eviction.Rm | cacholote/clean.py:67 | removal succeeds exactly when the path exists and is not a directory removed without recursion, and then takes away that path alone |
| Eviction.DeleteKey | cacholote/clean.py:69 | every row with the key goes, whatever its expiration, and no other row |
| Eviction.ByAge | cacholote/clean.py:76-77 | untracked files are visited oldest-modified first, ties broken by path, each once |
| Clean.Pop | cacholote/clean.py:65 | popping removes exactly that path from the frozen listing and leaves every other size alone |
| Clean.PopTotal | cacholote/clean.py:65-71 | popping a path takes exactly its size off the frozen total |
| Clean.Snapshot | cacholote/clean.py:51 | the frozen listing holds each listed path once, with its disk usage |
| Clean.Evict | cacholote/clean.py:63-70 | one eviction is recorded with its key and path, after those before it |
| Clean.Replay | cacholote/clean.py:63-70 | replaying evictions records them in order and discards nothing untracked |
| Clean.EvictRows | cacholote/clean.py:55-72 | the row pass is a sequence of justified evictions, and it stops exactly when the frozen total is within the bound |
| Clean.ReplayFacts | cacholote/clean.py:63-70 | the evicted paths leave the listing and the filesystem, the rows of their keys leave the table, and nothing else changes |
| Clean.Discard | cacholote/clean.py:78-79 | removing an untracked file records it and leaves the table and the evictions alone |
| Clean.DiscardFiles | cacholote/clean.py:74-81 | the last pass removes a prefix of the files in the order given and stops exactly when the frozen total is within the bound |
| Clean.ReplayDiscardsFacts | cacholote/clean.py:78-79 | the discarded paths leave the listing and the filesystem and nothing else changes |
| Clean.CleanCacheFiles | cacholote/clean.py:25-85 | an unknown method is a ValueError with nothing touched; a directory already within the bound is left untouched |
| Clean.SweepsReplay | cacholote/clean.py:55-81 | a clean that starts above the bound is the row pass's evictions followed by untracked removals, which happen only when asked |
| Clean.SweepsSucceedWithinBound | cacholote/clean.py:71-85 | the sweeps succeed exactly when the frozen total ends within the bound |
| Clean.SweepsEvictJustly | cacholote/clean.py:59-72 | every eviction of the row pass names a row's file and was made while the total was above the bound |
| Clean.SweepsDiscardOldestFirst | cacholote/clean.py:74-81 | the untracked files removed are the oldest of those left, each removed while the total was above the bound |
| Clean.CleanSucceedsWithinBound | cacholote/clean.py:52-85 | with a valid method the clean succeeds exactly when the frozen total of what is left is within the bound |
| Clean.CleanRemovesWhatItReports | cacholote/clean.py:55-81 | the clean removes exactly what it reports: evicted and untracked paths leave the listing and the filesystem, the rows of evicted keys leave the table, nothing else changes, and untracked files go only when asked |
| Clean.SweepsRemoveWhatTheyReport | cacholote/clean.py:55-81 | from any frozen listing above the bound, the sweeps remove exactly what they report and untracked files only when asked |
| Clean.CleanStopsAtBound | cacholote/clean.py:59-81 | each eviction names a listed file of the directory and the key of a row describing it, and every removal was made while the total was above the bound |
| Clean.CleanUnknownOldestFirst | cacholote/clean.py:76-77 | untracked files go oldest-modified first, ties broken by path |
| Clean.OldestPrefixSorted | cacholote/clean.py:76-77 | a prefix of the untracked files taken in age order is itself in age order |
| Cleaner.DuMatchesSnapshot | cacholote/cleaner.py:51 | measured on the filesystem the listing came from, the live directory size equals the total of the frozen snapshot of the later cleaner |
| Cleaner.Present | cacholote/cleaner.py:72 | a later listing holds exactly the listed paths still on the filesystem |
| Cleaner.Evict | cacholote/cleaner.py:62-65 | one eviction is recorded with its key and path, after those before it |
| Cleaner.Replay | cacholote/cleaner.py:62-65 | replaying evictions records them in order and discards nothing untracked |
| Cleaner.EvictRows | cacholote/cleaner.py:54-69 | the row pass is a sequence of justified evictions of existing files, and it stops exactly when the directory is within the bound |
| Cleaner.ReplayFacts | cacholote/cleaner.py:62-65 | the evicted paths leave the filesystem, the rows of their keys leave the table, and nothing else changes |
| Cleaner.Discard | cacholote/cleaner.py:74-75 | removing an untracked file records it and leaves the table and the evictions alone |
| Cleaner.DiscardFiles | cacholote/cleaner.py:71-77 | the last pass removes a prefix of the files in the order given and stops exactly when the directory is within the bound |
| Cleaner.ReplayDiscardsFacts | cacholote/cleaner.py:74-75 | the discarded paths leave the filesystem and nothing else changes |
| Cleaner.CleanCacheFiles | cacholote/cleaner.py:25-79 | an unknown method is a ValueError with nothing touched; a directory already within the bound is left untouched |
| Cleaner.SweepsReplay | cacholote/cleaner.py:54-77 | a run that starts above the bound is the row pass's evictions followed by untracked removals, which happen only when asked |
| Cleaner.SweepsEvictJustly | cacholote/cleaner.py:58-70 | every eviction of the row pass names a row's file and was made while the directory was above the bound |
| Cleaner.SweepsDiscardOldestFirst | cacholote/cleaner.py:71-77 | the untracked files removed are the oldest of those still listed, each removed while the directory was above the bound |
| Cleaner.CleanerSucceedsWithinBound | cacholote/cleaner.py:51-79 | with a valid method the cleaner succeeds exactly when the directory ends within the bound |
| Cleaner.CleanerRemovesWhatItReports | cacholote/cleaner.py:57-77 | the cleaner removes exactly what it reports, whatever the outcome: deletions before a failure are kept by the final commit, evicted paths existed, untracked ones were listed, nothing else changes, and untracked files go only when asked |
| Cleaner.CleanerStopsAtBound | cacholote/cleaner.py:59-77 | each eviction names an existing file and the key of a row describing it on the directory's filesystem, and every removal was made while the directory was above the bound |
| Cleaner.CleanerUnknownOldestFirst | cacholote/cleaner.py:73-74 | untracked files go oldest-modified first, ties broken by path |
| Config.Defaults | cacholote/config.py:30-58 | the initial settings hold each key once, the cache built from them among them |
| Config.Inferred | cacholote/config.py:74-78 | a setting is read off the new cache exactly for the keys other than cache whose class has a property of that name |
| Config.Set | cacholote/config.py:64-90 | cache with other keys is a ValueError; cache alone always succeeds; otherwise it fails, with the KeyError listing the settings, exactly when some key is unknown |
| Config.CacheArgs | cacholote/config.py:68-78 | the arguments grow by exactly the known settings the new cache has a property for, holding the property's value |
| Config.SetCache | cacholote/config.py:68-87 | the saved values cover exactly the arguments after inference |
| Config.SetOthers | cacholote/config.py:87-90 | without cache, a fresh cache is installed and the old one saved |
| Config.Exit | cacholote/config.py:95-101 | leaving the context keeps every key of the settings |
| Config.SetOverrides | cacholote/config.py:64-90 | the keys passed take their new values and the settings keep their keys and order; with cache alone, other settings take the new cache's properties; otherwise a fresh cache replaces the old one, which is saved, and the settings not passed are kept |
| Config.SetThenExitRestores | cacholote/config.py:80-101 | entering and leaving the context gives back every setting, the cache included |
| Config.SavedWithCache | cacholote/config.py:81-89 | without cache, the saved values are those of the keys passed plus the old cache |
| Overrides.Update | cacholote/config.py:87 | after the update the keys are those of the settings and the arguments, still unique, with the old keys in place |
| Overrides.UpdateLookup | cacholote/config.py:87 | after the update a key holds the argument's value when the arguments name it, and its old value otherwise |
| Overrides.UpdateKeepsKeys | cacholote/config.py:87 | updating only keys already present keeps the keys and their order |
| Overrides.Saved | cacholote/config.py:80-85 | saving succeeds exactly when every key is present, then holds those keys with their current values; a failure names a missing key |
| Overrides.UpdateThenRestore | cacholote/config.py:87-101 | updating with the arguments and then with the values saved before gives back the original settings, in the same order |
| CallcacheConfig.Defaults | callcache/config.py:26-28 | the initial settings hold only the cache |
| CallcacheConfig.Set | callcache/config.py:35-43 | fails, with the KeyError listing the settings, exactly when some key is unknown, and otherwise saves exactly the keys passed |
| CallcacheConfig.SetOverrides | callcache/config.py:43 | the keys passed take their new values, the others keep theirs, and the settings keep their keys and order |
| CallcacheConfig.SetThenExitRestores | callcache/config.py:37-54 | entering and leaving the context gives back every setting, in the same order |
| CallcacheSettings.UnknownKeys | callcache/settings.py:36 | the unknown keys are exactly the arguments' keys the settings lack |
| CallcacheSettings.Configure | callcache/settings.py:35-41 | fails with the ValueError naming the unknown keys exactly when some key is unknown, and otherwise saves exactly the keys passed |
| CallcacheSettings.ConfigureNamesUnknownKeys | callcache/settings.py:36-38 | the message names exactly the keys passed that the settings lack |
| CallcacheSettings.ConfigureOverrides | callcache/settings.py:40-41 | the old values are saved, the keys passed take their new values and the others keep theirs |
| CallcacheSettings.ConfigureThenExitRestores | callcache/settings.py:40-52 | entering and leaving the context gives back every setting |
| CallcacheEncode.CallRecord | callcache/encode.py:59-69 | the call record never holds a key twice |
| CallcacheEncode.RecordKeys | callcache/encode.py:59-69 | the keys come in the order type, callable, then version, args and kwargs, each only when given and not empty |
| CallcacheEncode.RecordFields | callcache/encode.py:57-69 | a reader finds "python_call" under type, the name under callable, the version when given, the arguments when there are any and the keyword arguments sorted by name when there are any |
| CallcacheEncode.RecordWithoutVersion | callcache/encode.py:57-69 | without a version the record is exactly the one the later generation writes for the same bound arguments |
| CallcacheEncode.DictifyPythonCall | callcache/encode.py:51-69 | succeeds exactly when the target has a name (a string without ':' or a callable without a module is a ValueError) and then records the arguments exactly as given |
| CallcacheEncode.DictifyPythonCallNamesAgree | callcache/encode.py:51-69 | the call record's `callable` is the `fully_qualified_name` of the object record of the same target |
| CallcacheEncode.WithoutKey | callcache/encode.py:54-55 | the version keyword is taken out and every other keyword keeps its value |
| CallcacheEncode.SplitVersion | callcache/encode.py:54-55 | the version is the `_callable_version` keyword when passed and None otherwise, and it never stays among the keywords |
| CallcacheEncode.DictifyTimedelta | callcache/encode.py:81-82 | a timedelta is recorded as a call of timedelta on its days, seconds and microseconds, the record the later generation writes |
| CallcacheEncode.DictifyDate | callcache/encode.py:77-78 | a date is recorded as a call of date.fromisoformat on its ISO text |
| CallcacheEncode.DictifyDateTime | callcache/encode.py:72-74 | a datetime is recorded as a call of datetime.fromisoformat on its ISO text |
| CallcacheEncode.DictifyBytes | callcache/encode.py:85-87 | bytes are recorded as a call of binascii.a2b_base64 on their base64 text |
| CallcacheEncode.DictifyPickable | callcache/encode.py:90-91 | a value is recorded as a call of pickle.loads on its pickle, and a pickling failure is passed on |
| CallcacheEncode.FilecacheDefault | callcache/encode.py:104-114 | a success is the answer of some encoder whose class accepts the value; every failure is TypeError("can't encode object") |
| CallcacheEncode.FirstSuccessDecides | callcache/encode.py:108-111 | the last registered encoder that applies and succeeds decides; those after it either do not apply or fail |
| CallcacheEncode.AllFailRaises | callcache/encode.py:112-114 | when every applicable encoder fails, the failures are passed over and TypeError is raised |
| CallcacheEncode.DefaultRegistryServes | callcache/encode.py:94-101 | bytes, dates, datetimes and timedeltas are each answered by their own default entry |
| CallcacheEncode.DefaultEncodesTimedelta | callcache/encode.py:100 | under the default encoders a timedelta is written as its timedelta record |
| CallcacheEncode.DefaultEncodesDateTime | callcache/encode.py:99 | a datetime is written by the datetime encoder, registered after the date one |
| CallcacheEncode.DefaultEncodesDate | callcache/encode.py:98 | a date is written as its date record |
| CallcacheEncode.DefaultEncodesBytes | callcache/encode.py:97 | bytes are written as their a2b_base64 record |
| CallcacheEncode.DefaultEncodesCallable | callcache/encode.py:96 | a callable with a module is written as its object record |
| CallcacheEncode.Dumps | callcache/encode.py:117-123 | its only errors are the hook's TypeError and running out of nesting; the text is json.dumps with the hook as `default`, so every property of `JsonDumps.Dumps` carries over |
| CallcacheEncode.DumpsPythonCall | callcache/encode.py:126-132 | a string target without ':' is a ValueError; every text is ASCII; every failure is ValueError, TypeError or running out of nesting |
| CallcacheEncode.DumpsPythonCallIgnoresKeywordOrder | callcache/encode.py:126-132 | two keyword lists that answer every lookup alike give the same text, whatever their order |
| CallcacheEncode.DumpsPythonCallPlain | callcache/encode.py:126-132 | a call whose arguments JSON holds as they are is written as the compact text of its record, keys in the record's fixed order |
| CallcacheEncode.ToJsonOfCallRecord | callcache/encode.py:122-123 | a value the hook turns into a positional call record of plain arguments is written as that record's document |
| JsonDumps.ToJsonErrors | callcache/encode.py:117-123 | with a hook that raises only TypeError, encoding fails only with TypeError or by running out of nesting |
| JsonDumps.ToJsonPlain | callcache/encode.py:123 | values JSON represents never reach the hook: their document is their own |
| JsonDumps.ToJsonOfPlainDefault | callcache/encode.py:122-123 | a value JSON cannot represent is written as the plain value the hook turns it into, one level of nesting deeper |
| JsonDumps.Dumps | callcache/encode.py:117-123 | a value JSON represents is written as its own document with the separators passed, or json's own (", ", ": ") when None is passed; with ASCII separators the text is ASCII; a hook that raises only TypeError makes every failure a TypeError or running out of nesting |
| CallcacheDecode.CallObjectHook | callcache/decode.py:16-21 | an object record becomes what its name imports; a dictionary that is no record comes back as it is; the corrected hook decodes a call record as the later generation does |
| CallcacheDecode.HooksAgreeOnCallables | callcache/decode.py:19-20 | the hook as written and the corrected one agree on every call record whose callable is already callable |
| CallcacheDecode.AsWrittenRejectsNames | callcache/decode.py:19-20 | as written, a call record whose callable is a name fails with TypeError once its arguments unpack |
| CallcacheDecode.Loads | callcache/decode.py:24-25 | strings and integers decode to themselves |
| CallcacheDecode.LoadsItems | callcache/decode.py:25 | an array decodes element by element, each as it would decode alone |
| CallcacheDecode.LoadsFields | callcache/decode.py:25 | an object's members decode one by one under their own keys, each as it would decode alone |
| CallcacheDecode.LoadsPlainList | callcache/decode.py:24-25 | decoding the document of a plain value without dictionaries gives back the value |
| CallcacheDecode.LoadsPlainDict | callcache/decode.py:24-25 | the document of a dictionary of plain values is handed to the hook as that dictionary |
| CallcacheDecode.LoadsCallRecord | callcache/decode.py:24-25 | the document of a positional call record decodes as the hook decodes the record itself |
| CallcacheDecode.CorrectedCallsNamedCallable | callcache/decode.py:19-20 | the corrected hook calls the callable a positional call record names, on its arguments |
| CallcacheDecode.AsWrittenRejectsCallRecord | callcache/decode.py:19-20 | as written, every positional call record the encoder writes fails to decode with TypeError |
| CallcacheDecode.DecodeEncodedCall | callcache/decode.py:19-20 | a value the encoder writes as a call record of a callable decodes, corrected, into that call and, as written, into a TypeError |
| CallcacheDecode.RoundTripTimedelta | callcache/encode.py:81-82 | loads(dumps(td)) == td with the corrected hook; as written it fails with TypeError |
| CallcacheDecode.RoundTripDate | callcache/encode.py:77-78 | loads(dumps(d)) == d with the corrected hook; as written it fails with TypeError |
| CallcacheDecode.RoundTripDateTime | callcache/encode.py:72-74 | loads(dumps(t)) == t with the corrected hook; as written it fails with TypeError |
| CallcacheDecode.RoundTripBytes | callcache/encode.py:85-87 | loads(dumps(b)) == b with the corrected hook; as written it fails with TypeError |
| CallcacheDecode.DumpsRoundTrip | callcache/decode.py:24-25 | with any separators, bytes, dates, datetimes and timedeltas are written as a text whose document loads back to the value with the corrected hook and fails to load with the hook as written |
| CallcacheDecode.LoadsObjectRecord | callcache/decode.py:17-18 | the document of an object record decodes, under either hook, to what its name imports |
| CallcacheDecode.RoundTripCallable | callcache/encode.py:96 | a callable whose name imports back to it survives dumps followed by loads under either hook |
| CallcacheDecode.LoadsNestedCallable | callcache/decode.py:17-21 | a call record whose callable is a nested object record is decoded inner-first: the object is imported and then called, under either hook |
| CallcacheDecode.CallRecordWithoutArguments | callcache/decode.py:20 | a call record with a callable and no arguments calls it with none |
| CallcacheCache.Hexdigestify | callcache/cache.py:27-29 | the key is all 56 lower-case hexadecimal digits of the SHA3-224 digest, of which the later generation's key is a prefix |
| CallcacheCache.LaterKeyIsPrefix | cacholote/utils.py:33-36 | the later generation's key is exactly the first 32 digits of this one |
| CallcacheCache.CallKey | callcache/cache.py:38-47 | a call has a key exactly when it can be written, and the key is the digest of its compact JSON text |
| CallcacheCache.Cacheable | callcache/cache.py:32-66 | the store changes only when the function was called; a warning means the function's own answer with the store untouched; no entry is ever lost, an entry that was not a miss is never changed, and every entry added or changed is JSON text |
| CallcacheCache.Lookup | callcache/cache.py:49-62 | once the key is known, the store changes only on a called miss, only by adding or replacing that miss with JSON text, and a warning means the function's own answer |
| CallcacheCache.HitDoesNotCall | callcache/cache.py:57-62 | a stored text answers with its decode, without calling the function or changing the store |
| CallcacheCache.MissStores | callcache/cache.py:49-53 | on a miss whose result encodes, the function is called once and its document is stored under the call's key and decoded for the caller |
| CallcacheCache.SecondCallHits | callcache/cache.py:49-62 | a repeated call after a stored miss answers the same result without calling the function, whatever it would now return, and leaves the store as it is |
| CallcacheCache.BadInputCallsThrough | callcache/cache.py:43-45 | a call whose arguments cannot be written (TypeError) is answered by the function with a "bad input" warning and nothing stored |
| CallcacheCache.BadOutputNotStored | callcache/cache.py:54-56 | a result that cannot be written is returned as it is with a "bad output" warning and not stored |
| CallcacheCache.TimedeltaResult | callcache/cache.py:49-62 | a function returning a timedelta: corrected, the caller gets the timedelta; as written, the result is stored and the caller gets TypeError |
| LegacyCallcache.UniquifyArguments | callcache.py:10-18 | keywords come back sorted by name, each once; a binding that succeeds gives its arguments with defaults applied; otherwise the arguments are kept as given |
| LegacyCallcache.SameBindingSameArguments | callcache.py:10-18 | two spellings of a call that bind to the same arguments are made the same |
| LegacyCallcache.KeywordOrderIrrelevant | callcache.py:17-18 | the order the keyword arguments are passed in does not matter |
| LegacyCallcache.InspectFullyQualifiedName | callcache.py:21-24 | fails (AttributeError) exactly when the object has no module; otherwise the name is the module, ':' and the qualified name |
| LegacyCallcache.InspectAgreesWithLater | callcache.py:21-24 | the later generation writes the same name, and raises ValueError where this one raises AttributeError |
| LegacyCallcache.SignatureName | callcache.py:38-41 | a string names itself with no check for ':'; a callable is named by its module and qualified name |
| LegacyCallcache.UniquifyCallSignature | callcache.py:37-48 | succeeds exactly when the callable can be named, and then is the signature of its made-unique arguments |
| LegacyCallcache.SignatureKeys | callcache.py:43-47 | the signature names the callable and holds "args" and "kwargs" exactly when they are not empty |
| LegacyCallcache.LocalFilesDefault | callcache.py:51-57 | a datetime becomes the signature of calling datetime.fromisoformat on its ISO text; anything else raises TypeError |
| LegacyCallcache.LocalFilesHook | callcache.py:60-61 | the encoder class answers every value as its default method does |
| LegacyCallcache.Jsonify | callcache.py:60-61 | the text is compact JSON through the local-files encoder, and its only errors are its TypeError and running out of nesting |
| LegacyCallcache.JsonifyDateTime | callcache.py:51-61 | a datetime is written as the document of its plain signature |
| LegacyCallcache.UniquifyCallSignatureJson | callcache.py:64-66 | the text is the signature written as compact JSON, and the signature's failure is passed on |
| LegacyCallcache.UniquifyCallSignatures | callcache.py:74-77 | succeeds exactly when the signature text does, giving the signature, its JSON text and the full SHA3-224 digest of that text |
| LegacyCallcache.InvalidateEntry | callcache.py:83-84 | the key leaves the cache and nothing else does; the entry removed is returned exactly when there was one |
| LegacyCallcache.InvalidateAfterStore | callcache.py:80-84 | invalidating an entry just stored gives back the cache as it was and the entry |
| LegacyCallcache.ReadBack | callcache.py:99 | as written, a signature without "args" raises KeyError("args") and one without "kwargs" raises KeyError |
| LegacyCallcache.CorrectedReadsArguments | callcache.py:99 | the corrected reading gives back the made-unique arguments of any signature |
| LegacyCallcache.AsWrittenReadsOnlyFullSignatures | callcache.py:99 | as written, only signatures with both positional and keyword arguments read back |
| LegacyCallcache.Cacheable | callcache.py:87-105 | the cache changes only when the function was called and succeeded; no entry is lost or changed; the answer on a call is the function's answer on the arguments it was called with |
| LegacyCallcache.HitReturnsStored | callcache.py:101-103 | a digest already cached answers the stored result without calling the function or changing the cache |
| LegacyCallcache.UncacheableCallsThrough | callcache.py:90-94 | a signature that cannot be written (TypeError) calls the function on the arguments as given and stores nothing |
| LegacyCallcache.AsWrittenMissRaises | callcache.py:97-100 | as written, a miss on a call lacking positional or keyword arguments raises KeyError and never calls the function |
| LegacyCallcache.CorrectedMissStores | callcache.py:97-100 | corrected, a miss calls the function once on the made-unique arguments and stores the signature text with the result |
| LegacyCallcache.CorrectedSecondCallHits | callcache.py:97-103 | corrected, a call repeated after a successful miss answers the same result without calling the function again |

## Left out

- Databases and files. The SQL table is a sequence of rows whose (key, expiration) pairs are unique, and a session is a pending change list that is committed or dropped. SQLAlchemy, `with_for_update` row locking and cross-process concurrency are left out. The filesystem is a map from path to `FileInfo(content, mtime, isDir)`. A file's checksum is `env.checksum` of that record, so it depends on the content and modification time and not on the path: two files with equal content and modification time share one artifact, where fsspec's checksum, which includes the path, would store two. fsspec, s3fs and HTTP are left out.
- Foreign primitives are fields of `Py.Env`, given as parameters rather than defined: SHA3-224, `importlib` and `getattr`, `inspect.signature().bind`, pickle, `mimetypes`/`magic`, fsspec checksums, and calling an arbitrary callable. `Utils.Sha3Is224` states the only property assumed of the digest: 28 bytes.
- JSON text. Documents are kept as trees (`Json.Json`). Text is rendered (`Json.Serialize`) only where the text itself matters: the digest input and callcache's stored signature. `json.loads` of `json.dumps` output is taken to give back the same tree. The JSON library is not part of this model.
- Floats are not modelled; Python values are None, bool, int, str, list or tuple (one constructor, since JSON writes both as arrays), dict, bytes, date, datetime, timedelta, callables, file objects and opaque objects.
- Recursion depth. Only encoding is bounded: `json.dumps` recursion through a `default` hook takes a `fuel` parameter (`JsonDumps.ToJson`, `Codec.ToJson`), and running out gives RecursionError. Decoding (`Decode.Loads`, `CallcacheDecode.Loads`) recurses on the document tree without a bound, so the RecursionError `json.loads` raises on deeply nested input is not modelled. Python's actual recursion limit is not modelled.
- Utils.Enter: its domain is the observation sequences that end the wait, because `wait_until_released` returns only when the lock file is gone or the timeout has passed. A lock held forever with no timeout makes the source poll forever, which the model does not represent.
- Clocks and sleeping. The current time, `utcnow` and `time.sleep` in `FileLock` are inputs: a time, or a sequence of observed times.
- Warnings, logging and `print` are left out, except where a warning decides the outcome (`CallcacheCache.Warning`).
- `repr` in error messages is simplified to single quotes without escaping (`Text.Quoted`).
- Dictionary keys are strings only. `json.dumps` would also write int, float, bool and None keys as strings, and `skipkeys` would drop other keys; neither is modelled.
- The caller's own `default` argument to cacholote's `dumps` (cacholote/encode.py:177) is not modelled: the model always uses `filecache_default`, as `dumps_python_call` and the cache do.
- The `**kwargs` that callcache's `dumps` and `loads` (callcache/encode.py:117-123, callcache/decode.py:24-25) pass through to `json.dumps` and `json.loads` are not modelled beyond `separators`: indentation, `sort_keys`, `ensure_ascii=False` and parse hooks other than the object hook are left out.
- Decode.Apply: the builtins a record may call are interpreted as in Python 3.10 for the arguments their encoders write. `a2b_base64` decodes itself only the padded RFC 4648 text `b2a_base64` writes, and refuses non-ASCII text and arguments that are neither text nor bytes; other ASCII text, which `binascii` reads leniently, and input given as bytes are left to the environment's `call`. `fromisoformat` reads only the naive forms `isoformat` writes, not the wider forms of Python 3.11. `timedelta` with more than three positional arguments, or with keywords, is left to the environment's `call`.
- Contextvars: the `__context__` argument of the cacheable wrapper, `LAST_PRIMARY_KEYS`, and `config.get()` as a context variable. The settings are passed as a value instead.
- The xarray, dask, zarr, netCDF and GRIB encoders of cacholote/extra_encoders.py, and all of callcache/extra_encoders.py, are not part of this model. They wrap libraries that are not in view. The clean module's recursive removal of zarr directories is modelled only as the choice of a recursive delete (`Eviction.Rm`).
- File cleanup on deletion. `Cache` deletes only the row of an entry that no longer decodes. The file cleanup that `_delete_cache_entry` runs through `clean._delete_cache_file` (cacholote/cache.py:61) is not modelled: that function is not defined in the clean module modelled here, which comes from another generation of the package.
- The Alembic migrations, cacholote/alembic_cli.py, the package `__init__.py` files and packaging are left out.
- Settings generations. cacholote/config.py is an older generation (diskcache settings) than the cache.py and clean.py that read `config.get()`. `EngineSettings.Settings` holds the fields cache.py and clean.py read, and `Config` models config.py's `set` over a generic key map with an abstract cache builder.
- Building a cache (`initialize_cache` in cacholote/config.py) and reading a cache's properties are foreign. `Config.Set` takes the fresh cache and the property values as parameters.
- The set order in callcache/settings.py's "unknown keys" message is modelled as the order the keys were passed.
- callcache.py `import_object` (lines 27-34) and callcache/decode.py `import_object` (lines 5-13) are the same code as cacholote/decode.py:24-33 and share `Py.ImportObject`. callcache/encode.py `dictify_python_object` (lines 36-48) is the same as cacholote/encode.py:41-52 and shares `Encode.DictifyPythonObject`. callcache.py `hexdigestify` (lines 69-71) is the same as `CallcacheCache.Hexdigestify`.
- datetime parsing covers only the ISO text `isoformat` writes for naive values: `YYYY-MM-DD`, and `YYYY-MM-DDTHH:MM:SS` with `.ffffff` only when the microseconds are not zero. Other forms `fromisoformat` accepts, and time zones, are left out.

## Findings

| source | as written | input that shows it | evidently intended | confidence | as-written member | corrected member |
|---|---|---|---|---|---|---|
| cacholote/cache.py:161-164 | on a miss the placeholder row is committed before the function runs. If decoding the stored result raises DecodeError, the entry's result is no longer `"__locked__"`, so the `finally` at lines 97-101 does not delete it. The session is then left without a commit, and the committed placeholder survives | a function returning `{"type": "python_object", "fully_qualified_name": "nosuchmodule:f"}`: the result is stored, its decode fails, and the next call with the same arguments hits the leftover row and returns the string `"__locked__"` | the placeholder never survives a failed miss | not executed | Cache.ComputeAsWritten, Cache.AsWrittenLeavesPlaceholder, Cache.LeftoverPlaceholderIsAHit | Cache.Compute, Cache.PlaceholderNeverSurvives |
| callcache/encode.py:58-61 with callcache/decode.py:19-20 | the encoder and the decoder disagree. The encoder writes "callable" as a bare name string. The decoder calls `o["callable"]` directly, so it expects the callable already decoded from a nested python_object record (`CallcacheDecode.LoadsNestedCallable`). The package's encode tests (tests/test_encode.py:21-44) expect that nested form from the encoder, so they side with the decoder | `datetime.timedelta(234, 23, 128736)` encodes to a call record whose "callable" is the string "datetime:timedelta"; decoding it calls a string and raises TypeError. The same happens for every encoded date, datetime and bytes value | decoding an encoded value gives back the value. The correction modelled here is on the decoder side: a name string is imported before the call. The tests point at the encoder instead, whose nested form the decoder as written already reads | not executed | CallcacheDecode.CallObjectHook (HookAsWritten), CallcacheDecode.AsWrittenRejectsCallRecord, CallcacheCache.TimedeltaResult | CallcacheDecode.CallObjectHook (HookCorrected), CallcacheDecode.RoundTripTimedelta, CallcacheDecode.RoundTripDate, CallcacheDecode.RoundTripDateTime, CallcacheDecode.RoundTripBytes |
| callcache.py:99 | the miss path reads `signature_dict["args"]` and `signature_dict["kwargs"]`, which lines 44-47 omit when they are empty | `def f(a): …` called as `f(1)`: the signature has "args" but no "kwargs", so the miss raises KeyError('kwargs') and the function never runs | missing arguments read as `()` and `{}` | not executed | LegacyCallcache.ReadBack (ReadAsWritten), LegacyCallcache.AsWrittenReadsOnlyFullSignatures, LegacyCallcache.AsWrittenMissRaises | LegacyCallcache.CorrectedReadsArguments, LegacyCallcache.CorrectedMissStores, LegacyCallcache.CorrectedSecondCallHits |
| cacholote/cache.py:161-167 | the `except encode.EncodeError` clause wraps the call of the function as well as the encoding. An EncodeError raised by the function itself is caught before `result` is assigned, so `return result` raises UnboundLocalError | a cacheable function that raises `EncodeError("x")` on a fresh key: the caller gets UnboundLocalError, not the EncodeError | the function's own exception is passed on, and only an EncodeError from encoding its result returns the raw result | not executed | Cache.ComputeAsWritten, Cache.AsWrittenFunctionEncodeError | Cache.Compute, Cache.FunctionErrorRemovesPlaceholder |

=== FILE: base64.dfy ===
/** Base64 as `binascii` produces it for the bytes encoder: the standard alphabet and
    '=' padding of section 4 of RFC 4648, followed by the newline `b2a_base64` appends.
    Decoding accepts exactly that canonical layout; the lenient parsing `a2b_base64`
    applies to other text is not modelled here. */
module Base64 {
  import opened Text
  import opened Results

  function Char64(n: nat): (c: char)
    requires n < 64
    ensures c as int < 128 && c != '=' && c != '\n'
  {
    if n < 26 then ('A' as int + n) as char
    else if n < 52 then ('a' as int + (n - 26)) as char
    else if n < 62 then ('0' as int + (n - 52)) as char
    else if n == 62 then '+'
    else '/'
  }

  /** The 6-bit value of an alphabet character. */
  function Value64(c: char): (r: Option<nat>)
    ensures r.Some? ==> r.value < 64
  {
    if 'A' <= c <= 'Z' then Some(c as int - 'A' as int)
    else if 'a' <= c <= 'z' then Some(c as int - 'a' as int + 26)
    else if '0' <= c <= '9' then Some(c as int - '0' as int + 52)
    else if c == '+' then Some(62)
    else if c == '/' then Some(63)
    else None
  }

  lemma Value64OfChar64(n: nat)
    requires n < 64
    ensures Value64(Char64(n)) == Some(n)
  {
  }

  /** The four 6-bit values that spell three bytes, most significant bits first. */
  function Sextets(b0: nat, b1: nat, b2: nat): (r: (nat, nat, nat, nat))
    requires b0 < 256 && b1 < 256 && b2 < 256
    ensures r.0 < 64 && r.1 < 64 && r.2 < 64 && r.3 < 64
  {
    (b0 / 4, b0 % 4 * 16 + b1 / 16, b1 % 16 * 4 + b2 / 64, b2 % 64)
  }

  /** The three bytes four 6-bit values spell. */
  function Octets(v0: nat, v1: nat, v2: nat, v3: nat): (r: (byte, byte, byte))
    requires v0 < 64 && v1 < 64 && v2 < 64 && v3 < 64
  {
    ((v0 * 4 + v1 / 16) as byte, (v1 % 16 * 16 + v2 / 4) as byte, (v2 % 4 * 64 + v3) as byte)
  }

  lemma OctetsOfSextets(b0: nat, b1: nat, b2: nat)
    requires b0 < 256 && b1 < 256 && b2 < 256
    ensures var v := Sextets(b0, b1, b2);
            Octets(v.0, v.1, v.2, v.3) == (b0 as byte, b1 as byte, b2 as byte)
  {
    var q0, r0 := b0 / 4, b0 % 4;
    var q1, r1 := b1 / 16, b1 % 16;
    var q2, r2 := b2 / 64, b2 % 64;
    var v1, v2 := r0 * 16 + q1, r1 * 4 + q2;
    assert v1 / 16 == r0 && v1 % 16 == q1;
    assert v2 / 4 == r1 && v2 % 4 == q2;
    assert q0 * 4 + r0 == b0 && q1 * 16 + r1 == b1 && q2 * 64 + r2 == b2;
  }

  /** Four characters for each group of three bytes, padded with '=' at the end. */
  function EncodeGroups(bs: seq<byte>): (r: string)
    ensures |r| % 4 == 0
    ensures IsAscii(r)
  {
    if |bs| == 0 then ""
    else if |bs| == 1 then
      var v := Sextets(bs[0] as nat, 0, 0);
      [Char64(v.0), Char64(v.1), '=', '=']
    else if |bs| == 2 then
      var v := Sextets(bs[0] as nat, bs[1] as nat, 0);
      [Char64(v.0), Char64(v.1), Char64(v.2), '=']
    else
      var v := Sextets(bs[0] as nat, bs[1] as nat, bs[2] as nat);
      var head := [Char64(v.0), Char64(v.1), Char64(v.2), Char64(v.3)];
      var tail := EncodeGroups(bs[3..]);
      assert forall k :: 0 <= k < |head| + |tail| ==> (head + tail)[k] == if k < 4 then head[k] else tail[k - 4];
      head + tail
  }

  /** `binascii.b2a_base64(data).decode("ascii")`. */
  function B2aBase64(bs: seq<byte>): (r: string)
    ensures IsAscii(r)
  {
    EncodeGroups(bs) + "\n"
  }

  function DecodeGroups(s: string): Option<seq<byte>>
    decreases |s|
  {
    if |s| == 0 then Some([])
    else if |s| < 4 then None
    else
      var v0, v1 := Value64(s[0]), Value64(s[1]);
      if v0.None? || v1.None? then None
      else if |s| == 4 && s[2] == '=' && s[3] == '=' then
        Some([Octets(v0.value, v1.value, 0, 0).0])
      else
        var v2 := Value64(s[2]);
        if v2.None? then None
        else if |s| == 4 && s[3] == '=' then
          var o := Octets(v0.value, v1.value, v2.value, 0);
          Some([o.0, o.1])
        else
          var v3 := Value64(s[3]);
          if v3.None? then None
          else
            var rest := DecodeGroups(s[4..]);
            if rest.None? then None
            else
              var o := Octets(v0.value, v1.value, v2.value, v3.value);
              Some([o.0, o.1, o.2] + rest.value)
  }

  /** Inverse of `B2aBase64` on its own output; `None` for any other layout. */
  function A2bBase64(s: string): Option<seq<byte>>
  {
    if |s| > 0 && s[|s| - 1] == '\n' then DecodeGroups(s[..|s| - 1]) else None
  }

  lemma DecodeOneByte(bs: seq<byte>)
    requires |bs| == 1
    ensures DecodeGroups(EncodeGroups(bs)) == Some(bs)
  {
    var v := Sextets(bs[0] as nat, 0, 0);
    OctetsOfSextets(bs[0] as nat, 0, 0);
    assert v.2 == 0 && v.3 == 0;
    Value64OfChar64(v.0);
    Value64OfChar64(v.1);
    var s := EncodeGroups(bs);
    assert s == [Char64(v.0), Char64(v.1), '=', '='];
    assert DecodeGroups(s) == Some([Octets(v.0, v.1, 0, 0).0]);
    assert bs == [bs[0]];
  }

  lemma DecodeTwoBytes(bs: seq<byte>)
    requires |bs| == 2
    ensures DecodeGroups(EncodeGroups(bs)) == Some(bs)
  {
    var v := Sextets(bs[0] as nat, bs[1] as nat, 0);
    OctetsOfSextets(bs[0] as nat, bs[1] as nat, 0);
    assert v.3 == 0;
    Value64OfChar64(v.0);
    Value64OfChar64(v.1);
    Value64OfChar64(v.2);
    var s := EncodeGroups(bs);
    assert s == [Char64(v.0), Char64(v.1), Char64(v.2), '='];
    var o := Octets(v.0, v.1, v.2, 0);
    assert DecodeGroups(s) == Some([o.0, o.1]);
    assert bs == [bs[0], bs[1]];
  }

  lemma HeadThree(bs: seq<byte>)
    requires |bs| >= 3
    ensures bs == [bs[0], bs[1], bs[2]] + bs[3..]
  {
    assert bs == bs[..3] + bs[3..];
  }

  /** One unpadded group of four alphabet characters decodes to three bytes ahead of the rest. */
  lemma DecodeQuad(v0: nat, v1: nat, v2: nat, v3: nat, rest: string)
    requires v0 < 64 && v1 < 64 && v2 < 64 && v3 < 64
    requires DecodeGroups(rest).Some?
    ensures var o := Octets(v0, v1, v2, v3);
            DecodeGroups([Char64(v0), Char64(v1), Char64(v2), Char64(v3)] + rest)
            == Some([o.0, o.1, o.2] + DecodeGroups(rest).value)
  {
    var s := [Char64(v0), Char64(v1), Char64(v2), Char64(v3)] + rest;
    Value64OfChar64(v0);
    Value64OfChar64(v1);
    Value64OfChar64(v2);
    Value64OfChar64(v3);
    assert s[4..] == rest;
  }

  lemma DecodeFullGroup(bs: seq<byte>)
    requires |bs| >= 3
    requires DecodeGroups(EncodeGroups(bs[3..])) == Some(bs[3..])
    ensures DecodeGroups(EncodeGroups(bs)) == Some(bs)
  {
    var v := Sextets(bs[0] as nat, bs[1] as nat, bs[2] as nat);
    OctetsOfSextets(bs[0] as nat, bs[1] as nat, bs[2] as nat);
    DecodeQuad(v.0, v.1, v.2, v.3, EncodeGroups(bs[3..]));
    HeadThree(bs);
  }

  lemma {:induction false} DecodeEncodeGroups(bs: seq<byte>)
    ensures DecodeGroups(EncodeGroups(bs)) == Some(bs)
  {
    if |bs| == 1 {
      DecodeOneByte(bs);
    } else if |bs| == 2 {
      DecodeTwoBytes(bs);
    } else if |bs| >= 3 {
      DecodeEncodeGroups(bs[3..]);
      DecodeFullGroup(bs);
    }
  }

  /** Decoding the text of `b2a_base64` recovers the bytes. */
  lemma A2bOfB2a(bs: seq<byte>)
    ensures A2bBase64(B2aBase64(bs)) == Some(bs)
  {
    var s := B2aBase64(bs);
    assert s[..|s| - 1] == EncodeGroups(bs);
    DecodeEncodeGroups(bs);
  }
}

=== FILE: cache.dfy ===
/** The `cacheable` decorator of cacholote/cache.py as a state machine over the entry
    table and the filesystem: digest the call, try the live entries for the digest
    newest first (deleting those that no longer decode), and on a miss lock the key
    with a placeholder row, run the function and store its encoded result.

    The function being wrapped is represented by its outcome `call` (its value or the
    exception it raises); `calls` in the outcome counts how often it ran. The clock is
    two inputs: `now` for the database and `mtime` for files written while encoding. */
module Cache {
  import opened Results
  import opened IsoDates
  import opened Py
  import opened Json
  import opened EngineSettings
  import Encode
  import Codec
  import Decode
  import Utils
  import opened Database

  /** The result stored in a row whose value is being computed. */
  const Locker := "__locked__"

  datatype Outcome = Outcome(result: Result<Value>, table: Table, disk: Disk, calls: nat)

  /** `_hexdigestify_python_call`: the digest of the compact call record. Encoding the
      arguments may store files. */
  function HexdigestifyPythonCall(env: Env, s: Settings, disk: Disk, reg: Codec.Registry, f: Callable,
                                  args: seq<Value>, kwargs: Entries, fuel: nat, mtime: int): (r: (Result<string>, Disk))
    ensures var text := Codec.DumpsPythonCall(env, s, disk, reg, Encode.Function(f), args, kwargs, fuel, mtime);
            r.1 == text.1 && (r.0.Ok? <==> text.0.Ok?) &&
            (r.0.Ok? ==> r.0.value == Utils.Hexdigestify(env, text.0.value)) &&
            (r.0.Err? ==> r.0.error == text.0.error)
  {
    var (text, after) := Codec.DumpsPythonCall(env, s, disk, reg, Encode.Function(f), args, kwargs, fuel, mtime);
    if text.Err? then (Err(text.error), after) else (Ok(Utils.Hexdigestify(env, text.value)), after)
  }

  /** `_decode_and_update` on a row that decoded: its counter goes up by one, its tag is
      replaced only by a configured one, and the update refreshes its timestamp. */
  function Touched(e: CacheEntry, s: Settings): (r: CacheEntry)
    ensures Pk(r) == Pk(e) && r.result == e.result && r.counter == e.counter + 1
    ensures r.tag == if s.tag.Some? then s.tag else e.tag
  {
    e.(counter := e.counter + 1, tag := if s.tag.Some? then s.tag else e.tag)
  }

  datatype Probe = Hit(value: Value) | Miss

  /** The lookup loop: the first candidate whose result decodes is returned and
      updated; each one that fails to decode has its row deleted first. */
  function TryCandidates(env: Env, s: Settings, table: Table, disk: Disk, cands: seq<CacheEntry>, now: PyDateTime): (r: (Probe, Table))
    decreases |cands|
  {
    if |cands| == 0 then (Miss, table)
    else
      match Decode.Loads(env, disk, cands[0].result)
      case Ok(v) => (Hit(v), Update(table, Touched(cands[0], s), now))
      case Err(_) => TryCandidates(env, s, Delete(table, Pk(cands[0])), disk, cands[1..], now)
  }

  /** A hit returns the decode of one of the candidates. */
  lemma {:induction false} TryCandidatesHit(env: Env, s: Settings, table: Table, disk: Disk, cands: seq<CacheEntry>, now: PyDateTime)
    ensures var r := TryCandidates(env, s, table, disk, cands, now);
            r.0.Hit? ==> exists k :: 0 <= k < |cands| && Decode.Loads(env, disk, cands[k].result) == Ok(r.0.value)
    decreases |cands|
  {
    if |cands| > 0 && Decode.Loads(env, disk, cands[0].result).Err? {
      TryCandidatesHit(env, s, Delete(table, Pk(cands[0])), disk, cands[1..], now);
      var r := TryCandidates(env, s, Delete(table, Pk(cands[0])), disk, cands[1..], now);
      if r.0.Hit? {
        var k :| 0 <= k < |cands[1..]| && Decode.Loads(env, disk, cands[1..][k].result) == Ok(r.0.value);
        assert cands[k + 1] == cands[1..][k];
      }
    }
  }

  /** A miss happens only when no candidate decodes. */
  lemma {:induction false} TryCandidatesMiss(env: Env, s: Settings, table: Table, disk: Disk, cands: seq<CacheEntry>, now: PyDateTime)
    ensures TryCandidates(env, s, table, disk, cands, now).0.Miss? ==>
              forall k :: 0 <= k < |cands| ==> Decode.Loads(env, disk, cands[k].result).Err?
    decreases |cands|
  {
    if |cands| > 0 && Decode.Loads(env, disk, cands[0].result).Err? {
      TryCandidatesMiss(env, s, Delete(table, Pk(cands[0])), disk, cands[1..], now);
      forall k | 0 < k < |cands| ensures cands[k] == cands[1..][k - 1] {}
    }
  }

  /** After a miss every candidate's row has been deleted. */
  lemma {:induction false} TryCandidatesMissDeletes(env: Env, s: Settings, table: Table, disk: Disk, cands: seq<CacheEntry>, now: PyDateTime)
    ensures var r := TryCandidates(env, s, table, disk, cands, now);
            r.0.Miss? ==> r.1 == DeleteAll(table, cands)
    decreases |cands|
  {
    if |cands| > 0 && Decode.Loads(env, disk, cands[0].result).Err? {
      TryCandidatesMissDeletes(env, s, Delete(table, Pk(cands[0])), disk, cands[1..], now);
      assert DeleteAll(table, cands) == DeleteAll(Delete(table, Pk(cands[0])), cands[1..]);
    }
  }

  /** The table after deleting the rows of `rows`, in order. */
  function DeleteAll(table: Table, rows: seq<CacheEntry>): (r: Table)
    ensures forall x :: x in r <==> x in table && forall k :: 0 <= k < |rows| ==> Pk(x) != Pk(rows[k])
    decreases |rows|
  {
    if |rows| == 0 then table
    else
      var r := DeleteAll(Delete(table, Pk(rows[0])), rows[1..]);
      assert forall x :: (forall k :: 0 <= k < |rows| ==> Pk(x) != Pk(rows[k]))
                     <==> Pk(x) != Pk(rows[0]) && forall k :: 0 <= k < |rows[1..]| ==> Pk(x) != Pk(rows[1..][k]);
      r
  }

  /** The first candidate decides when it decodes: its value is returned and only its
      row changes. */
  lemma FirstDecodableCandidateWins(env: Env, s: Settings, table: Table, disk: Disk, cands: seq<CacheEntry>, now: PyDateTime, v: Value)
    requires |cands| > 0 && Decode.Loads(env, disk, cands[0].result) == Ok(v)
    ensures TryCandidates(env, s, table, disk, cands, now) == (Hit(v), Update(table, Touched(cands[0], s), now))
  {
  }

  /** An undecodable candidate is deleted and the search goes on with the next one. */
  lemma UndecodableCandidateDeleted(env: Env, s: Settings, table: Table, disk: Disk, cands: seq<CacheEntry>, now: PyDateTime)
    requires |cands| > 0 && Decode.Loads(env, disk, cands[0].result).Err?
    ensures TryCandidates(env, s, table, disk, cands, now)
         == TryCandidates(env, s, Delete(table, Pk(cands[0])), disk, cands[1..], now)
  {
  }

  /** The lookup loop touches only rows of the digest it searches: every other row is
      still in the table afterwards, on a hit as on a miss. */
  lemma {:induction false} TryFrame(env: Env, s: Settings, table: Table, disk: Disk, cands: seq<CacheEntry>, now: PyDateTime, key: string)
    requires forall k :: 0 <= k < |cands| ==> cands[k].key == key
    ensures forall x :: x in table && x.key != key ==> x in TryCandidates(env, s, table, disk, cands, now).1
    decreases |cands|
  {
    if |cands| > 0 {
      match Decode.Loads(env, disk, cands[0].result)
      case Ok(v) =>
        var e := Touched(cands[0], s);
        var t1 := Update(table, e, now);
        forall x | x in table && x.key != key ensures x in t1 {
          var i :| 0 <= i < |table| && table[i] == x;
          assert t1[i] == x;
        }
      case Err(_) =>
        TryFrame(env, s, Delete(table, Pk(cands[0])), disk, cands[1..], now, key);
    }
  }

  /** The expiration the lookup filters on and a new row gets: the configured ISO text
      parsed by `datetime.fromisoformat` (ValueError when it does not parse), or none. */
  function ConfiguredExpiration(s: Settings): (r: Result<Option<PyDateTime>>)
    ensures s.expiration.None? ==> r == Ok(None)
    ensures s.expiration.Some? ==> (r.Ok? <==> ParseDateTime(s.expiration.value).Some?)
    ensures r.Ok? && r.value.Some? ==> ParseDateTime(s.expiration.value) == Some(r.value.value)
    ensures r.Err? ==> r.error.ValueError?
  {
    if s.expiration.None? then Ok(None)
    else
      match ParseDateTime(s.expiration.value)
      case None => Err(ValueError("Invalid isoformat string: " + s.expiration.value))
      case Some(t) => Ok(Some(t))
  }

  /** The committed result: the placeholder row takes the encoded result and is
      touched; the final check of `_lock_cache_entry` still deletes it when that result
      is itself the placeholder text. */
  function Stored(locked: Table, placeholder: CacheEntry, json: Json, s: Settings, now: PyDateTime): (r: Table)
  {
    var stored := Update(locked, Touched(placeholder.(result := json), s), now);
    if json == JStr(Locker) then Delete(stored, Pk(placeholder)) else stored
  }

  /** The error Python 3.10 raises when `return result` runs with `result` unbound. */
  const UnboundResult := UnboundLocalError("local variable 'result' referenced before assignment")

  /** What happens once the placeholder row is committed, as written: the function
      runs; an exception or an encoding failure deletes the placeholder (on an
      EncodeError the raw value is returned); otherwise the encoded result is set on the
      row and `_decode_and_update` decodes it, and only a successful decode commits the
      result. A failing decode therefore leaves the committed placeholder in place.
      The `except EncodeError` clause also catches an EncodeError raised by the function
      itself, before `result` is bound, so `return result` raises UnboundLocalError. */
  function ComputeAsWritten(env: Env, s: Settings, reg: Codec.Registry, before: Table, disk: Disk, placeholder: CacheEntry,
                            call: Result<Value>, now: PyDateTime, mtime: int, fuel: nat): (r: Outcome)
    ensures r.calls == 1
    ensures call.Err? && !call.error.EncodeError? ==> r == Outcome(call, before, disk, 1)
    ensures call.Err? && call.error.EncodeError? ==> r == Outcome(Err(UnboundResult), before, disk, 1)
  {
    var locked := before + [placeholder];
    match call
    case Err(EncodeError(_)) => Outcome(Err(UnboundResult), before, disk, 1)
    case Err(e) => Outcome(Err(e), before, disk, 1)
    case Ok(value) =>
      var (doc, after) := Codec.ToJson(env, s, disk, reg, value, fuel, mtime);
      match doc
      case Err(EncodeError(_)) => Outcome(Ok(value), before, after, 1)
      case Err(e) => Outcome(Err(e), before, after, 1)
      case Ok(json) =>
        match Decode.Loads(env, after, json)
        case Ok(v) => Outcome(Ok(v), Stored(locked, placeholder, json, s, now), after, 1)
        case Err(e) => Outcome(Err(e), locked, after, 1)
  }

  /** The same step with the placeholder deleted whenever no result was committed, and
      the function's own exception, an EncodeError included, passed on. */
  function Compute(env: Env, s: Settings, reg: Codec.Registry, before: Table, disk: Disk, placeholder: CacheEntry,
                   call: Result<Value>, now: PyDateTime, mtime: int, fuel: nat): (r: Outcome)
    ensures r.calls == 1
    ensures call.Err? ==> r == Outcome(call, before, disk, 1)
  {
    var locked := before + [placeholder];
    match call
    case Err(e) => Outcome(Err(e), before, disk, 1)
    case Ok(value) =>
      var (doc, after) := Codec.ToJson(env, s, disk, reg, value, fuel, mtime);
      match doc
      case Err(EncodeError(_)) => Outcome(Ok(value), before, after, 1)
      case Err(e) => Outcome(Err(e), before, after, 1)
      case Ok(json) =>
        match Decode.Loads(env, after, json)
        case Ok(v) => Outcome(Ok(v), Stored(locked, placeholder, json, s, now), after, 1)
        case Err(e) => Outcome(Err(e), before, after, 1)
  }

  /** The wrapper up to the miss: cache switched off, call not encodable, bad
      configured expiration, lookup. `Done` carries a finished outcome, `Missed` the
      table, filesystem, digest and expiration the miss continues with. */
  datatype Stage = Done(outcome: Outcome) | Missed(table: Table, disk: Disk, key: string, expiration: Option<PyDateTime>)

  function Lookup(env: Env, s: Settings, reg: Codec.Registry, table: Table, disk: Disk, f: Callable,
                  args: seq<Value>, kwargs: Entries, call: Result<Value>, now: PyDateTime, mtime: int, fuel: nat): (r: Stage)
    ensures !s.useCache ==> r == Done(Outcome(call, table, disk, 1))
    ensures r.Missed? ==> s.useCache
    ensures r.Done? ==> r.outcome.calls <= 1
  {
    if !s.useCache then Done(Outcome(call, table, disk, 1))
    else
      var (digest, disk1) := HexdigestifyPythonCall(env, s, disk, reg, f, args, kwargs, fuel, mtime);
      match digest
      case Err(EncodeError(_)) => Done(Outcome(call, table, disk1, 1))
      case Err(e) => Done(Outcome(Err(e), table, disk1, 0))
      case Ok(key) =>
        match ConfiguredExpiration(s)
        case Err(e) => Done(Outcome(Err(e), table, disk1, 0))
        case Ok(expiration) =>
          var (probe, table1) := TryCandidates(env, s, table, disk1, Candidates(table, key, now, expiration), now);
          match probe
          case Hit(v) => Done(Outcome(Ok(v), table1, disk1, 0))
          case Miss => Missed(table1, disk1, key, expiration)
  }

  /** `_lock_cache_entry`: the placeholder row for the digest, committed before the
      function runs; IntegrityError when a row with its primary key exists. */
  function Placeholder(s: Settings, key: string, expiration: Option<PyDateTime>, now: PyDateTime): (e: CacheEntry)
    ensures e.result == JStr(Locker) && e.key == key && e.counter == 0 && e.tag == s.tag
  {
    NewEntry(key, expiration, JStr(Locker), s.tag, now)
  }

  /** The wrapper as written. */
  function CacheableAsWritten(env: Env, s: Settings, reg: Codec.Registry, table: Table, disk: Disk, f: Callable,
                              args: seq<Value>, kwargs: Entries, call: Result<Value>, now: PyDateTime, mtime: int, fuel: nat): (r: Outcome)
    ensures r.calls <= 1
  {
    match Lookup(env, s, reg, table, disk, f, args, kwargs, call, now, mtime, fuel)
    case Done(o) => o
    case Missed(t, d, key, expiration) => LockAndComputeAsWritten(env, s, reg, t, d, key, expiration, call, now, mtime, fuel)
  }

  /** After a miss, as written: commit the placeholder, then run the function. */
  function LockAndComputeAsWritten(env: Env, s: Settings, reg: Codec.Registry, t: Table, d: Disk, key: string,
                                   expiration: Option<PyDateTime>, call: Result<Value>, now: PyDateTime, mtime: int, fuel: nat): (r: Outcome)
    ensures r.calls <= 1
  {
    var placeholder := Placeholder(s, key, expiration, now);
    match Insert(t, placeholder)
    case Err(e) => Outcome(Err(e), t, d, 0)
    case Ok(_) => ComputeAsWritten(env, s, reg, t, d, placeholder, call, now, mtime, fuel)
  }

  /** The wrapper with the placeholder always removed when nothing was stored. */
  function Cacheable(env: Env, s: Settings, reg: Codec.Registry, table: Table, disk: Disk, f: Callable,
                     args: seq<Value>, kwargs: Entries, call: Result<Value>, now: PyDateTime, mtime: int, fuel: nat): (r: Outcome)
    ensures r.calls <= 1
    ensures !s.useCache ==> r == Outcome(call, table, disk, 1)
  {
    match Lookup(env, s, reg, table, disk, f, args, kwargs, call, now, mtime, fuel)
    case Done(o) => o
    case Missed(t, d, key, expiration) => LockAndCompute(env, s, reg, t, d, key, expiration, call, now, mtime, fuel)
  }

  /** After a miss: commit the placeholder, then run the function. */
  function LockAndCompute(env: Env, s: Settings, reg: Codec.Registry, t: Table, d: Disk, key: string,
                          expiration: Option<PyDateTime>, call: Result<Value>, now: PyDateTime, mtime: int, fuel: nat): (r: Outcome)
    ensures r.calls <= 1
  {
    var placeholder := Placeholder(s, key, expiration, now);
    match Insert(t, placeholder)
    case Err(e) => Outcome(Err(e), t, d, 0)
    case Ok(_) => Compute(env, s, reg, t, d, placeholder, call, now, mtime, fuel)
  }

  /** The primary keys whose row holds the placeholder. */
  function LockedKeys(t: Table): set<PrimaryKey>
  {
    set x | x in t && x.result == JStr(Locker) :: Pk(x)
  }

  lemma DeleteLocked(t: Table, pk: PrimaryKey)
    ensures LockedKeys(Delete(t, pk)) <= LockedKeys(t) - {pk}
  {
  }

  lemma {:induction false} DeleteAllLocked(t: Table, rows: seq<CacheEntry>)
    ensures LockedKeys(DeleteAll(t, rows)) <= LockedKeys(t)
    decreases |rows|
  {
    if |rows| > 0 {
      DeleteLocked(t, Pk(rows[0]));
      DeleteAllLocked(Delete(t, Pk(rows[0])), rows[1..]);
    }
  }

  /** Updating a row gives its key the placeholder only when the new values are the
      placeholder, and takes it away otherwise. */
  lemma UpdateLocked(t: Table, e: CacheEntry, now: PyDateTime)
    ensures LockedKeys(Update(t, e, now)) <= (LockedKeys(t) - {Pk(e)}) + (if e.result == JStr(Locker) then {Pk(e)} else {})
  {
    var u := Update(t, e, now);
    forall pk | pk in LockedKeys(u)
      ensures pk in (LockedKeys(t) - {Pk(e)}) + (if e.result == JStr(Locker) then {Pk(e)} else {})
    {
      var x :| x in u && x.result == JStr(Locker) && Pk(x) == pk;
      var i :| 0 <= i < |u| && u[i] == x;
      if Pk(t[i]) != Pk(e) {
        assert t[i] == x;
      }
    }
  }

  /** The lookup loop gives no key the placeholder that the table it started from did
      not give one: decodable rows keep their result and the rest are deleted. */
  lemma {:induction false} TryCandidatesLocked(env: Env, s: Settings, table: Table, disk: Disk, cands: seq<CacheEntry>, now: PyDateTime, orig: Table)
    requires LockedKeys(table) <= LockedKeys(orig)
    requires forall k :: 0 <= k < |cands| ==> cands[k] in orig
    ensures LockedKeys(TryCandidates(env, s, table, disk, cands, now).1) <= LockedKeys(orig)
    decreases |cands|
  {
    if |cands| > 0 {
      match Decode.Loads(env, disk, cands[0].result)
      case Ok(v) =>
        UpdateLocked(table, Touched(cands[0], s), now);
        assert cands[0].result == JStr(Locker) ==> Pk(cands[0]) in LockedKeys(orig);
      case Err(_) =>
        DeleteLocked(table, Pk(cands[0]));
        assert forall k :: 0 <= k < |cands[1..]| ==> cands[1..][k] == cands[k + 1];
        TryCandidatesLocked(env, s, Delete(table, Pk(cands[0])), disk, cands[1..], now, orig);
    }
  }

  lemma LookupLocked(env: Env, s: Settings, reg: Codec.Registry, table: Table, disk: Disk, f: Callable,
                     args: seq<Value>, kwargs: Entries, call: Result<Value>, now: PyDateTime, mtime: int, fuel: nat)
    ensures var stage := Lookup(env, s, reg, table, disk, f, args, kwargs, call, now, mtime, fuel);
            && (stage.Done? ==> LockedKeys(stage.outcome.table) <= LockedKeys(table))
            && (stage.Missed? ==> LockedKeys(stage.table) <= LockedKeys(table))
  {
    if s.useCache {
      var (digest, disk1) := HexdigestifyPythonCall(env, s, disk, reg, f, args, kwargs, fuel, mtime);
      if digest.Ok? && ConfiguredExpiration(s).Ok? {
        var cands := Candidates(table, digest.value, now, ConfiguredExpiration(s).value);
        var probe := TryCandidates(env, s, table, disk1, cands, now);
        assert LockedKeys(probe.1) <= LockedKeys(table) by {
          assert forall k :: 0 <= k < |cands| ==> cands[k] in cands;
          TryCandidatesLocked(env, s, table, disk1, cands, now, table);
        }
      }
    }
  }

  /** Once the placeholder of a fresh key is committed, the corrected step leaves no
      placeholder behind, whatever the function does. */
  lemma ComputeLocked(env: Env, s: Settings, reg: Codec.Registry, before: Table, disk: Disk, placeholder: CacheEntry,
                      call: Result<Value>, now: PyDateTime, mtime: int, fuel: nat)
    requires !HasPk(before, Pk(placeholder))
    ensures LockedKeys(Compute(env, s, reg, before, disk, placeholder, call, now, mtime, fuel).table) <= LockedKeys(before)
  {
    var locked := before + [placeholder];
    assert LockedKeys(locked) <= LockedKeys(before) + {Pk(placeholder)};
    assert Pk(placeholder) !in LockedKeys(before);
    forall json: Json ensures LockedKeys(Stored(locked, placeholder, json, s, now)) <= LockedKeys(before) {
      var e := Touched(placeholder.(result := json), s);
      UpdateLocked(locked, e, now);
      if json == JStr(Locker) {
        DeleteLocked(Update(locked, e, now), Pk(placeholder));
      }
    }
  }

  /** The placeholder never survives a call: the corrected wrapper leaves no key holding
      the placeholder that did not hold it before. */
  lemma PlaceholderNeverSurvives(env: Env, s: Settings, reg: Codec.Registry, table: Table, disk: Disk, f: Callable,
                                 args: seq<Value>, kwargs: Entries, call: Result<Value>, now: PyDateTime, mtime: int, fuel: nat)
    ensures LockedKeys(Cacheable(env, s, reg, table, disk, f, args, kwargs, call, now, mtime, fuel).table) <= LockedKeys(table)
  {
    LookupLocked(env, s, reg, table, disk, f, args, kwargs, call, now, mtime, fuel);
    match Lookup(env, s, reg, table, disk, f, args, kwargs, call, now, mtime, fuel)
    case Done(o) =>
    case Missed(t, d, key, expiration) =>
      var placeholder := Placeholder(s, key, expiration, now);
      if Insert(t, placeholder).Ok? {
        ComputeLocked(env, s, reg, t, d, placeholder, call, now, mtime, fuel);
      }
  }

  /** A dictionary that claims to name an object. */
  function ObjectRecord(name: string): (r: Value)
    ensures Codec.Plain(r)
  {
    VDict([("type", VStr("python_object")), ("fully_qualified_name", VStr(name))])
  }

  /** When the name does not import, the document of that dictionary fails to decode. */
  lemma UnimportableRecordFailsToDecode(env: Env, disk: Disk, name: string)
    requires ImportObject(env, name).Err?
    ensures Decode.Loads(env, disk, Codec.PlainJson(ObjectRecord(name))).Err?
  {
    ObjectRecordLoads(env, disk, name);
    ObjectRecordHookFails(env, disk, name);
  }

  /** Decoding the dictionary's document hands the dictionary itself to the hook. */
  lemma ObjectRecordLoads(env: Env, disk: Disk, name: string)
    ensures Decode.Loads(env, disk, Codec.PlainJson(ObjectRecord(name))) == Decode.ObjectHook(env, disk, ObjectRecord(name).entries)
  {
    var entries := ObjectRecord(name).entries;
    assert entries[0].1.VStr? && entries[1].1.VStr?;
    Codec.LoadsPlainDict(env, disk, entries);
    assert UniqueKeys(entries) by {
      assert |entries[0].0| != |entries[1].0|;
    }
    Encode.DictOfUnique(entries);
  }

  /** The object hook hands the dictionary to the object decoder, whose import fails. */
  lemma ObjectRecordHookFails(env: Env, disk: Disk, name: string)
    requires ImportObject(env, name).Err?
    ensures Decode.ObjectHook(env, disk, ObjectRecord(name).entries).Err?
  {
    var entries := ObjectRecord(name).entries;
    assert |"type"| == 4 && |"fully_qualified_name"| == 20 && |"python_object"| == 13 && |"python_call"| == 11;
    assert Py.Lookup(entries, "type") == Some(VStr("python_object"));
    assert !Decode.Tagged(entries, "python_call");
    assert Decode.DecodePythonCall(env, disk, entries) == Ok(VNone);
    assert HasKey(entries, "fully_qualified_name") by {
      assert entries[1].0 == "fully_qualified_name";
    }
    assert Py.Lookup(entries, "fully_qualified_name") == Some(VStr(name));
    assert Decode.DecodePythonObject(env, entries) == ImportObject(env, name);
    Decode.ObjectHookOrder(env, disk, entries);
  }

  /** A function whose result encodes but does not decode: as written the placeholder
      stays committed; corrected, the table is as before. */
  lemma ComputeUndecodable(env: Env, s: Settings, reg: Codec.Registry, before: Table, disk: Disk, placeholder: CacheEntry,
                           name: string, now: PyDateTime, mtime: int, fuel: nat)
    requires ImportObject(env, name).Err?
    ensures var r := ComputeAsWritten(env, s, reg, before, disk, placeholder, Ok(ObjectRecord(name)), now, mtime, fuel);
            r.result.Err? && r.table == before + [placeholder]
    ensures var r := Compute(env, s, reg, before, disk, placeholder, Ok(ObjectRecord(name)), now, mtime, fuel);
            r.result.Err? && r.table == before
  {
    Codec.ToJsonPlain(env, s, disk, reg, ObjectRecord(name), fuel, mtime);
    UnimportableRecordFailsToDecode(env, disk, name);
  }

  /** The first call of a fresh key whose function returns such a dictionary: the
      wrapper as written raises and leaves the placeholder committed in the table. */
  lemma AsWrittenLeavesPlaceholder(env: Env, s: Settings, reg: Codec.Registry, disk: Disk, f: Callable,
                                   args: seq<Value>, kwargs: Entries, name: string, key: string, now: PyDateTime, mtime: int, fuel: nat)
    requires s.useCache && s.expiration.None?
    requires HexdigestifyPythonCall(env, s, disk, reg, f, args, kwargs, fuel, mtime).0 == Ok(key)
    requires ImportObject(env, name).Err?
    ensures var r := CacheableAsWritten(env, s, reg, [], disk, f, args, kwargs, Ok(ObjectRecord(name)), now, mtime, fuel);
            r.result.Err? && r.table == [Placeholder(s, key, None, now)] && LockedKeys(r.table) == {PrimaryKey(key, MaxDateTime)}
    ensures Cacheable(env, s, reg, [], disk, f, args, kwargs, Ok(ObjectRecord(name)), now, mtime, fuel).table == []
  {
    var disk1 := HexdigestifyPythonCall(env, s, disk, reg, f, args, kwargs, fuel, mtime).1;
    EmptyTableMisses(env, s, reg, disk, f, args, kwargs, Ok(ObjectRecord(name)), key, now, mtime, fuel);
    var p := Placeholder(s, key, None, now);
    assert Insert([], p) == Ok([p]) by {
      assert [] + [p] == [p];
    }
    ComputeUndecodable(env, s, reg, [], disk1, p, name, now, mtime, fuel);
    LockedKeysOfPlaceholder(s, key, now);
  }

  /** The first call of a fresh key whose function itself raises EncodeError: the
      wrapper as written raises UnboundLocalError instead of that error; the corrected
      wrapper passes the function's error on. Either way the placeholder is gone. */
  lemma AsWrittenFunctionEncodeError(env: Env, s: Settings, reg: Codec.Registry, disk: Disk, f: Callable,
                                     args: seq<Value>, kwargs: Entries, msg: string, key: string, now: PyDateTime, mtime: int, fuel: nat)
    requires s.useCache && s.expiration.None?
    requires HexdigestifyPythonCall(env, s, disk, reg, f, args, kwargs, fuel, mtime).0 == Ok(key)
    ensures var r := CacheableAsWritten(env, s, reg, [], disk, f, args, kwargs, Err(EncodeError(msg)), now, mtime, fuel);
            r.result == Err(UnboundResult) && r.table == [] && r.calls == 1
    ensures var r := Cacheable(env, s, reg, [], disk, f, args, kwargs, Err(EncodeError(msg)), now, mtime, fuel);
            r.result == Err(EncodeError(msg)) && r.table == [] && r.calls == 1
  {
    EmptyTableMisses(env, s, reg, disk, f, args, kwargs, Err(EncodeError(msg)), key, now, mtime, fuel);
    var p := Placeholder(s, key, None, now);
    assert Insert([], p) == Ok([p]) by {
      assert [] + [p] == [p];
    }
  }

  lemma LockedKeysOfPlaceholder(s: Settings, key: string, now: PyDateTime)
    ensures LockedKeys([Placeholder(s, key, None, now)]) == {PrimaryKey(key, MaxDateTime)}
  {
    var p := Placeholder(s, key, None, now);
    assert p in [p];
  }

  /** With no rows, the lookup misses and continues with the digest. */
  lemma EmptyTableMisses(env: Env, s: Settings, reg: Codec.Registry, disk: Disk, f: Callable,
                         args: seq<Value>, kwargs: Entries, call: Result<Value>, key: string, now: PyDateTime, mtime: int, fuel: nat)
    requires s.useCache && s.expiration.None?
    requires HexdigestifyPythonCall(env, s, disk, reg, f, args, kwargs, fuel, mtime).0 == Ok(key)
    ensures Lookup(env, s, reg, [], disk, f, args, kwargs, call, now, mtime, fuel)
         == Missed([], HexdigestifyPythonCall(env, s, disk, reg, f, args, kwargs, fuel, mtime).1, key, None)
  {
    assert Candidates([], key, now, None) == [];
  }

  /** The next call for that key finds the leftover placeholder live and returns the
      placeholder text as the cached value, without running the function. */
  lemma LeftoverPlaceholderIsAHit(env: Env, s: Settings, reg: Codec.Registry, disk: Disk, f: Callable,
                                  args: seq<Value>, kwargs: Entries, call: Result<Value>, key: string, earlier: PyDateTime,
                                  now: PyDateTime, mtime: int, fuel: nat)
    requires s.useCache && s.expiration.None?
    requires HexdigestifyPythonCall(env, s, disk, reg, f, args, kwargs, fuel, mtime).0 == Ok(key)
    requires Before(now, MaxDateTime)
    ensures var r := CacheableAsWritten(env, s, reg, [Placeholder(s, key, None, earlier)], disk, f, args, kwargs, call, now, mtime, fuel);
            r.result == Ok(VStr(Locker)) && r.calls == 0
  {
    var p := Placeholder(s, key, None, earlier);
    var cands := Candidates([p], key, now, None);
    assert p in cands;
    assert cands[0] == p by {
      assert cands[0] in cands;
    }
  }

  /** A call that cannot be encoded runs the function uncached: the table is untouched. */
  lemma UnencodableCallRunsUncached(env: Env, s: Settings, reg: Codec.Registry, table: Table, disk: Disk, f: Callable,
                                    args: seq<Value>, kwargs: Entries, call: Result<Value>, now: PyDateTime, mtime: int, fuel: nat, msg: string)
    requires s.useCache
    requires HexdigestifyPythonCall(env, s, disk, reg, f, args, kwargs, fuel, mtime).0 == Err(EncodeError(msg))
    ensures Cacheable(env, s, reg, table, disk, f, args, kwargs, call, now, mtime, fuel)
         == Outcome(call, table, HexdigestifyPythonCall(env, s, disk, reg, f, args, kwargs, fuel, mtime).1, 1)
  {
  }

  /** A hit does not run the function: the value is that of a live row for the digest
      (and the configured expiration), and only the rows of the lookup change. */
  lemma HitDoesNotCall(env: Env, s: Settings, reg: Codec.Registry, table: Table, disk: Disk, f: Callable,
                       args: seq<Value>, kwargs: Entries, call: Result<Value>, now: PyDateTime, mtime: int, fuel: nat,
                       key: string, expiration: Option<PyDateTime>, v: Value)
    requires s.useCache
    requires HexdigestifyPythonCall(env, s, disk, reg, f, args, kwargs, fuel, mtime).0 == Ok(key)
    requires ConfiguredExpiration(s) == Ok(expiration)
    requires var disk1 := HexdigestifyPythonCall(env, s, disk, reg, f, args, kwargs, fuel, mtime).1;
             TryCandidates(env, s, table, disk1, Candidates(table, key, now, expiration), now).0 == Hit(v)
    ensures var r := Cacheable(env, s, reg, table, disk, f, args, kwargs, call, now, mtime, fuel);
            r.result == Ok(v) && r.calls == 0
    ensures var disk1 := HexdigestifyPythonCall(env, s, disk, reg, f, args, kwargs, fuel, mtime).1;
            exists x :: x in table && Matches(x, key, now, expiration) && Decode.Loads(env, disk1, x.result) == Ok(v)
    ensures forall x :: x in table && x.key != key ==> x in Cacheable(env, s, reg, table, disk, f, args, kwargs, call, now, mtime, fuel).table
  {
    var disk1 := HexdigestifyPythonCall(env, s, disk, reg, f, args, kwargs, fuel, mtime).1;
    var cands := Candidates(table, key, now, expiration);
    TryCandidatesHit(env, s, table, disk1, cands, now);
    forall k | 0 <= k < |cands| ensures cands[k].key == key {
      assert cands[k] in cands;
    }
    TryFrame(env, s, table, disk1, cands, now, key);
    var k :| 0 <= k < |cands| && Decode.Loads(env, disk1, cands[k].result) == Ok(v);
    assert cands[k] in cands;
  }

  /** The step after a miss, as the corrected wrapper takes it. */
  lemma MissComputes(env: Env, s: Settings, reg: Codec.Registry, table: Table, disk: Disk, f: Callable,
                     args: seq<Value>, kwargs: Entries, call: Result<Value>, now: PyDateTime, mtime: int, fuel: nat,
                     t: Table, disk1: Disk, key: string, expiration: Option<PyDateTime>)
    requires Lookup(env, s, reg, table, disk, f, args, kwargs, call, now, mtime, fuel) == Missed(t, disk1, key, expiration)
    ensures var p := Placeholder(s, key, expiration, now);
            var r := Cacheable(env, s, reg, table, disk, f, args, kwargs, call, now, mtime, fuel);
            if HasPk(t, Pk(p)) then r.result.Err? && r.result.error.IntegrityError? && r.calls == 0 && r.table == t
            else r == Compute(env, s, reg, t, disk1, p, call, now, mtime, fuel)
  {
    assert Cacheable(env, s, reg, table, disk, f, args, kwargs, call, now, mtime, fuel)
        == LockAndCompute(env, s, reg, t, disk1, key, expiration, call, now, mtime, fuel);
  }

  /** After a miss, a result that encodes and decodes is stored in the placeholder's
      row, counted once, and the caller receives the decode of the stored document. */
  lemma MissStoresResult(env: Env, s: Settings, reg: Codec.Registry, t: Table, disk: Disk, placeholder: CacheEntry,
                         value: Value, now: PyDateTime, mtime: int, fuel: nat, json: Json, after: Disk, v: Value)
    requires placeholder.counter == 0
    requires !HasPk(t, Pk(placeholder))
    requires Codec.ToJson(env, s, disk, reg, value, fuel, mtime) == (Ok(json), after)
    requires json != JStr(Locker)
    requires Decode.Loads(env, after, json) == Ok(v)
    ensures var r := Compute(env, s, reg, t, disk, placeholder, Ok(value), now, mtime, fuel);
            && r.result == Ok(v) && r.calls == 1 && r.disk == after
            && |r.table| == |t| + 1 && r.table[..|t|] == t
            && var row := r.table[|t|];
               Pk(row) == Pk(placeholder) && row.result == json && row.counter == 1 && row.timestamp == now
               && Decode.Loads(env, after, row.result) == r.result
  {
    var locked := t + [placeholder];
    var e := Touched(placeholder.(result := json), s);
    var u := Update(locked, e, now);
    forall i | 0 <= i < |t| ensures u[i] == t[i] {
      assert locked[i] == t[i];
    }
    assert u[..|t|] == t;
  }

  /** When the function raises, the placeholder is deleted and the exception passed on;
      as written, an EncodeError from the function becomes UnboundLocalError. */
  lemma FunctionErrorRemovesPlaceholder(env: Env, s: Settings, reg: Codec.Registry, t: Table, disk: Disk, placeholder: CacheEntry,
                                        e: Error, now: PyDateTime, mtime: int, fuel: nat)
    ensures Compute(env, s, reg, t, disk, placeholder, Err(e), now, mtime, fuel) == Outcome(Err(e), t, disk, 1)
    ensures !e.EncodeError? ==> ComputeAsWritten(env, s, reg, t, disk, placeholder, Err(e), now, mtime, fuel) == Outcome(Err(e), t, disk, 1)
    ensures e.EncodeError? ==> ComputeAsWritten(env, s, reg, t, disk, placeholder, Err(e), now, mtime, fuel) == Outcome(Err(UnboundResult), t, disk, 1)
  {
  }

  /** When the result cannot be encoded, the placeholder is deleted and the raw result
      is returned. */
  lemma UnencodableResultReturnedRaw(env: Env, s: Settings, reg: Codec.Registry, t: Table, disk: Disk, placeholder: CacheEntry,
                                     value: Value, now: PyDateTime, mtime: int, fuel: nat, msg: string, after: Disk)
    requires Codec.ToJson(env, s, disk, reg, value, fuel, mtime) == (Err(EncodeError(msg)), after)
    ensures Compute(env, s, reg, t, disk, placeholder, Ok(value), now, mtime, fuel) == Outcome(Ok(value), t, after, 1)
    ensures ComputeAsWritten(env, s, reg, t, disk, placeholder, Ok(value), now, mtime, fuel) == Outcome(Ok(value), t, after, 1)
  {
  }

  /** A function returning the placeholder text itself is not cached: the final check
      deletes the row it was stored in. */
  lemma LockerResultNotKept(env: Env, s: Settings, reg: Codec.Registry, t: Table, disk: Disk, placeholder: CacheEntry,
                            now: PyDateTime, mtime: int, fuel: nat)
    requires !HasPk(t, Pk(placeholder))
    ensures Compute(env, s, reg, t, disk, placeholder, Ok(VStr(Locker)), now, mtime, fuel) == Outcome(Ok(VStr(Locker)), t, disk, 1)
  {
    var locked := t + [placeholder];
    var e := Touched(placeholder.(result := JStr(Locker)), s);
    var u := Update(locked, e, now);
    assert u == t + [e.(timestamp := now)] by {
      forall i | 0 <= i < |t| ensures u[i] == t[i] {
        assert locked[i] == t[i];
      }
    }
    DeleteAppended(t, e.(timestamp := now));
  }
}

=== FILE: callcache_cache.dfy ===
/** callcache/cache.py: the `cacheable` decorator of the older generation. The cache
    store is a mapping from the full hexadecimal digest of the call's JSON text to the
    JSON text of the result; the wrapper looks the call up, calls the function on a miss
    and stores the encoded result, and always answers with the decoded stored text. */
module CallcacheCache {
  import opened Results
  import opened Py
  import opened Json
  import opened IsoDates
  import opened Text
  import Utils
  import Encode
  import JsonDumps
  import CallcacheEncode
  import CallcacheDecode

  /** `hexdigestify(text)`: the whole lower-case hexadecimal SHA3-224 digest of the UTF-8
      text, 56 digits, of which the later generation keeps the first 32. */
  function Hexdigestify(env: Env, text: string): (r: string)
    ensures forall k :: 0 <= k < |r| ==> IsHexDigit(r[k])
    ensures Utils.Sha3Is224(env) ==> |r| == 56
    ensures Utils.Hexdigestify(env, text) <= r
  {
    Utils.FullHexdigest(env, text)
  }

  /** The later generation's key is the first 32 digits of this one. */
  lemma LaterKeyIsPrefix(env: Env, text: string)
    requires Utils.Sha3Is224(env)
    ensures Utils.Hexdigestify(env, text) == Hexdigestify(env, text)[..Utils.KeyLength]
  {
  }

  /** What the store can hold under a key: the JSON text of a result (kept as the
      document it parses to), text that does not parse, or a value that is not text at
      all (None among them, which `get` cannot tell from a missing key). */
  datatype Stored = Text(doc: Json) | Garbled | Other(v: Value)

  type Store = map<string, Stored>

  /** The warnings the wrapper issues before answering without the cache. */
  datatype Warning = BadInput | BadOutput

  /** The wrapper's answer, the store after it, whether the wrapped function was
      called, and the warning issued. */
  datatype Outcome = Outcome(result: Result<Value>, store: Store, called: bool, warning: Option<Warning>)

  /** `cache_store.get(key)` is None. */
  predicate IsMiss(store: Store, key: string)
  {
    key !in store || store[key] == Other(VNone)
  }

  /** The key of a call: the digest of its compact JSON text. */
  function CallKey(env: Env, c: Callable, args: seq<Value>, kwargs: Entries, fuel: nat): (r: Result<string>)
    ensures r.Ok? <==> CallcacheEncode.DumpsPythonCall(env, CallcacheEncode.DefaultRegistry, Encode.Function(c), args, kwargs, fuel).Ok?
    ensures r.Ok? ==> r.value == Hexdigestify(env, CallcacheEncode.DumpsPythonCall(env, CallcacheEncode.DefaultRegistry, Encode.Function(c), args, kwargs, fuel).value)
  {
    var callJson :- CallcacheEncode.DumpsPythonCall(env, CallcacheEncode.DefaultRegistry, Encode.Function(c), args, kwargs, fuel);
    Ok(Hexdigestify(env, callJson))
  }

  /** The document `encode.dumps(result)` writes, with the default encoders. */
  function ResultDocument(env: Env, v: Value, fuel: nat): Result<Json>
  {
    JsonDumps.ToJson(CallcacheEncode.Hook(env, CallcacheEncode.DefaultRegistry), v, fuel)
  }

  /** The wrapper `cacheable()(f)` applied to `c(*args, **kwargs)`; `call` is what
      calling the function returns or raises, and `hook` the decoder's object hook.
      A call whose arguments cannot be encoded (TypeError) is answered by the function,
      with a warning and no caching; other encoding errors propagate. On a miss the
      function's error propagates; a result that cannot be encoded is returned with a
      warning and not stored; otherwise its document is stored and decoded. On a hit the
      stored text is decoded without calling the function, and a stored value that is
      not text raises TypeError. */
  function Cacheable(env: Env, hook: CallcacheDecode.HookVariant, store: Store, c: Callable, args: seq<Value>, kwargs: Entries,
                     call: Result<Value>, fuel: nat): (r: Outcome)
    ensures !r.called ==> r.store == store
    ensures r.warning.Some? ==> r.called && r.store == store && r.result == call
    ensures forall k :: k in store ==> k in r.store
    ensures forall k :: k in r.store && !IsMiss(store, k) ==> r.store[k] == store[k]
    ensures forall k :: k in r.store && (k !in store || r.store[k] != store[k]) ==> r.store[k].Text?
  {
    match CallcacheEncode.DumpsPythonCall(env, CallcacheEncode.DefaultRegistry, Encode.Function(c), args, kwargs, fuel)
    case Err(e) =>
      if e.TypeError? then Outcome(call, store, true, Some(BadInput))
      else Outcome(Err(e), store, false, None)
    case Ok(callJson) => Lookup(env, hook, store, Hexdigestify(env, callJson), call, fuel)
  }

  /** The wrapper once the call's key is known: a miss calls the function and stores the
      encoded result, a hit decodes the stored text. */
  function Lookup(env: Env, hook: CallcacheDecode.HookVariant, store: Store, key: string, call: Result<Value>, fuel: nat): (r: Outcome)
    ensures !r.called ==> r.store == store
    ensures r.warning.Some? ==> r.called && r.store == store && r.result == call
    ensures forall k :: k in store ==> k in r.store
    ensures forall k :: k in r.store && !IsMiss(store, k) ==> r.store[k] == store[k]
    ensures forall k :: k in r.store && (k !in store || r.store[k] != store[k]) ==> r.store[k].Text?
  {
    if IsMiss(store, key) then
      match call
      case Err(e) => Outcome(Err(e), store, true, None)
      case Ok(v) =>
        match ResultDocument(env, v, fuel)
        case Err(_) => Outcome(Ok(v), store, true, Some(BadOutput))
        case Ok(doc) => Outcome(CallcacheDecode.Loads(env, hook, doc), store[key := Text(doc)], true, None)
    else
      match store[key]
      case Other(_) => Outcome(Err(TypeError("Internal ERROR: 'cached' must be a string")), store, false, None)
      case Garbled => Outcome(Err(ValueError("Expecting value")), store, false, None)
      case Text(doc) => Outcome(CallcacheDecode.Loads(env, hook, doc), store, false, None)
  }

  /** A hit answers from the stored text: the function is not called and the store is
      left as it was. */
  lemma HitDoesNotCall(env: Env, hook: CallcacheDecode.HookVariant, store: Store, c: Callable, args: seq<Value>, kwargs: Entries,
                       call: Result<Value>, fuel: nat, doc: Json)
    requires CallKey(env, c, args, kwargs, fuel).Ok?
    requires var key := CallKey(env, c, args, kwargs, fuel).value; key in store && store[key] == Text(doc)
    ensures Cacheable(env, hook, store, c, args, kwargs, call, fuel) == Outcome(CallcacheDecode.Loads(env, hook, doc), store, false, None)
  {
  }

  /** On a miss whose result encodes, the function is called once and its document is
      stored under the call's key. */
  lemma MissStores(env: Env, hook: CallcacheDecode.HookVariant, store: Store, c: Callable, args: seq<Value>, kwargs: Entries,
                   v: Value, fuel: nat)
    requires CallKey(env, c, args, kwargs, fuel).Ok?
    requires IsMiss(store, CallKey(env, c, args, kwargs, fuel).value)
    requires ResultDocument(env, v, fuel).Ok?
    ensures var r := Cacheable(env, hook, store, c, args, kwargs, Ok(v), fuel);
            && r.called && r.warning == None
            && r.store == store[CallKey(env, c, args, kwargs, fuel).value := Text(ResultDocument(env, v, fuel).value)]
            && r.result == CallcacheDecode.Loads(env, hook, ResultDocument(env, v, fuel).value)
  {
  }

  /** Calling again with the same arguments after a stored miss hits: the answer is the
      same, whatever the function would now return, it is not called, and the store
      does not change. */
  lemma {:induction false} SecondCallHits(env: Env, hook: CallcacheDecode.HookVariant, store: Store, c: Callable, args: seq<Value>, kwargs: Entries,
                                          v: Value, later: Result<Value>, fuel: nat)
    requires CallKey(env, c, args, kwargs, fuel).Ok?
    requires IsMiss(store, CallKey(env, c, args, kwargs, fuel).value)
    requires ResultDocument(env, v, fuel).Ok?
    ensures var first := Cacheable(env, hook, store, c, args, kwargs, Ok(v), fuel);
            var second := Cacheable(env, hook, first.store, c, args, kwargs, later, fuel);
            && !second.called
            && second.store == first.store
            && second.result == first.result
  {
    MissStores(env, hook, store, c, args, kwargs, v, fuel);
    var key := CallKey(env, c, args, kwargs, fuel).value;
    var doc := ResultDocument(env, v, fuel).value;
    var first := Cacheable(env, hook, store, c, args, kwargs, Ok(v), fuel);
    assert first.store[key] == Text(doc);
    HitDoesNotCall(env, hook, first.store, c, args, kwargs, later, fuel, doc);
  }

  /** Arguments the encoders cannot write are answered by calling the function, with a
      warning, and nothing is stored. */
  lemma BadInputCallsThrough(env: Env, hook: CallcacheDecode.HookVariant, store: Store, c: Callable, args: seq<Value>, kwargs: Entries,
                             call: Result<Value>, fuel: nat)
    requires var d := CallcacheEncode.DumpsPythonCall(env, CallcacheEncode.DefaultRegistry, Encode.Function(c), args, kwargs, fuel);
             d.Err? && d.error.TypeError?
    ensures Cacheable(env, hook, store, c, args, kwargs, call, fuel) == Outcome(call, store, true, Some(BadInput))
  {
  }

  /** A result the encoders cannot write is returned as it is, with a warning, and not
      stored. */
  lemma BadOutputNotStored(env: Env, hook: CallcacheDecode.HookVariant, store: Store, c: Callable, args: seq<Value>, kwargs: Entries,
                           v: Value, fuel: nat)
    requires CallKey(env, c, args, kwargs, fuel).Ok?
    requires IsMiss(store, CallKey(env, c, args, kwargs, fuel).value)
    requires ResultDocument(env, v, fuel).Err?
    ensures Cacheable(env, hook, store, c, args, kwargs, Ok(v), fuel) == Outcome(Ok(v), store, true, Some(BadOutput))
  {
  }

  /** A function returning a timedelta: on a miss the corrected decoder answers with
      the timedelta itself, and the decoder as written raises TypeError although the
      result has been stored, so every later call with these arguments raises too. */
  lemma TimedeltaResult(env: Env, store: Store, c: Callable, args: seq<Value>, kwargs: Entries, td: PyTimedelta, fuel: nat)
    requires StdlibPresent(env) && fuel >= 1
    requires CallKey(env, c, args, kwargs, fuel).Ok?
    requires IsMiss(store, CallKey(env, c, args, kwargs, fuel).value)
    ensures var r := Cacheable(env, CallcacheDecode.HookCorrected, store, c, args, kwargs, Ok(VTimedelta(td)), fuel);
            r.called && r.result == Ok(VTimedelta(td))
    ensures var r := Cacheable(env, CallcacheDecode.HookAsWritten, store, c, args, kwargs, Ok(VTimedelta(td)), fuel);
            && r.called && r.result.Err? && r.result.error.TypeError?
            && CallKey(env, c, args, kwargs, fuel).value in r.store
            && r.store[CallKey(env, c, args, kwargs, fuel).value].Text?
  {
    CallcacheDecode.RoundTripTimedelta(env, td, fuel);
    MissStores(env, CallcacheDecode.HookCorrected, store, c, args, kwargs, VTimedelta(td), fuel);
    MissStores(env, CallcacheDecode.HookAsWritten, store, c, args, kwargs, VTimedelta(td), fuel);
  }
}

=== FILE: callcache_config.dfy ===
/** The `set` context of callcache/config.py: it overrides some of the global settings
    and restores them on exit. Unlike the later `set`, it has no special rule for
    `cache`. */
module CallcacheConfig {
  import opened Results
  import opened Py
  import opened Overrides
  import Config

  /** The initial `_SETTINGS`: only the cache. */
  function Defaults(cache: Value): (r: Entries)
    ensures UniqueKeys(r) && KeysOf(r) == ["cache"] && Lookup(r, "cache") == Some(cache)
  {
    [("cache", cache)]
  }

  /** `set(**kwargs)`: KeyError listing the settings at the first unknown key, before
      anything changes; otherwise the arguments are applied and the old values saved. */
  function Set(settings: Entries, kwargs: Entries): (r: Result<Config.Override>)
    ensures r.Err? <==> exists i :: 0 <= i < |kwargs| && !HasKey(settings, kwargs[i].0)
    ensures r.Err? ==> r.error == KeyError(Config.WrongSettings(settings))
    ensures r.Ok? ==> KeysOf(r.value.saved) == KeysOf(kwargs)
  {
    var keys := KeysOf(kwargs);
    assert forall i :: 0 <= i < |kwargs| ==> keys[i] == kwargs[i].0;
    match Saved(settings, keys)
    case Err(_) => Err(KeyError(Config.WrongSettings(settings)))
    case Ok(saved) => Ok(Config.Override(Update(settings, kwargs), saved))
  }

  /** The keys passed take their new values, the others keep theirs, and the settings
      keep their keys and order. */
  lemma SetOverrides(settings: Entries, kwargs: Entries)
    requires Set(settings, kwargs).Ok?
    ensures var o := Set(settings, kwargs).value;
            && KeysOf(o.settings) == KeysOf(settings)
            && forall k :: Lookup(o.settings, k) == if HasKey(kwargs, k) then Lookup(kwargs, k) else Lookup(settings, k)
  {
    var keys := KeysOf(kwargs);
    assert forall i :: 0 <= i < |kwargs| ==> keys[i] == kwargs[i].0;
    UpdateKeepsKeys(settings, kwargs);
    forall k ensures Lookup(Update(settings, kwargs), k) == if HasKey(kwargs, k) then Lookup(kwargs, k) else Lookup(settings, k) {
      UpdateLookup(settings, kwargs, k);
    }
  }

  /** Entering and leaving the context gives back every setting, keys and order
      included. */
  lemma SetThenExitRestores(settings: Entries, kwargs: Entries)
    requires Set(settings, kwargs).Ok?
    ensures var r := Config.Exit(Set(settings, kwargs).value);
            KeysOf(r) == KeysOf(settings) && forall k :: Lookup(r, k) == Lookup(settings, k)
  {
    UpdateThenRestore(settings, kwargs);
  }
}

=== FILE: callcache_decode.dfy ===
/** callcache/decode.py: `call_object_hook` and `loads`. The hook calls a `python_call`
    dictionary's "callable" as it finds it, so it works on records whose callable is a
    nested `python_object` record (decoded first, into the object), but the encoder of
    the same package records the callable as a "module:qualname" string, which is not
    callable. The model keeps the hook as written and a corrected hook that imports a
    name first, as the later decoder does; the rest of the model uses the corrected one. */
module CallcacheDecode {
  import opened Results
  import opened Py
  import opened Json
  import opened IsoDates
  import opened Text
  import Base64
  import Encode
  import Decode
  import Codec
  import JsonDumps
  import CallcacheEncode

  datatype HookVariant = HookAsWritten | HookCorrected

  /** callcache has no file layer: its decoder calls constructors on an empty filesystem. */
  const NoDisk: Disk := map[]

  predicate IsObjectRecord(o: Entries)
  {
    Decode.Tagged(o, "python_object") && HasKey(o, "fully_qualified_name")
  }

  predicate IsCallRecord(o: Entries)
  {
    Decode.Tagged(o, "python_call") && HasKey(o, "callable")
  }

  /** `call_object_hook(o)`: an object record becomes the object it names, a call record
      the result of the call, with "args" defaulting to none and "kwargs" to none, and
      any other dictionary is returned as it is. Errors are raised as they come. The
      corrected hook is the later decoder's `decode_python_call`, without its
      DecodeError wrapping. */
  function CallObjectHook(env: Env, hook: HookVariant, o: Entries): (r: Result<Value>)
    ensures IsObjectRecord(o) ==> r == Decode.ImportName(env, Lookup(o, "fully_qualified_name").value)
    ensures !IsObjectRecord(o) && !IsCallRecord(o) ==> r == Ok(VDict(o))
    ensures !IsObjectRecord(o) && IsCallRecord(o) && hook.HookCorrected? ==> r == Decode.DecodePythonCall(env, NoDisk, o)
  {
    if IsObjectRecord(o) then Decode.ImportName(env, Lookup(o, "fully_qualified_name").value)
    else if IsCallRecord(o) then
      match hook
      case HookAsWritten =>
        var func := Lookup(o, "callable").value;
        var args :- Decode.StarArgs(Decode.GetOr(o, "args", VList([])));
        var kwargs :- Decode.StarStarKwargs(Decode.GetOr(o, "kwargs", VDict([])));
        Decode.Apply(env, NoDisk, func, args, kwargs)
      case HookCorrected => Decode.DecodePythonCall(env, NoDisk, o)
    else Ok(VDict(o))
  }

  /** The two hooks differ only on call records whose "callable" is not callable: when
      it is (a nested object record already decoded, or a callable put there by hand),
      both call it with the same arguments. */
  lemma HooksAgreeOnCallables(env: Env, o: Entries)
    requires IsCallRecord(o) && IsCallable(Lookup(o, "callable").value)
    ensures CallObjectHook(env, HookAsWritten, o) == CallObjectHook(env, HookCorrected, o)
  {
  }

  /** As written, a call record whose callable is a name fails with TypeError once its
      arguments unpack: a string is not callable. */
  lemma AsWrittenRejectsNames(env: Env, o: Entries, name: string)
    requires IsCallRecord(o) && Lookup(o, "callable") == Some(VStr(name))
    requires Decode.StarArgs(Decode.GetOr(o, "args", VList([]))).Ok?
    requires Decode.StarStarKwargs(Decode.GetOr(o, "kwargs", VDict([]))).Ok?
    ensures CallObjectHook(env, HookAsWritten, o).Err? && CallObjectHook(env, HookAsWritten, o).error.TypeError?
  {
  }

  /** `loads(text)` on the parsed document: every object is built (duplicate keys keep
      the last value) and handed to the hook after its members, so nested records are
      decoded first. */
  function Loads(env: Env, hook: HookVariant, doc: Json): (r: Result<Value>)
    ensures doc.JStr? ==> r == Ok(VStr(doc.s))
    ensures doc.JInt? ==> r == Ok(VInt(doc.i))
    decreases doc, 1
  {
    match doc
    case JNull => Ok(VNone)
    case JBool(b) => Ok(VBool(b))
    case JInt(i) => Ok(VInt(i))
    case JStr(s) => Ok(VStr(s))
    case JArr(items) =>
      var values :- LoadsItems(env, hook, items);
      Ok(VList(values))
    case JObj(fields) =>
      var entries :- LoadsFields(env, hook, fields);
      CallObjectHook(env, hook, DictOf(entries))
  }

  function LoadsItems(env: Env, hook: HookVariant, items: seq<Json>): (r: Result<seq<Value>>)
    ensures r.Ok? ==> |r.value| == |items|
    ensures r.Ok? ==> forall k :: 0 <= k < |items| ==> Loads(env, hook, items[k]) == Ok(r.value[k])
    decreases items, 0
  {
    if |items| == 0 then Ok([])
    else
      var head :- Loads(env, hook, items[0]);
      var tail :- LoadsItems(env, hook, items[1..]);
      Ok([head] + tail)
  }

  function LoadsFields(env: Env, hook: HookVariant, fields: seq<(string, Json)>): (r: Result<Entries>)
    ensures r.Ok? ==> |r.value| == |fields|
    ensures r.Ok? ==> forall k :: 0 <= k < |fields| ==>
              r.value[k].0 == fields[k].0 && (assert fields[k].1 < fields[k]; Loads(env, hook, fields[k].1) == Ok(r.value[k].1))
    decreases fields, 0
  {
    if |fields| == 0 then Ok([])
    else
      assert fields[0].1 < fields[0];
      var head :- Loads(env, hook, fields[0].1);
      var tail :- LoadsFields(env, hook, fields[1..]);
      Ok([(fields[0].0, head)] + tail)
  }

  /** Decoding a plain document with no dictionaries gives back the value. */
  lemma {:induction false} LoadsPlainList(env: Env, hook: HookVariant, v: Value)
    requires Codec.Plain(v) && Codec.NoDicts(v)
    ensures Loads(env, hook, Codec.PlainJson(v)) == Ok(v)
    decreases v, 1
  {
    if v.VList? {
      var items := v.items;
      var docs := seq(|items|, k requires 0 <= k < |items| => Codec.PlainJson(items[k]));
      LoadsPlainItems(env, hook, v, items, docs);
    }
  }

  lemma {:induction false} LoadsPlainItems(env: Env, hook: HookVariant, owner: Value, items: seq<Value>, docs: seq<Json>)
    requires |docs| == |items|
    requires forall k :: 0 <= k < |items| ==> Codec.Plain(items[k]) && Codec.NoDicts(items[k]) && docs[k] == Codec.PlainJson(items[k])
    requires forall k :: 0 <= k < |items| ==> items[k] < owner
    ensures LoadsItems(env, hook, docs) == Ok(items)
    decreases owner, 0, |items|
  {
    if |items| > 0 {
      LoadsPlainList(env, hook, items[0]);
      LoadsPlainItems(env, hook, owner, items[1..], docs[1..]);
      assert items == [items[0]] + items[1..];
    }
  }

  lemma {:induction false} LoadsPlainFields(env: Env, hook: HookVariant, entries: Entries, fields: seq<(string, Json)>)
    requires |fields| == |entries|
    requires forall k :: 0 <= k < |entries| ==> Codec.Plain(entries[k].1) && Codec.NoDicts(entries[k].1)
    requires forall k :: 0 <= k < |entries| ==> fields[k] == (entries[k].0, Codec.PlainJson(entries[k].1))
    ensures LoadsFields(env, hook, fields) == Ok(entries)
    decreases |entries|
  {
    if |entries| > 0 {
      LoadsPlainList(env, hook, entries[0].1);
      LoadsPlainFields(env, hook, entries[1..], fields[1..]);
      LoadsFieldsCons(env, hook, fields[0], fields[1..], entries[0].1, entries[1..]);
      assert fields == [fields[0]] + fields[1..];
      assert entries == [entries[0]] + entries[1..];
    }
  }

  /** Decoding the document of a dictionary of plain, dictionary-free values hands that
      dictionary to the hook. */
  lemma LoadsPlainDict(env: Env, hook: HookVariant, entries: Entries)
    requires forall k :: 0 <= k < |entries| ==> Codec.Plain(entries[k].1) && Codec.NoDicts(entries[k].1)
    ensures Codec.Plain(VDict(entries))
    ensures Loads(env, hook, Codec.PlainJson(VDict(entries))) == CallObjectHook(env, hook, DictOf(entries))
  {
    Codec.PlainDictFields(entries);
    var doc := Codec.PlainJson(VDict(entries));
    LoadsPlainFields(env, hook, entries, doc.fields);
  }

  /** The document of a positional call record decodes as the hook decodes the record. */
  lemma LoadsCallRecord(env: Env, hook: HookVariant, fqn: string, args: seq<Value>)
    requires |args| > 0 && Codec.PlainArgs(args)
    ensures Codec.Plain(Encode.CallRecord(fqn, args, []))
    ensures Loads(env, hook, Codec.PlainJson(Encode.CallRecord(fqn, args, [])))
         == CallObjectHook(env, hook, Encode.CallRecord(fqn, args, []).entries)
  {
    var entries := Encode.CallRecord(fqn, args, []).entries;
    Encode.CallRecordPositional(fqn, args);
    assert Codec.NoDicts(VList(args));
    LoadsPlainDict(env, hook, entries);
    Encode.DictOfUnique(entries);
  }

  /** The corrected hook calls the callable a positional call record names. */
  lemma CorrectedCallsNamedCallable(env: Env, fqn: string, c: Callable, args: seq<Value>)
    requires ImportObject(env, fqn) == Ok(VFunc(c)) && |args| > 0
    ensures CallObjectHook(env, HookCorrected, Encode.CallRecord(fqn, args, []).entries) == Decode.Apply(env, NoDisk, VFunc(c), args, [])
  {
    Encode.CallRecordFields(fqn, args, []);
    Decode.RecordDecodesAsCall(env, NoDisk, fqn, c, args);
  }

  /** As written, the same record fails with TypeError. */
  lemma AsWrittenRejectsCallRecord(env: Env, fqn: string, args: seq<Value>)
    requires |args| > 0
    ensures CallObjectHook(env, HookAsWritten, Encode.CallRecord(fqn, args, []).entries).Err?
    ensures CallObjectHook(env, HookAsWritten, Encode.CallRecord(fqn, args, []).entries).error.TypeError?
  {
    var o := Encode.CallRecord(fqn, args, []).entries;
    Encode.CallRecordFields(fqn, args, []);
    assert DictOf([]) == [];
    assert !IsObjectRecord(o);
    AsWrittenRejectsNames(env, o, fqn);
  }

  /** A value the encoder writes as a positional call record of the callable `c` is
      decoded by the corrected hook into `c(*args)`, and by the hook as written into a
      TypeError. */
  lemma DecodeEncodedCall(env: Env, v: Value, fqn: string, c: Callable, args: seq<Value>, fuel: nat)
    requires v.VBytes? || v.VDate? || v.VDateTime? || v.VTimedelta?
    requires fuel >= 1 && |args| > 0 && Codec.PlainArgs(args)
    requires CallcacheEncode.FilecacheDefault(env, CallcacheEncode.DefaultRegistry, v) == Ok(Encode.CallRecord(fqn, args, []))
    requires ImportObject(env, fqn) == Ok(VFunc(c))
    ensures var r := JsonDumps.ToJson(CallcacheEncode.Hook(env, CallcacheEncode.DefaultRegistry), v, fuel);
            && r.Ok?
            && Loads(env, HookCorrected, r.value) == Decode.Apply(env, NoDisk, VFunc(c), args, [])
            && Loads(env, HookAsWritten, r.value).Err? && Loads(env, HookAsWritten, r.value).error.TypeError?
  {
    CallcacheEncode.ToJsonOfCallRecord(env, CallcacheEncode.DefaultRegistry, v, fqn, args, fuel);
    LoadsCallRecord(env, HookCorrected, fqn, args);
    LoadsCallRecord(env, HookAsWritten, fqn, args);
    CorrectedCallsNamedCallable(env, fqn, c, args);
    AsWrittenRejectsCallRecord(env, fqn, args);
  }

  /** `loads(dumps(x)) == x` with the corrected hook for timedeltas, dates, datetimes
      and bytes, when the standard library is present; as written each of them fails
      with TypeError. */
  lemma RoundTripTimedelta(env: Env, td: PyTimedelta, fuel: nat)
    requires StdlibPresent(env) && fuel >= 1
    ensures var r := JsonDumps.ToJson(CallcacheEncode.Hook(env, CallcacheEncode.DefaultRegistry), VTimedelta(td), fuel);
            && r.Ok?
            && Loads(env, HookCorrected, r.value) == Ok(VTimedelta(td))
            && Loads(env, HookAsWritten, r.value).Err? && Loads(env, HookAsWritten, r.value).error.TypeError?
  {
    var args := [VInt(td.days), VInt(td.seconds), VInt(td.micros)];
    Codec.IntArgsPlain(td.days, td.seconds, td.micros);
    CallcacheEncode.DefaultEncodesTimedelta(env, td);
    Decode.ApplyTimedelta(env, NoDisk, td);
    DecodeEncodedCall(env, VTimedelta(td), "datetime:timedelta", TimedeltaClass, args, fuel);
  }

  lemma RoundTripDate(env: Env, d: PyDate, fuel: nat)
    requires StdlibPresent(env) && fuel >= 1
    ensures var r := JsonDumps.ToJson(CallcacheEncode.Hook(env, CallcacheEncode.DefaultRegistry), VDate(d), fuel);
            && r.Ok?
            && Loads(env, HookCorrected, r.value) == Ok(VDate(d))
            && Loads(env, HookAsWritten, r.value).Err? && Loads(env, HookAsWritten, r.value).error.TypeError?
  {
    var args := [VStr(DateIsoFormat(d))];
    assert Codec.PlainArgs(args);
    CallcacheEncode.DefaultEncodesDate(env, d);
    Decode.ApplyDate(env, NoDisk, d);
    DecodeEncodedCall(env, VDate(d), "datetime:date.fromisoformat", DateFromIsoFormat, args, fuel);
  }

  lemma RoundTripDateTime(env: Env, t: PyDateTime, fuel: nat)
    requires StdlibPresent(env) && fuel >= 1
    ensures var r := JsonDumps.ToJson(CallcacheEncode.Hook(env, CallcacheEncode.DefaultRegistry), VDateTime(t), fuel);
            && r.Ok?
            && Loads(env, HookCorrected, r.value) == Ok(VDateTime(t))
            && Loads(env, HookAsWritten, r.value).Err? && Loads(env, HookAsWritten, r.value).error.TypeError?
  {
    var args := [VStr(DateTimeIsoFormat(t))];
    assert Codec.PlainArgs(args);
    CallcacheEncode.DefaultEncodesDateTime(env, t);
    Decode.ApplyDateTime(env, NoDisk, t);
    DecodeEncodedCall(env, VDateTime(t), "datetime:datetime.fromisoformat", DateTimeFromIsoFormat, args, fuel);
  }

  lemma RoundTripBytes(env: Env, bs: seq<byte>, fuel: nat)
    requires StdlibPresent(env) && fuel >= 1
    ensures var r := JsonDumps.ToJson(CallcacheEncode.Hook(env, CallcacheEncode.DefaultRegistry), VBytes(bs), fuel);
            && r.Ok?
            && Loads(env, HookCorrected, r.value) == Ok(VBytes(bs))
            && Loads(env, HookAsWritten, r.value).Err? && Loads(env, HookAsWritten, r.value).error.TypeError?
  {
    var args := [VStr(Base64.B2aBase64(bs))];
    assert Codec.PlainArgs(args);
    CallcacheEncode.DefaultEncodesBytes(env, bs);
    Decode.ApplyA2b(env, NoDisk, bs);
    DecodeEncodedCall(env, VBytes(bs), "binascii:a2b_base64", A2bBase64Func, args, fuel);
  }

  /** The same on the text `dumps` writes: it renders a document the corrected hook
      decodes to the original value and the hook as written refuses. */
  lemma DumpsRoundTrip(env: Env, v: Value, separators: Option<(string, string)>, fuel: nat)
    requires StdlibPresent(env) && fuel >= 1
    requires v.VBytes? || v.VDate? || v.VDateTime? || v.VTimedelta?
    ensures var r := CallcacheEncode.Dumps(env, CallcacheEncode.DefaultRegistry, v, separators, fuel);
            var seps := JsonDumps.SeparatorsOf(separators);
            && r.Ok?
            && exists doc :: && r.value == Serialize(doc, seps.0, seps.1)
                             && Loads(env, HookCorrected, doc) == Ok(v)
                             && Loads(env, HookAsWritten, doc).Err?
  {
    match v {
      case VBytes(bs) => RoundTripBytes(env, bs, fuel);
      case VDate(d) => RoundTripDate(env, d, fuel);
      case VDateTime(t) => RoundTripDateTime(env, t, fuel);
      case VTimedelta(td) => RoundTripTimedelta(env, td, fuel);
    }
    var doc := JsonDumps.ToJson(CallcacheEncode.Hook(env, CallcacheEncode.DefaultRegistry), v, fuel).value;
    assert Loads(env, HookCorrected, doc) == Ok(v) && Loads(env, HookAsWritten, doc).Err?;
  }

  /** A lookup in a two-pair dictionary finds the later pair first. */
  lemma LookupPair(p0: (string, Value), p1: (string, Value), k: string)
    ensures Lookup([p0, p1], k) == if p1.0 == k then Some(p1.1) else if p0.0 == k then Some(p0.1) else None
  {
    Encode.LookupSnoc([], p0, k);
    assert [] + [p0] == [p0];
    Encode.LookupSnoc([p0], p1, k);
    assert [p0] + [p1] == [p0, p1];
  }

  /** The members of a two-member object decode one by one, in order. */
  lemma LoadsTwoFields(env: Env, hook: HookVariant, k0: string, d0: Json, v0: Value, k1: string, d1: Json, v1: Value)
    requires Loads(env, hook, d0) == Ok(v0) && Loads(env, hook, d1) == Ok(v1)
    ensures LoadsFields(env, hook, [(k0, d0), (k1, d1)]) == Ok([(k0, v0), (k1, v1)])
  {
    LoadsFieldsCons(env, hook, (k1, d1), [], v1, []);
    assert [(k1, d1)] + [] == [(k1, d1)] && [(k1, v1)] + [] == [(k1, v1)];
    LoadsFieldsCons(env, hook, (k0, d0), [(k1, d1)], v0, [(k1, v1)]);
    assert [(k0, d0)] + [(k1, d1)] == [(k0, d0), (k1, d1)];
    assert [(k0, v0)] + [(k1, v1)] == [(k0, v0), (k1, v1)];
  }

  /** A member decoded in front of members decoded in turn. */
  lemma LoadsFieldsCons(env: Env, hook: HookVariant, f: (string, Json), rest: seq<(string, Json)>, v: Value, vs: Entries)
    requires Loads(env, hook, f.1) == Ok(v) && LoadsFields(env, hook, rest) == Ok(vs)
    ensures LoadsFields(env, hook, [f] + rest) == Ok([(f.0, v)] + vs)
  {
    var fields := [f] + rest;
    assert fields[0] == f && fields[1..] == rest;
  }

  /** A two-member object with distinct keys is handed to the hook as the dictionary of
      its decoded members. */
  lemma LoadsPair(env: Env, hook: HookVariant, k0: string, d0: Json, v0: Value, k1: string, d1: Json, v1: Value)
    requires k0 != k1
    requires Loads(env, hook, d0) == Ok(v0) && Loads(env, hook, d1) == Ok(v1)
    ensures Loads(env, hook, JObj([(k0, d0), (k1, d1)])) == CallObjectHook(env, hook, [(k0, v0), (k1, v1)])
  {
    var entries := [(k0, v0), (k1, v1)];
    LoadsTwoFields(env, hook, k0, d0, v0, k1, d1, v1);
    assert UniqueKeys(entries) by {
      assert entries[0].0 == k0 && entries[1].0 == k1;
    }
    Encode.DictOfUnique(entries);
    LoadsObject(env, hook, [(k0, d0), (k1, d1)], entries);
  }

  /** An object whose members decode is handed to the hook as their dictionary. */
  lemma LoadsObject(env: Env, hook: HookVariant, fields: seq<(string, Json)>, entries: Entries)
    requires LoadsFields(env, hook, fields) == Ok(entries) && DictOf(entries) == entries
    ensures Loads(env, hook, JObj(fields)) == CallObjectHook(env, hook, entries)
  {
  }

  /** The document of an object record decodes, under either hook, to what its name
      imports. */
  lemma LoadsObjectRecord(env: Env, hook: HookVariant, fqn: string)
    ensures Loads(env, hook, JObj([("type", JStr("python_object")), ("fully_qualified_name", JStr(fqn))])) == ImportObject(env, fqn)
  {
    var entries := [("type", VStr("python_object")), ("fully_qualified_name", VStr(fqn))];
    LoadsPair(env, hook, "type", JStr("python_object"), VStr("python_object"), "fully_qualified_name", JStr(fqn), VStr(fqn));
    LookupPair(entries[0], entries[1], "type");
    LookupPair(entries[0], entries[1], "fully_qualified_name");
    assert IsObjectRecord(entries);
  }

  /** The object record is plain, and its document is the two-member object. */
  lemma ObjectRecordDocument(fqn: string)
    ensures var entries := [("type", VStr("python_object")), ("fully_qualified_name", VStr(fqn))];
            && Codec.Plain(VDict(entries))
            && Codec.PlainJson(VDict(entries)) == JObj([("type", JStr("python_object")), ("fully_qualified_name", JStr(fqn))])
  {
    var entries := [("type", VStr("python_object")), ("fully_qualified_name", VStr(fqn))];
    Codec.PlainDictFields(entries);
  }

  /** A callable whose name imports back to it survives the round trip under either
      hook: the object record does not go through the call path. */
  lemma RoundTripCallable(env: Env, hook: HookVariant, c: Callable, fuel: nat)
    requires c.moduleName.Some? && fuel >= 1
    requires ImportObject(env, c.moduleName.value + ":" + c.qualname) == Ok(VFunc(c))
    ensures var r := JsonDumps.ToJson(CallcacheEncode.Hook(env, CallcacheEncode.DefaultRegistry), VFunc(c), fuel);
            r.Ok? && Loads(env, hook, r.value) == Ok(VFunc(c))
  {
    var fqn := c.moduleName.value + ":" + c.qualname;
    var entries := [("type", VStr("python_object")), ("fully_qualified_name", VStr(fqn))];
    CallcacheEncode.DefaultEncodesCallable(env, c);
    assert Encode.DictifyPythonObject(Encode.Function(c)) == Ok(VDict(entries));
    ObjectRecordDocument(fqn);
    LoadsObjectRecord(env, hook, fqn);
    JsonDumps.ToJsonOfPlainDefault(CallcacheEncode.Hook(env, CallcacheEncode.DefaultRegistry), VFunc(c), VDict(entries), fuel);
  }

  /** A call record whose callable is a nested object record is decoded inner-first:
      the object is imported, then called with no arguments, under either hook. */
  lemma LoadsNestedCallable(env: Env, hook: HookVariant, fqn: string, f: Value)
    requires ImportObject(env, fqn) == Ok(f) && IsCallable(f)
    ensures var inner := JObj([("type", JStr("python_object")), ("fully_qualified_name", JStr(fqn))]);
            Loads(env, hook, JObj([("type", JStr("python_call")), ("callable", inner)])) == Decode.Apply(env, NoDisk, f, [], [])
  {
    var inner := JObj([("type", JStr("python_object")), ("fully_qualified_name", JStr(fqn))]);
    LoadsObjectRecord(env, hook, fqn);
    LoadsPair(env, hook, "type", JStr("python_call"), VStr("python_call"), "callable", inner, f);
    CallRecordWithoutArguments(env, hook, f);
  }

  lemma CallRecordWithoutArguments(env: Env, hook: HookVariant, f: Value)
    requires IsCallable(f)
    ensures CallObjectHook(env, hook, [("type", VStr("python_call")), ("callable", f)]) == Decode.Apply(env, NoDisk, f, [], [])
  {
    var outer := [("type", VStr("python_call")), ("callable", f)];
    LookupPair(outer[0], outer[1], "type");
    LookupPair(outer[0], outer[1], "callable");
    LookupPair(outer[0], outer[1], "args");
    LookupPair(outer[0], outer[1], "kwargs");
    LookupPair(outer[0], outer[1], "fully_qualified_name");
    assert IsCallRecord(outer) && !IsObjectRecord(outer);
    HooksAgreeOnCallables(env, outer);
  }
}

=== FILE: callcache_encode.dfy ===
/** callcache/encode.py: the call record with an optional callable version, the
    registry of encoders tried from the last registered, and `dumps`. Unlike the later
    encoder it never binds arguments and never imports the names it records; the
    object record and the name checks are those of the later encoder. */
module CallcacheEncode {
  import opened Results
  import opened Py
  import opened Json
  import opened IsoDates
  import opened Text
  import Base64
  import Sorting
  import Encode
  import Codec
  import JsonDumps

  /** The keyword `dictify_python_call` takes for the version, out of the caller's
      keyword arguments. */
  const VersionKeyword := "_callable_version"

  /** The record of a call, "version" holding `version` unless that is None. */
  function CallRecord(fqn: string, version: Value, args: seq<Value>, kwargs: Entries): (r: Value)
    ensures r.VDict? && UniqueKeys(r.entries)
  {
    var sorted := Encode.SortKwargs(kwargs);
    var e0 := [("type", VStr("python_call")), ("callable", VStr(fqn))];
    var ev := if version != VNone then e0 + [("version", version)] else e0;
    var e1 := if |args| > 0 then ev + [("args", VList(args))] else ev;
    var e2 := if |sorted| > 0 then e1 + [("kwargs", VDict(sorted))] else e1;
    RecordUnique(e0, ev, e1, e2);
    VDict(e2)
  }

  lemma RecordUnique(e0: Entries, ev: Entries, e1: Entries, e2: Entries)
    requires |e0| == 2 && e0[0].0 == "type" && e0[1].0 == "callable"
    requires ev == e0 || (|ev| == 3 && ev[..2] == e0 && ev[2].0 == "version")
    requires e1 == ev || (|e1| == |ev| + 1 && e1[..|ev|] == ev && e1[|ev|].0 == "args")
    requires e2 == e1 || (|e2| == |e1| + 1 && e2[..|e1|] == e1 && e2[|e1|].0 == "kwargs")
    ensures UniqueKeys(e2)
  {
    assert forall i :: 0 <= i < |ev| ==> ev[i].0 in ["type", "callable", "version"] by {
      if ev != e0 {
        assert forall i :: 0 <= i < 2 ==> ev[i] == e0[i];
      }
    }
    assert forall i :: 0 <= i < |e1| ==> e1[i].0 in ["type", "callable", "version", "args"] by {
      if e1 != ev {
        assert forall i :: 0 <= i < |ev| ==> e1[i] == ev[i];
      }
    }
    if e2 != e1 {
      assert forall i :: 0 <= i < |e1| ==> e2[i] == e1[i];
    }
  }

  /** The keys of the record, always in this order: "type", "callable", then "version",
      "args" and "kwargs" each only when given and not empty. */
  lemma RecordKeys(fqn: string, version: Value, args: seq<Value>, kwargs: Entries)
    ensures KeysOf(CallRecord(fqn, version, args, kwargs).entries)
         == ["type", "callable"]
            + (if version != VNone then ["version"] else [])
            + (if |args| > 0 then ["args"] else [])
            + (if |DictOf(kwargs)| > 0 then ["kwargs"] else [])
  {
    var sorted := Encode.SortKwargs(kwargs);
    assert |sorted| == |DictOf(kwargs)|;
    var e0 := [("type", VStr("python_call")), ("callable", VStr(fqn))];
    var ev := if version != VNone then e0 + [("version", version)] else e0;
    var e1 := if |args| > 0 then ev + [("args", VList(args))] else ev;
    var e2 := if |sorted| > 0 then e1 + [("kwargs", VDict(sorted))] else e1;
    assert CallRecord(fqn, version, args, kwargs).entries == e2;
    ChainKeys(fqn, version, args, sorted, e0, ev, e1, e2);
  }

  /** The keys of the record as it is built up, one optional member at a time. */
  lemma ChainKeys(fqn: string, version: Value, args: seq<Value>, sorted: Entries, e0: Entries, ev: Entries, e1: Entries, e2: Entries)
    requires e0 == [("type", VStr("python_call")), ("callable", VStr(fqn))]
    requires ev == if version != VNone then e0 + [("version", version)] else e0
    requires e1 == if |args| > 0 then ev + [("args", VList(args))] else ev
    requires e2 == if |sorted| > 0 then e1 + [("kwargs", VDict(sorted))] else e1
    ensures KeysOf(e2) == ["type", "callable"]
            + (if version != VNone then ["version"] else [])
            + (if |args| > 0 then ["args"] else [])
            + (if |sorted| > 0 then ["kwargs"] else [])
  {
    assert KeysOf(e0) == ["type", "callable"];
    Snoc(e0, ("version", version));
    Snoc(ev, ("args", VList(args)));
    Snoc(e1, ("kwargs", VDict(sorted)));
    LayoutKeys(e0, ev, e1, e2, version != VNone, |args| > 0, |sorted| > 0);
  }

  lemma Snoc(a: Entries, x: (string, Value))
    ensures |a + [x]| == |a| + 1 && (a + [x])[..|a|] == a && (a + [x])[|a|] == x
  {
    assert (a + [x])[..|a|] == a;
  }

  lemma LayoutKeys(e0: Entries, ev: Entries, e1: Entries, e2: Entries, hasVersion: bool, hasArgs: bool, hasKwargs: bool)
    requires KeysOf(e0) == ["type", "callable"]
    requires hasVersion ==> |ev| == |e0| + 1 && ev[..|e0|] == e0 && ev[|e0|].0 == "version"
    requires !hasVersion ==> ev == e0
    requires hasArgs ==> |e1| == |ev| + 1 && e1[..|ev|] == ev && e1[|ev|].0 == "args"
    requires !hasArgs ==> e1 == ev
    requires hasKwargs ==> |e2| == |e1| + 1 && e2[..|e1|] == e1 && e2[|e1|].0 == "kwargs"
    requires !hasKwargs ==> e2 == e1
    ensures KeysOf(e2) == ["type", "callable"]
              + (if hasVersion then ["version"] else [])
              + (if hasArgs then ["args"] else [])
              + (if hasKwargs then ["kwargs"] else [])
  {
    KeysOfExtend(e0, ev);
    KeysOfExtend(ev, e1);
    KeysOfExtend(e1, e2);
  }

  /** Keys of a dictionary one entry longer than `a` and extending it. */
  lemma KeysOfExtend(a: Entries, b: Entries)
    requires b == a || (|b| == |a| + 1 && b[..|a|] == a)
    ensures b == a ==> KeysOf(b) == KeysOf(a)
    ensures b != a ==> KeysOf(b) == KeysOf(a) + [b[|a|].0]
  {
    if b != a {
      assert forall i :: 0 <= i < |a| ==> b[i] == a[i];
    }
  }

  /** What a reader of the record finds under each key. */
  lemma RecordFields(fqn: string, version: Value, args: seq<Value>, kwargs: Entries)
    ensures var r := CallRecord(fqn, version, args, kwargs).entries;
            && Lookup(r, "type") == Some(VStr("python_call"))
            && Lookup(r, "callable") == Some(VStr(fqn))
            && Lookup(r, "version") == (if version != VNone then Some(version) else None)
            && Lookup(r, "args") == (if |args| > 0 then Some(VList(args)) else None)
            && Lookup(r, "kwargs") == (if |DictOf(kwargs)| > 0 then Some(VDict(Encode.SortKwargs(kwargs))) else None)
  {
    var sorted := Encode.SortKwargs(kwargs);
    assert |sorted| == |DictOf(kwargs)|;
    var e0 := [("type", VStr("python_call")), ("callable", VStr(fqn))];
    var ev := if version != VNone then e0 + [("version", version)] else e0;
    var e1 := if |args| > 0 then ev + [("args", VList(args))] else ev;
    var e2 := if |sorted| > 0 then e1 + [("kwargs", VDict(sorted))] else e1;
    assert CallRecord(fqn, version, args, kwargs).entries == e2;
    LayoutFields(fqn, version, args, sorted, ev, e1, e2);
  }

  lemma LayoutFields(fqn: string, version: Value, args: seq<Value>, sorted: Entries, ev: Entries, e1: Entries, e2: Entries)
    requires ev == if version != VNone then [("type", VStr("python_call")), ("callable", VStr(fqn))] + [("version", version)]
                   else [("type", VStr("python_call")), ("callable", VStr(fqn))]
    requires e1 == if |args| > 0 then ev + [("args", VList(args))] else ev
    requires e2 == if |sorted| > 0 then e1 + [("kwargs", VDict(sorted))] else e1
    ensures && Lookup(e2, "type") == Some(VStr("python_call"))
            && Lookup(e2, "callable") == Some(VStr(fqn))
            && Lookup(e2, "version") == (if version != VNone then Some(version) else None)
            && Lookup(e2, "args") == (if |args| > 0 then Some(VList(args)) else None)
            && Lookup(e2, "kwargs") == (if |sorted| > 0 then Some(VDict(sorted)) else None)
  {
    var e0 := [("type", VStr("python_call")), ("callable", VStr(fqn))];
    FieldNamesDiffer();
    var ver := if version != VNone then Some(version) else None;
    assert && Lookup(ev, "type") == Some(VStr("python_call")) && Lookup(ev, "callable") == Some(VStr(fqn))
           && Lookup(ev, "version") == ver && Lookup(ev, "args") == None && Lookup(ev, "kwargs") == None by {
      Encode.LookupHead(fqn);
      if version != VNone {
        SnocFields(e0, ("version", version));
      }
    }
    var a := if |args| > 0 then Some(VList(args)) else None;
    assert && Lookup(e1, "type") == Some(VStr("python_call")) && Lookup(e1, "callable") == Some(VStr(fqn))
           && Lookup(e1, "version") == ver && Lookup(e1, "args") == a && Lookup(e1, "kwargs") == None by {
      if |args| > 0 {
        SnocFields(ev, ("args", VList(args)));
      }
    }
    if |sorted| > 0 {
      SnocFields(e1, ("kwargs", VDict(sorted)));
    }
  }

  /** The five field names of a call record are pairwise different. */
  lemma FieldNamesDiffer()
    ensures "type" != "callable" && "type" != "version" && "type" != "args" && "type" != "kwargs"
    ensures "callable" != "version" && "callable" != "args" && "callable" != "kwargs"
    ensures "version" != "args" && "version" != "kwargs" && "args" != "kwargs"
  {
    assert "type"[0] == 't' && "callable"[0] == 'c' && "version"[0] == 'v' && "args"[0] == 'a' && "kwargs"[0] == 'k';
  }

  lemma SnocFields(e: Entries, p: (string, Value))
    ensures Lookup(e + [p], "type") == if p.0 == "type" then Some(p.1) else Lookup(e, "type")
    ensures Lookup(e + [p], "callable") == if p.0 == "callable" then Some(p.1) else Lookup(e, "callable")
    ensures Lookup(e + [p], "version") == if p.0 == "version" then Some(p.1) else Lookup(e, "version")
    ensures Lookup(e + [p], "args") == if p.0 == "args" then Some(p.1) else Lookup(e, "args")
    ensures Lookup(e + [p], "kwargs") == if p.0 == "kwargs" then Some(p.1) else Lookup(e, "kwargs")
  {
    Encode.LookupSnoc(e, p, "type");
    Encode.LookupSnoc(e, p, "callable");
    Encode.LookupSnoc(e, p, "version");
    Encode.LookupSnoc(e, p, "args");
    Encode.LookupSnoc(e, p, "kwargs");
  }

  /** Without a version the record is exactly the record the later encoder writes for
      the same (bound) arguments. */
  lemma RecordWithoutVersion(fqn: string, args: seq<Value>, kwargs: Entries)
    ensures CallRecord(fqn, VNone, args, kwargs) == Encode.CallRecord(fqn, args, kwargs)
  {
  }

  /** `dictify_python_call(func, *args, _callable_version=version, **kwargs)`: the name
      of `func` (ValueError for a name without ':' or a callable with no module), and
      the arguments exactly as given. */
  function DictifyPythonCall(t: Encode.Target, args: seq<Value>, version: Value, kwargs: Entries): (r: Result<Value>)
    ensures r.Ok? <==> Encode.DictifyPythonObject(t).Ok?
    ensures r.Err? ==> r.error.ValueError?
    ensures t.Named? ==> (r.Ok? <==> ':' in t.fqn)
    ensures r.Ok? ==> r.value == CallRecord(Encode.TargetName(t).value, version, args, kwargs)
  {
    var fqn :- Encode.TargetName(t);
    Ok(CallRecord(fqn, version, args, kwargs))
  }

  /** The call record names the callable exactly as the object record of the same
      target does. */
  lemma DictifyPythonCallNamesAgree(t: Encode.Target, args: seq<Value>, version: Value, kwargs: Entries)
    requires DictifyPythonCall(t, args, version, kwargs).Ok?
    ensures Lookup(Encode.DictifyPythonObject(t).value.entries, "fully_qualified_name")
         == Lookup(DictifyPythonCall(t, args, version, kwargs).value.entries, "callable")
  {
    RecordFields(Encode.TargetName(t).value, version, args, kwargs);
  }

  /** The caller's keyword arguments with the version keyword taken out. */
  function WithoutKey(kwargs: Entries, k: string): (r: Entries)
    ensures !HasKey(r, k)
    ensures forall k' :: k' != k ==> Lookup(r, k') == Lookup(kwargs, k')
    ensures forall i :: 0 <= i < |r| ==> r[i] in kwargs
    ensures !HasKey(kwargs, k) ==> r == kwargs
    decreases |kwargs|
  {
    if |kwargs| == 0 then []
    else
      var init := kwargs[..|kwargs| - 1];
      var last := kwargs[|kwargs| - 1];
      var rest := WithoutKey(init, k);
      assert forall i :: 0 <= i < |init| ==> init[i] == kwargs[i];
      assert !HasKey(kwargs, k) ==> !HasKey(init, k);
      if last.0 == k then rest
      else
        var r := rest + [last];
        forall k' | k' != k ensures Lookup(r, k') == Lookup(kwargs, k') {
          Encode.LookupSnoc(rest, last, k');
        }
        assert !HasKey(kwargs, k) ==> rest + [last] == init + [last] == kwargs;
        r
  }

  /** Splitting the version keyword off the keyword arguments, as Python binds
      `_callable_version`: the version is None when it is not passed. */
  function SplitVersion(kwargs: Entries): (r: (Value, Entries))
    ensures HasKey(kwargs, VersionKeyword) ==> Some(r.0) == Lookup(kwargs, VersionKeyword)
    ensures !HasKey(kwargs, VersionKeyword) ==> r == (VNone, kwargs)
    ensures !HasKey(r.1, VersionKeyword)
  {
    var version := match Lookup(kwargs, VersionKeyword) case Some(v) => v case None => VNone;
    (version, WithoutKey(kwargs, VersionKeyword))
  }

  /** The typed encoders. Their names contain ':' and are not imported, so they never
      fail, and each writes the record the later encoder writes for the same value. */
  function DictifyTimedelta(td: PyTimedelta): (r: Result<Value>)
    ensures r == Ok(Encode.CallRecord("datetime:timedelta", [VInt(td.days), VInt(td.seconds), VInt(td.micros)], []))
  {
    DictifyPythonCall(Encode.Named("datetime:timedelta"), [VInt(td.days), VInt(td.seconds), VInt(td.micros)], VNone, [])
  }

  function DictifyDate(v: Value): (r: Result<Value>)
    requires v.VDate? || v.VDateTime?
    ensures r == Ok(Encode.CallRecord("datetime:date.fromisoformat", [VStr(Codec.IsoFormat(v))], []))
  {
    DictifyPythonCall(Encode.Named("datetime:date.fromisoformat"), [VStr(Codec.IsoFormat(v))], VNone, [])
  }

  function DictifyDateTime(t: PyDateTime): (r: Result<Value>)
    ensures r == Ok(Encode.CallRecord("datetime:datetime.fromisoformat", [VStr(DateTimeIsoFormat(t))], []))
  {
    DictifyPythonCall(Encode.Named("datetime:datetime.fromisoformat"), [VStr(DateTimeIsoFormat(t))], VNone, [])
  }

  /** Bytes are written as their base64 text, newline included, and recorded as a call
      of the function object `binascii.a2b_base64`. */
  function DictifyBytes(bs: seq<byte>): (r: Result<Value>)
    ensures r == Ok(Encode.CallRecord("binascii:a2b_base64", [VStr(Base64.B2aBase64(bs))], []))
  {
    assert "binascii" + ":" + "a2b_base64" == "binascii:a2b_base64";
    assert Encode.TargetName(Encode.Function(A2bBase64Func)) == Ok("binascii:a2b_base64");
    RecordWithoutVersion("binascii:a2b_base64", [VStr(Base64.B2aBase64(bs))], []);
    DictifyPythonCall(Encode.Function(A2bBase64Func), [VStr(Base64.B2aBase64(bs))], VNone, [])
  }

  /** Anything else is pickled, and recorded as a call of `pickle.loads` on the bytes. */
  function DictifyPickable(env: Env, v: Value): (r: Result<Value>)
    ensures env.pickle(v).Err? ==> r == Err(env.pickle(v).error)
    ensures env.pickle(v).Ok? ==> r == Ok(Encode.CallRecord("_pickle:loads", [VBytes(env.pickle(v).value)], []))
  {
    var data :- env.pickle(v);
    assert "_pickle" + ":" + "loads" == "_pickle:loads";
    assert Encode.TargetName(Encode.Function(PickleLoads)) == Ok("_pickle:loads");
    RecordWithoutVersion("_pickle:loads", [VBytes(data)], []);
    DictifyPythonCall(Encode.Function(PickleLoads), [VBytes(data)], VNone, [])
  }

  datatype Encoder =
    | PickableEncoder
    | PythonObjectEncoder
    | BytesEncoder
    | DateEncoder
    | DateTimeEncoder
    | TimedeltaEncoder

  type Registry = seq<(Codec.TypeTag, Encoder)>

  /** `FILECACHE_ENCODERS`. */
  const DefaultRegistry: Registry := [
    (Codec.ObjectType, PickableEncoder),
    (Codec.CallableType, PythonObjectEncoder),
    (Codec.BytesType, BytesEncoder),
    (Codec.DateType, DateEncoder),
    (Codec.DateTimeType, DateTimeEncoder),
    (Codec.TimedeltaType, TimedeltaEncoder)]

  /** One encoder applied to a value; a value of the wrong type fails as the attribute
      access or call in the encoder would. */
  function RunEncoder(env: Env, e: Encoder, v: Value): Result<Value>
  {
    match e
    case PickableEncoder => DictifyPickable(env, v)
    case PythonObjectEncoder =>
      if v.VFunc? then Encode.DictifyPythonObject(Encode.Function(v.callable)) else Err(TypeError("not a callable"))
    case BytesEncoder => if v.VBytes? then DictifyBytes(v.data) else Err(TypeError("not bytes"))
    case DateEncoder => if v.VDate? || v.VDateTime? then DictifyDate(v) else Err(AttributeError("isoformat"))
    case DateTimeEncoder => if v.VDateTime? then DictifyDateTime(v.datetime) else Err(AttributeError("isoformat"))
    case TimedeltaEncoder => if v.VTimedelta? then DictifyTimedelta(v.delta) else Err(AttributeError("days"))
  }

  /** `filecache_default(v, reg)`: the encoders whose class `v` is an instance of are
      tried from the last registered to the first; a failing one is logged and passed
      over, and when none succeeds the result is TypeError. */
  function FilecacheDefault(env: Env, reg: Registry, v: Value): (r: Result<Value>)
    ensures r.Err? ==> r.error == TypeError("can't encode object")
    ensures r.Ok? ==> exists i :: 0 <= i < |reg| && Codec.IsInstance(v, reg[i].0) && RunEncoder(env, reg[i].1, v) == r
    decreases |reg|
  {
    if |reg| == 0 then Err(TypeError("can't encode object"))
    else
      var (t, e) := reg[|reg| - 1];
      var rest := FilecacheDefault(env, reg[..|reg| - 1], v);
      if Codec.IsInstance(v, t) && RunEncoder(env, e, v).Ok? then RunEncoder(env, e, v)
      else
        assert rest.Ok? ==> exists i :: 0 <= i < |reg| && Codec.IsInstance(v, reg[i].0) && RunEncoder(env, reg[i].1, v) == rest by {
          if rest.Ok? {
            var init := reg[..|reg| - 1];
            var i :| 0 <= i < |init| && Codec.IsInstance(v, init[i].0) && RunEncoder(env, init[i].1, v) == rest;
            assert reg[i] == init[i];
          }
        }
        rest
  }

  /** The last registered encoder that applies to `v` and succeeds decides; the ones
      registered after it either do not apply or fail. */
  lemma {:induction false} FirstSuccessDecides(env: Env, reg: Registry, v: Value, k: nat)
    requires k < |reg| && Codec.IsInstance(v, reg[k].0) && RunEncoder(env, reg[k].1, v).Ok?
    requires forall i :: k < i < |reg| ==> !Codec.IsInstance(v, reg[i].0) || RunEncoder(env, reg[i].1, v).Err?
    ensures FilecacheDefault(env, reg, v) == RunEncoder(env, reg[k].1, v)
    decreases |reg|
  {
    if k < |reg| - 1 {
      var init := reg[..|reg| - 1];
      assert init[k] == reg[k];
      assert forall i :: k < i < |init| ==> init[i] == reg[i];
      FirstSuccessDecides(env, init, v, k);
    }
  }

  /** When every encoder that applies fails, `default` raises TypeError. */
  lemma {:induction false} AllFailRaises(env: Env, reg: Registry, v: Value)
    requires forall i :: 0 <= i < |reg| ==> !Codec.IsInstance(v, reg[i].0) || RunEncoder(env, reg[i].1, v).Err?
    ensures FilecacheDefault(env, reg, v) == Err(TypeError("can't encode object"))
    decreases |reg|
  {
    if |reg| > 0 {
      var init := reg[..|reg| - 1];
      assert forall i :: 0 <= i < |init| ==> init[i] == reg[i];
      AllFailRaises(env, init, v);
    }
  }

  /** The default registry entry that serves each built-in type: nothing registered
      after it accepts the value. */
  lemma DefaultRegistryServes(env: Env, v: Value, k: nat)
    requires (k == 2 && v.VBytes?) || (k == 3 && v.VDate?) || (k == 4 && v.VDateTime?) || (k == 5 && v.VTimedelta?)
    ensures FilecacheDefault(env, DefaultRegistry, v) == RunEncoder(env, DefaultRegistry[k].1, v)
  {
    var reg := DefaultRegistry;
    forall i | k < i < |reg| ensures !Codec.IsInstance(v, reg[i].0) {
    }
    FirstSuccessDecides(env, reg, v, k);
  }

  /** Under the default registry each built-in type is written as the record of its own
      encoder; a datetime goes to the datetime encoder, registered after the date one. */
  lemma DefaultEncodesTimedelta(env: Env, td: PyTimedelta)
    ensures FilecacheDefault(env, DefaultRegistry, VTimedelta(td))
         == Ok(Encode.CallRecord("datetime:timedelta", [VInt(td.days), VInt(td.seconds), VInt(td.micros)], []))
  {
    assert DefaultRegistry[5].1 == TimedeltaEncoder;
    assert RunEncoder(env, TimedeltaEncoder, VTimedelta(td)).Ok?;
    DefaultRegistryServes(env, VTimedelta(td), 5);
  }

  lemma DefaultEncodesDateTime(env: Env, t: PyDateTime)
    ensures FilecacheDefault(env, DefaultRegistry, VDateTime(t))
         == Ok(Encode.CallRecord("datetime:datetime.fromisoformat", [VStr(DateTimeIsoFormat(t))], []))
  {
    assert DefaultRegistry[4].1 == DateTimeEncoder;
    assert RunEncoder(env, DateTimeEncoder, VDateTime(t)).Ok?;
    DefaultRegistryServes(env, VDateTime(t), 4);
  }

  lemma DefaultEncodesDate(env: Env, d: PyDate)
    ensures FilecacheDefault(env, DefaultRegistry, VDate(d))
         == Ok(Encode.CallRecord("datetime:date.fromisoformat", [VStr(DateIsoFormat(d))], []))
  {
    assert DefaultRegistry[3].1 == DateEncoder;
    assert RunEncoder(env, DateEncoder, VDate(d)).Ok?;
    DefaultRegistryServes(env, VDate(d), 3);
  }

  lemma DefaultEncodesBytes(env: Env, bs: seq<byte>)
    ensures FilecacheDefault(env, DefaultRegistry, VBytes(bs))
         == Ok(Encode.CallRecord("binascii:a2b_base64", [VStr(Base64.B2aBase64(bs))], []))
  {
    assert DefaultRegistry[2].1 == BytesEncoder;
    assert RunEncoder(env, BytesEncoder, VBytes(bs)).Ok?;
    DefaultRegistryServes(env, VBytes(bs), 2);
  }

  /** A callable with a module is written as its object record. */
  lemma DefaultEncodesCallable(env: Env, c: Callable)
    requires c.moduleName.Some?
    ensures FilecacheDefault(env, DefaultRegistry, VFunc(c)) == Encode.DictifyPythonObject(Encode.Function(c))
    ensures FilecacheDefault(env, DefaultRegistry, VFunc(c)).Ok?
  {
    var reg := DefaultRegistry;
    forall i | 1 < i < |reg| ensures !Codec.IsInstance(VFunc(c), reg[i].0) {
    }
    FirstSuccessDecides(env, reg, VFunc(c), 1);
  }

  /** The `default` hook `dumps` passes to `json.dumps`. */
  function Hook(env: Env, reg: Registry): (f: Value -> Result<Value>)
    ensures forall v :: f(v) == FilecacheDefault(env, reg, v)
  {
    v => FilecacheDefault(env, reg, v)
  }

  /** `dumps(obj, separators)`: compact separators unless the caller passes others
      (None selecting `json`'s own); the only errors are `default`'s TypeError and
      running out of nesting. */
  function Dumps(env: Env, reg: Registry, v: Value, separators: Option<(string, string)>, fuel: nat): (r: Result<string>)
    ensures r.Err? ==> r.error.TypeError? || r.error == RecursionError
    ensures r == JsonDumps.Dumps(Hook(env, reg), v, separators, fuel)
  {
    JsonDumps.ToJsonErrors(Hook(env, reg), v, fuel);
    JsonDumps.Dumps(Hook(env, reg), v, separators, fuel)
  }

  /** `dumps_python_call(func, *args, **kwargs)`: the compact text of the call record;
      `_callable_version` among the keyword arguments becomes the record's version. The
      text is ASCII; a name without ':' is refused with ValueError, and otherwise the
      only errors are `default`'s TypeError and running out of nesting. */
  function DumpsPythonCall(env: Env, reg: Registry, t: Encode.Target, args: seq<Value>, kwargs: Entries, fuel: nat): (r: Result<string>)
    ensures Encode.TargetName(t).Err? ==> r.Err? && r.error.ValueError?
    ensures Encode.TargetName(t).Ok? ==>
              var split := SplitVersion(kwargs);
              r == Dumps(env, reg, CallRecord(Encode.TargetName(t).value, split.0, args, split.1), Some((",", ":")), fuel)
    ensures t.Named? && ':' !in t.fqn ==> r.Err? && r.error.ValueError?
    ensures r.Ok? ==> IsAscii(r.value)
    ensures r.Err? ==> r.error.ValueError? || r.error.TypeError? || r.error == RecursionError
  {
    var (version, rest) := SplitVersion(kwargs);
    assert IsAscii(",") && IsAscii(":");
    var record :- DictifyPythonCall(t, args, version, rest);
    Dumps(env, reg, record, Some((",", ":")), fuel)
  }

  /** The text depends on the keyword arguments only as the mapping they spell, the
      version keyword included. */
  lemma DumpsPythonCallIgnoresKeywordOrder(env: Env, reg: Registry, t: Encode.Target, args: seq<Value>, k1: Entries, k2: Entries, fuel: nat)
    requires forall k :: Lookup(k1, k) == Lookup(k2, k)
    ensures DumpsPythonCall(env, reg, t, args, k1, fuel) == DumpsPythonCall(env, reg, t, args, k2, fuel)
  {
    var split1, split2 := SplitVersion(k1), SplitVersion(k2);
    assert split1.0 == split2.0;
    forall k ensures Lookup(split1.1, k) == Lookup(split2.1, k) {
      if k == VersionKeyword {
        assert !HasKey(split1.1, k) && !HasKey(split2.1, k);
      }
    }
    Encode.SortKwargsOfSameMapping(split1.1, split2.1);
    if Encode.TargetName(t).Ok? {
      var fqn := Encode.TargetName(t).value;
      assert CallRecord(fqn, split1.0, args, split1.1) == CallRecord(fqn, split2.0, args, split2.1);
    }
  }

  /** A call whose arguments JSON holds as they are is written as the compact text of
      its record, with the keys in the record's fixed order. */
  lemma DumpsPythonCallPlain(env: Env, reg: Registry, t: Encode.Target, args: seq<Value>, kwargs: Entries, fuel: nat)
    requires Encode.TargetName(t).Ok?
    requires Codec.Plain(CallRecord(Encode.TargetName(t).value, SplitVersion(kwargs).0, args, SplitVersion(kwargs).1))
    ensures var record := CallRecord(Encode.TargetName(t).value, SplitVersion(kwargs).0, args, SplitVersion(kwargs).1);
            DumpsPythonCall(env, reg, t, args, kwargs, fuel) == Ok(Serialize(Codec.PlainJson(record), ",", ":"))
  {
    var record := CallRecord(Encode.TargetName(t).value, SplitVersion(kwargs).0, args, SplitVersion(kwargs).1);
    JsonDumps.ToJsonPlain(Hook(env, reg), record, fuel);
  }

  /** A value `default` turns into a positional call record of plain arguments is
      written as that record's document. */
  lemma ToJsonOfCallRecord(env: Env, reg: Registry, v: Value, fqn: string, args: seq<Value>, fuel: nat)
    requires v.VBytes? || v.VDate? || v.VDateTime? || v.VTimedelta? || v.VFunc?
    requires fuel >= 1
    requires |args| > 0 && forall k :: 0 <= k < |args| ==> Codec.Plain(args[k])
    requires FilecacheDefault(env, reg, v) == Ok(Encode.CallRecord(fqn, args, []))
    ensures Codec.Plain(Encode.CallRecord(fqn, args, []))
    ensures JsonDumps.ToJson(Hook(env, reg), v, fuel) == Ok(Codec.PlainJson(Encode.CallRecord(fqn, args, [])))
  {
    Codec.PlainCallRecord(fqn, args);
    JsonDumps.ToJsonOfPlainDefault(Hook(env, reg), v, Encode.CallRecord(fqn, args, []), fuel);
  }
}

=== FILE: callcache_settings.dfy ===
/** The `config` context of callcache/settings.py: it checks every key first and
    names all the unknown ones in a ValueError; otherwise it saves the old values,
    applies the arguments, and restores the saved values on exit. */
module CallcacheSettings {
  import opened Results
  import opened Py
  import opened Text
  import opened Overrides
  import Config

  /** `set(kwargs) - set(_SETTINGS)`, in the order the arguments give them. */
  function UnknownKeys(settings: Entries, keys: seq<string>): (r: seq<string>)
    ensures forall k :: k in r <==> k in keys && !HasKey(settings, k)
  {
    if |keys| == 0 then []
    else
      var rest := UnknownKeys(settings, keys[1..]);
      assert forall k :: k in keys <==> k == keys[0] || k in keys[1..];
      if HasKey(settings, keys[0]) then rest else [keys[0]] + rest
  }

  function DoNotExist(wrong: seq<string>): string
  {
    "The following settings do NOT exist: {" + QuotedItems(wrong) + "}"
  }

  /** `config(**kwargs)`. */
  function Configure(settings: Entries, kwargs: Entries): (r: Result<Config.Override>)
    ensures r.Err? <==> exists i :: 0 <= i < |kwargs| && !HasKey(settings, kwargs[i].0)
    ensures r.Err? ==> r.error == ValueError(DoNotExist(UnknownKeys(settings, KeysOf(kwargs))))
    ensures r.Ok? ==> KeysOf(r.value.saved) == KeysOf(kwargs)
  {
    var keys := KeysOf(kwargs);
    assert forall i :: 0 <= i < |kwargs| ==> keys[i] == kwargs[i].0;
    var wrong := UnknownKeys(settings, keys);
    if wrong != [] then
      assert wrong[0] in keys && !HasKey(settings, wrong[0]);
      var i :| 0 <= i < |keys| && keys[i] == wrong[0];
      Err(ValueError(DoNotExist(wrong)))
    else
      assert forall i :: 0 <= i < |keys| ==> keys[i] !in wrong;
      Ok(Config.Override(Update(settings, kwargs), Saved(settings, keys).value))
  }

  /** The message names exactly the unknown keys. */
  lemma ConfigureNamesUnknownKeys(settings: Entries, kwargs: Entries, k: string)
    requires Configure(settings, kwargs).Err?
    ensures k in UnknownKeys(settings, KeysOf(kwargs)) <==> HasKey(kwargs, k) && !HasKey(settings, k)
  {
    HasKeyOfKeys(kwargs, k);
  }

  /** The old values are saved, the keys passed take their new values and the others
      keep theirs. */
  lemma ConfigureOverrides(settings: Entries, kwargs: Entries)
    requires Configure(settings, kwargs).Ok?
    ensures var o := Configure(settings, kwargs).value;
            && (forall k :: HasKey(kwargs, k) ==> Lookup(o.saved, k) == Lookup(settings, k))
            && KeysOf(o.settings) == KeysOf(settings)
            && forall k :: Lookup(o.settings, k) == if HasKey(kwargs, k) then Lookup(kwargs, k) else Lookup(settings, k)
  {
    var keys := KeysOf(kwargs);
    var o := Configure(settings, kwargs).value;
    assert o.settings == Update(settings, kwargs) && o.saved == Saved(settings, keys).value;
    assert forall k :: HasKey(kwargs, k) ==> Lookup(o.saved, k) == Lookup(settings, k) by {
      forall k | HasKey(kwargs, k) ensures k in keys {
        HasKeyOfKeys(kwargs, k);
      }
    }
    assert KeysOf(o.settings) == KeysOf(settings) by {
      UpdateKeepsKeys(settings, kwargs);
    }
    forall k ensures Lookup(o.settings, k) == if HasKey(kwargs, k) then Lookup(kwargs, k) else Lookup(settings, k) {
      UpdateLookup(settings, kwargs, k);
    }
  }

  /** Entering and leaving the context gives back every setting. */
  lemma ConfigureThenExitRestores(settings: Entries, kwargs: Entries)
    requires Configure(settings, kwargs).Ok?
    ensures var r := Config.Exit(Configure(settings, kwargs).value);
            KeysOf(r) == KeysOf(settings) && forall k :: Lookup(r, k) == Lookup(settings, k)
  {
    UpdateThenRestore(settings, kwargs);
  }
}

=== FILE: clean.dfy ===
/** `clean_cache_files` of cacholote/clean.py: freeze the sizes of the cache
    directory's entries; if they exceed the bound, visit the rows in policy order and
    remove the file each row describes (and every row with its key) until the frozen
    total is within the bound; then, when asked, remove the remaining listed files
    oldest-modified first; failing that, ValueError with the final size.

    The directory listing `fs.ls(dirname)` is an input; the filesystem of a path is
    its protocol. */
module Clean {
  import opened Results
  import opened Json
  import opened Py
  import opened Text
  import opened Database
  import opened Eviction
  import Sorting

  /** The frozen listing, `{path: fs.du(path)}`: one size per path. */
  type Sizes = seq<(string, nat)>

  function Total(sizes: Sizes): nat
  {
    if |sizes| == 0 then 0 else sizes[0].1 + Total(sizes[1..])
  }

  predicate Listed(sizes: Sizes, p: string)
  {
    exists i :: 0 <= i < |sizes| && sizes[i].0 == p
  }

  predicate UniquePaths(sizes: Sizes)
  {
    forall i, j :: 0 <= i < j < |sizes| ==> sizes[i].0 != sizes[j].0
  }

  /** The size recorded for `p`. */
  function SizeOf(sizes: Sizes, p: string): (r: nat)
    ensures !Listed(sizes, p) ==> r == 0
  {
    if |sizes| == 0 then 0
    else if sizes[0].0 == p then sizes[0].1
    else SizeOf(sizes[1..], p)
  }

  /** `sizes.pop(p)`. */
  function Pop(sizes: Sizes, p: string): (r: Sizes)
    ensures forall q :: Listed(r, q) <==> Listed(sizes, q) && q != p
    ensures UniquePaths(sizes) ==> UniquePaths(r)
    ensures forall q :: q != p ==> SizeOf(r, q) == SizeOf(sizes, q)
  {
    if |sizes| == 0 then []
    else
      var rest := Pop(sizes[1..], p);
      ListedCons(sizes[0], sizes[1..]);
      assert sizes == [sizes[0]] + sizes[1..];
      if sizes[0].0 == p then rest
      else
        ListedCons(sizes[0], rest);
        [sizes[0]] + rest
  }

  lemma ListedCons(x: (string, nat), s: Sizes)
    ensures forall q :: Listed([x] + s, q) <==> x.0 == q || Listed(s, q)
    ensures UniquePaths([x] + s) <==> UniquePaths(s) && !Listed(s, x.0)
  {
    var t := [x] + s;
    assert t[0] == x;
    forall q | Listed(s, q) ensures Listed(t, q) {
      var i :| 0 <= i < |s| && s[i].0 == q;
      assert t[i + 1] == s[i];
    }
    if UniquePaths(s) && !Listed(s, x.0) {
      forall i, j | 0 <= i < j < |t| ensures t[i].0 != t[j].0 {
        if i > 0 { assert t[i] == s[i - 1] && t[j] == s[j - 1]; }
        else { assert t[j] == s[j - 1]; }
      }
    }
    if UniquePaths(t) {
      forall i, j | 0 <= i < j < |s| ensures s[i].0 != s[j].0 {
        assert t[i + 1] == s[i] && t[j + 1] == s[j];
      }
      forall i | 0 <= i < |s| ensures s[i].0 != x.0 {
        assert t[i + 1] == s[i];
      }
    }
  }

  /** Popping a path takes exactly its size off the total. */
  lemma {:induction false} PopTotal(sizes: Sizes, p: string)
    requires UniquePaths(sizes)
    ensures Total(Pop(sizes, p)) + SizeOf(sizes, p) == Total(sizes)
  {
    if |sizes| > 0 {
      PopTotal(sizes[1..], p);
      if sizes[0].0 == p {
        assert !Listed(sizes[1..], p);
        PopAbsent(sizes[1..], p);
      }
    }
  }

  lemma {:induction false} PopAbsent(sizes: Sizes, p: string)
    requires !Listed(sizes, p)
    ensures Pop(sizes, p) == sizes
  {
    if |sizes| > 0 {
      assert !Listed(sizes[1..], p);
      PopAbsent(sizes[1..], p);
    }
  }

  /** `{p: fs.du(p) for p in listing}`. */
  function Snapshot(disk: Disk, listing: seq<string>): (r: Sizes)
    requires forall k :: 0 <= k < |listing| ==> listing[k] in disk
    ensures UniquePaths(r)
    ensures forall p :: Listed(r, p) <==> p in listing
    ensures forall p :: Listed(r, p) ==> SizeOf(r, p) == Size(disk[p])
    decreases |listing|
  {
    if |listing| == 0 then []
    else
      var init := listing[..|listing| - 1];
      var p := listing[|listing| - 1];
      assert forall q :: q in listing <==> q in init || q == p;
      var r := Snapshot(disk, init);
      if Listed(r, p) then r
      else
        AppendSizes(r, p, Size(disk[p]));
        r + [(p, Size(disk[p]))]
  }

  lemma {:induction false} AppendSizes(sizes: Sizes, p: string, n: nat)
    requires UniquePaths(sizes) && !Listed(sizes, p)
    ensures UniquePaths(sizes + [(p, n)])
    ensures forall q :: Listed(sizes + [(p, n)], q) <==> Listed(sizes, q) || q == p
    ensures forall q :: q != p ==> SizeOf(sizes + [(p, n)], q) == SizeOf(sizes, q)
    ensures SizeOf(sizes + [(p, n)], p) == n
  {
    var s := sizes + [(p, n)];
    forall q ensures Listed(s, q) <==> Listed(sizes, q) || q == p {
      if Listed(sizes, q) {
        var i :| 0 <= i < |sizes| && sizes[i].0 == q;
        assert s[i] == sizes[i];
      }
      if q == p { assert s[|sizes|].0 == p; }
    }
    if |sizes| > 0 {
      assert s[1..] == sizes[1..] + [(p, n)];
      AppendSizes(sizes[1..], p, n);
    }
  }

  predicate OnDisk(sizes: Sizes, disk: Disk)
  {
    forall i :: 0 <= i < |sizes| ==> sizes[i].0 in disk
  }

  /** The state of a sweep: the frozen sizes left, the rows, the filesystem, the
      (key, path) evictions of the row pass and the removals of untracked files. */
  datatype Sweep = Sweep(sizes: Sizes, table: Table, disk: Disk, evicted: seq<(string, string)>, unknown: seq<string>)

  /** One eviction: the path leaves the frozen listing and the filesystem, and every
      row with the key leaves the table. */
  function Evict(st: Sweep, key: string, path: string): (r: Sweep)
    ensures r.evicted == st.evicted + [(key, path)] && r.unknown == st.unknown
  {
    Sweep(Pop(st.sizes, path), DeleteKey(st.table, key), st.disk - {path}, st.evicted + [(key, path)], st.unknown)
  }

  /** The sweep after the evictions `evs`, in order. */
  function Replay(st: Sweep, evs: seq<(string, string)>): (r: Sweep)
    ensures r.evicted == st.evicted + evs && r.unknown == st.unknown
    decreases |evs|
  {
    if |evs| == 0 then st
    else
      var r := Replay(Evict(st, evs[0].0, evs[0].1), evs[1..]);
      assert st.evicted + evs == st.evicted + [evs[0]] + evs[1..];
      r
  }

  /** Each eviction of `evs` was made while the frozen total was above the bound. */
  predicate EvictedWhileOver(st: Sweep, evs: seq<(string, string)>, maxsize: int)
    decreases |evs|
  {
    |evs| == 0 || (Total(st.sizes) > maxsize && EvictedWhileOver(Evict(st, evs[0].0, evs[0].1), evs[1..], maxsize))
  }

  /** Each eviction of `evs` names a listed file of the directory and the key of a row
      of `rows` that describes it. */
  predicate Justified(env: Env, dirname: string, rows: Table, sizes: Sizes, evs: seq<(string, string)>)
  {
    forall e :: e in evs ==> JustifiedOne(env, dirname, rows, sizes, e)
  }

  predicate JustifiedOne(env: Env, dirname: string, rows: Table, sizes: Sizes, e: (string, string))
  {
    Listed(sizes, e.1) && RowFor(env, dirname, rows, e)
  }

  lemma JustifiedStep(env: Env, dirname: string, rows: Table, st: Sweep, key: string, path: string, later: seq<(string, string)>)
    requires |rows| > 0 && rows[0].key == key && Evictable(env, dirname, rows[0], path) && Listed(st.sizes, path)
    requires Justified(env, dirname, rows[1..], Pop(st.sizes, path), later)
    ensures Justified(env, dirname, rows, st.sizes, [(key, path)] + later)
  {
    var evs := [(key, path)] + later;
    forall e | e in evs
      ensures JustifiedOne(env, dirname, rows, st.sizes, e)
    {
      if e == (key, path) {
        RowForHead(env, dirname, rows, e);
      } else {
        assert e in later;
        JustifiedOneAfterPop(env, dirname, rows, st.sizes, path, e);
      }
    }
  }

  lemma JustifiedOneAfterPop(env: Env, dirname: string, rows: Table, sizes: Sizes, path: string, e: (string, string))
    requires |rows| > 0 && JustifiedOne(env, dirname, rows[1..], Pop(sizes, path), e)
    ensures JustifiedOne(env, dirname, rows, sizes, e)
  {
    RowForTail(env, dirname, rows, e);
  }

  lemma JustifiedSkip(env: Env, dirname: string, rows: Table, sizes: Sizes, evs: seq<(string, string)>)
    requires |rows| > 0 && Justified(env, dirname, rows[1..], sizes, evs)
    ensures Justified(env, dirname, rows, sizes, evs)
  {
    forall e | e in evs
      ensures JustifiedOne(env, dirname, rows, sizes, e)
    {
      RowForTail(env, dirname, rows, e);
    }
  }

  /** What a row pass over `rows` from `st` has done by the time it returns `r`: it
      only appended evictions, the sweep is the replay of those, each is justified by
      a row and each was made while the frozen total was above the bound. */
  predicate RowPass(env: Env, dirname: string, maxsize: int, rows: Table, st: Sweep, r: (Step, Sweep))
  {
    && |st.evicted| <= |r.1.evicted| && r.1.evicted[..|st.evicted|] == st.evicted
    && var added := r.1.evicted[|st.evicted|..];
       && r.1 == Replay(st, added)
       && Justified(env, dirname, rows, st.sizes, added)
       && EvictedWhileOver(st, added, maxsize)
  }

  /** An eviction followed by the rest of the pass is a pass from before it. */
  lemma RowPassEvict(env: Env, dirname: string, maxsize: int, rows: Table, st: Sweep, path: string, r: (Step, Sweep))
    requires |rows| > 0 && Evictable(env, dirname, rows[0], path) && Listed(st.sizes, path)
    requires Total(st.sizes) > maxsize
    requires RowPass(env, dirname, maxsize, rows[1..], Evict(st, rows[0].key, path), r)
    ensures RowPass(env, dirname, maxsize, rows, st, r)
  {
    var next := Evict(st, rows[0].key, path);
    var later := r.1.evicted[|next.evicted|..];
    var added := r.1.evicted[|st.evicted|..];
    SliceAfterPrefix(r.1.evicted, st.evicted, (rows[0].key, path));
    JustifiedStep(env, dirname, rows, st, rows[0].key, path, later);
    assert added[1..] == later;
  }

  lemma SliceAfterPrefix<T>(s: seq<T>, p: seq<T>, x: T)
    requires |p| + 1 <= |s| && s[..|p| + 1] == p + [x]
    ensures s[..|p|] == p
    ensures s[|p|..] == [x] + s[|p| + 1..]
  {
    assert s[..|p|] == s[..|p| + 1][..|p|];
    assert s[|p|] == s[..|p| + 1][|p|];
  }

  lemma RowPassSkip(env: Env, dirname: string, maxsize: int, rows: Table, st: Sweep, r: (Step, Sweep))
    requires |rows| > 0
    requires RowPass(env, dirname, maxsize, rows[1..], st, r)
    ensures RowPass(env, dirname, maxsize, rows, st, r)
  {
    JustifiedSkip(env, dirname, rows, st.sizes, r.1.evicted[|st.evicted|..]);
  }

  lemma RowPassStop(env: Env, dirname: string, maxsize: int, rows: Table, st: Sweep, path: string)
    requires |rows| > 0 && Evictable(env, dirname, rows[0], path) && Listed(st.sizes, path)
    requires Total(st.sizes) > maxsize
    ensures var next := Evict(st, rows[0].key, path);
            RowPass(env, dirname, maxsize, rows, st, (Stopped, next))
  {
    var next := Evict(st, rows[0].key, path);
    var added := [(rows[0].key, path)];
    assert next.evicted[|st.evicted|..] == added;
    assert added[1..] == [];
    assert next == Replay(st, added);
    JustifiedStep(env, dirname, rows, st, rows[0].key, path, []);
  }

  /** The row pass: for each row whose arguments describe a file of the directory still
      in the listing, pop it, remove it, delete the rows of its key (committed at once)
      and stop when the frozen total is within the bound. The sweep returned on a
      failure is the committed state; the frozen sizes are lost with the exception. */
  function EvictRows(env: Env, dirname: string, maxsize: int, rows: Table, st: Sweep): (r: (Step, Sweep))
    requires Total(st.sizes) > maxsize && UniquePaths(st.sizes)
    ensures RowPass(env, dirname, maxsize, rows, st, r)
    ensures r.0.Stopped? <==> Total(r.1.sizes) <= maxsize
    decreases |rows|
  {
    if |rows| == 0 then
      assert st.evicted[|st.evicted|..] == [];
      (Continue, st)
    else
      var row := rows[0];
      match TrackedFile(env, row)
      case Err(e) =>
        assert st.evicted[|st.evicted|..] == [];
        (Failed(e), st)
      case Ok(None) =>
        var r := EvictRows(env, dirname, maxsize, rows[1..], st);
        RowPassSkip(env, dirname, maxsize, rows, st, r);
        r
      case Ok(Some((path, recursive))) =>
        if Protocol(path) != Protocol(dirname) || !Listed(st.sizes, path) then
          var r := EvictRows(env, dirname, maxsize, rows[1..], st);
          RowPassSkip(env, dirname, maxsize, rows, st, r);
          r
        else
          match Rm(st.disk, path, recursive)
          case Err(e) =>
            assert st.evicted[|st.evicted|..] == [];
            (Failed(e), st)
          case Ok(_) =>
            var next := Evict(st, row.key, path);
            if Total(next.sizes) <= maxsize then
              RowPassStop(env, dirname, maxsize, rows, st, path);
              (Stopped, next)
            else
              var r := EvictRows(env, dirname, maxsize, rows[1..], next);
              RowPassEvict(env, dirname, maxsize, rows, st, path, r);
              r
  }

  /** What the evictions `evs` leave: their paths are gone from the listing and the
      filesystem, their keys from the table, and nothing else changes. */
  lemma ReplayFacts(st: Sweep, evs: seq<(string, string)>)
    requires UniquePaths(st.sizes) && OnDisk(st.sizes, st.disk)
    ensures var r := Replay(st, evs);
            && UniquePaths(r.sizes) && OnDisk(r.sizes, r.disk)
            && (forall p :: Listed(r.sizes, p) <==> Listed(st.sizes, p) && p !in Paths(evs))
            && (forall p :: Listed(r.sizes, p) ==> SizeOf(r.sizes, p) == SizeOf(st.sizes, p))
            && (forall p :: p in r.disk <==> p in st.disk && p !in Paths(evs))
            && (forall p :: p in r.disk ==> r.disk[p] == st.disk[p])
            && (forall x :: x in r.table <==> x in st.table && x.key !in Keys(evs))
  {
    var r := Replay(st, evs);
    ReplaySizes(st, evs);
    ReplayDisk(st, evs);
    ReplayTable(st, evs);
    forall i | 0 <= i < |r.sizes| ensures r.sizes[i].0 in r.disk {
      var p := r.sizes[i].0;
      assert Listed(r.sizes, p);
      var j :| 0 <= j < |st.sizes| && st.sizes[j].0 == p;
    }
  }

  /** The evictions take exactly their paths off the frozen listing. */
  lemma {:induction false} ReplaySizes(st: Sweep, evs: seq<(string, string)>)
    requires UniquePaths(st.sizes)
    ensures var r := Replay(st, evs);
            && UniquePaths(r.sizes)
            && (forall p :: Listed(r.sizes, p) <==> Listed(st.sizes, p) && p !in Paths(evs))
            && (forall p :: Listed(r.sizes, p) ==> SizeOf(r.sizes, p) == SizeOf(st.sizes, p))
    decreases |evs|
  {
    if |evs| > 0 {
      ReplaySizes(Evict(st, evs[0].0, evs[0].1), evs[1..]);
      assert Paths(evs) == [evs[0].1] + Paths(evs[1..]);
    }
  }

  /** The evictions take exactly their paths off the filesystem. */
  lemma {:induction false} ReplayDisk(st: Sweep, evs: seq<(string, string)>)
    ensures var r := Replay(st, evs);
            && (forall p :: p in r.disk <==> p in st.disk && p !in Paths(evs))
            && (forall p :: p in r.disk ==> r.disk[p] == st.disk[p])
    decreases |evs|
  {
    if |evs| > 0 {
      ReplayDisk(Evict(st, evs[0].0, evs[0].1), evs[1..]);
      assert Paths(evs) == [evs[0].1] + Paths(evs[1..]);
    }
  }

  /** The evictions take exactly the rows of their keys off the table. */
  lemma {:induction false} ReplayTable(st: Sweep, evs: seq<(string, string)>)
    ensures forall x :: x in Replay(st, evs).table <==> x in st.table && x.key !in Keys(evs)
    decreases |evs|
  {
    if |evs| > 0 {
      ReplayTable(Evict(st, evs[0].0, evs[0].1), evs[1..]);
      assert Keys(evs) == [evs[0].0] + Keys(evs[1..]);
    }
  }

  /** One untracked file removed in the last pass. */
  function Discard(st: Sweep, path: string): (r: Sweep)
    ensures r.unknown == st.unknown + [path] && r.evicted == st.evicted && r.table == st.table
  {
    st.(sizes := Pop(st.sizes, path), disk := st.disk - {path}, unknown := st.unknown + [path])
  }

  function ReplayDiscards(st: Sweep, paths: seq<string>): (r: Sweep)
    ensures r.unknown == st.unknown + paths && r.evicted == st.evicted && r.table == st.table
    decreases |paths|
  {
    if |paths| == 0 then st
    else
      var r := ReplayDiscards(Discard(st, paths[0]), paths[1..]);
      assert st.unknown + paths == st.unknown + [paths[0]] + paths[1..];
      r
  }

  predicate DiscardedWhileOver(st: Sweep, paths: seq<string>, maxsize: int)
    decreases |paths|
  {
    |paths| == 0 || (Total(st.sizes) > maxsize && DiscardedWhileOver(Discard(st, paths[0]), paths[1..], maxsize))
  }

  /** The last pass: remove the files of `order` one by one (recursively), stopping
      once the frozen total is within the bound. It removes a prefix of `order`. */
  function DiscardFiles(maxsize: int, order: seq<string>, st: Sweep): (r: (Step, Sweep))
    requires Total(st.sizes) > maxsize && UniquePaths(st.sizes)
    ensures |st.unknown| <= |r.1.unknown| <= |st.unknown| + |order|
    ensures var n := |r.1.unknown| - |st.unknown|;
            && r.1 == ReplayDiscards(st, order[..n])
            && DiscardedWhileOver(st, order[..n], maxsize)
            && (r.0.Continue? ==> n == |order|)
    ensures r.0.Stopped? <==> Total(r.1.sizes) <= maxsize
    decreases |order|
  {
    if |order| == 0 then (Continue, st)
    else
      var path := order[0];
      match Rm(st.disk, path, true)
      case Err(e) => (Failed(e), st)
      case Ok(_) =>
        var next := Discard(st, path);
        assert [path][1..] == [];
        if Total(next.sizes) <= maxsize then
          assert order[..1] == [path];
          (Stopped, next)
        else
          var r := DiscardFiles(maxsize, order[1..], next);
          var n := |r.1.unknown| - |st.unknown|;
          assert order[..n] == [path] + order[1..][..n - 1];
          r
  }

  lemma {:induction false} ReplayDiscardsFacts(st: Sweep, paths: seq<string>)
    requires UniquePaths(st.sizes) && OnDisk(st.sizes, st.disk)
    ensures var r := ReplayDiscards(st, paths);
            && UniquePaths(r.sizes) && OnDisk(r.sizes, r.disk)
            && (forall p :: Listed(r.sizes, p) <==> Listed(st.sizes, p) && p !in paths)
            && (forall p :: p in r.disk <==> p in st.disk && p !in paths)
            && (forall p :: p in r.disk ==> r.disk[p] == st.disk[p])
    decreases |paths|
  {
    if |paths| > 0 {
      var next := Discard(st, paths[0]);
      assert OnDisk(next.sizes, next.disk) by {
        forall i | 0 <= i < |next.sizes| ensures next.sizes[i].0 in next.disk {
          assert Listed(next.sizes, next.sizes[i].0);
          var j :| 0 <= j < |st.sizes| && st.sizes[j].0 == next.sizes[i].0;
        }
      }
      ReplayDiscardsFacts(next, paths[1..]);
      assert forall p :: p in paths <==> p == paths[0] || p in paths[1..];
    }
  }

  /** The paths of the frozen listing, in its order. */
  function ListedPaths(sizes: Sizes): (r: seq<string>)
    ensures forall p :: p in r <==> Listed(sizes, p)
  {
    var r := seq(|sizes|, i requires 0 <= i < |sizes| => sizes[i].0);
    forall p | Listed(sizes, p) ensures p in r {
      var i :| 0 <= i < |sizes| && sizes[i].0 == p;
      assert r[i] == p;
    }
    r
  }

  /** `Unable to clean '<dirname>'. Final size: <n>.` */
  function UnableToClean(dirname: string, size: nat): string
  {
    "Unable to clean " + Quoted(dirname) + ". Final size: " + NatToDecimal(size) + "."
  }

  /** The untracked files, oldest first, once the row pass could not reach the bound;
      ValueError with the final size when even that does not. */
  function LastPass(maxsize: int, dirname: string, st: Sweep): (r: (Result<()>, Sweep))
    requires Total(st.sizes) > maxsize && UniquePaths(st.sizes)
  {
    var (step, st2) := DiscardFiles(maxsize, ByAge(st.disk, ListedPaths(st.sizes)), st);
    match step
    case Stopped => (Ok(()), st2)
    case Failed(e) => (Err(e), st2)
    case Continue => (Err(ValueError(UnableToClean(dirname, Total(st2.sizes)))), st2)
  }

  /** Both passes, once the frozen total exceeds the bound. */
  function Sweeps(env: Env, policy: Policy, maxsize: int, deleteUnknownFiles: bool, dirname: string, st: Sweep): (r: (Result<()>, Sweep))
    requires Total(st.sizes) > maxsize && UniquePaths(st.sizes) && OnDisk(st.sizes, st.disk)
    requires st.evicted == [] && st.unknown == []
  {
    var (step, st1) := EvictRows(env, dirname, maxsize, EvictionOrder(policy, st.table), st);
    match step
    case Stopped => (Ok(()), st1)
    case Failed(e) => (Err(e), st1)
    case Continue =>
      if !deleteUnknownFiles then (Err(ValueError(UnableToClean(dirname, Total(st1.sizes)))), st1)
      else
        ReplayFacts(st, st1.evicted);
        LastPass(maxsize, dirname, st1)
  }

  /** `clean_cache_files(maxsize, method, delete_unknown_files)` over the listing of the
      cache directory. The result is the outcome and the final sweep: the frozen sizes
      left, the rows, the filesystem and what was removed. */
  function CleanCacheFiles(env: Env, methodName: string, maxsize: int, deleteUnknownFiles: bool, dirname: string,
                           listing: seq<string>, table: Table, disk: Disk): (r: (Result<()>, Sweep))
    requires forall k :: 0 <= k < |listing| ==> listing[k] in disk
    ensures ParseMethod(methodName).Err? ==> r == (Err(ParseMethod(methodName).error), Sweep([], table, disk, [], []))
    ensures ParseMethod(methodName).Ok? && Total(Snapshot(disk, listing)) <= maxsize ==>
              r == (Ok(()), Sweep(Snapshot(disk, listing), table, disk, [], []))
  {
    match ParseMethod(methodName)
    case Err(e) => (Err(e), Sweep([], table, disk, [], []))
    case Ok(policy) =>
      var sizes := Snapshot(disk, listing);
      var st := Sweep(sizes, table, disk, [], []);
      if Total(sizes) <= maxsize then (Ok(()), st)
      else
        assert OnDisk(sizes, disk) by {
          forall i | 0 <= i < |sizes| ensures sizes[i].0 in disk {
            assert Listed(sizes, sizes[i].0);
          }
        }
        Sweeps(env, policy, maxsize, deleteUnknownFiles, dirname, st)
  }

  /** A sweep that starts above the bound ends with the row pass's evictions replayed
      and then a run of untracked-file removals, which happen only when asked. */
  lemma SweepsReplay(env: Env, policy: Policy, maxsize: int, deleteUnknownFiles: bool, dirname: string, st: Sweep)
    requires Total(st.sizes) > maxsize && UniquePaths(st.sizes) && OnDisk(st.sizes, st.disk)
    requires st.evicted == [] && st.unknown == []
    ensures var r := Sweeps(env, policy, maxsize, deleteUnknownFiles, dirname, st);
            && r.1 == ReplayDiscards(Replay(st, r.1.evicted), r.1.unknown)
            && (r.1.unknown != [] ==> deleteUnknownFiles)
  {
    var (step, st1) := EvictRows(env, dirname, maxsize, EvictionOrder(policy, st.table), st);
    assert st1.evicted[|st.evicted|..] == st1.evicted;
    if step.Continue? && deleteUnknownFiles {
      ReplayFacts(st, st1.evicted);
      var (step2, st2) := DiscardFiles(maxsize, ByAge(st1.disk, ListedPaths(st1.sizes)), st1);
      assert st2.unknown[|st1.unknown|..] == st2.unknown;
    }
  }

  /** Success exactly when the frozen total ends within the bound. */
  lemma SweepsSucceedWithinBound(env: Env, policy: Policy, maxsize: int, deleteUnknownFiles: bool, dirname: string, st: Sweep)
    requires Total(st.sizes) > maxsize && UniquePaths(st.sizes) && OnDisk(st.sizes, st.disk)
    requires st.evicted == [] && st.unknown == []
    ensures var r := Sweeps(env, policy, maxsize, deleteUnknownFiles, dirname, st);
            r.0.Ok? <==> Total(r.1.sizes) <= maxsize
  {
    var (step, st1) := EvictRows(env, dirname, maxsize, EvictionOrder(policy, st.table), st);
    if step.Continue? && deleteUnknownFiles {
      ReplayFacts(st, st1.evicted);
    }
  }

  /** Every eviction of the row pass is justified by a row, and each was made while the
      frozen total was above the bound. */
  lemma SweepsEvictJustly(env: Env, policy: Policy, maxsize: int, deleteUnknownFiles: bool, dirname: string, st: Sweep)
    requires Total(st.sizes) > maxsize && UniquePaths(st.sizes) && OnDisk(st.sizes, st.disk)
    requires st.evicted == [] && st.unknown == []
    ensures var r := Sweeps(env, policy, maxsize, deleteUnknownFiles, dirname, st);
            && Justified(env, dirname, EvictionOrder(policy, st.table), st.sizes, r.1.evicted)
            && EvictedWhileOver(st, r.1.evicted, maxsize)
  {
    var (step, st1) := EvictRows(env, dirname, maxsize, EvictionOrder(policy, st.table), st);
    assert st1.evicted[|st.evicted|..] == st1.evicted;
    if step.Continue? && deleteUnknownFiles {
      ReplayFacts(st, st1.evicted);
    }
  }

  /** The untracked files removed are the oldest of those left after the row pass, each
      removed while the frozen total was above the bound. */
  lemma SweepsDiscardOldestFirst(env: Env, policy: Policy, maxsize: int, deleteUnknownFiles: bool, dirname: string, st: Sweep)
    requires Total(st.sizes) > maxsize && UniquePaths(st.sizes) && OnDisk(st.sizes, st.disk)
    requires st.evicted == [] && st.unknown == []
    ensures var r := Sweeps(env, policy, maxsize, deleteUnknownFiles, dirname, st);
            var st1 := Replay(st, r.1.evicted);
            var order := ByAge(st1.disk, ListedPaths(st1.sizes));
            && |r.1.unknown| <= |order| && r.1.unknown == order[..|r.1.unknown|]
            && DiscardedWhileOver(st1, r.1.unknown, maxsize)
  {
    var (step, st1) := EvictRows(env, dirname, maxsize, EvictionOrder(policy, st.table), st);
    assert st1.evicted[|st.evicted|..] == st1.evicted;
    var order := ByAge(st1.disk, ListedPaths(st1.sizes));
    if step.Continue? && deleteUnknownFiles {
      ReplayFacts(st, st1.evicted);
      var (step2, st2) := DiscardFiles(maxsize, order, st1);
      assert st2.unknown[|st1.unknown|..] == st2.unknown;
    } else {
      assert order[..0] == [];
    }
  }

  /** With a valid method, the cleaner succeeds exactly when the frozen total of what
      is left is within the bound. */
  lemma CleanSucceedsWithinBound(env: Env, methodName: string, maxsize: int, deleteUnknownFiles: bool, dirname: string,
                                 listing: seq<string>, table: Table, disk: Disk)
    requires forall k :: 0 <= k < |listing| ==> listing[k] in disk
    requires ParseMethod(methodName).Ok?
    ensures var r := CleanCacheFiles(env, methodName, maxsize, deleteUnknownFiles, dirname, listing, table, disk);
            r.0.Ok? <==> Total(r.1.sizes) <= maxsize
  {
    var sizes := Snapshot(disk, listing);
    var st := Sweep(sizes, table, disk, [], []);
    if Total(sizes) > maxsize {
      SnapshotOnDisk(disk, listing);
      SweepsSucceedWithinBound(env, ParseMethod(methodName).value, maxsize, deleteUnknownFiles, dirname, st);
    }
  }

  lemma SnapshotOnDisk(disk: Disk, listing: seq<string>)
    requires forall k :: 0 <= k < |listing| ==> listing[k] in disk
    ensures OnDisk(Snapshot(disk, listing), disk)
  {
    var sizes := Snapshot(disk, listing);
    forall i | 0 <= i < |sizes| ensures sizes[i].0 in disk {
      assert Listed(sizes, sizes[i].0);
    }
  }

  /** The cleaner removes exactly what it reports: the evicted and untracked paths leave
      the listing and the filesystem, the rows of the evicted keys leave the table, and
      nothing else changes. Untracked files go only when asked. */
  lemma CleanRemovesWhatItReports(env: Env, methodName: string, maxsize: int, deleteUnknownFiles: bool, dirname: string,
                                  listing: seq<string>, table: Table, disk: Disk)
    requires forall k :: 0 <= k < |listing| ==> listing[k] in disk
    ensures var r := CleanCacheFiles(env, methodName, maxsize, deleteUnknownFiles, dirname, listing, table, disk);
            && (forall p :: p in r.1.disk <==> p in disk && p !in Paths(r.1.evicted) && p !in r.1.unknown)
            && (forall p :: p in r.1.disk ==> r.1.disk[p] == disk[p])
            && (forall x :: x in r.1.table <==> x in table && x.key !in Keys(r.1.evicted))
            && (forall p :: p in Paths(r.1.evicted) || p in r.1.unknown ==> p in listing)
            && (!deleteUnknownFiles ==> r.1.unknown == [])
  {
    if ParseMethod(methodName).Ok? {
      var sizes := Snapshot(disk, listing);
      if Total(sizes) > maxsize {
        SnapshotOnDisk(disk, listing);
        SweepsRemoveWhatTheyReport(env, ParseMethod(methodName).value, maxsize, deleteUnknownFiles, dirname,
                                   Sweep(sizes, table, disk, [], []));
      }
    }
  }

  /** The sweeps started above the bound remove what they report, and only listed
      paths. */
  lemma SweepsRemoveWhatTheyReport(env: Env, policy: Policy, maxsize: int, deleteUnknownFiles: bool, dirname: string, st: Sweep)
    requires Total(st.sizes) > maxsize && UniquePaths(st.sizes) && OnDisk(st.sizes, st.disk)
    requires st.evicted == [] && st.unknown == []
    ensures var r := Sweeps(env, policy, maxsize, deleteUnknownFiles, dirname, st);
            && (forall p :: p in r.1.disk <==> p in st.disk && p !in Paths(r.1.evicted) && p !in r.1.unknown)
            && (forall p :: p in r.1.disk ==> r.1.disk[p] == st.disk[p])
            && (forall x :: x in r.1.table <==> x in st.table && x.key !in Keys(r.1.evicted))
            && (forall p :: p in Paths(r.1.evicted) || p in r.1.unknown ==> Listed(st.sizes, p))
            && (!deleteUnknownFiles ==> r.1.unknown == [])
  {
    var fin := Sweeps(env, policy, maxsize, deleteUnknownFiles, dirname, st).1;
    assert fin == ReplayDiscards(Replay(st, fin.evicted), fin.unknown) && (fin.unknown != [] ==> deleteUnknownFiles) by {
      SweepsReplay(env, policy, maxsize, deleteUnknownFiles, dirname, st);
    }
    assert forall e :: e in fin.evicted ==> Listed(st.sizes, e.1) by {
      SweepsEvictJustly(env, policy, maxsize, deleteUnknownFiles, dirname, st);
      assert Justified(env, dirname, EvictionOrder(policy, st.table), st.sizes, fin.evicted);
    }
    var st1 := Replay(st, fin.evicted);
    assert forall p :: p in fin.unknown ==> Listed(st1.sizes, p) by {
      SweepsDiscardOldestFirst(env, policy, maxsize, deleteUnknownFiles, dirname, st);
      forall p | p in fin.unknown ensures Listed(st1.sizes, p) {
        var order := ByAge(st1.disk, ListedPaths(st1.sizes));
        assert p in order;
        assert p in multiset(order);
      }
    }
    ReplayedRemovesWhatItReports(st, fin.evicted, fin.unknown);
  }

  /** Replaying listed evictions and then removing listed untracked files removes
      exactly those paths and the rows of the evicted keys. */
  lemma ReplayedRemovesWhatItReports(st: Sweep, evs: seq<(string, string)>, unknown: seq<string>)
    requires UniquePaths(st.sizes) && OnDisk(st.sizes, st.disk)
    requires forall e :: e in evs ==> Listed(st.sizes, e.1)
    requires forall p :: p in unknown ==> Listed(Replay(st, evs).sizes, p)
    ensures var fin := ReplayDiscards(Replay(st, evs), unknown);
            && (forall p :: p in fin.disk <==> p in st.disk && p !in Paths(evs) && p !in unknown)
            && (forall p :: p in fin.disk ==> fin.disk[p] == st.disk[p])
            && (forall x :: x in fin.table <==> x in st.table && x.key !in Keys(evs))
            && (forall p :: p in Paths(evs) || p in unknown ==> Listed(st.sizes, p))
  {
    var st1 := Replay(st, evs);
    ReplayFacts(st, evs);
    ReplayDiscardsFacts(st1, unknown);
    forall p | p in Paths(evs) ensures Listed(st.sizes, p) {
      var i :| 0 <= i < |evs| && evs[i].1 == p;
      assert evs[i] in evs;
    }
  }

  /** Each eviction names a listed file of the directory and the key of a row that
      describes it, and every removal, of either pass, was made while the frozen total
      was above the bound: the cleaner stops as soon as it is within it. */
  lemma CleanStopsAtBound(env: Env, methodName: string, maxsize: int, deleteUnknownFiles: bool, dirname: string,
                          listing: seq<string>, table: Table, disk: Disk)
    requires forall k :: 0 <= k < |listing| ==> listing[k] in disk
    ensures var r := CleanCacheFiles(env, methodName, maxsize, deleteUnknownFiles, dirname, listing, table, disk);
            var st := Sweep(Snapshot(disk, listing), table, disk, [], []);
            && Justified(env, dirname, table, st.sizes, r.1.evicted)
            && EvictedWhileOver(st, r.1.evicted, maxsize)
            && DiscardedWhileOver(Replay(st, r.1.evicted), r.1.unknown, maxsize)
  {
    var sizes := Snapshot(disk, listing);
    var st := Sweep(sizes, table, disk, [], []);
    if ParseMethod(methodName).Ok? && Total(sizes) > maxsize {
      var policy := ParseMethod(methodName).value;
      SnapshotOnDisk(disk, listing);
      SweepsEvictJustly(env, policy, maxsize, deleteUnknownFiles, dirname, st);
      SweepsDiscardOldestFirst(env, policy, maxsize, deleteUnknownFiles, dirname, st);
      var r := Sweeps(env, policy, maxsize, deleteUnknownFiles, dirname, st);
      JustifiedInTable(env, dirname, EvictionOrder(policy, table), table, sizes, r.1.evicted);
    } else {
      assert Replay(st, []) == st;
    }
  }

  lemma JustifiedInTable(env: Env, dirname: string, rows: Table, table: Table, sizes: Sizes, evs: seq<(string, string)>)
    requires multiset(rows) == multiset(table)
    requires Justified(env, dirname, rows, sizes, evs)
    ensures Justified(env, dirname, table, sizes, evs)
  {
    forall row | row in rows ensures row in table {
      assert row in multiset(rows);
    }
    forall e | e in evs
      ensures JustifiedOne(env, dirname, table, sizes, e)
    {
      RowForSameRows(env, dirname, rows, table, e);
    }
  }

  /** Untracked files go oldest-modified first (ties by path). */
  lemma CleanUnknownOldestFirst(env: Env, methodName: string, maxsize: int, deleteUnknownFiles: bool, dirname: string,
                                listing: seq<string>, table: Table, disk: Disk)
    requires forall k :: 0 <= k < |listing| ==> listing[k] in disk
    ensures var r := CleanCacheFiles(env, methodName, maxsize, deleteUnknownFiles, dirname, listing, table, disk);
            Sorting.Sorted(r.1.unknown, AgeOrder(disk))
  {
    var sizes := Snapshot(disk, listing);
    var st := Sweep(sizes, table, disk, [], []);
    if ParseMethod(methodName).Ok? && Total(sizes) > maxsize {
      var policy := ParseMethod(methodName).value;
      SnapshotOnDisk(disk, listing);
      var r := Sweeps(env, policy, maxsize, deleteUnknownFiles, dirname, st);
      var st1 := Replay(st, r.1.evicted);
      var order := ByAge(st1.disk, ListedPaths(st1.sizes));
      assert |r.1.unknown| <= |order| && r.1.unknown == order[..|r.1.unknown|] by {
        SweepsDiscardOldestFirst(env, policy, maxsize, deleteUnknownFiles, dirname, st);
      }
      OldestPrefixSorted(st, r.1.evicted, r.1.unknown);
    }
  }

  /** A prefix of the untracked files left after some evictions, taken by age, is in
      age order on the filesystem the sweep started from. */
  lemma OldestPrefixSorted(st: Sweep, evs: seq<(string, string)>, u: seq<string>)
    requires UniquePaths(st.sizes) && OnDisk(st.sizes, st.disk)
    requires var st1 := Replay(st, evs);
             var order := ByAge(st1.disk, ListedPaths(st1.sizes));
             |u| <= |order| && u == order[..|u|]
    ensures Sorting.Sorted(u, AgeOrder(st.disk))
  {
    ReplayFacts(st, evs);
    var st1 := Replay(st, evs);
    var order := ByAge(st1.disk, ListedPaths(st1.sizes));
    forall i, j | 0 <= i < j < |u| ensures AgeOrder(st.disk)(u[i], u[j]) {
      assert u[i] == order[i] && u[j] == order[j];
      assert AgeOrder(st1.disk)(order[i], order[j]);
      InOrderOnDisk(st1, order, i);
      InOrderOnDisk(st1, order, j);
    }
  }

  lemma InOrderOnDisk(st1: Sweep, order: seq<string>, i: int)
    requires OnDisk(st1.sizes, st1.disk)
    requires multiset(order) == multiset(ListedPaths(st1.sizes))
    requires 0 <= i < |order|
    ensures order[i] in st1.disk
  {
    assert order[i] in multiset(order);
    assert order[i] in ListedPaths(st1.sizes);
    var k :| 0 <= k < |st1.sizes| && st1.sizes[k].0 == order[i];
  }
}

=== FILE: cleaner.dfy ===
/** `clean_cache_files` of cacholote/cleaner.py, the earlier cleaner: the size of the
    cache directory is measured live (`fs.du(dirname)`) after every removal; the row
    pass removes the file a row describes whenever it is on the directory's filesystem
    and still exists, and deletes the rows of its key, every deletion being committed
    even when the pass stops early or fails; then, when asked, the files still listed
    are removed oldest-modified first, without `recursive`; failing that, ValueError
    with the size left.

    The directory listing `fs.ls(dirname)` is an input: the paths of the directory
    when the cleaner starts. */
module Cleaner {
  import opened Results
  import opened Json
  import opened Py
  import opened Text
  import opened Database
  import opened Eviction
  import Clean
  import Sorting

  /** `fs.du(dirname)`: the sizes of the listed paths still on the filesystem, each
      path counted once. */
  function Du(disk: Disk, listing: seq<string>): nat
    decreases |listing|
  {
    if |listing| == 0 then 0
    else
      var init := listing[..|listing| - 1];
      var p := listing[|listing| - 1];
      Du(disk, init) + if p in disk && p !in init then Size(disk[p]) else 0
  }

  /** Measured on the filesystem the listing came from, the live size agrees with the
      total of the frozen snapshot the later cleaner takes. */
  lemma {:induction false} DuMatchesSnapshot(disk: Disk, listing: seq<string>)
    requires forall k :: 0 <= k < |listing| ==> listing[k] in disk
    ensures Du(disk, listing) == Clean.Total(Clean.Snapshot(disk, listing))
    decreases |listing|
  {
    if |listing| > 0 {
      var init := listing[..|listing| - 1];
      var p := listing[|listing| - 1];
      assert forall k :: 0 <= k < |init| ==> init[k] == listing[k];
      DuMatchesSnapshot(disk, init);
      var r := Clean.Snapshot(disk, init);
      if p !in init {
        TotalAppend(r, (p, Size(disk[p])));
      }
    }
  }

  lemma {:induction false} TotalAppend(sizes: Clean.Sizes, x: (string, nat))
    ensures Clean.Total(sizes + [x]) == Clean.Total(sizes) + x.1
    decreases |sizes|
  {
    if |sizes| == 0 {
      assert sizes + [x] == [x];
    } else {
      assert (sizes + [x])[1..] == sizes[1..] + [x];
      TotalAppend(sizes[1..], x);
    }
  }

  /** `fs.ls(dirname)` at a later moment: the listed paths still there, in order. */
  function Present(disk: Disk, listing: seq<string>): (r: seq<string>)
    ensures forall p :: p in r <==> p in listing && p in disk
  {
    if |listing| == 0 then []
    else
      var rest := Present(disk, listing[1..]);
      assert forall p :: p in listing <==> p == listing[0] || p in listing[1..];
      if listing[0] in disk then [listing[0]] + rest else rest
  }

  /** The state of the cleaner: the rows, the filesystem, the (key, path) evictions of
      the row pass and the removals of untracked files. */
  datatype Pass = Pass(table: Table, disk: Disk, evicted: seq<(string, string)>, unknown: seq<string>)

  /** One eviction: the path leaves the filesystem and every row with the key leaves
      the table. */
  function Evict(st: Pass, key: string, path: string): (r: Pass)
    ensures r.evicted == st.evicted + [(key, path)] && r.unknown == st.unknown
  {
    Pass(DeleteKey(st.table, key), st.disk - {path}, st.evicted + [(key, path)], st.unknown)
  }

  function Replay(st: Pass, evs: seq<(string, string)>): (r: Pass)
    ensures r.evicted == st.evicted + evs && r.unknown == st.unknown
    decreases |evs|
  {
    if |evs| == 0 then st
    else
      var r := Replay(Evict(st, evs[0].0, evs[0].1), evs[1..]);
      assert st.evicted + evs == st.evicted + [evs[0]] + evs[1..];
      r
  }

  /** Each eviction of `evs` was made while the directory was above the bound. */
  predicate EvictedWhileOver(st: Pass, evs: seq<(string, string)>, listing: seq<string>, maxsize: int)
    decreases |evs|
  {
    |evs| == 0 || (Du(st.disk, listing) > maxsize && EvictedWhileOver(Evict(st, evs[0].0, evs[0].1), evs[1..], listing, maxsize))
  }

  /** Each eviction of `evs` names a path that was on the filesystem and the key of a
      row of `rows` that describes it. */
  predicate Justified(env: Env, dirname: string, rows: Table, disk: Disk, evs: seq<(string, string)>)
  {
    forall e :: e in evs ==> JustifiedOne(env, dirname, rows, disk, e)
  }

  predicate JustifiedOne(env: Env, dirname: string, rows: Table, disk: Disk, e: (string, string))
  {
    e.1 in disk && RowFor(env, dirname, rows, e)
  }

  lemma JustifiedStep(env: Env, dirname: string, rows: Table, st: Pass, key: string, path: string, later: seq<(string, string)>)
    requires |rows| > 0 && rows[0].key == key && Evictable(env, dirname, rows[0], path) && path in st.disk
    requires Justified(env, dirname, rows[1..], st.disk - {path}, later)
    ensures Justified(env, dirname, rows, st.disk, [(key, path)] + later)
  {
    var evs := [(key, path)] + later;
    forall e | e in evs
      ensures JustifiedOne(env, dirname, rows, st.disk, e)
    {
      if e == (key, path) {
        RowForHead(env, dirname, rows, e);
      } else {
        assert e in later;
        JustifiedOneAfterRemoval(env, dirname, rows, st.disk, path, e);
      }
    }
  }

  lemma JustifiedOneAfterRemoval(env: Env, dirname: string, rows: Table, disk: Disk, path: string, e: (string, string))
    requires |rows| > 0 && JustifiedOne(env, dirname, rows[1..], disk - {path}, e)
    ensures JustifiedOne(env, dirname, rows, disk, e)
  {
    RowForTail(env, dirname, rows, e);
  }

  lemma JustifiedSkip(env: Env, dirname: string, rows: Table, disk: Disk, evs: seq<(string, string)>)
    requires |rows| > 0 && Justified(env, dirname, rows[1..], disk, evs)
    ensures Justified(env, dirname, rows, disk, evs)
  {
    forall e | e in evs
      ensures JustifiedOne(env, dirname, rows, disk, e)
    {
      RowForTail(env, dirname, rows, e);
    }
  }

  /** What a row pass over `rows` from `st` has done by the time it returns `r`: it
      only appended evictions, the state is their replay, each is justified by a row
      and each was made while the directory was above the bound. */
  predicate RowPass(env: Env, dirname: string, maxsize: int, listing: seq<string>, rows: Table, st: Pass, r: (Step, Pass))
  {
    && |st.evicted| <= |r.1.evicted| && r.1.evicted[..|st.evicted|] == st.evicted
    && var added := r.1.evicted[|st.evicted|..];
       && r.1 == Replay(st, added)
       && Justified(env, dirname, rows, st.disk, added)
       && EvictedWhileOver(st, added, listing, maxsize)
  }

  lemma RowPassEvict(env: Env, dirname: string, maxsize: int, listing: seq<string>, rows: Table, st: Pass, path: string, r: (Step, Pass))
    requires |rows| > 0 && Evictable(env, dirname, rows[0], path) && path in st.disk
    requires Du(st.disk, listing) > maxsize
    requires RowPass(env, dirname, maxsize, listing, rows[1..], Evict(st, rows[0].key, path), r)
    ensures RowPass(env, dirname, maxsize, listing, rows, st, r)
  {
    var x := (rows[0].key, path);
    var next := Evict(st, x.0, x.1);
    var later := r.1.evicted[|next.evicted|..];
    var added := r.1.evicted[|st.evicted|..];
    assert r.1.evicted[..|st.evicted|] == st.evicted && added == [x] + later by {
      assert r.1.evicted[..|next.evicted|] == next.evicted == st.evicted + [x];
      Clean.SliceAfterPrefix(r.1.evicted, st.evicted, x);
    }
    assert r.1 == Replay(st, added) && EvictedWhileOver(st, added, listing, maxsize) by {
      ReplayStep(st, x, later, listing, maxsize);
    }
    assert Justified(env, dirname, rows, st.disk, added) by {
      JustifiedStep(env, dirname, rows, st, x.0, x.1, later);
    }
  }

  /** An eviction made above the bound, followed by evictions made above the bound. */
  lemma ReplayStep(st: Pass, x: (string, string), later: seq<(string, string)>, listing: seq<string>, maxsize: int)
    requires Du(st.disk, listing) > maxsize
    requires EvictedWhileOver(Evict(st, x.0, x.1), later, listing, maxsize)
    ensures Replay(st, [x] + later) == Replay(Evict(st, x.0, x.1), later)
    ensures EvictedWhileOver(st, [x] + later, listing, maxsize)
  {
    var added := [x] + later;
    assert added[0] == x && added[1..] == later;
  }

  lemma RowPassSkip(env: Env, dirname: string, maxsize: int, listing: seq<string>, rows: Table, st: Pass, r: (Step, Pass))
    requires |rows| > 0
    requires RowPass(env, dirname, maxsize, listing, rows[1..], st, r)
    ensures RowPass(env, dirname, maxsize, listing, rows, st, r)
  {
    JustifiedSkip(env, dirname, rows, st.disk, r.1.evicted[|st.evicted|..]);
  }

  lemma RowPassStop(env: Env, dirname: string, maxsize: int, listing: seq<string>, rows: Table, st: Pass, path: string)
    requires |rows| > 0 && Evictable(env, dirname, rows[0], path) && path in st.disk
    requires Du(st.disk, listing) > maxsize
    ensures RowPass(env, dirname, maxsize, listing, rows, st, (Stopped, Evict(st, rows[0].key, path)))
  {
    var next := Evict(st, rows[0].key, path);
    var added := [(rows[0].key, path)];
    assert next.evicted[|st.evicted|..] == added;
    assert added[1..] == [];
    assert next == Replay(st, added);
    JustifiedStep(env, dirname, rows, st, rows[0].key, path, []);
  }

  /** The row pass: for each row whose arguments describe a file on the directory's
      filesystem that still exists, remove it (recursively for a zarr store), delete
      the rows of its key and stop once the directory is within the bound. The state
      returned on a failure is the committed one: the `finally` commits every deletion
      made so far. */
  function EvictRows(env: Env, dirname: string, maxsize: int, listing: seq<string>, rows: Table, st: Pass): (r: (Step, Pass))
    requires Du(st.disk, listing) > maxsize
    ensures RowPass(env, dirname, maxsize, listing, rows, st, r)
    ensures r.0.Stopped? <==> Du(r.1.disk, listing) <= maxsize
    decreases |rows|
  {
    if |rows| == 0 then
      assert st.evicted[|st.evicted|..] == [];
      (Continue, st)
    else
      var row := rows[0];
      match TrackedFile(env, row)
      case Err(e) =>
        assert st.evicted[|st.evicted|..] == [];
        (Failed(e), st)
      case Ok(None) =>
        var r := EvictRows(env, dirname, maxsize, listing, rows[1..], st);
        RowPassSkip(env, dirname, maxsize, listing, rows, st, r);
        r
      case Ok(Some((path, recursive))) =>
        if Protocol(path) != Protocol(dirname) || path !in st.disk then
          var r := EvictRows(env, dirname, maxsize, listing, rows[1..], st);
          RowPassSkip(env, dirname, maxsize, listing, rows, st, r);
          r
        else
          match Rm(st.disk, path, recursive)
          case Err(e) =>
            assert st.evicted[|st.evicted|..] == [];
            (Failed(e), st)
          case Ok(_) =>
            var next := Evict(st, row.key, path);
            if Du(next.disk, listing) <= maxsize then
              RowPassStop(env, dirname, maxsize, listing, rows, st, path);
              (Stopped, next)
            else
              var r := EvictRows(env, dirname, maxsize, listing, rows[1..], next);
              RowPassEvict(env, dirname, maxsize, listing, rows, st, path, r);
              r
  }

  /** What the evictions `evs` leave: their paths are gone from the filesystem and
      their keys from the table, and nothing else changes. */
  lemma {:induction false} ReplayFacts(st: Pass, evs: seq<(string, string)>)
    ensures var r := Replay(st, evs);
            && (forall p :: p in r.disk <==> p in st.disk && p !in Paths(evs))
            && (forall p :: p in r.disk ==> r.disk[p] == st.disk[p])
            && (forall x :: x in r.table <==> x in st.table && x.key !in Keys(evs))
    decreases |evs|
  {
    if |evs| > 0 {
      ReplayFacts(Evict(st, evs[0].0, evs[0].1), evs[1..]);
      assert Paths(evs) == [evs[0].1] + Paths(evs[1..]);
      assert Keys(evs) == [evs[0].0] + Keys(evs[1..]);
    }
  }

  /** One untracked file removed. */
  function Discard(st: Pass, path: string): (r: Pass)
    ensures r.unknown == st.unknown + [path] && r.evicted == st.evicted && r.table == st.table
  {
    st.(disk := st.disk - {path}, unknown := st.unknown + [path])
  }

  function ReplayDiscards(st: Pass, paths: seq<string>): (r: Pass)
    ensures r.unknown == st.unknown + paths && r.evicted == st.evicted && r.table == st.table
    decreases |paths|
  {
    if |paths| == 0 then st
    else
      var r := ReplayDiscards(Discard(st, paths[0]), paths[1..]);
      assert st.unknown + paths == st.unknown + [paths[0]] + paths[1..];
      r
  }

  predicate DiscardedWhileOver(st: Pass, paths: seq<string>, listing: seq<string>, maxsize: int)
    decreases |paths|
  {
    |paths| == 0 || (Du(st.disk, listing) > maxsize && DiscardedWhileOver(Discard(st, paths[0]), paths[1..], listing, maxsize))
  }

  /** The last pass: `fs.rm(path)` (not recursive) on the files of `order` one by one,
      stopping once the directory is within the bound. It removes a prefix of `order`;
      a directory among them is IsADirectoryError. */
  function DiscardFiles(maxsize: int, listing: seq<string>, order: seq<string>, st: Pass): (r: (Step, Pass))
    requires Du(st.disk, listing) > maxsize
    ensures |st.unknown| <= |r.1.unknown| <= |st.unknown| + |order|
    ensures var n := |r.1.unknown| - |st.unknown|;
            && r.1 == ReplayDiscards(st, order[..n])
            && DiscardedWhileOver(st, order[..n], listing, maxsize)
            && (r.0.Continue? ==> n == |order|)
            && (r.0.Failed? ==> n < |order| && Rm(r.1.disk, order[n], false).Err?)
    ensures r.0.Stopped? <==> Du(r.1.disk, listing) <= maxsize
    decreases |order|
  {
    if |order| == 0 then (Continue, st)
    else
      var path := order[0];
      match Rm(st.disk, path, false)
      case Err(e) => (Failed(e), st)
      case Ok(_) =>
        var next := Discard(st, path);
        assert [path][1..] == [];
        if Du(next.disk, listing) <= maxsize then
          assert order[..1] == [path];
          (Stopped, next)
        else
          var r := DiscardFiles(maxsize, listing, order[1..], next);
          var n := |r.1.unknown| - |st.unknown|;
          assert order[..n] == [path] + order[1..][..n - 1];
          r
  }

  lemma {:induction false} ReplayDiscardsFacts(st: Pass, paths: seq<string>)
    ensures var r := ReplayDiscards(st, paths);
            && (forall p :: p in r.disk <==> p in st.disk && p !in paths)
            && (forall p :: p in r.disk ==> r.disk[p] == st.disk[p])
    decreases |paths|
  {
    if |paths| > 0 {
      ReplayDiscardsFacts(Discard(st, paths[0]), paths[1..]);
      assert forall p :: p in paths <==> p == paths[0] || p in paths[1..];
    }
  }

  /** `Unable to clean '<dirname>'. It has size <n>.` */
  function UnableToClean(dirname: string, size: nat): string
  {
    "Unable to clean " + Quoted(dirname) + ". It has size " + NatToDecimal(size) + "."
  }

  /** The files the directory still lists, oldest first, once the row pass could not
      reach the bound. */
  function LastPass(maxsize: int, dirname: string, listing: seq<string>, st: Pass): (r: (Result<()>, Pass))
    requires Du(st.disk, listing) > maxsize
  {
    var (step, st2) := DiscardFiles(maxsize, listing, ByAge(st.disk, Present(st.disk, listing)), st);
    match step
    case Stopped => (Ok(()), st2)
    case Failed(e) => (Err(e), st2)
    case Continue => (Err(ValueError(UnableToClean(dirname, Du(st2.disk, listing)))), st2)
  }

  /** Both passes, once the directory exceeds the bound. */
  function Sweeps(env: Env, policy: Policy, maxsize: int, deleteUnknownFiles: bool, dirname: string, listing: seq<string>, st: Pass): (r: (Result<()>, Pass))
    requires Du(st.disk, listing) > maxsize
    requires st.evicted == [] && st.unknown == []
  {
    var (step, st1) := EvictRows(env, dirname, maxsize, listing, EvictionOrder(policy, st.table), st);
    match step
    case Stopped => (Ok(()), st1)
    case Failed(e) => (Err(e), st1)
    case Continue =>
      if !deleteUnknownFiles then (Err(ValueError(UnableToClean(dirname, Du(st1.disk, listing)))), st1)
      else LastPass(maxsize, dirname, listing, st1)
  }

  /** `clean_cache_files(maxsize, method, delete_unknown_files)` of the earlier cleaner,
      over the listing of the cache directory. The result is the outcome and the final
      state: the rows, the filesystem and what was removed. */
  function CleanCacheFiles(env: Env, methodName: string, maxsize: int, deleteUnknownFiles: bool, dirname: string,
                           listing: seq<string>, table: Table, disk: Disk): (r: (Result<()>, Pass))
    ensures ParseMethod(methodName).Err? ==> r == (Err(ParseMethod(methodName).error), Pass(table, disk, [], []))
    ensures ParseMethod(methodName).Ok? && Du(disk, listing) <= maxsize ==> r == (Ok(()), Pass(table, disk, [], []))
  {
    match ParseMethod(methodName)
    case Err(e) => (Err(e), Pass(table, disk, [], []))
    case Ok(policy) =>
      var st := Pass(table, disk, [], []);
      if Du(disk, listing) <= maxsize then (Ok(()), st)
      else Sweeps(env, policy, maxsize, deleteUnknownFiles, dirname, listing, st)
  }

  /** A run that starts above the bound ends with the row pass's evictions replayed and
      then a run of untracked-file removals, which happen only when asked. */
  lemma SweepsReplay(env: Env, policy: Policy, maxsize: int, deleteUnknownFiles: bool, dirname: string, listing: seq<string>, st: Pass)
    requires Du(st.disk, listing) > maxsize
    requires st.evicted == [] && st.unknown == []
    ensures var r := Sweeps(env, policy, maxsize, deleteUnknownFiles, dirname, listing, st);
            && r.1 == ReplayDiscards(Replay(st, r.1.evicted), r.1.unknown)
            && (r.1.unknown != [] ==> deleteUnknownFiles)
  {
    var (step, st1) := EvictRows(env, dirname, maxsize, listing, EvictionOrder(policy, st.table), st);
    assert st1.evicted[|st.evicted|..] == st1.evicted;
    if step.Continue? && deleteUnknownFiles {
      var (step2, st2) := DiscardFiles(maxsize, listing, ByAge(st1.disk, Present(st1.disk, listing)), st1);
      assert st2.unknown[|st1.unknown|..] == st2.unknown;
    }
  }

  /** Every eviction of the row pass is justified by a row, and each was made while the
      directory was above the bound. */
  lemma SweepsEvictJustly(env: Env, policy: Policy, maxsize: int, deleteUnknownFiles: bool, dirname: string, listing: seq<string>, st: Pass)
    requires Du(st.disk, listing) > maxsize
    requires st.evicted == [] && st.unknown == []
    ensures var r := Sweeps(env, policy, maxsize, deleteUnknownFiles, dirname, listing, st);
            && Justified(env, dirname, EvictionOrder(policy, st.table), st.disk, r.1.evicted)
            && EvictedWhileOver(st, r.1.evicted, listing, maxsize)
  {
    var (step, st1) := EvictRows(env, dirname, maxsize, listing, EvictionOrder(policy, st.table), st);
    assert st1.evicted[|st.evicted|..] == st1.evicted;
  }

  /** The untracked files removed are the oldest of those still listed after the row
      pass, each removed while the directory was above the bound. */
  lemma SweepsDiscardOldestFirst(env: Env, policy: Policy, maxsize: int, deleteUnknownFiles: bool, dirname: string, listing: seq<string>, st: Pass)
    requires Du(st.disk, listing) > maxsize
    requires st.evicted == [] && st.unknown == []
    ensures var r := Sweeps(env, policy, maxsize, deleteUnknownFiles, dirname, listing, st);
            var st1 := Replay(st, r.1.evicted);
            var order := ByAge(st1.disk, Present(st1.disk, listing));
            && |r.1.unknown| <= |order| && r.1.unknown == order[..|r.1.unknown|]
            && DiscardedWhileOver(st1, r.1.unknown, listing, maxsize)
  {
    var (step, st1) := EvictRows(env, dirname, maxsize, listing, EvictionOrder(policy, st.table), st);
    assert st1.evicted[|st.evicted|..] == st1.evicted;
    if step.Continue? && deleteUnknownFiles {
      LastPassPrefix(maxsize, dirname, listing, st1);
    } else {
      assert ByAge(st1.disk, Present(st1.disk, listing))[..0] == [];
    }
  }

  lemma LastPassPrefix(maxsize: int, dirname: string, listing: seq<string>, st1: Pass)
    requires Du(st1.disk, listing) > maxsize
    requires st1.unknown == []
    ensures var r := LastPass(maxsize, dirname, listing, st1);
            var order := ByAge(st1.disk, Present(st1.disk, listing));
            && r.1.evicted == st1.evicted
            && |r.1.unknown| <= |order| && r.1.unknown == order[..|r.1.unknown|]
            && DiscardedWhileOver(st1, r.1.unknown, listing, maxsize)
  {
    var order := ByAge(st1.disk, Present(st1.disk, listing));
    var (step2, st2) := DiscardFiles(maxsize, listing, order, st1);
    assert st2.unknown[|st1.unknown|..] == st2.unknown;
  }

  /** With a valid method, the cleaner succeeds exactly when the directory ends within
      the bound. */
  lemma CleanerSucceedsWithinBound(env: Env, methodName: string, maxsize: int, deleteUnknownFiles: bool, dirname: string,
                                   listing: seq<string>, table: Table, disk: Disk)
    requires ParseMethod(methodName).Ok?
    ensures var r := CleanCacheFiles(env, methodName, maxsize, deleteUnknownFiles, dirname, listing, table, disk);
            r.0.Ok? <==> Du(r.1.disk, listing) <= maxsize
  {
  }

  /** The cleaner removes exactly what it reports, whatever the outcome: the evicted and
      untracked paths leave the filesystem and the rows of the evicted keys leave the
      table, so deletions made before a failure are kept; nothing else changes. The
      evicted paths existed, the untracked ones are listed, and untracked files go only
      when asked. */
  lemma CleanerRemovesWhatItReports(env: Env, methodName: string, maxsize: int, deleteUnknownFiles: bool, dirname: string,
                                    listing: seq<string>, table: Table, disk: Disk)
    ensures var r := CleanCacheFiles(env, methodName, maxsize, deleteUnknownFiles, dirname, listing, table, disk);
            && (forall p :: p in r.1.disk <==> p in disk && p !in Paths(r.1.evicted) && p !in r.1.unknown)
            && (forall p :: p in r.1.disk ==> r.1.disk[p] == disk[p])
            && (forall x :: x in r.1.table <==> x in table && x.key !in Keys(r.1.evicted))
            && (forall p :: p in Paths(r.1.evicted) ==> p in disk)
            && (forall p :: p in r.1.unknown ==> p in listing)
            && (!deleteUnknownFiles ==> r.1.unknown == [])
  {
    if ParseMethod(methodName).Ok? && Du(disk, listing) > maxsize {
      var st := Pass(table, disk, [], []);
      var policy := ParseMethod(methodName).value;
      SweepsReplay(env, policy, maxsize, deleteUnknownFiles, dirname, listing, st);
      SweepsEvictJustly(env, policy, maxsize, deleteUnknownFiles, dirname, listing, st);
      SweepsDiscardOldestFirst(env, policy, maxsize, deleteUnknownFiles, dirname, listing, st);
      var r := Sweeps(env, policy, maxsize, deleteUnknownFiles, dirname, listing, st);
      ReplayFacts(st, r.1.evicted);
      var st1 := Replay(st, r.1.evicted);
      ReplayDiscardsFacts(st1, r.1.unknown);
      forall p | p in Paths(r.1.evicted) ensures p in disk {
        var i :| 0 <= i < |r.1.evicted| && Paths(r.1.evicted)[i] == p;
        assert r.1.evicted[i] in r.1.evicted;
      }
      forall p | p in r.1.unknown ensures p in listing {
        var order := ByAge(st1.disk, Present(st1.disk, listing));
        assert p in order;
        assert p in multiset(order);
      }
    }
  }

  /** Each eviction names a file that existed and the key of a row that describes it on
      the directory's filesystem, and every removal, of either pass, was made while the
      directory was above the bound: the cleaner stops as soon as it is within it. */
  lemma CleanerStopsAtBound(env: Env, methodName: string, maxsize: int, deleteUnknownFiles: bool, dirname: string,
                            listing: seq<string>, table: Table, disk: Disk)
    ensures var r := CleanCacheFiles(env, methodName, maxsize, deleteUnknownFiles, dirname, listing, table, disk);
            var st := Pass(table, disk, [], []);
            && Justified(env, dirname, table, disk, r.1.evicted)
            && EvictedWhileOver(st, r.1.evicted, listing, maxsize)
            && DiscardedWhileOver(Replay(st, r.1.evicted), r.1.unknown, listing, maxsize)
  {
    var st := Pass(table, disk, [], []);
    if ParseMethod(methodName).Ok? && Du(disk, listing) > maxsize {
      var policy := ParseMethod(methodName).value;
      SweepsEvictJustly(env, policy, maxsize, deleteUnknownFiles, dirname, listing, st);
      SweepsDiscardOldestFirst(env, policy, maxsize, deleteUnknownFiles, dirname, listing, st);
      var r := Sweeps(env, policy, maxsize, deleteUnknownFiles, dirname, listing, st);
      JustifiedInTable(env, dirname, EvictionOrder(policy, table), table, disk, r.1.evicted);
    } else {
      assert Replay(st, []) == st;
    }
  }

  lemma JustifiedInTable(env: Env, dirname: string, rows: Table, table: Table, disk: Disk, evs: seq<(string, string)>)
    requires multiset(rows) == multiset(table)
    requires Justified(env, dirname, rows, disk, evs)
    ensures Justified(env, dirname, table, disk, evs)
  {
    forall row | row in rows ensures row in table {
      assert row in multiset(rows);
    }
    forall e | e in evs
      ensures JustifiedOne(env, dirname, table, disk, e)
    {
      RowForSameRows(env, dirname, rows, table, e);
    }
  }

  /** Untracked files go oldest-modified first (ties by path). */
  lemma CleanerUnknownOldestFirst(env: Env, methodName: string, maxsize: int, deleteUnknownFiles: bool, dirname: string,
                                  listing: seq<string>, table: Table, disk: Disk)
    ensures var r := CleanCacheFiles(env, methodName, maxsize, deleteUnknownFiles, dirname, listing, table, disk);
            Sorting.Sorted(r.1.unknown, AgeOrder(disk))
  {
    var st := Pass(table, disk, [], []);
    if ParseMethod(methodName).Ok? && Du(disk, listing) > maxsize {
      var policy := ParseMethod(methodName).value;
      SweepsDiscardOldestFirst(env, policy, maxsize, deleteUnknownFiles, dirname, listing, st);
      var r := Sweeps(env, policy, maxsize, deleteUnknownFiles, dirname, listing, st);
      ReplayFacts(st, r.1.evicted);
      var st1 := Replay(st, r.1.evicted);
      var order := ByAge(st1.disk, Present(st1.disk, listing));
      var u := r.1.unknown;
      forall i, j | 0 <= i < j < |u| ensures AgeOrder(disk)(u[i], u[j]) {
        assert u[i] == order[i] && u[j] == order[j];
        assert AgeOrder(st1.disk)(order[i], order[j]);
        assert order[i] in multiset(order) && order[j] in multiset(order);
        assert order[i] in st1.disk && order[j] in st1.disk;
      }
    }
  }
}

=== FILE: codec.dfy ===
/** The encoder registry and `dumps` of cacholote/encode.py (`FILECACHE_ENCODERS`,
    `filecache_default`, `dumps`, `dumps_python_call`) and the IO part of
    `register_all` in cacholote/extra_encoders.py, with the round trip through
    `loads`. */
module Codec {
  import opened Results
  import opened Text
  import opened IsoDates
  import opened Py
  import opened Json
  import opened EngineSettings
  import Base64
  import Encode
  import Files
  import Decode

  /** The classes encoders are registered for. */
  datatype TypeTag =
    | ObjectType
    | CallableType
    | BytesType
    | DateType
    | DateTimeType
    | TimedeltaType
    | IoType(kind: IoKind)

  datatype EncoderKind =
    | PickableEncoder
    | PythonObjectEncoder
    | BytesEncoder
    | DateEncoder
    | DateTimeEncoder
    | TimedeltaEncoder
    | IoObjectEncoder

  type Registry = seq<(TypeTag, EncoderKind)>

  /** `isinstance(v, t)`; a datetime is also a date. */
  predicate IsInstance(v: Value, t: TypeTag)
  {
    match t
    case ObjectType => true
    case CallableType => IsCallable(v)
    case BytesType => v.VBytes?
    case DateType => v.VDate? || v.VDateTime?
    case DateTimeType => v.VDateTime?
    case TimedeltaType => v.VTimedelta?
    case IoType(k) => v.VFile? && v.io.kind == k
  }

  /** `FILECACHE_ENCODERS` as the module defines it. */
  const DefaultRegistry: Registry := [
    (ObjectType, PickableEncoder),
    (CallableType, PythonObjectEncoder),
    (BytesType, BytesEncoder),
    (DateType, DateEncoder),
    (DateTimeType, DateTimeEncoder),
    (TimedeltaType, TimedeltaEncoder)]

  const IoKinds: seq<IoKind> := [BufferedReader, TextIOWrapper, AbstractBufferedFile, LocalFileOpener]

  /** `register_all` (IO part): appends the file encoder for the four file classes. */
  function RegisterAll(reg: Registry): (r: Registry)
    ensures |r| == |reg| + 4 && r[..|reg|] == reg
    ensures forall i :: |reg| <= i < |r| ==> r[i].1 == IoObjectEncoder && r[i].0 == IoType(IoKinds[i - |reg|])
  {
    reg + seq(4, i requires 0 <= i < 4 => (IoType(IoKinds[i]), IoObjectEncoder))
  }

  /** `obj.isoformat()` of a date or a datetime. */
  function IsoFormat(v: Value): string
    requires v.VDate? || v.VDateTime?
  {
    if v.VDate? then DateIsoFormat(v.date) else DateTimeIsoFormat(v.datetime)
  }

  /** One encoder applied to a value it was selected for; the file encoder may store a
      file, so the filesystem afterwards is part of the outcome. */
  function RunEncoder(env: Env, s: Settings, disk: Disk, e: EncoderKind, v: Value, now: int): (r: (Result<Value>, Disk))
    ensures e != IoObjectEncoder ==> r.1 == disk
  {
    if e == IoObjectEncoder then
      if v.VFile? then Files.DictifyIoObject(env, s, disk, v.io, now) else (Err(AttributeError("mode")), disk)
    else (RunValueEncoder(env, e, v), disk)
  }

  /** The encoders that only read the value. */
  function RunValueEncoder(env: Env, e: EncoderKind, v: Value): Result<Value>
    requires e != IoObjectEncoder
  {
    match e
    case PickableEncoder => Encode.DictifyPickable(env, v)
    case PythonObjectEncoder =>
      if v.VFunc? then Encode.DictifyPythonObject(Encode.Function(v.callable)) else Err(TypeError("not a callable"))
    case BytesEncoder =>
      if v.VBytes? then Encode.DictifyBytes(env, v.data) else Err(TypeError("not bytes"))
    case DateEncoder =>
      if v.VDate? || v.VDateTime? then
        Encode.DictifyPythonCall(env, Encode.Named("datetime:date.fromisoformat"), [VStr(IsoFormat(v))], [])
      else Err(AttributeError("isoformat"))
    case DateTimeEncoder =>
      if v.VDateTime? then Encode.DictifyDateTime(env, v.datetime) else Err(AttributeError("isoformat"))
    case TimedeltaEncoder =>
      if v.VTimedelta? then Encode.DictifyTimedelta(env, v.delta) else Err(AttributeError("days"))
    case IoObjectEncoder => Err(AttributeError("mode"))
  }

  /** `filecache_default(v, reg)`: the encoders whose class `v` is an instance of are
      tried from the last registered to the first, and the first that succeeds gives the
      result. A failing encoder's error is raised at once when
      `raise_all_encoding_errors` is set and skipped otherwise; when none succeeds the
      result is EncodeError. */
  function FilecacheDefault(env: Env, s: Settings, disk: Disk, reg: Registry, v: Value, now: int): (r: (Result<Value>, Disk))
    ensures r.0.Err? && !s.raiseAllEncodingErrors ==> r.0.error == EncodeError("can't encode object")
    ensures (forall i :: 0 <= i < |reg| ==> !IsInstance(v, reg[i].0)) ==> r == (Err(EncodeError("can't encode object")), disk)
    decreases |reg|
  {
    if |reg| == 0 then (Err(EncodeError("can't encode object")), disk)
    else
      var (t, e) := reg[|reg| - 1];
      if IsInstance(v, t) then
        var (out, after) := RunEncoder(env, s, disk, e, v, now);
        if out.Ok? || s.raiseAllEncodingErrors then (out, after)
        else FilecacheDefault(env, s, after, reg[..|reg| - 1], v, now)
      else FilecacheDefault(env, s, disk, reg[..|reg| - 1], v, now)
  }

  /** The last registered encoder that applies to `v` decides when it succeeds, and also
      when it fails and errors are raised. */
  lemma {:induction false} LastMatchingEncoderDecides(env: Env, s: Settings, disk: Disk, reg: Registry, v: Value, now: int, k: nat)
    requires k < |reg| && IsInstance(v, reg[k].0)
    requires forall i :: k < i < |reg| ==> !IsInstance(v, reg[i].0)
    requires RunEncoder(env, s, disk, reg[k].1, v, now).0.Ok? || s.raiseAllEncodingErrors
    ensures FilecacheDefault(env, s, disk, reg, v, now) == RunEncoder(env, s, disk, reg[k].1, v, now)
    decreases |reg|
  {
    if k < |reg| - 1 {
      var init := reg[..|reg| - 1];
      assert init[k] == reg[k];
      assert forall i :: k < i < |init| ==> init[i] == reg[i];
      LastMatchingEncoderDecides(env, s, disk, init, v, now, k);
    }
  }

  /** When errors are not raised, a failing encoder is passed over for the next earlier
      one that applies. */
  lemma FailingEncoderSkipped(env: Env, s: Settings, disk: Disk, reg: Registry, v: Value, now: int)
    requires |reg| > 0 && IsInstance(v, reg[|reg| - 1].0)
    requires !s.raiseAllEncodingErrors
    requires RunEncoder(env, s, disk, reg[|reg| - 1].1, v, now).0.Err?
    ensures var after := RunEncoder(env, s, disk, reg[|reg| - 1].1, v, now).1;
            FilecacheDefault(env, s, disk, reg, v, now) == FilecacheDefault(env, s, after, reg[..|reg| - 1], v, now)
  {
  }

  /** Under the default registry every value has an encoder (`object` takes all), so
      only the encoders' own errors can surface. */
  lemma ObjectAlwaysApplies(v: Value)
    ensures IsInstance(v, DefaultRegistry[0].0)
  {
  }

  /** A datetime is encoded by the datetime encoder, not the date encoder registered
      before it. */
  lemma DateTimeBeforeDate(env: Env, s: Settings, disk: Disk, t: PyDateTime, now: int)
    requires StdlibPresent(env)
    ensures FilecacheDefault(env, s, disk, DefaultRegistry, VDateTime(t), now)
         == (Ok(Encode.CallRecord("datetime:datetime.fromisoformat", [VStr(DateTimeIsoFormat(t))], [])), disk)
  {
    var out := Ok(Encode.CallRecord("datetime:datetime.fromisoformat", [VStr(DateTimeIsoFormat(t))], []));
    assert RunEncoder(env, s, disk, DateTimeEncoder, VDateTime(t), now) == (out, disk) by {
      DateTimeEncoderOfDateTime(env, s, disk, t, now);
      Encode.DictifyDateTimeRecord(env, t);
    }
    assert DefaultRegistry[4].1 == DateTimeEncoder;
    DefaultEncoderDecides(env, s, disk, VDateTime(t), now, 4, out);
  }

  lemma DateTimeEncoderOfDateTime(env: Env, s: Settings, disk: Disk, t: PyDateTime, now: int)
    ensures RunEncoder(env, s, disk, DateTimeEncoder, VDateTime(t), now) == (Encode.DictifyDateTime(env, t), disk)
  {
    assert RunEncoder(env, s, disk, DateTimeEncoder, VDateTime(t), now) == (RunValueEncoder(env, DateTimeEncoder, VDateTime(t)), disk);
  }

  /** The default registry entry that serves one of the built-in types decides the
      encoding when it succeeds. */
  lemma DefaultEncoderDecides(env: Env, s: Settings, disk: Disk, v: Value, now: int, k: nat, out: Result<Value>)
    requires (k == 2 && v.VBytes?) || (k == 3 && v.VDate?) || (k == 4 && v.VDateTime?) || (k == 5 && v.VTimedelta?)
    requires out.Ok? && RunEncoder(env, s, disk, DefaultRegistry[k].1, v, now) == (out, disk)
    ensures FilecacheDefault(env, s, disk, DefaultRegistry, v, now) == (out, disk)
  {
    DefaultRegistryServes(v, k);
    LastMatchingEncoderDecides(env, s, disk, DefaultRegistry, v, now, k);
  }

  /** The default registry entry that serves each value `default` is given for the
      built-in types: nothing registered after it accepts the value. */
  lemma DefaultRegistryServes(v: Value, k: nat)
    requires (k == 2 && v.VBytes?) || (k == 3 && v.VDate?) || (k == 4 && v.VDateTime?) || (k == 5 && v.VTimedelta?)
    ensures k < |DefaultRegistry| && IsInstance(v, DefaultRegistry[k].0)
    ensures forall i :: k < i < |DefaultRegistry| ==> !IsInstance(v, DefaultRegistry[i].0)
  {
  }

  /** Under the default registry bytes are written by the bytes encoder: the
      encoders registered after it are for other types. */
  lemma DefaultEncodesBytes(env: Env, s: Settings, disk: Disk, bs: seq<byte>, now: int)
    ensures FilecacheDefault(env, s, disk, DefaultRegistry, VBytes(bs), now)
         == (Ok(Encode.CallRecord("binascii:a2b_base64", [VStr(Base64.B2aBase64(bs))], [])), disk)
  {
    var out := Encode.DictifyBytes(env, bs);
    Encode.DictifyBytesRecord(env, bs);
    BytesEncoderOfBytes(env, s, disk, bs, now);
    assert DefaultRegistry[2].1 == BytesEncoder;
    DefaultEncoderDecides(env, s, disk, VBytes(bs), now, 2, out);
  }

  lemma BytesEncoderOfBytes(env: Env, s: Settings, disk: Disk, bs: seq<byte>, now: int)
    ensures RunEncoder(env, s, disk, BytesEncoder, VBytes(bs), now) == (Encode.DictifyBytes(env, bs), disk)
  {
    assert RunValueEncoder(env, BytesEncoder, VBytes(bs)) == Encode.DictifyBytes(env, bs);
  }

  lemma DateEncoderOfDate(env: Env, s: Settings, disk: Disk, d: PyDate, now: int)
    ensures RunEncoder(env, s, disk, DateEncoder, VDate(d), now) == (Encode.DictifyDate(env, d), disk)
  {
    var text := IsoFormat(VDate(d));
    assert text == DateIsoFormat(d);
    assert RunEncoder(env, s, disk, DateEncoder, VDate(d), now) == (RunValueEncoder(env, DateEncoder, VDate(d)), disk);
    assert RunValueEncoder(env, DateEncoder, VDate(d))
        == Encode.DictifyPythonCall(env, Encode.Named("datetime:date.fromisoformat"), [VStr(text)], []);
  }

  /** A plain date is written by the date encoder. */
  lemma DefaultEncodesDate(env: Env, s: Settings, disk: Disk, d: PyDate, now: int)
    requires StdlibPresent(env)
    ensures FilecacheDefault(env, s, disk, DefaultRegistry, VDate(d), now)
         == (Ok(Encode.CallRecord("datetime:date.fromisoformat", [VStr(DateIsoFormat(d))], [])), disk)
  {
    DefaultRegistryServes(VDate(d), 3);
    DateEncoderOfDate(env, s, disk, d, now);
    Encode.DictifyDateRecord(env, d);
    assert DefaultRegistry[3].1 == DateEncoder;
    LastMatchingEncoderDecides(env, s, disk, DefaultRegistry, VDate(d), now, 3);
  }

  /** A timedelta is written by the timedelta encoder, the last one registered. */
  lemma DefaultEncodesTimedelta(env: Env, s: Settings, disk: Disk, td: PyTimedelta, now: int)
    requires StdlibPresent(env)
    ensures FilecacheDefault(env, s, disk, DefaultRegistry, VTimedelta(td), now)
         == (Ok(Encode.CallRecord("datetime:timedelta", [VInt(td.days), VInt(td.seconds), VInt(td.micros)], [])), disk)
  {
    var out := Ok(Encode.CallRecord("datetime:timedelta", [VInt(td.days), VInt(td.seconds), VInt(td.micros)], []));
    assert RunEncoder(env, s, disk, TimedeltaEncoder, VTimedelta(td), now) == (out, disk) by {
      assert RunEncoder(env, s, disk, TimedeltaEncoder, VTimedelta(td), now) == (RunValueEncoder(env, TimedeltaEncoder, VTimedelta(td)), disk);
      Encode.DictifyTimedeltaRecord(env, td);
    }
    assert DefaultRegistry[5].1 == TimedeltaEncoder;
    DefaultEncoderDecides(env, s, disk, VTimedelta(td), now, 5, out);
  }

  /** After `register_all`, an open file of one of the four classes goes to the file
      encoder. */
  lemma RegisteredIoEncoderDecides(env: Env, s: Settings, disk: Disk, reg: Registry, io: IoObject, now: int)
    requires Files.DictifyIoObject(env, s, disk, io, now).0.Ok? || s.raiseAllEncodingErrors
    ensures FilecacheDefault(env, s, disk, RegisterAll(reg), VFile(io), now) == Files.DictifyIoObject(env, s, disk, io, now)
  {
    var r := RegisterAll(reg);
    var k := |reg| + IndexOfKind(io.kind);
    assert r[k] == (IoType(io.kind), IoObjectEncoder);
    forall i | k < i < |r| ensures !IsInstance(VFile(io), r[i].0) {
      assert r[i].0 == IoType(IoKinds[i - |reg|]);
    }
    LastMatchingEncoderDecides(env, s, disk, r, VFile(io), now, k);
  }

  function IndexOfKind(k: IoKind): (i: nat)
    ensures i < 4 && IoKinds[i] == k
  {
    match k
    case BufferedReader => 0
    case TextIOWrapper => 1
    case AbstractBufferedFile => 2
    case LocalFileOpener => 3
  }

  /** `json.dumps(v, default=filecache_default)` as a document tree: JSON values are
      kept, anything else is replaced by what `default` returns, which is encoded in
      turn. `fuel` bounds the nesting of `default` calls (Python's recursion limit). */
  function ToJson(env: Env, s: Settings, disk: Disk, reg: Registry, v: Value, fuel: nat, now: int): (r: (Result<Json>, Disk))
    decreases fuel, v, 1
  {
    match v
    case VNone => (Ok(JNull), disk)
    case VBool(b) => (Ok(JBool(b)), disk)
    case VInt(i) => (Ok(JInt(i)), disk)
    case VStr(str) => (Ok(JStr(str)), disk)
    case VList(items) =>
      var (out, after) := ToJsonItems(env, s, disk, reg, v, items, fuel, now);
      if out.Err? then (Err(out.error), after) else (Ok(JArr(out.value)), after)
    case VDict(entries) =>
      var (out, after) := ToJsonFields(env, s, disk, reg, v, entries, fuel, now);
      if out.Err? then (Err(out.error), after) else (Ok(JObj(out.value)), after)
    case _ =>
      if fuel == 0 then (Err(RecursionError), disk)
      else
        var (d, after) := FilecacheDefault(env, s, disk, reg, v, now);
        if d.Err? then (Err(d.error), after) else ToJson(env, s, after, reg, d.value, fuel - 1, now)
  }

  function ToJsonItems(env: Env, s: Settings, disk: Disk, reg: Registry, ghost parent: Value, items: seq<Value>, fuel: nat, now: int): (r: (Result<seq<Json>>, Disk))
    requires forall k :: 0 <= k < |items| ==> items[k] < parent
    ensures r.0.Ok? ==> |r.0.value| == |items|
    decreases fuel, parent, 0, |items|
  {
    if |items| == 0 then (Ok([]), disk)
    else
      var (head, d1) := ToJson(env, s, disk, reg, items[0], fuel, now);
      if head.Err? then (Err(head.error), d1)
      else
        var (tail, d2) := ToJsonItems(env, s, d1, reg, parent, items[1..], fuel, now);
        if tail.Err? then (Err(tail.error), d2) else (Ok([head.value] + tail.value), d2)
  }

  function ToJsonFields(env: Env, s: Settings, disk: Disk, reg: Registry, ghost parent: Value, entries: Entries, fuel: nat, now: int): (r: (Result<seq<(string, Json)>>, Disk))
    requires forall k :: 0 <= k < |entries| ==> entries[k].1 < parent
    ensures r.0.Ok? ==> |r.0.value| == |entries|
    ensures r.0.Ok? ==> forall k :: 0 <= k < |entries| ==> r.0.value[k].0 == entries[k].0
    decreases fuel, parent, 0, |entries|
  {
    if |entries| == 0 then (Ok([]), disk)
    else
      var (head, d1) := ToJson(env, s, disk, reg, entries[0].1, fuel, now);
      if head.Err? then (Err(head.error), d1)
      else
        var (tail, d2) := ToJsonFields(env, s, d1, reg, parent, entries[1..], fuel, now);
        if tail.Err? then (Err(tail.error), d2) else (Ok([(entries[0].0, head.value)] + tail.value), d2)
  }

  /** Values JSON represents directly. */
  predicate Plain(v: Value)
  {
    match v
    case VNone => true
    case VBool(_) => true
    case VInt(_) => true
    case VStr(_) => true
    case VList(items) => forall k :: 0 <= k < |items| ==> Plain(items[k])
    case VDict(entries) => forall k :: 0 <= k < |entries| ==> Plain(entries[k].1)
    case _ => false
  }

  /** The document of a plain value. */
  function PlainJson(v: Value): Json
    requires Plain(v)
  {
    match v
    case VNone => JNull
    case VBool(b) => JBool(b)
    case VInt(i) => JInt(i)
    case VStr(str) => JStr(str)
    case VList(items) => JArr(seq(|items|, k requires 0 <= k < |items| => PlainJson(items[k])))
    case VDict(entries) => JObj(seq(|entries|, k requires 0 <= k < |entries| => (entries[k].0, PlainJson(entries[k].1))))
  }

  /** Plain values never reach `default`: the encoding is their document and the
      filesystem is untouched. */
  lemma {:induction false} ToJsonPlain(env: Env, s: Settings, disk: Disk, reg: Registry, v: Value, fuel: nat, now: int)
    requires Plain(v)
    ensures ToJson(env, s, disk, reg, v, fuel, now) == (Ok(PlainJson(v)), disk)
    decreases v, 1
  {
    match v
    case VList(items) =>
      ToJsonItemsPlain(env, s, disk, reg, v, items, fuel, now);
      assert seq(|items|, k requires 0 <= k < |items| => PlainJson(items[k]))
          == ToJsonItems(env, s, disk, reg, v, items, fuel, now).0.value;
    case VDict(entries) =>
      ToJsonFieldsPlain(env, s, disk, reg, v, entries, fuel, now);
      assert seq(|entries|, k requires 0 <= k < |entries| => (entries[k].0, PlainJson(entries[k].1)))
          == ToJsonFields(env, s, disk, reg, v, entries, fuel, now).0.value;
    case _ =>
  }

  lemma {:induction false} ToJsonItemsPlain(env: Env, s: Settings, disk: Disk, reg: Registry, parent: Value, items: seq<Value>, fuel: nat, now: int)
    requires forall k :: 0 <= k < |items| ==> items[k] < parent && Plain(items[k])
    ensures var r := ToJsonItems(env, s, disk, reg, parent, items, fuel, now);
            r.0.Ok? && r.1 == disk && forall k :: 0 <= k < |items| ==> r.0.value[k] == PlainJson(items[k])
    decreases parent, 0, |items|
  {
    if |items| > 0 {
      ToJsonPlain(env, s, disk, reg, items[0], fuel, now);
      ToJsonItemsPlain(env, s, disk, reg, parent, items[1..], fuel, now);
    }
  }

  lemma {:induction false} ToJsonFieldsPlain(env: Env, s: Settings, disk: Disk, reg: Registry, parent: Value, entries: Entries, fuel: nat, now: int)
    requires forall k :: 0 <= k < |entries| ==> entries[k].1 < parent && Plain(entries[k].1)
    ensures var r := ToJsonFields(env, s, disk, reg, parent, entries, fuel, now);
            r.0.Ok? && r.1 == disk && forall k :: 0 <= k < |entries| ==> r.0.value[k] == (entries[k].0, PlainJson(entries[k].1))
    decreases parent, 0, |entries|
  {
    if |entries| > 0 {
      ToJsonPlain(env, s, disk, reg, entries[0].1, fuel, now);
      ToJsonFieldsPlain(env, s, disk, reg, parent, entries[1..], fuel, now);
    }
  }

  /** Unless every encoding error is to be raised, the encoding fails only because no
      encoder could encode a value, or because the nesting exceeds the bound. */
  lemma {:induction false} ToJsonErrors(env: Env, s: Settings, disk: Disk, reg: Registry, v: Value, fuel: nat, now: int)
    requires !s.raiseAllEncodingErrors
    ensures var r := ToJson(env, s, disk, reg, v, fuel, now);
            r.0.Err? ==> r.0.error == EncodeError("can't encode object") || r.0.error == RecursionError
    decreases fuel, v, 1
  {
    if v.VList? {
      ToJsonItemsErrors(env, s, disk, reg, v, v.items, fuel, now);
    } else if v.VDict? {
      ToJsonFieldsErrors(env, s, disk, reg, v, v.entries, fuel, now);
    } else if !(v.VNone? || v.VBool? || v.VInt? || v.VStr?) && fuel > 0 {
      var (d, after) := FilecacheDefault(env, s, disk, reg, v, now);
      if d.Ok? {
        ToJsonErrors(env, s, after, reg, d.value, fuel - 1, now);
      }
    }
  }

  lemma {:induction false} ToJsonItemsErrors(env: Env, s: Settings, disk: Disk, reg: Registry, parent: Value, items: seq<Value>, fuel: nat, now: int)
    requires !s.raiseAllEncodingErrors
    requires forall k :: 0 <= k < |items| ==> items[k] < parent
    ensures var r := ToJsonItems(env, s, disk, reg, parent, items, fuel, now);
            r.0.Err? ==> r.0.error == EncodeError("can't encode object") || r.0.error == RecursionError
    decreases fuel, parent, 0, |items|
  {
    if |items| > 0 {
      ToJsonErrors(env, s, disk, reg, items[0], fuel, now);
      var (head, d1) := ToJson(env, s, disk, reg, items[0], fuel, now);
      ToJsonItemsErrors(env, s, d1, reg, parent, items[1..], fuel, now);
    }
  }

  lemma {:induction false} ToJsonFieldsErrors(env: Env, s: Settings, disk: Disk, reg: Registry, parent: Value, entries: Entries, fuel: nat, now: int)
    requires !s.raiseAllEncodingErrors
    requires forall k :: 0 <= k < |entries| ==> entries[k].1 < parent
    ensures var r := ToJsonFields(env, s, disk, reg, parent, entries, fuel, now);
            r.0.Err? ==> r.0.error == EncodeError("can't encode object") || r.0.error == RecursionError
    decreases fuel, parent, 0, |entries|
  {
    if |entries| > 0 {
      ToJsonErrors(env, s, disk, reg, entries[0].1, fuel, now);
      var (head, d1) := ToJson(env, s, disk, reg, entries[0].1, fuel, now);
      ToJsonFieldsErrors(env, s, d1, reg, parent, entries[1..], fuel, now);
    }
  }

  /** The `json.dumps` options `dumps` fills in; `None` is an option the caller did
      not pass. A caller-supplied `default` is not modelled: it is always the
      registry's. */
  datatype DumpsOptions = DumpsOptions(separators: Option<(string, string)>, skipkeys: Option<bool>)

  /** `kwargs.setdefault(...)` for the separators and `skipkeys`. */
  function ApplyDumpsDefaults(o: DumpsOptions): (r: DumpsOptions)
    ensures r.separators.Some? && r.skipkeys.Some?
    ensures o.separators.Some? ==> r.separators == o.separators
    ensures o.skipkeys.Some? ==> r.skipkeys == o.skipkeys
    ensures o.separators.None? ==> r.separators == Some((",", ":"))
    ensures o.skipkeys.None? ==> r.skipkeys == Some(false)
  {
    DumpsOptions(
      if o.separators.Some? then o.separators else Some((",", ":")),
      if o.skipkeys.Some? then o.skipkeys else Some(false))
  }

  lemma ApplyDumpsDefaultsIdempotent(o: DumpsOptions)
    ensures ApplyDumpsDefaults(ApplyDumpsDefaults(o)) == ApplyDumpsDefaults(o)
  {
  }

  /** `dumps(v, **options)`: the JSON text, with the registry's encoders as `default`.
      Dictionary keys are always strings here, so `skipkeys` changes nothing. Plain
      values are written as they are with nothing stored; the text is ASCII whenever the
      separators are, and so always with the default ones; unless every encoding error
      is to be raised, the only errors are EncodeError and RecursionError. */
  function Dumps(env: Env, s: Settings, disk: Disk, reg: Registry, v: Value, o: DumpsOptions, fuel: nat, now: int): (r: (Result<string>, Disk))
    ensures var doc := ToJson(env, s, disk, reg, v, fuel, now);
            var seps := ApplyDumpsDefaults(o).separators.value;
            r.1 == doc.1 && (r.0.Ok? <==> doc.0.Ok?) &&
            (r.0.Ok? ==> r.0.value == Serialize(doc.0.value, seps.0, seps.1))
    ensures var seps := ApplyDumpsDefaults(o).separators.value;
            Plain(v) ==> r == (Ok(Serialize(PlainJson(v), seps.0, seps.1)), disk)
    ensures var seps := ApplyDumpsDefaults(o).separators.value;
            r.0.Ok? && IsAscii(seps.0) && IsAscii(seps.1) ==> IsAscii(r.0.value)
    ensures r.0.Ok? && o.separators.None? ==> IsAscii(r.0.value)
    ensures r.0.Err? && !s.raiseAllEncodingErrors ==>
              r.0.error == EncodeError("can't encode object") || r.0.error == RecursionError
  {
    var seps := ApplyDumpsDefaults(o).separators.value;
    DumpsFacts(env, s, disk, reg, v, seps, fuel, now);
    var (doc, after) := ToJson(env, s, disk, reg, v, fuel, now);
    if doc.Err? then (Err(doc.error), after) else (Ok(Serialize(doc.value, seps.0, seps.1)), after)
  }

  /** What `Dumps` states about plain values, ASCII text and the errors raised. */
  lemma DumpsFacts(env: Env, s: Settings, disk: Disk, reg: Registry, v: Value, seps: (string, string), fuel: nat, now: int)
    ensures Plain(v) ==> ToJson(env, s, disk, reg, v, fuel, now) == (Ok(PlainJson(v)), disk)
    ensures var doc := ToJson(env, s, disk, reg, v, fuel, now).0;
            doc.Ok? && IsAscii(seps.0) && IsAscii(seps.1) ==> IsAscii(Serialize(doc.value, seps.0, seps.1))
    ensures IsAscii(",") && IsAscii(":")
    ensures var doc := ToJson(env, s, disk, reg, v, fuel, now).0;
            doc.Err? && !s.raiseAllEncodingErrors ==>
              doc.error == EncodeError("can't encode object") || doc.error == RecursionError
  {
    var doc := ToJson(env, s, disk, reg, v, fuel, now).0;
    if Plain(v) {
      ToJsonPlain(env, s, disk, reg, v, fuel, now);
    }
    if doc.Ok? && IsAscii(seps.0) && IsAscii(seps.1) {
      SerializeAscii(doc.value, seps.0, seps.1);
    }
    if !s.raiseAllEncodingErrors {
      ToJsonErrors(env, s, disk, reg, v, fuel, now);
    }
  }

  /** `dumps_python_call`: the compact JSON text of the call record. A name without a
      ':' is refused with ValueError before anything is stored, and the text is ASCII. */
  function DumpsPythonCall(env: Env, s: Settings, disk: Disk, reg: Registry, t: Encode.Target,
                           args: seq<Value>, kwargs: Entries, fuel: nat, now: int): (r: (Result<string>, Disk))
    ensures Encode.DictifyPythonCall(env, t, args, kwargs).Err? ==> r.0.Err? && r.1 == disk
    ensures Encode.DictifyPythonCall(env, t, args, kwargs).Ok? ==>
              r == Dumps(env, s, disk, reg, Encode.DictifyPythonCall(env, t, args, kwargs).value, DumpsOptions(None, None), fuel, now)
    ensures t.Named? && ':' !in t.fqn ==> r.0.Err? && r.0.error.ValueError? && r.1 == disk
    ensures r.0.Ok? ==> IsAscii(r.0.value)
  {
    match Encode.DictifyPythonCall(env, t, args, kwargs)
    case Err(e) => (Err(e), disk)
    case Ok(record) => Dumps(env, s, disk, reg, record, DumpsOptions(None, None), fuel, now)
  }

  /** The order the keyword arguments are passed in does not change the text, as long
      as the callable binds both orders alike. */
  lemma DumpsPythonCallIgnoresKeywordOrder(env: Env, s: Settings, disk: Disk, reg: Registry, t: Encode.Target,
                                           args: seq<Value>, k1: Entries, k2: Entries, fuel: nat, now: int)
    requires UniqueKeys(k1) && multiset(k1) == multiset(k2)
    requires forall f :: Bind(env, f, args, k1, false) == Bind(env, f, args, k2, false)
    ensures DumpsPythonCall(env, s, disk, reg, t, args, k1, fuel, now) == DumpsPythonCall(env, s, disk, reg, t, args, k2, fuel, now)
  {
    Encode.DictifyPythonCallIgnoresKeywordOrder(env, t, args, k1, k2);
  }

  /** The record of a call whose arguments are plain is rendered compactly, with no
      encoder involved and nothing written. */
  lemma DumpsPythonCallPlain(env: Env, s: Settings, disk: Disk, reg: Registry, t: Encode.Target,
                             args: seq<Value>, kwargs: Entries, fuel: nat, now: int)
    requires Encode.DictifyPythonCall(env, t, args, kwargs).Ok?
    requires Plain(Encode.DictifyPythonCall(env, t, args, kwargs).value)
    ensures var record := Encode.DictifyPythonCall(env, t, args, kwargs).value;
            DumpsPythonCall(env, s, disk, reg, t, args, kwargs, fuel, now) == (Ok(Serialize(PlainJson(record), ",", ":")), disk)
  {
    ToJsonPlain(env, s, disk, reg, Encode.DictifyPythonCall(env, t, args, kwargs).value, fuel, now);
  }

  /** Decoding a plain document with no dictionaries gives back the value. */
  lemma {:induction false} LoadsPlainList(env: Env, disk: Disk, v: Value)
    requires Plain(v) && NoDicts(v)
    ensures Decode.Loads(env, disk, PlainJson(v)) == Ok(v)
    decreases v, 1
  {
    if v.VList? {
      var items := v.items;
      var docs := seq(|items|, k requires 0 <= k < |items| => PlainJson(items[k]));
      LoadsPlainItems(env, disk, v, PlainJson(v), items, docs);
    }
  }

  lemma {:induction false} LoadsPlainItems(env: Env, disk: Disk, owner: Value, parent: Json, items: seq<Value>, docs: seq<Json>)
    requires |docs| == |items|
    requires forall k :: 0 <= k < |items| ==> Plain(items[k]) && NoDicts(items[k]) && docs[k] == PlainJson(items[k])
    requires forall k :: 0 <= k < |items| ==> docs[k] < parent && items[k] < owner
    ensures Decode.LoadsItems(env, disk, parent, docs) == Ok(items)
    decreases owner, 0, |items|
  {
    if |items| > 0 {
      LoadsPlainList(env, disk, items[0]);
      LoadsPlainItems(env, disk, owner, parent, items[1..], docs[1..]);
      assert items == [items[0]] + items[1..];
    }
  }

  predicate NoDicts(v: Value)
  {
    match v
    case VDict(_) => false
    case VList(items) => forall k :: 0 <= k < |items| ==> NoDicts(items[k])
    case _ => true
  }

  /** The fields of a plain dictionary's document, entry by entry. */
  lemma PlainDictFields(entries: Entries)
    requires forall k :: 0 <= k < |entries| ==> Plain(entries[k].1)
    ensures Plain(VDict(entries)) && PlainJson(VDict(entries)).JObj?
    ensures var fields := PlainJson(VDict(entries)).fields;
            |fields| == |entries| &&
            forall k :: 0 <= k < |entries| ==> fields[k] == (entries[k].0, PlainJson(entries[k].1))
  {
  }

  /** Decoding the document of a dictionary of plain, dictionary-free values hands that
      dictionary to the object hook. */
  lemma LoadsPlainDict(env: Env, disk: Disk, entries: Entries)
    requires forall k :: 0 <= k < |entries| ==> Plain(entries[k].1) && NoDicts(entries[k].1)
    ensures Plain(VDict(entries))
    ensures Decode.Loads(env, disk, PlainJson(VDict(entries))) == Decode.ObjectHook(env, disk, DictOf(entries))
  {
    PlainDictFields(entries);
    var doc := PlainJson(VDict(entries));
    LoadsPlainFields(env, disk, VDict(entries), doc, entries, doc.fields);
  }

  lemma {:induction false} LoadsPlainFields(env: Env, disk: Disk, owner: Value, parent: Json, entries: Entries, fields: seq<(string, Json)>)
    requires |fields| == |entries|
    requires forall k :: 0 <= k < |entries| ==> Plain(entries[k].1) && NoDicts(entries[k].1)
    requires forall k :: 0 <= k < |entries| ==> fields[k] == (entries[k].0, PlainJson(entries[k].1))
    requires forall k :: 0 <= k < |entries| ==> fields[k].1 < parent && entries[k].1 < owner
    ensures Decode.LoadsFields(env, disk, parent, fields) == Ok(entries)
    decreases |entries|
  {
    if |entries| > 0 {
      LoadsPlainList(env, disk, entries[0].1);
      LoadsPlainFields(env, disk, owner, parent, entries[1..], fields[1..]);
      assert entries == [entries[0]] + entries[1..];
    }
  }

  /** The document of a positional call record decodes as the hook decodes the record. */
  lemma LoadsCallRecord(env: Env, disk: Disk, fqn: string, args: seq<Value>)
    requires |args| > 0
    requires forall k :: 0 <= k < |args| ==> Plain(args[k]) && NoDicts(args[k])
    ensures Plain(Encode.CallRecord(fqn, args, []))
    ensures Decode.Loads(env, disk, PlainJson(Encode.CallRecord(fqn, args, [])))
         == Decode.ObjectHook(env, disk, Encode.CallRecord(fqn, args, []).entries)
  {
    var entries := Encode.CallRecord(fqn, args, []).entries;
    Encode.CallRecordPositional(fqn, args);
    assert NoDicts(VList(args));
    LoadsPlainDict(env, disk, entries);
    Encode.DictOfUnique(entries);
  }

  /** A value JSON cannot represent is written as whatever `default` turns it into,
      with one level of fuel spent. */
  lemma ToJsonViaDefault(env: Env, s: Settings, disk: Disk, reg: Registry, v: Value, d: Value, fuel: nat, now: int)
    requires v.VBytes? || v.VDate? || v.VDateTime? || v.VTimedelta?
    requires fuel >= 1
    requires FilecacheDefault(env, s, disk, reg, v, now) == (Ok(d), disk)
    ensures ToJson(env, s, disk, reg, v, fuel, now) == ToJson(env, s, disk, reg, d, fuel - 1, now)
  {
  }

  lemma ToJsonOfPlainDefault(env: Env, s: Settings, disk: Disk, reg: Registry, v: Value, d: Value, fuel: nat, now: int)
    requires v.VBytes? || v.VDate? || v.VDateTime? || v.VTimedelta?
    requires fuel >= 1 && Plain(d)
    requires FilecacheDefault(env, s, disk, reg, v, now) == (Ok(d), disk)
    ensures ToJson(env, s, disk, reg, v, fuel, now) == (Ok(PlainJson(d)), disk)
  {
    ToJsonViaDefault(env, s, disk, reg, v, d, fuel, now);
    ToJsonPlain(env, s, disk, reg, d, fuel - 1, now);
  }

  /** A positional call record of plain arguments is itself plain. */
  lemma PlainCallRecord(fqn: string, args: seq<Value>)
    requires |args| > 0 && forall k :: 0 <= k < |args| ==> Plain(args[k])
    ensures Plain(Encode.CallRecord(fqn, args, []))
  {
    Encode.CallRecordPositional(fqn, args);
  }

  /** A value `default` turns into a positional call record of plain arguments is
      written as that record's document, and nothing is stored. */
  lemma ToJsonOfCallRecord(env: Env, s: Settings, disk: Disk, reg: Registry, v: Value, fqn: string, args: seq<Value>, fuel: nat, now: int)
    requires v.VBytes? || v.VDate? || v.VDateTime? || v.VTimedelta?
    requires fuel >= 1
    requires |args| > 0 && forall k :: 0 <= k < |args| ==> Plain(args[k])
    requires FilecacheDefault(env, s, disk, reg, v, now) == (Ok(Encode.CallRecord(fqn, args, [])), disk)
    ensures Plain(Encode.CallRecord(fqn, args, []))
    ensures ToJson(env, s, disk, reg, v, fuel, now) == (Ok(PlainJson(Encode.CallRecord(fqn, args, []))), disk)
  {
    PlainCallRecord(fqn, args);
    ToJsonOfPlainDefault(env, s, disk, reg, v, Encode.CallRecord(fqn, args, []), fuel, now);
  }

  /** Arguments a JSON array holds as they are. */
  predicate PlainArgs(args: seq<Value>)
  {
    forall k :: 0 <= k < |args| ==> Plain(args[k]) && NoDicts(args[k])
  }

  lemma IntArgsPlain(a: int, b: int, c: int)
    ensures PlainArgs([VInt(a), VInt(b), VInt(c)])
  {
  }

  /** A value `default` turns into a positional call record that the object hook turns
      back into the value survives the trip through JSON. */
  lemma RoundTripViaRecord(env: Env, s: Settings, disk: Disk, reg: Registry, v: Value, fqn: string, args: seq<Value>, fuel: nat, now: int)
    requires v.VBytes? || v.VDate? || v.VDateTime? || v.VTimedelta?
    requires fuel >= 1
    requires |args| > 0 && PlainArgs(args)
    requires FilecacheDefault(env, s, disk, reg, v, now) == (Ok(Encode.CallRecord(fqn, args, [])), disk)
    requires Decode.ObjectHook(env, disk, Encode.CallRecord(fqn, args, []).entries) == Ok(v)
    ensures var r := ToJson(env, s, disk, reg, v, fuel, now);
            r.1 == disk && r.0.Ok? && Decode.Loads(env, disk, r.0.value) == Ok(v)
  {
    ToJsonOfCallRecord(env, s, disk, reg, v, fqn, args, fuel, now);
    LoadsCallRecord(env, disk, fqn, args);
  }

  /** `loads(dumps(x)) == x` for bytes, dates, datetimes and timedeltas under the default
      registry, with the standard library present: the encoding writes nothing and its
      document decodes to the original value. */
  lemma RoundTripBytes(env: Env, s: Settings, disk: Disk, bs: seq<byte>, fuel: nat, now: int)
    requires StdlibPresent(env) && fuel >= 1
    ensures var r := ToJson(env, s, disk, DefaultRegistry, VBytes(bs), fuel, now);
            r.1 == disk && r.0.Ok? && Decode.Loads(env, disk, r.0.value) == Ok(VBytes(bs))
  {
    var args := [VStr(Base64.B2aBase64(bs))];
    assert PlainArgs(args);
    DefaultEncodesBytes(env, s, disk, bs, now);
    Decode.DecodeBytesRecord(env, disk, bs);
    RoundTripViaRecord(env, s, disk, DefaultRegistry, VBytes(bs), "binascii:a2b_base64", args, fuel, now);
  }

  lemma RoundTripDate(env: Env, s: Settings, disk: Disk, d: PyDate, fuel: nat, now: int)
    requires StdlibPresent(env) && fuel >= 1
    ensures var r := ToJson(env, s, disk, DefaultRegistry, VDate(d), fuel, now);
            r.1 == disk && r.0.Ok? && Decode.Loads(env, disk, r.0.value) == Ok(VDate(d))
  {
    DefaultEncodesDate(env, s, disk, d, now);
    Decode.DecodeDateRecord(env, disk, d);
    RoundTripViaRecord(env, s, disk, DefaultRegistry, VDate(d), "datetime:date.fromisoformat", [VStr(DateIsoFormat(d))], fuel, now);
  }

  lemma RoundTripDateTime(env: Env, s: Settings, disk: Disk, t: PyDateTime, fuel: nat, now: int)
    requires StdlibPresent(env) && fuel >= 1
    ensures var r := ToJson(env, s, disk, DefaultRegistry, VDateTime(t), fuel, now);
            r.1 == disk && r.0.Ok? && Decode.Loads(env, disk, r.0.value) == Ok(VDateTime(t))
  {
    DateTimeBeforeDate(env, s, disk, t, now);
    Decode.DecodeDateTimeRecord(env, disk, t);
    RoundTripViaRecord(env, s, disk, DefaultRegistry, VDateTime(t), "datetime:datetime.fromisoformat", [VStr(DateTimeIsoFormat(t))], fuel, now);
  }

  lemma RoundTripTimedelta(env: Env, s: Settings, disk: Disk, td: PyTimedelta, fuel: nat, now: int)
    requires StdlibPresent(env) && fuel >= 1
    ensures var r := ToJson(env, s, disk, DefaultRegistry, VTimedelta(td), fuel, now);
            r.1 == disk && r.0.Ok? && Decode.Loads(env, disk, r.0.value) == Ok(VTimedelta(td))
  {
    var args := [VInt(td.days), VInt(td.seconds), VInt(td.micros)];
    IntArgsPlain(td.days, td.seconds, td.micros);
    DefaultEncodesTimedelta(env, s, disk, td, now);
    Decode.DecodeTimedeltaRecord(env, disk, td);
    RoundTripViaRecord(env, s, disk, DefaultRegistry, VTimedelta(td), "datetime:timedelta", args, fuel, now);
  }

  /** `loads(dumps(x)) == x` on the text: what `dumps` writes for bytes, a date, a
      datetime or a timedelta, under the default registry with the standard library
      present, renders a document that decodes to the original value, and nothing is
      stored. */
  lemma DumpsRoundTrip(env: Env, s: Settings, disk: Disk, v: Value, o: DumpsOptions, fuel: nat, now: int)
    requires StdlibPresent(env) && fuel >= 1
    requires v.VBytes? || v.VDate? || v.VDateTime? || v.VTimedelta?
    ensures var r := Dumps(env, s, disk, DefaultRegistry, v, o, fuel, now);
            var seps := ApplyDumpsDefaults(o).separators.value;
            && r.1 == disk && r.0.Ok?
            && exists doc :: r.0.value == Serialize(doc, seps.0, seps.1) && Decode.Loads(env, disk, doc) == Ok(v)
  {
    match v {
      case VBytes(bs) => RoundTripBytes(env, s, disk, bs, fuel, now);
      case VDate(d) => RoundTripDate(env, s, disk, d, fuel, now);
      case VDateTime(t) => RoundTripDateTime(env, s, disk, t, fuel, now);
      case VTimedelta(td) => RoundTripTimedelta(env, s, disk, td, fuel, now);
    }
    var doc := ToJson(env, s, disk, DefaultRegistry, v, fuel, now).0.value;
    assert Decode.Loads(env, disk, doc) == Ok(v);
  }
}

=== FILE: config.dfy ===
/** The `set` context of cacholote/config.py: it overrides some of the global settings
    and restores them on exit. A new `cache` must come alone, and the settings its
    properties describe are read off it; any other override also replaces the cache
    with a freshly built one. Building a cache (`initialize_cache`) and reading a
    cache's properties are foreign: the fresh cache and the property values are
    parameters. */
module Config {
  import opened Results
  import opened Py
  import opened Text
  import opened Overrides

  /** The initial `_SETTINGS`, with the cache `initialize_cache` built from them. */
  function Defaults(tempdir: string, highestProtocol: int, cache: Value): (r: Entries)
    ensures UniqueKeys(r)
    ensures Lookup(r, "cache") == Some(cache)
  {
    [("directory", VStr(PosixJoin(tempdir, "cacholote"))),
     ("timeout", VInt(60)),
     ("statistics", VInt(1)),
     ("tag_index", VInt(0)),
     ("eviction_policy", VStr("least-recently-stored")),
     ("size_limit", VInt(0x4000_0000)),
     ("cull_limit", VInt(10)),
     ("sqlite_auto_vacuum", VInt(1)),
     ("sqlite_cache_size", VInt(0x2000)),
     ("sqlite_journal_mode", VStr("wal")),
     ("sqlite_mmap_size", VInt(0x400_0000)),
     ("sqlite_synchronous", VInt(1)),
     ("disk_min_file_size", VInt(0x8000)),
     ("disk_pickle_protocol", VInt(highestProtocol)),
     ("cache", cache)]
  }

  /** The settings read off a new cache: for each key but `cache`, the value of the
      cache's property of that name when its class has one (`property(key)`). */
  function Inferred(keys: seq<string>, property: string -> Option<Value>): (r: Entries)
    ensures forall k :: Lookup(r, k) == if k != "cache" && k in keys then property(k) else None
    ensures forall i :: 0 <= i < |r| ==> r[i].0 in keys
    decreases |keys|
  {
    if |keys| == 0 then []
    else
      var init := keys[..|keys| - 1];
      var k := keys[|keys| - 1];
      var prev := Inferred(init, property);
      assert forall k' :: k' in keys <==> k' in init || k' == k;
      if k != "cache" && property(k).Some? then
        var r := prev + [(k, property(k).value)];
        assert r[..|r| - 1] == prev;
        r
      else prev
  }

  /** An override in force: the settings and the values saved for the exit. */
  datatype Override = Override(settings: Entries, saved: Entries)

  function WrongSettings(settings: Entries): string
  {
    "Wrong settings. Available settings: [" + QuotedItems(KeysOf(settings)) + "]"
  }

  /** `set(**kwargs)`. `settings` always holds a cache (the module builds one when it
      is loaded) and keyword arguments have distinct names. */
  function Set(settings: Entries, kwargs: Entries, property: string -> Option<Value>, freshCache: Value): (r: Result<Override>)
    requires HasKey(settings, "cache") && UniqueKeys(kwargs)
    ensures HasKey(kwargs, "cache") && |kwargs| != 1 ==>
              r == Err(ValueError("'cache' is mutually exclusive with all other settings"))
    ensures HasKey(kwargs, "cache") && |kwargs| == 1 ==> r.Ok?
    ensures !HasKey(kwargs, "cache") ==>
              (r.Err? <==> exists i :: 0 <= i < |kwargs| && !HasKey(settings, kwargs[i].0))
    ensures r.Err? && !HasKey(kwargs, "cache") ==> r.error == KeyError(WrongSettings(settings))
  {
    if HasKey(kwargs, "cache") && |kwargs| != 1 then Err(ValueError("'cache' is mutually exclusive with all other settings"))
    else if HasKey(kwargs, "cache") then Ok(SetCache(settings, kwargs, property))
    else
      var keys := KeysOf(kwargs);
      assert forall i :: 0 <= i < |kwargs| ==> keys[i] == kwargs[i].0;
      if Saved(settings, keys).Err? then Err(KeyError(WrongSettings(settings)))
      else Ok(SetOthers(settings, kwargs, freshCache))
  }

  /** The arguments of `set(cache=...)` with the settings read off the new cache. */
  function CacheArgs(settings: Entries, kwargs: Entries, property: string -> Option<Value>): (r: Entries)
    requires HasKey(kwargs, "cache") && |kwargs| == 1
    ensures forall i :: 0 <= i < |r| ==> r[i].0 == "cache" || HasKey(settings, r[i].0)
    ensures forall k :: Lookup(r, k) == if k == "cache" then Lookup(kwargs, k) else if HasKey(settings, k) then property(k) else None
  {
    var extra := Inferred(KeysOf(settings), property);
    assert forall i :: 0 <= i < |extra| ==> HasKey(settings, extra[i].0) by {
      forall i | 0 <= i < |extra| ensures HasKey(settings, extra[i].0) {
        HasKeyOfKeys(settings, extra[i].0);
      }
    }
    assert forall k :: Lookup(kwargs + extra, k) == if k == "cache" then Lookup(kwargs, k) else if HasKey(settings, k) then property(k) else None by {
      forall k ensures Lookup(kwargs + extra, k) == if k == "cache" then Lookup(kwargs, k) else if HasKey(settings, k) then property(k) else None {
        CacheArgsLookup(settings, kwargs, property, k);
      }
    }
    kwargs + extra
  }

  /** One key of the arguments `set(cache=...)` passes on: the cache itself, or the
      property of the new cache named after a known setting. */
  lemma CacheArgsLookup(settings: Entries, kwargs: Entries, property: string -> Option<Value>, k: string)
    requires HasKey(kwargs, "cache") && |kwargs| == 1
    ensures Lookup(kwargs + Inferred(KeysOf(settings), property), k)
            == if k == "cache" then Lookup(kwargs, k) else if HasKey(settings, k) then property(k) else None
  {
    var extra := Inferred(KeysOf(settings), property);
    assert kwargs[0].0 == "cache";
    LookupAppend(kwargs, extra, k);
    HasKeyOfKeys(settings, k);
    assert HasKey(extra, k) <==> Lookup(extra, k).Some?;
    assert k != "cache" ==> Lookup(kwargs, k) == None;
  }

  /** `set(cache=...)`: the new cache and the settings read off it. */
  function SetCache(settings: Entries, kwargs: Entries, property: string -> Option<Value>): (r: Override)
    requires HasKey(settings, "cache") && HasKey(kwargs, "cache") && |kwargs| == 1
    ensures KeysOf(r.saved) == KeysOf(CacheArgs(settings, kwargs, property))
  {
    var kw := CacheArgs(settings, kwargs, property);
    Override(Update(settings, kw), Saved(settings, KeysOf(kw)).value)
  }

  /** `set(**kwargs)` without `cache`, once every key is known: the overrides, and a
      fresh cache with the old one saved. */
  function SetOthers(settings: Entries, kwargs: Entries, freshCache: Value): (r: Override)
    requires HasKey(settings, "cache") && !HasKey(kwargs, "cache")
    requires forall i :: 0 <= i < |kwargs| ==> HasKey(settings, kwargs[i].0)
    ensures Lookup(r.settings, "cache") == Some(freshCache)
    ensures Lookup(r.saved, "cache") == Lookup(settings, "cache")
  {
    var saved := Saved(settings, KeysOf(kwargs)).value;
    var s := Update(settings, kwargs);
    UpdateLookup(settings, kwargs, "cache");
    Override(Put(s, "cache", freshCache), Put(saved, "cache", Lookup(s, "cache").value))
  }

  /** Leaving the context: the saved values are put back. */
  function Exit(o: Override): (r: Entries)
    ensures KeysOf(o.settings) <= KeysOf(r)
  {
    Update(o.settings, o.saved)
  }

  /** The keys passed take their new values, and the settings keep their keys and
      order. With `cache` alone, each other setting takes the value of the new cache's
      property of that name, when it has one; otherwise the cache is replaced by a
      fresh one, the old one saved, and the settings not passed are kept. */
  lemma SetOverrides(settings: Entries, kwargs: Entries, property: string -> Option<Value>, freshCache: Value)
    requires HasKey(settings, "cache") && UniqueKeys(kwargs)
    requires Set(settings, kwargs, property, freshCache).Ok?
    ensures var o := Set(settings, kwargs, property, freshCache).value;
            && KeysOf(o.settings) == KeysOf(settings)
            && (forall k :: HasKey(kwargs, k) ==> Lookup(o.settings, k) == Lookup(kwargs, k))
            && (HasKey(kwargs, "cache") ==>
                  forall k :: k != "cache" ==>
                    Lookup(o.settings, k) == if HasKey(settings, k) && property(k).Some? then property(k) else Lookup(settings, k))
            && (!HasKey(kwargs, "cache") ==>
                  && Lookup(o.settings, "cache") == Some(freshCache)
                  && Lookup(o.saved, "cache") == Lookup(settings, "cache")
                  && forall k :: k != "cache" && !HasKey(kwargs, k) ==> Lookup(o.settings, k) == Lookup(settings, k))
  {
    if HasKey(kwargs, "cache") {
      SetCacheOverrides(settings, kwargs, property);
    } else {
      SetOthersOverrides(settings, kwargs, freshCache);
    }
  }

  lemma SetCacheOverrides(settings: Entries, kwargs: Entries, property: string -> Option<Value>)
    requires HasKey(settings, "cache") && HasKey(kwargs, "cache") && |kwargs| == 1
    ensures var o := SetCache(settings, kwargs, property);
            && KeysOf(o.settings) == KeysOf(settings)
            && (forall k :: HasKey(kwargs, k) ==> Lookup(o.settings, k) == Lookup(kwargs, k))
            && forall k :: k != "cache" ==>
                 Lookup(o.settings, k) == if HasKey(settings, k) && property(k).Some? then property(k) else Lookup(settings, k)
  {
    var kw := CacheArgs(settings, kwargs, property);
    var o := SetCache(settings, kwargs, property);
    assert o.settings == Update(settings, kw);
    assert KeysOf(o.settings) == KeysOf(settings) by {
      UpdateKeepsKeys(settings, kw);
    }
    forall k ensures (HasKey(kwargs, k) ==> Lookup(o.settings, k) == Lookup(kwargs, k))
                     && (k != "cache" ==> Lookup(o.settings, k) == if HasKey(settings, k) && property(k).Some? then property(k) else Lookup(settings, k))
    {
      SetCacheLookup(settings, kwargs, kw, property, k);
    }
  }

  /** One key after `set(cache=...)`, given what the arguments passed on hold under it:
      the new cache, a property of it, or the old value. */
  lemma SetCacheLookup(settings: Entries, kwargs: Entries, kw: Entries, property: string -> Option<Value>, k: string)
    requires HasKey(kwargs, "cache") && |kwargs| == 1
    requires Lookup(kw, k) == if k == "cache" then Lookup(kwargs, k) else if HasKey(settings, k) then property(k) else None
    ensures HasKey(kwargs, k) ==> Lookup(Update(settings, kw), k) == Lookup(kwargs, k)
    ensures k != "cache" ==> Lookup(Update(settings, kw), k) == if HasKey(settings, k) && property(k).Some? then property(k) else Lookup(settings, k)
  {
    UpdateLookup(settings, kw, k);
    assert HasKey(kw, k) <==> Lookup(kw, k).Some?;
    if HasKey(kwargs, k) {
      assert kwargs == [kwargs[0]];
      assert k == "cache";
    }
  }

  lemma SetOthersOverrides(settings: Entries, kwargs: Entries, freshCache: Value)
    requires HasKey(settings, "cache") && !HasKey(kwargs, "cache")
    requires forall i :: 0 <= i < |kwargs| ==> HasKey(settings, kwargs[i].0)
    ensures var o := SetOthers(settings, kwargs, freshCache);
            && KeysOf(o.settings) == KeysOf(settings)
            && (forall k :: HasKey(kwargs, k) ==> Lookup(o.settings, k) == Lookup(kwargs, k))
            && forall k :: k != "cache" && !HasKey(kwargs, k) ==> Lookup(o.settings, k) == Lookup(settings, k)
  {
    var s := Update(settings, kwargs);
    UpdateKeepsKeys(settings, kwargs);
    assert HasKey(s, "cache");
    forall k ensures Lookup(s, k) == if HasKey(kwargs, k) then Lookup(kwargs, k) else Lookup(settings, k) {
      UpdateLookup(settings, kwargs, k);
    }
  }

  /** Entering and leaving the context gives back every setting, the cache included. */
  lemma SetThenExitRestores(settings: Entries, kwargs: Entries, property: string -> Option<Value>, freshCache: Value)
    requires HasKey(settings, "cache") && UniqueKeys(kwargs)
    requires Set(settings, kwargs, property, freshCache).Ok?
    ensures forall k :: Lookup(Exit(Set(settings, kwargs, property, freshCache).value), k) == Lookup(settings, k)
  {
    if HasKey(kwargs, "cache") {
      SetCacheRestores(settings, kwargs, property);
    } else {
      var keys := KeysOf(kwargs);
      assert forall i :: 0 <= i < |kwargs| ==> keys[i] == kwargs[i].0;
      forall k ensures Lookup(Exit(SetOthers(settings, kwargs, freshCache)), k) == Lookup(settings, k) {
        SetOthersRestoresKey(settings, kwargs, freshCache, k);
      }
    }
  }

  lemma SetCacheRestores(settings: Entries, kwargs: Entries, property: string -> Option<Value>)
    requires HasKey(settings, "cache") && HasKey(kwargs, "cache") && |kwargs| == 1
    ensures forall k :: Lookup(Exit(SetCache(settings, kwargs, property)), k) == Lookup(settings, k)
  {
    UpdateThenRestore(settings, CacheArgs(settings, kwargs, property));
  }

  lemma SetOthersRestoresKey(settings: Entries, kwargs: Entries, freshCache: Value, k: string)
    requires HasKey(settings, "cache") && !HasKey(kwargs, "cache")
    requires forall i :: 0 <= i < |kwargs| ==> HasKey(settings, kwargs[i].0)
    ensures Lookup(Exit(SetOthers(settings, kwargs, freshCache)), k) == Lookup(settings, k)
  {
    var o := SetOthers(settings, kwargs, freshCache);
    UpdateLookup(o.settings, o.saved, k);
    SavedWithCache(settings, kwargs, freshCache, k);
    if !HasKey(kwargs, k) && k != "cache" {
      UpdateLookup(settings, kwargs, k);
    }
  }

  /** The values `set` saves without `cache`: those of the keys passed, and the old
      cache. */
  lemma SavedWithCache(settings: Entries, kwargs: Entries, freshCache: Value, k: string)
    requires HasKey(settings, "cache") && !HasKey(kwargs, "cache")
    requires forall i :: 0 <= i < |kwargs| ==> HasKey(settings, kwargs[i].0)
    ensures var o := SetOthers(settings, kwargs, freshCache);
            && (HasKey(o.saved, k) <==> k == "cache" || HasKey(kwargs, k))
            && (HasKey(o.saved, k) ==> Lookup(o.saved, k) == Lookup(settings, k))
  {
    var o := SetOthers(settings, kwargs, freshCache);
    var saved := Saved(settings, KeysOf(kwargs)).value;
    HasKeyOfKeys(saved, k);
    HasKeyOfKeys(kwargs, k);
    assert HasKey(o.saved, k) <==> Lookup(o.saved, k).Some?;
    assert HasKey(saved, k) <==> Lookup(saved, k).Some?;
  }
}

=== FILE: database.dfy ===
/** The `cache_entries` table of cacholote/database.py: rows identified by the composite
    primary key (key, expiration), the defaults the ORM fills in on insert and update,
    and `_commit_or_rollback`. The SQL engine is a sequence of rows in insertion order;
    a session is the committed table plus the changes not yet committed. */
module Database {
  import opened Results
  import opened IsoDates
  import opened Json
  import opened Py
  import Sorting

  datatype CacheEntry = CacheEntry(
    key: string,
    expiration: PyDateTime,
    result: Json,
    timestamp: PyDateTime,
    counter: int,
    tag: Option<string>)

  datatype PrimaryKey = PrimaryKey(key: string, expiration: PyDateTime)

  function Pk(e: CacheEntry): PrimaryKey
  {
    PrimaryKey(e.key, e.expiration)
  }

  type Table = seq<CacheEntry>

  /** The uniqueness constraint on (key, expiration). */
  predicate UniquePks(t: Table)
  {
    forall i, j :: 0 <= i < j < |t| ==> Pk(t[i]) != Pk(t[j])
  }

  predicate HasPk(t: Table, pk: PrimaryKey)
  {
    exists i :: 0 <= i < |t| && Pk(t[i]) == pk
  }

  /** A row as the ORM completes it on insert: an absent expiration becomes
      `datetime.max` (the `before_insert` listener), the counter starts at 0 and the
      timestamp is the insertion time. */
  function NewEntry(key: string, expiration: Option<PyDateTime>, result: Json, tag: Option<string>, now: PyDateTime): (e: CacheEntry)
    ensures e.key == key && e.result == result && e.tag == tag
    ensures expiration.Some? ==> e.expiration == expiration.value
    ensures e.counter == 0 && e.timestamp == now
  {
    CacheEntry(key, if expiration.Some? then expiration.value else MaxDateTime, result, now, 0, tag)
  }

  /** A row inserted without an expiration never expires: no valid time comes after
      its expiration. */
  lemma NewEntryWithoutExpirationNeverExpires(key: string, result: Json, tag: Option<string>, now: PyDateTime, t: PyDateTime)
    ensures var e := NewEntry(key, None, result, tag, now);
            e.expiration == MaxDateTime && !Before(e.expiration, t)
  {
    MaxIsLast(t);
  }

  /** `_primary_keys`: the dictionary `{"key": ..., "expiration": ...}`. */
  function PrimaryKeys(e: CacheEntry): (r: Entries)
    ensures KeysOf(r) == ["key", "expiration"]
    ensures Lookup(r, "key") == Some(VStr(e.key))
    ensures Lookup(r, "expiration") == Some(VDateTime(e.expiration))
  {
    [("key", VStr(e.key)), ("expiration", VDateTime(e.expiration))]
  }

  /** In a table that keeps the constraint, the primary-key dictionary identifies a row. */
  lemma PrimaryKeysIdentifyRow(t: Table, i: int, j: int)
    requires UniquePks(t)
    requires 0 <= i < |t| && 0 <= j < |t|
    requires PrimaryKeys(t[i]) == PrimaryKeys(t[j])
    ensures i == j
  {
    assert Lookup(PrimaryKeys(t[i]), "key") == Lookup(PrimaryKeys(t[j]), "key");
    assert Lookup(PrimaryKeys(t[i]), "expiration") == Lookup(PrimaryKeys(t[j]), "expiration");
    assert Pk(t[i]) == Pk(t[j]);
  }

  /** Adding a row and flushing it: IntegrityError when its primary key is taken. */
  function Insert(t: Table, e: CacheEntry): (r: Result<Table>)
    ensures r.Err? <==> HasPk(t, Pk(e))
    ensures r.Err? ==> r.error.IntegrityError?
    ensures r.Ok? ==> r.value == t + [e]
    ensures r.Ok? && UniquePks(t) ==> UniquePks(r.value)
  {
    if HasPk(t, Pk(e)) then Err(IntegrityError("UNIQUE constraint failed: cache_entries.key, cache_entries.expiration"))
    else Ok(t + [e])
  }

  /** `session.delete(row)` flushed: the rows with that primary key go, the rest stay in
      order. */
  function Delete(t: Table, pk: PrimaryKey): (r: Table)
    ensures forall x :: x in r <==> x in t && Pk(x) != pk
    ensures |r| <= |t|
    ensures UniquePks(t) ==> UniquePks(r)
  {
    if |t| == 0 then []
    else
      var rest := Delete(t[1..], pk);
      if Pk(t[0]) == pk then rest
      else
        assert forall x :: x in t[1..] ==> x in t;
        [t[0]] + rest
  }

  /** A row that was just inserted is removed again by deleting its key. */
  lemma {:induction false} DeleteUndoesInsert(t: Table, e: CacheEntry)
    requires Insert(t, e).Ok?
    ensures Delete(Insert(t, e).value, Pk(e)) == t
  {
    DeleteAppended(t, e);
  }

  lemma {:induction false} DeleteAppended(t: Table, e: CacheEntry)
    requires !HasPk(t, Pk(e))
    ensures Delete(t + [e], Pk(e)) == t
  {
    if |t| == 0 {
      assert t + [e] == [e];
    } else {
      assert (t + [e])[1..] == t[1..] + [e];
      assert !HasPk(t[1..], Pk(e)) by {
        forall i | 0 <= i < |t[1..]| ensures Pk(t[1..][i]) != Pk(e) {
          assert t[1..][i] == t[i + 1];
        }
      }
      assert Pk(t[0]) != Pk(e);
      DeleteAppended(t[1..], e);
      assert t == [t[0]] + t[1..];
    }
  }

  /** An attribute change flushed: the row with the same primary key takes the new
      values, and the `onupdate` default refreshes its timestamp. */
  function Update(t: Table, e: CacheEntry, now: PyDateTime): (r: Table)
    ensures |r| == |t|
    ensures forall i :: 0 <= i < |t| ==> r[i] == if Pk(t[i]) == Pk(e) then e.(timestamp := now) else t[i]
  {
    seq(|t|, i requires 0 <= i < |t| => if Pk(t[i]) == Pk(e) then e.(timestamp := now) else t[i])
  }

  /** Updating keeps the primary keys, so it keeps the constraint. */
  lemma UpdateKeepsPks(t: Table, e: CacheEntry, now: PyDateTime)
    ensures forall i :: 0 <= i < |t| ==> Pk(Update(t, e, now)[i]) == Pk(t[i])
    ensures UniquePks(t) ==> UniquePks(Update(t, e, now))
  {
  }

  /** A change waiting in a session. */
  datatype Change =
    | Add(entry: CacheEntry)
    | Remove(pk: PrimaryKey)
    | Modify(entry: CacheEntry)

  datatype Session = Session(table: Table, pending: seq<Change>)

  /** Flushing the pending changes in order; the first failure aborts the flush. */
  function Flush(t: Table, changes: seq<Change>, now: PyDateTime): (r: Result<Table>)
    ensures r.Err? ==> r.error.IntegrityError?
    ensures r.Ok? && UniquePks(t) ==> UniquePks(r.value)
    decreases |changes|
  {
    if |changes| == 0 then Ok(t)
    else
      var next :- match changes[0]
        case Add(e) => Insert(t, e)
        case Remove(pk) => Ok(Delete(t, pk))
        case Modify(e) => (UpdateKeepsPks(t, e, now); Ok(Update(t, e, now)));
      Flush(next, changes[1..], now)
  }

  /** `_commit_or_rollback`: the commit is always attempted and the rollback always
      follows, so no change is left pending; the table holds either every pending
      change or none of them, and a failed commit's error is passed on. */
  function CommitOrRollback(s: Session, now: PyDateTime): (r: (Session, Option<Error>))
    ensures r.0.pending == []
    ensures r.1.None? <==> Flush(s.table, s.pending, now).Ok?
    ensures r.1.None? ==> r.0.table == Flush(s.table, s.pending, now).value
    ensures r.1.Some? ==> r.0.table == s.table && r.1.value.IntegrityError?
    ensures UniquePks(s.table) ==> UniquePks(r.0.table)
  {
    match Flush(s.table, s.pending, now)
    case Ok(t) => (Session(t, []), None)
    case Err(e) => (Session(s.table, []), Some(e))
  }

  /** With nothing pending, committing changes nothing. */
  lemma CommitOrRollbackNothingPending(t: Table, now: PyDateTime)
    ensures CommitOrRollback(Session(t, []), now) == (Session(t, []), None)
  {
  }

  /** A row added alone is committed exactly when its key is free. */
  lemma CommitAdd(t: Table, e: CacheEntry, now: PyDateTime)
    ensures var r := CommitOrRollback(Session(t, [Add(e)]), now);
            (r.1.None? <==> !HasPk(t, Pk(e))) && r.0.table == if HasPk(t, Pk(e)) then t else t + [e]
  {
    assert [Add(e)][1..] == [];
    match Insert(t, e)
    case Ok(next) =>
      assert Flush(next, [], now) == Ok(next);
      assert Flush(t, [Add(e)], now) == Ok(next);
    case Err(err) =>
      assert Flush(t, [Add(e)], now) == Err(err);
  }

  /** `ORDER BY timestamp DESC`: `a` may come before `b` when it is no older. */
  predicate NewerOrSame(a: CacheEntry, b: CacheEntry)
  {
    !Before(a.timestamp, b.timestamp)
  }

  lemma NewerOrSameTotalPreorder()
    ensures Sorting.TotalPreorder(NewerOrSame)
  {
    forall a: CacheEntry, b: CacheEntry ensures NewerOrSame(a, b) || NewerOrSame(b, a) {
      if Before(a.timestamp, b.timestamp) && Before(b.timestamp, a.timestamp) {
        BeforeTransitive(a.timestamp, b.timestamp, a.timestamp);
        BeforeIrreflexive(a.timestamp);
      }
    }
    forall a: CacheEntry, b: CacheEntry, c: CacheEntry | NewerOrSame(a, b) && NewerOrSame(b, c)
      ensures NewerOrSame(a, c)
    {
      if Before(a.timestamp, c.timestamp) {
        BeforeTotal(a.timestamp, b.timestamp);
        if Before(b.timestamp, a.timestamp) {
          BeforeTransitive(b.timestamp, a.timestamp, c.timestamp);
        }
      }
    }
  }

  /** The filters of the cache lookup: the key, not yet expired at `now`, and the
      configured expiration when there is one. */
  predicate Matches(e: CacheEntry, key: string, now: PyDateTime, expiration: Option<PyDateTime>)
  {
    e.key == key && Before(now, e.expiration) && (expiration.None? || e.expiration == expiration.value)
  }

  function MatchingRows(t: Table, key: string, now: PyDateTime, expiration: Option<PyDateTime>): (r: Table)
    ensures forall x :: x in r <==> x in t && Matches(x, key, now, expiration)
  {
    if |t| == 0 then []
    else
      var rest := MatchingRows(t[1..], key, now, expiration);
      assert forall x :: x in t <==> x == t[0] || x in t[1..];
      if Matches(t[0], key, now, expiration) then [t[0]] + rest else rest
  }

  /** The rows the cache lookup visits, newest first. */
  function Candidates(t: Table, key: string, now: PyDateTime, expiration: Option<PyDateTime>): (r: Table)
    ensures forall x :: x in r <==> x in t && Matches(x, key, now, expiration)
  {
    var rows := MatchingRows(t, key, now, expiration);
    var r := Sorting.SortBy(rows, NewerOrSame);
    assert forall x :: x in r <==> x in multiset(r);
    assert forall x :: x in rows <==> x in multiset(rows);
    r
  }

  /** The candidates come newest first. */
  lemma CandidatesNewestFirst(t: Table, key: string, now: PyDateTime, expiration: Option<PyDateTime>)
    ensures var c := Candidates(t, key, now, expiration);
            forall i, j :: 0 <= i < j < |c| ==> !Before(c[i].timestamp, c[j].timestamp)
  {
    NewerOrSameTotalPreorder();
    Sorting.SortBySorted(MatchingRows(t, key, now, expiration), NewerOrSame);
  }
}

=== FILE: decode.dfy ===
/** cacholote/decode.py: the object hook that turns tagged dictionaries back into
    objects, and `loads` over a parsed JSON document. */
module Decode {
  import opened Results
  import opened Text
  import opened IsoDates
  import opened Py
  import opened Json
  import Base64
  import Files
  import Encode

  /** Calling `f(*args, **kwargs)`. The callables the encoders emit are interpreted on
      the argument shapes the encoders produce, together with the errors Python raises
      for those shapes: `timedelta` on up to three integers (TypeError for any other
      argument), the ISO parsers on one argument (TypeError when it is no string,
      ValueError when the text is not a valid YYYY-MM-DD or naive date-time),
      `a2b_base64` on canonical base64 (TypeError for an argument that is neither a
      string nor bytes, ValueError for a string that is not ASCII), and
      `decode_io_object` through its signature. Every other call is the environment's. */
  function Apply(env: Env, disk: Disk, f: Value, args: seq<Value>, kwargs: Entries): (r: Result<Value>)
    ensures !IsCallable(f) ==> r.Err? && r.error.TypeError?
  {
    if !f.VFunc? then Err(TypeError("object is not callable"))
    else
      var c := f.callable;
      if c == TimedeltaClass && |kwargs| == 0 && |args| <= 3 then CallTimedelta(args)
      else if c == A2bBase64Func && |kwargs| == 0 && |args| == 1 && CallA2bBase64(args[0]).Some? then
        CallA2bBase64(args[0]).value
      else if c == DateFromIsoFormat && |kwargs| == 0 && |args| == 1 then CallDateFromIsoFormat(args[0])
      else if c == DateTimeFromIsoFormat && |kwargs| == 0 && |args| == 1 then CallDateTimeFromIsoFormat(args[0])
      else if c == DecodeIoObjectFunc then CallDecodeIoObject(env, disk, args, kwargs)
      else env.call(f, args, kwargs)
  }

  /** `timedelta(days, seconds, microseconds)` with up to three positional integers. */
  function CallTimedelta(args: seq<Value>): Result<Value>
    requires |args| <= 3
  {
    if forall i :: 0 <= i < |args| ==> IntLike(args[i]) then
      var td :- NewTimedelta(IntArg(args, 0), IntArg(args, 1), IntArg(args, 2));
      Ok(VTimedelta(td))
    else Err(TypeError("unsupported type for timedelta component"))
  }

  /** `a2b_base64(a)` where the model decides it: a text that is not ASCII or an
      argument that is neither text nor bytes is refused, canonical base64 text is
      decoded; None leaves the call to the environment. */
  function CallA2bBase64(a: Value): Option<Result<Value>>
  {
    if !a.VStr? && !a.VBytes? then Some(Err(TypeError("argument should be bytes, buffer or ASCII string")))
    else if a.VStr? && !IsAscii(a.s) then Some(Err(ValueError("string argument should contain only ASCII characters")))
    else if a.VStr? && Base64.A2bBase64(a.s).Some? then Some(Ok(VBytes(Base64.A2bBase64(a.s).value)))
    else None
  }

  /** `date.fromisoformat(a)`. */
  function CallDateFromIsoFormat(a: Value): Result<Value>
  {
    if !a.VStr? then Err(TypeError("fromisoformat: argument must be str"))
    else if ParseDate(a.s).None? then Err(ValueError("Invalid isoformat string: " + Quoted(a.s)))
    else Ok(VDate(ParseDate(a.s).value))
  }

  /** `datetime.fromisoformat(a)`. */
  function CallDateTimeFromIsoFormat(a: Value): Result<Value>
  {
    if !a.VStr? then Err(TypeError("fromisoformat: argument must be str"))
    else if ParseDateTime(a.s).None? then Err(ValueError("Invalid isoformat string: " + Quoted(a.s)))
    else Ok(VDateTime(ParseDateTime(a.s).value))
  }

  /** `decode_io_object(*args, **kwargs)` bound through its signature. */
  function CallDecodeIoObject(env: Env, disk: Disk, args: seq<Value>, kwargs: Entries): Result<Value>
  {
    var bound := BindDecodeIoObject(args, kwargs);
    if bound.Bound? then Files.DecodeIoObject(env, disk, bound.args[0], bound.kwargs) else Err(bound.error)
  }

  /** Python's `bool` is a subclass of `int`: `timedelta(True)` is one day. */
  predicate IntLike(v: Value)
  {
    v.VInt? || v.VBool?
  }

  /** The `k`-th positional integer, 0 when it is not given. */
  function IntArg(args: seq<Value>, k: nat): int
    requires forall i :: 0 <= i < |args| ==> IntLike(args[i])
  {
    if k >= |args| then 0
    else if args[k].VInt? then args[k].i
    else if args[k] == VBool(true) then 1 else 0
  }

  /** `*v` in a call: the elements of a list, the characters of a string, the keys of a
      dictionary, the byte values of bytes; TypeError for anything that is not iterable. */
  function StarArgs(v: Value): (r: Result<seq<Value>>)
    ensures v.VList? ==> r == Ok(v.items)
    ensures r.Ok? ==> v.VList? || v.VStr? || v.VDict? || v.VBytes?
  {
    match v
    case VList(items) => Ok(items)
    case VStr(s) => Ok(seq(|s|, i requires 0 <= i < |s| => VStr([s[i]])))
    case VDict(entries) => Ok(seq(|entries|, i requires 0 <= i < |entries| => VStr(entries[i].0)))
    case VBytes(data) => Ok(seq(|data|, i requires 0 <= i < |data| => VInt(data[i] as int)))
    case _ => Err(TypeError("argument after * must be an iterable"))
  }

  /** `**v` in a call: the entries of a dictionary; TypeError for anything else. */
  function StarStarKwargs(v: Value): (r: Result<Entries>)
    ensures r.Ok? <==> v.VDict?
    ensures r.Ok? ==> r.value == v.entries
  {
    if v.VDict? then Ok(v.entries) else Err(TypeError("argument after ** must be a mapping"))
  }

  /** `obj.get(k, default)`. */
  function GetOr(obj: Entries, k: string, default: Value): (r: Value)
    ensures HasKey(obj, k) ==> Some(r) == Lookup(obj, k)
    ensures !HasKey(obj, k) ==> r == default
  {
    match Lookup(obj, k)
    case Some(v) => v
    case None => default
  }

  predicate Tagged(obj: Entries, tag: string)
  {
    Lookup(obj, "type") == Some(VStr(tag))
  }

  /** `import_object` on a stored name; a name that is not a string cannot be split. */
  function ImportName(env: Env, name: Value): (r: Result<Value>)
    ensures name.VStr? ==> r == ImportObject(env, name.s)
  {
    if name.VStr? then ImportObject(env, name.s) else Err(TypeError("argument is not a string"))
  }

  /** `decode_python_object`: the object named by a `python_object` dictionary, and
      None (`VNone`) for any dictionary that is not one. */
  function DecodePythonObject(env: Env, obj: Entries): (r: Result<Value>)
    ensures !(Tagged(obj, "python_object") && HasKey(obj, "fully_qualified_name")) ==> r == Ok(VNone)
    ensures Tagged(obj, "python_object") && HasKey(obj, "fully_qualified_name") ==>
              r == ImportName(env, Lookup(obj, "fully_qualified_name").value)
  {
    if Tagged(obj, "python_object") && HasKey(obj, "fully_qualified_name") then
      ImportName(env, Lookup(obj, "fully_qualified_name").value)
    else Ok(VNone)
  }

  /** An object record decodes to what importing the recorded name gives: the object
      itself whenever that name imports back to it. */
  lemma DecodeDictifiedObject(env: Env, t: Encode.Target)
    requires Encode.DictifyPythonObject(t).Ok?
    ensures DecodePythonObject(env, Encode.DictifyPythonObject(t).value.entries) == ImportObject(env, Encode.TargetName(t).value)
  {
    var fqn := Encode.TargetName(t).value;
    var e := Encode.DictifyPythonObject(t).value.entries;
    assert e == [("type", VStr("python_object")), ("fully_qualified_name", VStr(fqn))];
    assert e[1].0 == "fully_qualified_name";
    LookupOnlyValue(e, "fully_qualified_name", VStr(fqn));
  }

  /** `decode_python_call`: calls the callable of a `python_call` dictionary (imported
      first when it is a name) with its "args" (default none) and "kwargs" (default
      none); None (`VNone`) for any dictionary that is not one. */
  function DecodePythonCall(env: Env, disk: Disk, obj: Entries): (r: Result<Value>)
    ensures !(Tagged(obj, "python_call") && HasKey(obj, "callable")) ==> r == Ok(VNone)
  {
    if !(Tagged(obj, "python_call") && HasKey(obj, "callable")) then Ok(VNone)
    else
      var c := Lookup(obj, "callable").value;
      var func :- if IsCallable(c) then Ok(c) else ImportName(env, c);
      var args :- StarArgs(GetOr(obj, "args", VList([])));
      var kwargs :- StarStarKwargs(GetOr(obj, "kwargs", VDict([])));
      Apply(env, disk, func, args, kwargs)
  }

  /** A `python_call` dictionary calls the callable it names (or holds) with its
      arguments, the missing ones defaulting to none. */
  lemma DecodePythonCallApplies(env: Env, disk: Disk, obj: Entries, func: Value, args: seq<Value>, kwargs: Entries)
    requires Tagged(obj, "python_call") && HasKey(obj, "callable")
    requires var c := Lookup(obj, "callable").value;
             if IsCallable(c) then func == c else c.VStr? && ImportObject(env, c.s) == Ok(func)
    requires Lookup(obj, "args") == Some(VList(args)) || (!HasKey(obj, "args") && args == [])
    requires Lookup(obj, "kwargs") == Some(VDict(kwargs)) || (!HasKey(obj, "kwargs") && kwargs == [])
    ensures DecodePythonCall(env, disk, obj) == Apply(env, disk, func, args, kwargs)
  {
  }

  /** The registered decoders, `FILECACHE_DECODERS`, in registration order. */
  datatype Decoder = PythonObjectDecoder | PythonCallDecoder

  const FilecacheDecoders: seq<Decoder> := [PythonObjectDecoder, PythonCallDecoder]

  function RunDecoder(env: Env, disk: Disk, d: Decoder, obj: Entries): Result<Value>
  {
    match d
    case PythonObjectDecoder => DecodePythonObject(env, obj)
    case PythonCallDecoder => DecodePythonCall(env, disk, obj)
  }

  /** `object_hook` over a decoder list: the decoders are tried from the last registered
      to the first; the first result that is not None is the value; an exception of any
      decoder becomes a DecodeError; when every decoder answers None the dictionary is
      returned as it is. */
  function TryDecoders(env: Env, disk: Disk, decoders: seq<Decoder>, obj: Entries): (r: Result<Value>)
    ensures r.Err? ==> r.error.DecodeError?
    ensures (forall i :: 0 <= i < |decoders| ==> RunDecoder(env, disk, decoders[i], obj) == Ok(VNone)) ==> r == Ok(VDict(obj))
    decreases |decoders|
  {
    if |decoders| == 0 then Ok(VDict(obj))
    else
      var out := RunDecoder(env, disk, decoders[|decoders| - 1], obj);
      if out.Err? then Err(DecodeError(out.error))
      else if out.value != VNone then out
      else TryDecoders(env, disk, decoders[..|decoders| - 1], obj)
  }

  /** The decoder that decides is the last registered one whose answer is not None:
      its value, or its error wrapped in DecodeError. */
  lemma {:induction false} TryDecodersLastAnswerWins(env: Env, disk: Disk, decoders: seq<Decoder>, obj: Entries, k: nat)
    requires k < |decoders|
    requires RunDecoder(env, disk, decoders[k], obj) != Ok(VNone)
    requires forall i :: k < i < |decoders| ==> RunDecoder(env, disk, decoders[i], obj) == Ok(VNone)
    ensures var out := RunDecoder(env, disk, decoders[k], obj);
            TryDecoders(env, disk, decoders, obj) == if out.Err? then Err(DecodeError(out.error)) else out
    decreases |decoders|
  {
    if k < |decoders| - 1 {
      var init := decoders[..|decoders| - 1];
      assert init[k] == decoders[k];
      assert forall i :: k < i < |init| ==> init[i] == decoders[i];
      TryDecodersLastAnswerWins(env, disk, init, obj, k);
    }
  }

  /** `object_hook`. */
  function ObjectHook(env: Env, disk: Disk, obj: Entries): (r: Result<Value>)
    ensures r.Err? ==> r.error.DecodeError?
  {
    TryDecoders(env, disk, FilecacheDecoders, obj)
  }

  /** The call decoder is consulted first: a `python_call` dictionary's value is the
      call's; a dictionary with neither tag comes back unchanged. */
  lemma ObjectHookOrder(env: Env, disk: Disk, obj: Entries)
    ensures var call := DecodePythonCall(env, disk, obj);
            call != Ok(VNone) ==> ObjectHook(env, disk, obj) == if call.Err? then Err(DecodeError(call.error)) else call
    ensures var call := DecodePythonCall(env, disk, obj);
            var named := DecodePythonObject(env, obj);
            call == Ok(VNone) && named != Ok(VNone) ==>
              ObjectHook(env, disk, obj) == if named.Err? then Err(DecodeError(named.error)) else named
    ensures !Tagged(obj, "python_call") && !Tagged(obj, "python_object") ==> ObjectHook(env, disk, obj) == Ok(VDict(obj))
  {
    var call := DecodePythonCall(env, disk, obj);
    if call != Ok(VNone) {
      TryDecodersLastAnswerWins(env, disk, FilecacheDecoders, obj, 1);
    } else if DecodePythonObject(env, obj) != Ok(VNone) {
      TryDecodersLastAnswerWins(env, disk, FilecacheDecoders, obj, 0);
    }
  }

  /** `json.loads(text, object_hook=object_hook)` on the parsed document: every object
      is built (duplicate keys keep the last value) and handed to the hook after its
      members, so inner records are decoded first. */
  function Loads(env: Env, disk: Disk, doc: Json): (r: Result<Value>)
    ensures r.Err? ==> r.error.DecodeError?
    ensures doc.JStr? ==> r == Ok(VStr(doc.s))
    ensures doc.JInt? ==> r == Ok(VInt(doc.i))
    decreases doc, 1
  {
    match doc
    case JNull => Ok(VNone)
    case JBool(b) => Ok(VBool(b))
    case JInt(i) => Ok(VInt(i))
    case JStr(s) => Ok(VStr(s))
    case JArr(items) =>
      var values :- LoadsItems(env, disk, doc, items);
      Ok(VList(values))
    case JObj(fields) =>
      var entries :- LoadsFields(env, disk, doc, fields);
      ObjectHook(env, disk, DictOf(entries))
  }

  function LoadsItems(env: Env, disk: Disk, ghost parent: Json, items: seq<Json>): (r: Result<seq<Value>>)
    requires forall k :: 0 <= k < |items| ==> items[k] < parent
    ensures r.Err? ==> r.error.DecodeError?
    ensures r.Ok? ==> |r.value| == |items|
    ensures r.Ok? ==> forall k :: 0 <= k < |items| ==> Loads(env, disk, items[k]) == Ok(r.value[k])
    decreases parent, 0, |items|
  {
    if |items| == 0 then Ok([])
    else
      var head :- Loads(env, disk, items[0]);
      var tail :- LoadsItems(env, disk, parent, items[1..]);
      Ok([head] + tail)
  }

  function LoadsFields(env: Env, disk: Disk, ghost parent: Json, fields: seq<(string, Json)>): (r: Result<Entries>)
    requires forall k :: 0 <= k < |fields| ==> fields[k].1 < parent
    ensures r.Err? ==> r.error.DecodeError?
    ensures r.Ok? ==> |r.value| == |fields|
    ensures r.Ok? ==> forall k :: 0 <= k < |fields| ==>
              r.value[k].0 == fields[k].0 && Loads(env, disk, fields[k].1) == Ok(r.value[k].1)
    decreases parent, 0, |fields|
  {
    if |fields| == 0 then Ok([])
    else
      var head :- Loads(env, disk, fields[0].1);
      var tail :- LoadsFields(env, disk, parent, fields[1..]);
      Ok([(fields[0].0, head)] + tail)
  }

  /** The interpreted builtins on the arguments their encoders record. */
  lemma ApplyTimedelta(env: Env, disk: Disk, td: PyTimedelta)
    ensures Apply(env, disk, VFunc(TimedeltaClass), [VInt(td.days), VInt(td.seconds), VInt(td.micros)], [])
         == Ok(VTimedelta(td))
  {
    var args := [VInt(td.days), VInt(td.seconds), VInt(td.micros)];
    assert IntArg(args, 0) == td.days && IntArg(args, 1) == td.seconds && IntArg(args, 2) == td.micros;
    NewTimedeltaOfNormal(td);
  }

  lemma ApplyDate(env: Env, disk: Disk, d: PyDate)
    ensures Apply(env, disk, VFunc(DateFromIsoFormat), [VStr(DateIsoFormat(d))], []) == Ok(VDate(d))
  {
    ParseDateOfIsoFormat(d);
    assert DateFromIsoFormat != TimedeltaClass && DateFromIsoFormat != A2bBase64Func;
  }

  lemma ApplyDateTime(env: Env, disk: Disk, t: PyDateTime)
    ensures Apply(env, disk, VFunc(DateTimeFromIsoFormat), [VStr(DateTimeIsoFormat(t))], []) == Ok(VDateTime(t))
  {
    ParseDateTimeOfIsoFormat(t);
    assert DateTimeFromIsoFormat != TimedeltaClass && DateTimeFromIsoFormat != A2bBase64Func;
    assert DateTimeFromIsoFormat != DateFromIsoFormat;
  }

  lemma ApplyA2b(env: Env, disk: Disk, bs: seq<byte>)
    ensures Apply(env, disk, VFunc(A2bBase64Func), [VStr(Base64.B2aBase64(bs))], []) == Ok(VBytes(bs))
  {
    Base64.A2bOfB2a(bs);
    assert A2bBase64Func != TimedeltaClass;
  }

  /** `date.fromisoformat(a)` succeeds exactly on the text of a valid date, giving that
      date; a string it cannot read is a ValueError and anything else a TypeError. */
  lemma ApplyDateText(env: Env, disk: Disk, a: Value)
    ensures var r := Apply(env, disk, VFunc(DateFromIsoFormat), [a], []);
            && (r.Ok? <==> a.VStr? && ParseDate(a.s).Some?)
            && (r.Ok? ==> r.value == VDate(ParseDate(a.s).value) && ValidDate(r.value.date))
            && (r.Err? && a.VStr? ==> r.error.ValueError?)
            && (!a.VStr? ==> r.Err? && r.error.TypeError?)
  {
    assert DateFromIsoFormat != TimedeltaClass && DateFromIsoFormat != A2bBase64Func;
  }

  /** `datetime.fromisoformat(a)` likewise, on the two naive forms. */
  lemma ApplyDateTimeText(env: Env, disk: Disk, a: Value)
    ensures var r := Apply(env, disk, VFunc(DateTimeFromIsoFormat), [a], []);
            && (r.Ok? <==> a.VStr? && ParseDateTime(a.s).Some?)
            && (r.Ok? ==> r.value == VDateTime(ParseDateTime(a.s).value) && ValidDateTime(r.value.datetime))
            && (r.Err? && a.VStr? ==> r.error.ValueError?)
            && (!a.VStr? ==> r.Err? && r.error.TypeError?)
  {
    assert DateTimeFromIsoFormat != TimedeltaClass && DateTimeFromIsoFormat != A2bBase64Func;
    assert DateTimeFromIsoFormat != DateFromIsoFormat;
  }

  /** `timedelta(*args)` with up to three positional arguments: a TypeError as soon as
      one is not an integer, and otherwise the normalised timedelta of the same total
      (or OverflowError). */
  lemma ApplyTimedeltaArgs(env: Env, disk: Disk, args: seq<Value>)
    requires |args| <= 3
    ensures var r := Apply(env, disk, VFunc(TimedeltaClass), args, []);
            && ((exists i :: 0 <= i < |args| && !IntLike(args[i])) ==> r == Err(TypeError("unsupported type for timedelta component")))
            && (r.Ok? ==> r.value.VTimedelta? && NormalTimedelta(r.value.delta))
            && (r.Err? ==> r.error.TypeError? || r.error.OverflowError?)
  {
  }

  /** `a2b_base64(a)` refuses, with TypeError, an argument that is neither a string
      nor bytes, and, with ValueError, a string that is not ASCII. */
  lemma ApplyA2bRejects(env: Env, disk: Disk, a: Value)
    requires !a.VBytes?
    requires !(a.VStr? && IsAscii(a.s))
    ensures var r := Apply(env, disk, VFunc(A2bBase64Func), [a], []);
            && r.Err?
            && (a.VStr? ==> r.error.ValueError?)
            && (!a.VStr? ==> r.error.TypeError?)
  {
    assert A2bBase64Func != TimedeltaClass;
  }

  /** The typed encoders' records decode back to the value they encode. */
  lemma DecodeTimedeltaRecord(env: Env, disk: Disk, td: PyTimedelta)
    requires StdlibPresent(env)
    ensures ObjectHook(env, disk, Encode.CallRecord("datetime:timedelta",
              [VInt(td.days), VInt(td.seconds), VInt(td.micros)], []).entries) == Ok(VTimedelta(td))
  {
    var args := [VInt(td.days), VInt(td.seconds), VInt(td.micros)];
    ApplyTimedelta(env, disk, td);
    RecordDecodesAsCall(env, disk, "datetime:timedelta", TimedeltaClass, args);
    ObjectHookOrder(env, disk, Encode.CallRecord("datetime:timedelta", args, []).entries);
  }

  lemma DecodeDateRecord(env: Env, disk: Disk, d: PyDate)
    requires StdlibPresent(env)
    ensures ObjectHook(env, disk, Encode.CallRecord("datetime:date.fromisoformat", [VStr(DateIsoFormat(d))], []).entries)
         == Ok(VDate(d))
  {
    var args := [VStr(DateIsoFormat(d))];
    ApplyDate(env, disk, d);
    RecordDecodesAsCall(env, disk, "datetime:date.fromisoformat", DateFromIsoFormat, args);
    ObjectHookOrder(env, disk, Encode.CallRecord("datetime:date.fromisoformat", args, []).entries);
  }

  lemma DecodeDateTimeRecord(env: Env, disk: Disk, t: PyDateTime)
    requires StdlibPresent(env)
    ensures ObjectHook(env, disk, Encode.CallRecord("datetime:datetime.fromisoformat", [VStr(DateTimeIsoFormat(t))], []).entries)
         == Ok(VDateTime(t))
  {
    var args := [VStr(DateTimeIsoFormat(t))];
    ApplyDateTime(env, disk, t);
    RecordDecodesAsCall(env, disk, "datetime:datetime.fromisoformat", DateTimeFromIsoFormat, args);
    ObjectHookOrder(env, disk, Encode.CallRecord("datetime:datetime.fromisoformat", args, []).entries);
  }

  lemma DecodeBytesRecord(env: Env, disk: Disk, bs: seq<byte>)
    requires StdlibPresent(env)
    ensures ObjectHook(env, disk, Encode.CallRecord("binascii:a2b_base64", [VStr(Base64.B2aBase64(bs))], []).entries)
         == Ok(VBytes(bs))
  {
    var args := [VStr(Base64.B2aBase64(bs))];
    ApplyA2b(env, disk, bs);
    RecordDecodesAsCall(env, disk, "binascii:a2b_base64", A2bBase64Func, args);
    ObjectHookOrder(env, disk, Encode.CallRecord("binascii:a2b_base64", args, []).entries);
  }

  /** A call record with positional arguments only, whose name imports to `c`, decodes
      as the call of `c` on those arguments. */
  lemma RecordDecodesAsCall(env: Env, disk: Disk, fqn: string, c: Callable, args: seq<Value>)
    requires ImportObject(env, fqn) == Ok(VFunc(c))
    requires |args| > 0
    ensures DecodePythonCall(env, disk, Encode.CallRecord(fqn, args, []).entries) == Apply(env, disk, VFunc(c), args, [])
  {
    var obj := Encode.CallRecord(fqn, args, []).entries;
    Encode.CallRecordFields(fqn, args, []);
    assert DictOf([]) == [];
    DecodePythonCallApplies(env, disk, obj, VFunc(c), args, []);
  }
}

=== FILE: encode.dfy ===
/** The call records of cacholote/encode.py: the `python_object` and `python_call`
    dictionaries and the encoders of the standard types that produce them. */
module Encode {
  import opened Results
  import opened Text
  import opened IsoDates
  import opened Py
  import Base64
  import Sorting

  /** What `dictify_python_object` and `dictify_python_call` accept: a
      "module:qualname" string or a callable. */
  datatype Target = Named(fqn: string) | Function(c: Callable)

  /** `inspect_fully_qualified_name`: "module:qualname", or ValueError when no module
      is found for the object. Module names contain no ':', so the first ':' separates
      the two parts again. */
  function InspectFullyQualifiedName(c: Callable): (r: Result<string>)
    ensures r.Err? <==> c.moduleName.None?
    ensures r.Err? ==> r.error.ValueError?
    ensures r.Ok? && ':' !in c.moduleName.value ==> Partition(r.value, ':') == (c.moduleName.value, c.qualname)
  {
    match c.moduleName
    case None => Err(ValueError("can't getmodule for " + c.qualname))
    case Some(m) =>
      if ':' !in m then PartitionOfJoined(m, ':', c.qualname); Ok(m + ":" + c.qualname)
      else Ok(m + ":" + c.qualname)
  }

  /** The fully qualified name a target is recorded under. */
  function TargetName(t: Target): (r: Result<string>)
    ensures t.Named? ==> (r.Ok? <==> ':' in t.fqn)
    ensures t.Named? && r.Ok? ==> r.value == t.fqn
    ensures r.Err? ==> r.error.ValueError?
  {
    match t
    case Named(fqn) =>
      if ':' !in fqn then Err(ValueError(fqn + " not in the form 'module:qualname'")) else Ok(fqn)
    case Function(c) => InspectFullyQualifiedName(c)
  }

  predicate IsPythonObjectRecord(v: Value, fqn: string)
  {
    v == VDict([("type", VStr("python_object")), ("fully_qualified_name", VStr(fqn))])
  }

  /** `dictify_python_object`: exactly the two keys "type" = "python_object" and
      "fully_qualified_name"; a string without ':' is refused with ValueError. */
  function DictifyPythonObject(t: Target): (r: Result<Value>)
    ensures t.Named? ==> (r.Ok? <==> ':' in t.fqn)
    ensures r.Err? ==> r.error.ValueError?
    ensures r.Ok? ==> r.value.VDict? && KeysOf(r.value.entries) == ["type", "fully_qualified_name"]
    ensures r.Ok? ==> Lookup(r.value.entries, "type") == Some(VStr("python_object"))
    ensures r.Ok? && t.Named? ==> Lookup(r.value.entries, "fully_qualified_name") == Some(VStr(t.fqn))
  {
    var fqn :- TargetName(t);
    var r := VDict([("type", VStr("python_object")), ("fully_qualified_name", VStr(fqn))]);
    assert KeysOf(r.entries) == ["type", "fully_qualified_name"];
    Ok(r)
  }

  /** Keyword order of `sorted(kwargs)`. */
  function KeyLe(a: (string, Value), b: (string, Value)): bool
  {
    !StrLt(b.0, a.0)
  }

  lemma KeyLeTotalPreorder()
    ensures Sorting.TotalPreorder(KeyLe)
  {
    forall x: (string, Value), y: (string, Value)
      ensures KeyLe(x, y) || KeyLe(y, x)
    {
      StrLtTotal(x.0, y.0);
      if StrLt(x.0, y.0) { StrLtAsymmetric(x.0, y.0); }
    }
    forall x: (string, Value), y: (string, Value), z: (string, Value) | KeyLe(x, y) && KeyLe(y, z)
      ensures KeyLe(x, z)
    {
      StrLtTotal(x.0, y.0);
      if StrLt(x.0, y.0) && StrLt(z.0, x.0) {
        StrLtTransitive(z.0, x.0, y.0);
      }
    }
  }

  lemma KeyLeAntisymmetric(x: (string, Value), y: (string, Value))
    requires KeyLe(x, y) && KeyLe(y, x)
    ensures x.0 == y.0
  {
    StrLtTotal(x.0, y.0);
  }

  lemma SameKeySameIndex(s: Entries, i: int, j: int)
    requires UniqueKeys(s) && 0 <= i < |s| && 0 <= j < |s| && s[i].0 == s[j].0
    ensures i == j
  {
  }

  /** `{k: kwargs[k] for k in sorted(kwargs)}`. */
  function SortKwargs(kwargs: Entries): (r: Entries)
    ensures UniqueKeys(r)
    ensures Sorting.Sorted(r, KeyLe)
    ensures multiset(r) == multiset(DictOf(kwargs))
  {
    var d := DictOf(kwargs);
    var r := Sorting.SortBy(d, KeyLe);
    KeyLeTotalPreorder();
    Sorting.SortBySorted(d, KeyLe);
    UniqueKeysOfPermutation(d, r);
    r
  }

  lemma UniqueKeysOfPermutation(a: Entries, b: Entries)
    requires UniqueKeys(a) && multiset(a) == multiset(b)
    ensures UniqueKeys(b)
  {
    forall i, j | 0 <= i < j < |b|
      ensures b[i].0 != b[j].0
    {
      assert b[i] in multiset(a) && b[j] in multiset(a);
      var i' :| 0 <= i' < |a| && a[i'] == b[i];
      var j' :| 0 <= j' < |a| && a[j'] == b[j];
      AtMostOnce(a, i');
      TwiceCounted(b, i, j);
      assert b[i] != b[j];
    }
  }

  lemma TwiceCounted<T>(b: seq<T>, i: int, j: int)
    requires 0 <= i < j < |b|
    ensures b[i] == b[j] ==> multiset(b)[b[i]] >= 2
  {
    assert b == b[..i] + [b[i]] + b[i + 1..j] + [b[j]] + b[j + 1..];
  }

  lemma AtMostOnce(a: Entries, i: int)
    requires UniqueKeys(a) && 0 <= i < |a|
    ensures multiset(a)[a[i]] == 1
  {
    var x := a[i];
    assert a == a[..i] + [x] + a[i + 1..];
    assert x !in a[..i] by {
      forall k | 0 <= k < i ensures a[..i][k] != x { assert a[k].0 != a[i].0; }
    }
    assert x !in a[i + 1..] by {
      var t := a[i + 1..];
      forall k | 0 <= k < |t| ensures t[k] != x { assert t[k] == a[i + 1 + k]; }
    }
  }

  /** The dictionary `dictify_python_call` returns once the arguments are bound:
      "type" and "callable", then "args" only when there are positional arguments and
      "kwargs" only when there are keyword arguments, sorted by name. */
  function CallRecord(fqn: string, args: seq<Value>, kwargs: Entries): (r: Value)
    ensures r.VDict? && UniqueKeys(r.entries)
  {
    var sorted := SortKwargs(kwargs);
    var e0 := [("type", VStr("python_call")), ("callable", VStr(fqn))];
    var e1 := if |args| > 0 then e0 + [("args", VList(args))] else e0;
    var e2 := if |sorted| > 0 then e1 + [("kwargs", VDict(sorted))] else e1;
    CallRecordUnique(e0, e1, e2);
    VDict(e2)
  }

  lemma CallRecordUnique(e0: Entries, e1: Entries, e2: Entries)
    requires |e0| == 2 && e0[0].0 == "type" && e0[1].0 == "callable"
    requires e1 == e0 || (|e1| == 3 && e1[..2] == e0 && e1[2].0 == "args")
    requires e2 == e1 || (|e2| == |e1| + 1 && e2[..|e1|] == e1 && e2[|e1|].0 == "kwargs")
    ensures UniqueKeys(e2)
  {
    assert forall i :: 0 <= i < |e1| ==> e1[i].0 in ["type", "callable", "args"] by {
      if e1 != e0 {
        assert forall i :: 0 <= i < 2 ==> e1[i] == e0[i];
      }
    }
    if e2 != e1 {
      assert forall i :: 0 <= i < |e1| ==> e2[i] == e1[i];
    }
  }

  /** A record of positional arguments only has exactly three entries. */
  lemma CallRecordPositional(fqn: string, args: seq<Value>)
    requires |args| > 0
    ensures CallRecord(fqn, args, []).entries
         == [("type", VStr("python_call")), ("callable", VStr(fqn)), ("args", VList(args))]
  {
    assert DictOf([]) == [];
    assert |SortKwargs([])| == 0;
  }

  lemma LookupSnoc(e: Entries, p: (string, Value), k: string)
    ensures Lookup(e + [p], k) == if p.0 == k then Some(p.1) else Lookup(e, k)
  {
    assert (e + [p])[..|e|] == e;
  }

  /** What a reader of the record finds under each key. */
  lemma CallRecordFields(fqn: string, args: seq<Value>, kwargs: Entries)
    ensures var r := CallRecord(fqn, args, kwargs).entries;
            && Lookup(r, "type") == Some(VStr("python_call"))
            && Lookup(r, "callable") == Some(VStr(fqn))
            && Lookup(r, "args") == (if |args| > 0 then Some(VList(args)) else None)
            && Lookup(r, "kwargs") == (if |DictOf(kwargs)| > 0 then Some(VDict(SortKwargs(kwargs))) else None)
  {
    var sorted := SortKwargs(kwargs);
    assert |sorted| == |DictOf(kwargs)|;
    var e0 := [("type", VStr("python_call")), ("callable", VStr(fqn))];
    var e1 := if |args| > 0 then e0 + [("args", VList(args))] else e0;
    var e2 := if |sorted| > 0 then e1 + [("kwargs", VDict(sorted))] else e1;
    assert CallRecord(fqn, args, kwargs).entries == e2;
    LookupHead(fqn);
    var keys := ["type", "callable", "args", "kwargs"];
    if |args| > 0 {
      LookupSnoc(e0, ("args", VList(args)), "type");
      LookupSnoc(e0, ("args", VList(args)), "callable");
      LookupSnoc(e0, ("args", VList(args)), "args");
      LookupSnoc(e0, ("args", VList(args)), "kwargs");
    }
    if |sorted| > 0 {
      LookupSnoc(e1, ("kwargs", VDict(sorted)), "type");
      LookupSnoc(e1, ("kwargs", VDict(sorted)), "callable");
      LookupSnoc(e1, ("kwargs", VDict(sorted)), "args");
      LookupSnoc(e1, ("kwargs", VDict(sorted)), "kwargs");
    }
  }

  lemma LookupHead(fqn: string)
    ensures var e0 := [("type", VStr("python_call")), ("callable", VStr(fqn))];
            && Lookup(e0, "type") == Some(VStr("python_call"))
            && Lookup(e0, "callable") == Some(VStr(fqn))
            && Lookup(e0, "args") == None
            && Lookup(e0, "kwargs") == None
  {
  }

  /** Two keyword spellings with the same bindings (in any order) give the same record:
      the record depends on the keyword arguments only as a mapping. */
  lemma CallRecordIgnoresKeywordOrder(fqn: string, args: seq<Value>, k1: Entries, k2: Entries)
    requires UniqueKeys(k1) && multiset(k1) == multiset(k2)
    ensures CallRecord(fqn, args, k1) == CallRecord(fqn, args, k2)
  {
    SortKwargsIgnoresOrder(k1, k2);
  }

  /** Sorting keyword arguments with distinct names forgets the order they came in. */
  lemma SortKwargsIgnoresOrder(k1: Entries, k2: Entries)
    requires UniqueKeys(k1) && multiset(k1) == multiset(k2)
    ensures SortKwargs(k1) == SortKwargs(k2)
  {
    UniqueKeysOfPermutation(k1, k2);
    DictOfUnique(k1);
    DictOfUnique(k2);
    var s1, s2 := SortKwargs(k1), SortKwargs(k2);
    forall i, j | 0 <= i < |s1| && 0 <= j < |s1| && KeyLe(s1[i], s1[j]) && KeyLe(s1[j], s1[i])
      ensures s1[i] == s1[j]
    {
      KeyLeAntisymmetric(s1[i], s1[j]);
      SameKeySameIndex(s1, i, j);
    }
    Sorting.SortedUnique(s1, s2, KeyLe);
  }

  /** Sorting keyword arguments forgets everything but the mapping they spell. */
  lemma SortKwargsOfSameMapping(k1: Entries, k2: Entries)
    requires forall k :: Lookup(k1, k) == Lookup(k2, k)
    ensures SortKwargs(k1) == SortKwargs(k2)
  {
    var d1, d2 := DictOf(k1), DictOf(k2);
    SameMappingSameMultiset(d1, d2);
    SortKwargsIgnoresOrder(d1, d2);
    DictOfUnique(d1);
    DictOfUnique(d2);
  }

  /** Two dictionaries with distinct keys and the same lookups hold the same pairs. */
  lemma SameMappingSameMultiset(a: Entries, b: Entries)
    requires UniqueKeys(a) && UniqueKeys(b)
    requires forall k :: Lookup(a, k) == Lookup(b, k)
    ensures multiset(a) == multiset(b)
  {
    forall p: (string, Value)
      ensures multiset(a)[p] == multiset(b)[p]
    {
      UniqueCount(a, p);
      UniqueCount(b, p);
    }
  }

  /** In a dictionary with distinct keys a pair occurs once when the lookup of its key
      finds its value, and not at all otherwise. */
  lemma UniqueCount(a: Entries, p: (string, Value))
    requires UniqueKeys(a)
    ensures multiset(a)[p] == if Lookup(a, p.0) == Some(p.1) then 1 else 0
  {
    if p in a {
      var i :| 0 <= i < |a| && a[i] == p;
      AtMostOnce(a, i);
      var j :| 0 <= j < |a| && a[j] == (p.0, Lookup(a, p.0).value);
      SameKeySameIndex(a, i, j);
    }
  }

  /** A dictionary whose keys are already unique is rebuilt as itself. */
  lemma {:induction false} DictOfUnique(pairs: Entries)
    requires UniqueKeys(pairs)
    ensures DictOf(pairs) == pairs
  {
    if |pairs| > 0 {
      var init := pairs[..|pairs| - 1];
      var last := pairs[|pairs| - 1];
      DictOfUnique(init);
      assert !HasKey(init, last.0);
      assert init + [last] == pairs;
    }
  }

  /** Uses the binding when the callable has a signature, the arguments as given when
      it has none, and raises the binding error otherwise. */
  function BoundArguments(b: BindOutcome, args: seq<Value>, kwargs: Entries): (r: Result<(seq<Value>, Entries)>)
    ensures b.NoSignature? ==> r == Ok((args, kwargs))
    ensures b.Bound? ==> r == Ok((b.args, b.kwargs))
    ensures b.BindFailed? ==> r == Err(b.error)
  {
    match b
    case NoSignature => Ok((args, kwargs))
    case BindFailed(e) => Err(e)
    case Bound(a, k) => Ok((a, k))
  }

  /** `dictify_python_call`: the record of calling `t` with the arguments, normalised
      through the callable's signature when it has one. A string target is imported
      first to find that signature. */
  function DictifyPythonCall(env: Env, t: Target, args: seq<Value>, kwargs: Entries): (r: Result<Value>)
    ensures t.Named? && ':' !in t.fqn ==> r.Err? && r.error.ValueError?
    ensures r.Ok? ==> exists fqn, a, k :: TargetName(t) == Ok(fqn) && r.value == CallRecord(fqn, a, k)
  {
    var fqn :- TargetName(t);
    var callableObj :- if t.Named? then ImportObject(env, fqn) else Ok(VFunc(t.c));
    var bound :- BoundArguments(Bind(env, callableObj, args, kwargs, false), args, kwargs);
    Ok(CallRecord(fqn, bound.0, bound.1))
  }

  /** The record depends on the keyword arguments only as a mapping, when the callable
      binds both orders alike (as signature binding does). */
  lemma DictifyPythonCallIgnoresKeywordOrder(env: Env, t: Target, args: seq<Value>, k1: Entries, k2: Entries)
    requires UniqueKeys(k1) && multiset(k1) == multiset(k2)
    requires forall f :: Bind(env, f, args, k1, false) == Bind(env, f, args, k2, false)
    ensures DictifyPythonCall(env, t, args, k1) == DictifyPythonCall(env, t, args, k2)
  {
    if TargetName(t).Ok? {
      var fqn := TargetName(t).value;
      var callableObj := if t.Named? then ImportObject(env, fqn) else Ok(VFunc(t.c));
      if callableObj.Ok? {
        var b := Bind(env, callableObj.value, args, k1, false);
        assert b == Bind(env, callableObj.value, args, k2, false);
        if b.NoSignature? {
          CallRecordIgnoresKeywordOrder(fqn, args, k1, k2);
        }
      }
    }
  }

  /** A callable object whose binding succeeds is recorded with the bound arguments. */
  lemma DictifyPythonCallBound(env: Env, c: Callable, args: seq<Value>, kwargs: Entries, a: seq<Value>, k: Entries)
    requires Bind(env, VFunc(c), args, kwargs, false) == Bound(a, k)
    requires c.moduleName.Some?
    ensures DictifyPythonCall(env, Function(c), args, kwargs)
         == Ok(CallRecord(c.moduleName.value + ":" + c.qualname, a, k))
  {
  }

  /** Callables with no signature, and the one-argument builtins called with one
      argument, are recorded with the arguments exactly as given. */
  lemma DictifyPythonCallUnbound(env: Env, t: Target, f: Value, args: seq<Value>)
    requires t.Named? ==> ImportObject(env, t.fqn) == Ok(f)
    requires t.Function? ==> f == VFunc(t.c)
    requires f == VFunc(TimedeltaClass) || (f.VFunc? && OneArgBuiltin(f.callable) && |args| == 1)
    requires TargetName(t).Ok?
    ensures DictifyPythonCall(env, t, args, []) == Ok(CallRecord(TargetName(t).value, args, []))
  {
  }

  /** `dictify_datetime`: a call of `datetime.fromisoformat` on the ISO text. */
  function DictifyDateTime(env: Env, t: PyDateTime): Result<Value>
  {
    DictifyPythonCall(env, Named("datetime:datetime.fromisoformat"), [VStr(DateTimeIsoFormat(t))], [])
  }

  /** `dictify_date`: a call of `date.fromisoformat` on the ISO text. */
  function DictifyDate(env: Env, d: PyDate): Result<Value>
  {
    DictifyPythonCall(env, Named("datetime:date.fromisoformat"), [VStr(DateIsoFormat(d))], [])
  }

  /** `dictify_timedelta`: a call of `timedelta(days, seconds, microseconds)`. */
  function DictifyTimedelta(env: Env, t: PyTimedelta): Result<Value>
  {
    DictifyPythonCall(env, Named("datetime:timedelta"), [VInt(t.days), VInt(t.seconds), VInt(t.micros)], [])
  }

  /** `dictify_bytes`: a call of `binascii.a2b_base64` on the base64 text. */
  function DictifyBytes(env: Env, bs: seq<byte>): Result<Value>
  {
    DictifyPythonCall(env, Function(A2bBase64Func), [VStr(Base64.B2aBase64(bs))], [])
  }

  /** `dictify_pickable`: a call of `pickle.loads` on the pickled bytes. */
  function DictifyPickable(env: Env, v: Value): Result<Value>
  {
    var data :- env.pickle(v);
    DictifyPythonCall(env, Function(PickleLoads), [VBytes(data)], [])
  }

  /** With the standard library present, each typed encoder records its call with the
      value's ISO text, its attributes or its base64 text as the only arguments. */
  lemma DictifyDateRecord(env: Env, d: PyDate)
    requires StdlibPresent(env)
    ensures DictifyDate(env, d) == Ok(CallRecord("datetime:date.fromisoformat", [VStr(DateIsoFormat(d))], []))
  {
    DictifyPythonCallUnbound(env, Named("datetime:date.fromisoformat"), VFunc(DateFromIsoFormat), [VStr(DateIsoFormat(d))]);
  }

  lemma DictifyDateTimeRecord(env: Env, t: PyDateTime)
    requires StdlibPresent(env)
    ensures DictifyDateTime(env, t)
         == Ok(CallRecord("datetime:datetime.fromisoformat", [VStr(DateTimeIsoFormat(t))], []))
  {
    DictifyPythonCallUnbound(env, Named("datetime:datetime.fromisoformat"), VFunc(DateTimeFromIsoFormat), [VStr(DateTimeIsoFormat(t))]);
  }

  lemma DictifyTimedeltaRecord(env: Env, td: PyTimedelta)
    requires StdlibPresent(env)
    ensures DictifyTimedelta(env, td)
         == Ok(CallRecord("datetime:timedelta", [VInt(td.days), VInt(td.seconds), VInt(td.micros)], []))
  {
    DictifyPythonCallUnbound(env, Named("datetime:timedelta"), VFunc(TimedeltaClass), [VInt(td.days), VInt(td.seconds), VInt(td.micros)]);
  }

  /** The bytes encoder needs no import: it records the callable object itself. */
  lemma DictifyBytesRecord(env: Env, bs: seq<byte>)
    ensures DictifyBytes(env, bs) == Ok(CallRecord("binascii:a2b_base64", [VStr(Base64.B2aBase64(bs))], []))
  {
    var args := [VStr(Base64.B2aBase64(bs))];
    assert "binascii" + ":" + "a2b_base64" == "binascii:a2b_base64";
    assert TargetName(Function(A2bBase64Func)) == Ok("binascii:a2b_base64");
    assert Bind(env, VFunc(A2bBase64Func), args, [], false) == Bound(args, []);
  }
}

=== FILE: eviction.dfy ===
/** What cacholote/clean.py and cacholote/cleaner.py share: the eviction policy and its
    row order, reading the file a row refers to out of its stored arguments, removing a
    path, and the order in which untracked files go. */
module Eviction {
  import opened Results
  import opened Json
  import opened Py
  import opened Text
  import opened IsoDates
  import opened Database
  import Files
  import Sorting

  datatype Policy = LRU | LFU

  /** The `method` argument: "LRU" or "LFU", ValueError for anything else. */
  function ParseMethod(m: string): (r: Result<Policy>)
    ensures r == Ok(LRU) <==> m == "LRU"
    ensures r == Ok(LFU) <==> m == "LFU"
    ensures r.Err? <==> m != "LRU" && m != "LFU"
    ensures r.Err? ==> r.error.ValueError?
  {
    if m == "LRU" then Ok(LRU)
    else if m == "LFU" then Ok(LFU)
    else Err(ValueError("`method` must be 'LRU' or 'LFU'."))
  }

  /** `ORDER BY timestamp, counter`: least recently used first, ties by use count. */
  predicate LruFirst(a: CacheEntry, b: CacheEntry)
  {
    Before(a.timestamp, b.timestamp) || (a.timestamp == b.timestamp && a.counter <= b.counter)
  }

  /** `ORDER BY counter, timestamp`: least frequently used first, ties by age. */
  predicate LfuFirst(a: CacheEntry, b: CacheEntry)
  {
    a.counter < b.counter || (a.counter == b.counter && !Before(b.timestamp, a.timestamp))
  }

  function Order(p: Policy): (CacheEntry, CacheEntry) -> bool
  {
    if p == LRU then LruFirst else LfuFirst
  }

  lemma LruFirstTotalPreorder()
    ensures Sorting.TotalPreorder(LruFirst)
  {
    forall a: CacheEntry, b: CacheEntry ensures LruFirst(a, b) || LruFirst(b, a) {
      BeforeTotal(a.timestamp, b.timestamp);
    }
    forall a: CacheEntry, b: CacheEntry, c: CacheEntry | LruFirst(a, b) && LruFirst(b, c)
      ensures LruFirst(a, c)
    {
      if Before(a.timestamp, b.timestamp) && Before(b.timestamp, c.timestamp) {
        BeforeTransitive(a.timestamp, b.timestamp, c.timestamp);
      }
    }
  }

  lemma LfuFirstTotalPreorder()
    ensures Sorting.TotalPreorder(LfuFirst)
  {
    forall a: CacheEntry, b: CacheEntry ensures LfuFirst(a, b) || LfuFirst(b, a) {
      BeforeTotal(a.timestamp, b.timestamp);
      if a.timestamp != b.timestamp && Before(a.timestamp, b.timestamp) {
        BeforeIrreflexive(a.timestamp);
        if Before(b.timestamp, a.timestamp) {
          BeforeTransitive(a.timestamp, b.timestamp, a.timestamp);
        }
      }
    }
    forall a: CacheEntry, b: CacheEntry, c: CacheEntry | LfuFirst(a, b) && LfuFirst(b, c)
      ensures LfuFirst(a, c)
    {
      if a.counter == b.counter && b.counter == c.counter && Before(c.timestamp, a.timestamp) {
        BeforeTotal(b.timestamp, a.timestamp);
        if Before(b.timestamp, a.timestamp) {
          BeforeTotal(c.timestamp, b.timestamp);
          if Before(c.timestamp, b.timestamp) {
          } else if c.timestamp != b.timestamp {
            BeforeTransitive(b.timestamp, c.timestamp, a.timestamp);
          }
        } else if b.timestamp != a.timestamp {
          BeforeTransitive(c.timestamp, a.timestamp, b.timestamp);
        }
      }
    }
  }

  lemma OrderTotalPreorder(p: Policy)
    ensures Sorting.TotalPreorder(Order(p))
  {
    if p == LRU { LruFirstTotalPreorder(); } else { LfuFirstTotalPreorder(); }
  }

  /** The rows in the order the cleaners visit them. */
  function EvictionOrder(p: Policy, t: Table): (r: Table)
    ensures multiset(r) == multiset(t)
    ensures Sorting.Sorted(r, Order(p))
  {
    OrderTotalPreorder(p);
    Sorting.SortBySorted(t, Order(p));
    Sorting.SortBy(t, Order(p))
  }

  /** A stored document as plain Python values, as the JSON column hands it back. */
  function PlainValue(j: Json): Value
  {
    match j
    case JNull => VNone
    case JBool(b) => VBool(b)
    case JInt(i) => VInt(i)
    case JStr(s) => VStr(s)
    case JArr(items) => VList(seq(|items|, k requires 0 <= k < |items| => PlainValue(items[k])))
    case JObj(fields) => VDict(DictOf(seq(|fields|, k requires 0 <= k < |fields| => (fields[k].0, PlainValue(fields[k].1)))))
  }

  /** `result["args"]` as the database returns it: the member of a stored object, and
      SQL NULL (None) when the result is not an object, has no such member or holds
      null there. */
  function ArgsColumn(result: Json): (r: Option<Json>)
    ensures !result.JObj? ==> r.None?
  {
    if !result.JObj? then None
    else
      match FieldOf(result.fields, "args")
      case Some(JNull) => None
      case other => other
  }

  /** The member stored last under `k`. */
  function FieldOf(fields: seq<(string, Json)>, k: string): (r: Option<Json>)
    ensures r.Some? ==> exists i :: 0 <= i < |fields| && fields[i] == (k, r.value)
    ensures r.None? ==> forall i :: 0 <= i < |fields| ==> fields[i].0 != k
  {
    if |fields| == 0 then None
    else if fields[|fields| - 1].0 == k then Some(fields[|fields| - 1].1)
    else
      var r := FieldOf(fields[..|fields| - 1], k);
      assert forall i :: 0 <= i < |fields| - 1 ==> fields[..|fields| - 1][i] == fields[i];
      r
  }

  /** `*cached_args`: an array spreads into its items, a string into its characters and
      an object into its keys; anything else (None among them) is not iterable and
      raises TypeError. */
  function Unpack(col: Option<Json>): (r: Result<seq<Value>>)
    ensures r.Err? <==> col.None? || !(col.value.JArr? || col.value.JStr? || col.value.JObj?)
    ensures r.Err? ==> r.error.TypeError?
    ensures r.Ok? && col.value.JArr? ==> |r.value| == |col.value.items|
  {
    match col
    case Some(JArr(items)) => Ok(seq(|items|, k requires 0 <= k < |items| => PlainValue(items[k])))
    case Some(JStr(s)) => Ok(seq(|s|, k requires 0 <= k < |s| => VStr([s[k]])))
    case Some(JObj(fields)) => Ok(seq(|fields|, k requires 0 <= k < |fields| => VStr(fields[k].0)))
    case _ => Err(TypeError("argument after * must be an iterable"))
  }

  /** The file a row's arguments describe, with whether it is removed recursively (a
      zarr store): none when the arguments are not file arguments; the errors of
      `_are_file_args` and `_get_fs_and_urlpath` pass through. */
  function RowFile(env: Env, disk: Disk, args: seq<Value>): (r: Result<Option<(string, bool)>>)
    ensures Files.AreFileArgs(args) == Ok(false) ==> r == Ok(None)
    ensures r.Ok? && r.value.Some? ==>
              && Files.AreFileArgs(args) == Ok(true)
              && Files.GetFsAndUrlpath(env, disk, args[0], false) == Ok(r.value.value.0)
              && (r.value.value.1 <==> Lookup(args[0].entries, "type") == Some(VStr(Files.ZarrType)))
  {
    var isFile :- Files.AreFileArgs(args);
    if !isFile then Ok(None)
    else
      var path :- Files.GetFsAndUrlpath(env, disk, args[0], false);
      Ok(Some((path, Lookup(args[0].entries, "type") == Some(VStr(Files.ZarrType)))))
  }

  /** The file of a row, from its stored result. */
  function FileOfRow(env: Env, disk: Disk, row: CacheEntry): (r: Result<Option<(string, bool)>>)
  {
    var args :- Unpack(ArgsColumn(row.result));
    RowFile(env, disk, args)
  }

  /** `fs.rm(path, recursive)`: a missing path is FileNotFoundError and a directory
      removed without `recursive` is IsADirectoryError; otherwise the path is gone and
      nothing else changes. */
  function Rm(disk: Disk, path: string, recursive: bool): (r: Result<Disk>)
    ensures r.Ok? <==> path in disk && (recursive || !disk[path].isDir)
    ensures r.Ok? ==> r.value == disk - {path}
  {
    if path !in disk then Err(FileNotFoundError(path))
    else if disk[path].isDir && !recursive then Err(IsADirectoryError(path))
    else Ok(disk - {path})
  }

  /** The `session.execute(delete ... where key == key)`: every row with that key goes,
      whatever its expiration. */
  function DeleteKey(t: Table, key: string): (r: Table)
    ensures forall x :: x in r <==> x in t && x.key != key
    ensures |r| <= |t|
  {
    if |t| == 0 then []
    else
      var rest := DeleteKey(t[1..], key);
      assert forall x :: x in t <==> x == t[0] || x in t[1..];
      if t[0].key == key then rest else [t[0]] + rest
  }

  /** Untracked files go oldest-modified first, as `sorted(zip(times, paths))` orders
      them: by modification time, then by path. */
  predicate OlderFirst(a: (int, string), b: (int, string))
  {
    a.0 < b.0 || (a.0 == b.0 && !StrLt(b.1, a.1))
  }

  lemma OlderFirstTotalPreorder()
    ensures Sorting.TotalPreorder(OlderFirst)
  {
    forall a: (int, string), b: (int, string) ensures OlderFirst(a, b) || OlderFirst(b, a) {
      if StrLt(a.1, b.1) { StrLtAsymmetric(a.1, b.1); }
    }
    forall a: (int, string), b: (int, string), c: (int, string) | OlderFirst(a, b) && OlderFirst(b, c)
      ensures OlderFirst(a, c)
    {
      if a.0 == b.0 && b.0 == c.0 && StrLt(c.1, a.1) {
        StrLtTotal(b.1, a.1);
        if StrLt(b.1, a.1) {
          StrLtTotal(c.1, b.1);
          if c.1 != b.1 && !StrLt(c.1, b.1) {
            StrLtTransitive(b.1, c.1, a.1);
            StrLtAsymmetric(a.1, b.1);
          }
        } else if b.1 != a.1 {
          StrLtTransitive(c.1, a.1, b.1);
        }
      }
    }
  }

  /** `fs.modified(path)`; paths the cleaners ask about exist. */
  function MTime(disk: Disk, path: string): int
  {
    if path in disk then disk[path].mtime else 0
  }

  function AgeOrder(disk: Disk): (string, string) -> bool
  {
    (a, b) => OlderFirst((MTime(disk, a), a), (MTime(disk, b), b))
  }

  lemma AgeOrderTotalPreorder(disk: Disk)
    ensures Sorting.TotalPreorder(AgeOrder(disk))
  {
    OlderFirstTotalPreorder();
    var le := AgeOrder(disk);
    forall a: string, b: string ensures le(a, b) || le(b, a) {
      assert OlderFirst((MTime(disk, a), a), (MTime(disk, b), b)) || OlderFirst((MTime(disk, b), b), (MTime(disk, a), a));
    }
    forall a: string, b: string, c: string | le(a, b) && le(b, c) ensures le(a, c) {
      assert OlderFirst((MTime(disk, a), a), (MTime(disk, c), c));
    }
  }

  /** The paths oldest-modified first. */
  function ByAge(disk: Disk, paths: seq<string>): (r: seq<string>)
    ensures multiset(r) == multiset(paths)
    ensures Sorting.Sorted(r, AgeOrder(disk))
  {
    AgeOrderTotalPreorder(disk);
    Sorting.SortBySorted(paths, AgeOrder(disk));
    Sorting.SortBy(paths, AgeOrder(disk))
  }

  datatype Step = Continue | Stopped | Failed(error: Error)

  /** The file of a row, as the cleaners resolve it: without validation, so the
      filesystem's contents play no part. */
  function TrackedFile(env: Env, row: CacheEntry): Result<Option<(string, bool)>>
  {
    FileOfRow(env, map[], row)
  }

  /** The row `row` names `path` on the directory's filesystem. */
  predicate Evictable(env: Env, dirname: string, row: CacheEntry, path: string)
  {
    var f := TrackedFile(env, row);
    f.Ok? && f.value.Some? && f.value.value.0 == path && Protocol(path) == Protocol(dirname)
  }

  /** Some row of `rows` has the key of eviction `e` and names its path. */
  predicate RowFor(env: Env, dirname: string, rows: seq<CacheEntry>, e: (string, string))
  {
    exists row :: row in rows && row.key == e.0 && Evictable(env, dirname, row, e.1)
  }

  lemma RowForHead(env: Env, dirname: string, rows: seq<CacheEntry>, e: (string, string))
    requires |rows| > 0 && rows[0].key == e.0 && Evictable(env, dirname, rows[0], e.1)
    ensures RowFor(env, dirname, rows, e)
  {
    assert rows[0] in rows;
  }

  lemma RowForTail(env: Env, dirname: string, rows: seq<CacheEntry>, e: (string, string))
    requires |rows| > 0 && RowFor(env, dirname, rows[1..], e)
    ensures RowFor(env, dirname, rows, e)
  {
    var w :| w in rows[1..] && w.key == e.0 && Evictable(env, dirname, w, e.1);
    assert w in rows;
  }

  /** A row found in a table is found in any table with the same rows. */
  lemma RowForSameRows(env: Env, dirname: string, rows: seq<CacheEntry>, table: seq<CacheEntry>, e: (string, string))
    requires RowFor(env, dirname, rows, e)
    requires forall row :: row in rows ==> row in table
    ensures RowFor(env, dirname, table, e)
  {
    var w :| w in rows && w.key == e.0 && Evictable(env, dirname, w, e.1);
    assert w in table;
  }

  function Paths(evicted: seq<(string, string)>): (r: seq<string>)
    ensures |r| == |evicted|
    ensures forall i :: 0 <= i < |evicted| ==> r[i] == evicted[i].1
  {
    seq(|evicted|, i requires 0 <= i < |evicted| => evicted[i].1)
  }

  function Keys(evicted: seq<(string, string)>): (r: seq<string>)
    ensures |r| == |evicted|
    ensures forall i :: 0 <= i < |evicted| ==> r[i] == evicted[i].0
  {
    seq(|evicted|, i requires 0 <= i < |evicted| => evicted[i].0)
  }
}

=== FILE: files.dfy ===
/** The file references of cacholote/extra_encoders.py: the five-key description of a
    stored artifact, the check that a call's arguments carry one, the resolution of a
    reference back to a readable path, and the content-addressed store behind the
    encoder of open files. A filesystem is the URL protocol; all of them live in one
    `Disk` map from URL to file. */
module Files {
  import opened Results
  import opened Text
  import opened Py
  import opened EngineSettings
  import Encode

  const FileKeys: set<string> := {"type", "href", "file:checksum", "file:size", "file:local_path"}
  const FileKeyOrder: seq<string> := ["type", "href", "file:checksum", "file:size", "file:local_path"]
  const ZarrType := "application/vnd+zarr"
  const OctetStream := "application/octet-stream"

  function KeySet(entries: Entries): set<string>
  {
    set i | 0 <= i < |entries| :: entries[i].0
  }

  /** The media type recorded for a file: the extension's guess; failing that, the
      content sniffer when one is installed, where "application/octet-stream" counts as
      no answer; and "unknown" when nothing (or an empty name) was found. */
  function FileType(env: Env, path: string, f: FileInfo): (r: string)
    ensures r != ""
    ensures env.guessType(path).Some? && env.guessType(path).value != "" ==> r == env.guessType(path).value
    ensures env.guessType(path).None? && env.magic.None? ==> r == "unknown"
    ensures env.guessType(path).None? && env.magic.Some? && env.magic.value(f.content) == OctetStream ==> r == "unknown"
    ensures env.guessType(path).None? && env.magic.Some? && env.magic.value(f.content) != OctetStream && env.magic.value(f.content) != "" ==>
              r == env.magic.value(f.content)
    ensures env.guessType(path) == Some("") ==> r == "unknown"
  {
    var guessed := env.guessType(path);
    var filetype :=
      if guessed.None? && env.magic.Some? then
        var sniffed := env.magic.value(f.content);
        if sniffed == OctetStream then None else Some(sniffed)
      else guessed;
    if filetype.None? || filetype.value == "" then "unknown" else filetype.value
  }

  /** The directory readers are sent to: the read-only mirror when one is configured
      (and non-empty), the cache directory otherwise. */
  function PublicDir(s: Settings): string
  {
    if s.cacheFilesUrlpathReadonly.Some? && s.cacheFilesUrlpathReadonly.value != "" then s.cacheFilesUrlpathReadonly.value
    else s.cacheFilesUrlpath
  }

  /** `_dictify_file`: type, public URL, checksum, size and the path the file was
      written to, in that order. A missing file raises FileNotFoundError. */
  function DictifyFile(env: Env, s: Settings, disk: Disk, localPath: string): (r: Result<Value>)
    ensures r.Ok? <==> localPath in disk
    ensures r.Err? ==> r.error.FileNotFoundError?
    ensures r.Ok? ==> r.value.VDict? && KeysOf(r.value.entries) == FileKeyOrder
    ensures r.Ok? ==> KeySet(r.value.entries) == FileKeys
  {
    if localPath !in disk then Err(FileNotFoundError(localPath))
    else
      var f := disk[localPath];
      var entries := [
        ("type", VStr(FileType(env, localPath, f))),
        ("href", VStr(PosixJoin(PublicDir(s), Basename(localPath)))),
        ("file:checksum", VInt(env.checksum(f))),
        ("file:size", VInt(Size(f))),
        ("file:local_path", VStr(localPath))];
      assert KeysOf(entries) == FileKeyOrder;
      assert KeySet(entries) == FileKeys by {
        assert forall k :: k in FileKeys ==> entries[IndexOfKey(k)].0 == k;
      }
      Ok(VDict(entries))
  }

  function IndexOfKey(k: string): nat
  {
    if k == "type" then 0 else if k == "href" then 1 else if k == "file:checksum" then 2
    else if k == "file:size" then 3 else 4
  }

  /** What a reader of a file description finds under each key. */
  lemma DictifyFileFields(env: Env, s: Settings, disk: Disk, localPath: string)
    requires localPath in disk
    ensures var e := DictifyFile(env, s, disk, localPath).value.entries;
            var f := disk[localPath];
            && Lookup(e, "type") == Some(VStr(FileType(env, localPath, f)))
            && Lookup(e, "href") == Some(VStr(PosixJoin(PublicDir(s), Basename(localPath))))
            && Lookup(e, "file:checksum") == Some(VInt(env.checksum(f)))
            && Lookup(e, "file:size") == Some(VInt(Size(f)))
            && Lookup(e, "file:local_path") == Some(VStr(localPath))
  {
    var f := disk[localPath];
    var p0, p1, p2 := ("type", VStr(FileType(env, localPath, f))), ("href", VStr(PosixJoin(PublicDir(s), Basename(localPath)))),
                      ("file:checksum", VInt(env.checksum(f)));
    var p3, p4 := ("file:size", VInt(Size(f))), ("file:local_path", VStr(localPath));
    assert DictifyFile(env, s, disk, localPath).value.entries == [p0, p1, p2, p3, p4];
    assert |"type"| == 4 && |"href"| == 4 && |"file:checksum"| == 13 && |"file:size"| == 9 && |"file:local_path"| == 15;
    assert "type"[0] != "href"[0];
    LookupOfFive(p0, p1, p2, p3, p4, "type");
    LookupOfFive(p0, p1, p2, p3, p4, "href");
    LookupOfFive(p0, p1, p2, p3, p4, "file:checksum");
    LookupOfFive(p0, p1, p2, p3, p4, "file:size");
    LookupOfFive(p0, p1, p2, p3, p4, "file:local_path");
  }

  /** A lookup in a five-pair dictionary tries the pairs from the last one back. */
  lemma LookupOfFive(p0: (string, Value), p1: (string, Value), p2: (string, Value), p3: (string, Value), p4: (string, Value), k: string)
    ensures Lookup([p0, p1, p2, p3, p4], k)
         == if p4.0 == k then Some(p4.1) else if p3.0 == k then Some(p3.1) else if p2.0 == k then Some(p2.1)
            else if p1.0 == k then Some(p1.1) else if p0.0 == k then Some(p0.1) else None
  {
    Encode.LookupSnoc([], p0, k);
    assert [] + [p0] == [p0];
    Encode.LookupSnoc([p0], p1, k);
    assert [p0] + [p1] == [p0, p1];
    Encode.LookupSnoc([p0, p1], p2, k);
    assert [p0, p1] + [p2] == [p0, p1, p2];
    Encode.LookupSnoc([p0, p1, p2], p3, k);
    assert [p0, p1, p2] + [p3] == [p0, p1, p2, p3];
    Encode.LookupSnoc([p0, p1, p2, p3], p4, k);
    assert [p0, p1, p2, p3] + [p4] == [p0, p1, p2, p3, p4];
  }

  /** `_are_file_args(*args)`: one or two arguments, all dictionaries, the first with
      exactly the five file keys. No arguments at all raises IndexError, which the
      function does not catch. */
  function AreFileArgs(args: seq<Value>): (r: Result<bool>)
    ensures r.Err? <==> |args| == 0
    ensures r.Err? ==> r.error.IndexError?
    ensures r == Ok(true) <==>
              && 1 <= |args| <= 2
              && (forall i :: 0 <= i < |args| ==> args[i].VDict?)
              && KeySet(args[0].entries) == FileKeys
  {
    if |args| > 2 then Ok(false)
    else if exists i :: 0 <= i < |args| && !args[i].VDict? then Ok(false)
    else if |args| == 0 then Err(IndexError("tuple index out of range"))
    else Ok(KeySet(args[0].entries) == FileKeys)
  }

  /** Every file description passes the file-argument test, alone or followed by the
      storage options, as `dictify_io_object` records it. */
  lemma DictifyFileIsFileArgs(env: Env, s: Settings, disk: Disk, localPath: string, options: Entries)
    requires localPath in disk
    ensures var j := DictifyFile(env, s, disk, localPath).value;
            AreFileArgs([j]) == Ok(true) && AreFileArgs([j, VDict(options)]) == Ok(true)
  {
  }

  /** The string stored under `k`: KeyError when it is absent, TypeError when it is not
      a string (fsspec refuses it as a path). */
  function StrField(entries: Entries, k: string): (r: Result<string>)
    ensures r.Ok? <==> Lookup(entries, k).Some? && Lookup(entries, k).value.VStr?
    ensures r.Ok? ==> Lookup(entries, k) == Some(VStr(r.value))
    ensures Lookup(entries, k).None? ==> r.Err? && r.error.KeyError?
  {
    match Lookup(entries, k)
    case None => Err(KeyError(k))
    case Some(VStr(p)) => Ok(p)
    case Some(_) => Err(TypeError(k + " is not a path"))
  }

  /** The value stored under `k`, or KeyError. */
  function Field(entries: Entries, k: string): (r: Result<Value>)
    ensures r.Ok? <==> Lookup(entries, k).Some?
    ensures r.Ok? ==> Lookup(entries, k) == Some(r.value)
    ensures r.Err? ==> r.error.KeyError?
  {
    match Lookup(entries, k)
    case None => Err(KeyError(k))
    case Some(v) => Ok(v)
  }

  /** `_get_fs_and_urlpath`: the path to read a described file from; its filesystem is
      the path's protocol. Without validation the recorded local path is returned as
      it is. With validation an existing local path is returned when its checksum is
      the recorded one and is an error ("checksum mismatch") otherwise, without trying
      the public URL; a local path that is missing (or whose filesystem is unavailable)
      falls back to the public URL, which must exist. */
  function GetFsAndUrlpath(env: Env, disk: Disk, fileJson: Value, validate: bool): (r: Result<string>)
    ensures !fileJson.VDict? ==> r.Err? && r.error.TypeError?
    ensures fileJson.VDict? && StrField(fileJson.entries, "file:local_path").Err? ==> r.Err?
    ensures r.Ok? && !validate ==> StrField(fileJson.entries, "file:local_path") == Ok(r.value)
    ensures r.Ok? && validate ==> r.value in disk
    ensures r.Ok? ==> env.fsAvailable(Protocol(r.value))
  {
    if !fileJson.VDict? then Err(TypeError("file_json is not a dict"))
    else
      var entries := fileJson.entries;
      var local :- StrField(entries, "file:local_path");
      if !validate then
        if env.fsAvailable(Protocol(local)) then Ok(local) else Err(ValueError("protocol not known: " + Protocol(local)))
      else if env.fsAvailable(Protocol(local)) && local in disk then
        var expected :- Field(entries, "file:checksum");
        if expected == VInt(env.checksum(disk[local])) then Ok(local) else Err(ValueError("checksum mismatch"))
      else
        var href :- StrField(entries, "href");
        if !env.fsAvailable(Protocol(href)) then Err(ValueError("protocol not known: " + Protocol(href)))
        else if href in disk then Ok(href)
        else Err(ValueError("No such file or directory: " + Quoted(local) + " nor " + Quoted(href)))
  }

  /** Under validation, a local copy that exists decides the outcome by its checksum
      alone: a mismatch is an error even when the public URL exists. */
  lemma ValidateLocalFirst(env: Env, disk: Disk, entries: Entries, local: string)
    requires StrField(entries, "file:local_path") == Ok(local)
    requires env.fsAvailable(Protocol(local)) && local in disk
    requires Lookup(entries, "file:checksum").Some?
    ensures var ok := Lookup(entries, "file:checksum") == Some(VInt(env.checksum(disk[local])));
            GetFsAndUrlpath(env, disk, VDict(entries), true)
            == if ok then Ok(local) else Err(ValueError("checksum mismatch"))
  {
  }

  /** Under validation, a missing local copy falls back to the public URL when it
      exists, and otherwise fails naming both paths. */
  lemma ValidateFallsBackToHref(env: Env, disk: Disk, entries: Entries, local: string, href: string)
    requires StrField(entries, "file:local_path") == Ok(local)
    requires StrField(entries, "href") == Ok(href)
    requires local !in disk || !env.fsAvailable(Protocol(local))
    requires env.fsAvailable(Protocol(href))
    ensures GetFsAndUrlpath(env, disk, VDict(entries), true)
         == if href in disk then Ok(href) else Err(ValueError("No such file or directory: " + Quoted(local) + " nor " + Quoted(href)))
  {
  }

  /** A description made from a file leads back to that file while it is unchanged. */
  lemma GetFsAndUrlpathOfDictifyFile(env: Env, s: Settings, disk: Disk, localPath: string, validate: bool)
    requires localPath in disk
    requires env.fsAvailable(Protocol(localPath))
    ensures GetFsAndUrlpath(env, disk, DictifyFile(env, s, disk, localPath).value, validate) == Ok(localPath)
  {
    DictifyFileFields(env, s, disk, localPath);
  }

  /** `_store_io_object`: on the same filesystem a move (when the original is to be
      deleted) or a copy; across filesystems a buffered copy, followed by removing the
      original when it is to be deleted. Copies are new files dated `now`. */
  function StoreIoObject(s: Settings, disk: Disk, urlIn: string, urlOut: string, now: int): (r: Result<Disk>)
    ensures r.Ok? <==> urlIn in disk
    ensures r.Err? ==> r.error.FileNotFoundError?
    ensures r.Ok? ==> urlOut in r.value && r.value[urlOut].content == disk[urlIn].content
    ensures r.Ok? && urlIn != urlOut ==> (urlIn in r.value <==> !s.ioDeleteOriginal)
    ensures r.Ok? ==> forall p :: p != urlIn && p != urlOut ==>
              (p in r.value <==> p in disk) && (p in disk ==> r.value[p] == disk[p])
  {
    if urlIn !in disk then Err(FileNotFoundError(urlIn))
    else
      var f := disk[urlIn];
      if Protocol(urlIn) == Protocol(urlOut) then
        if s.ioDeleteOriginal then Ok((disk - {urlIn})[urlOut := f])
        else Ok(disk[urlOut := f.(mtime := now)])
      else
        var copied := disk[urlOut := FileInfo(f.content, now, f.isDir)];
        if s.ioDeleteOriginal then Ok(copied - {urlIn}) else Ok(copied)
  }

  /** Where an artifact with this checksum is stored: the cache directory joined with
      the decimal checksum and the source's extension. */
  function ArtifactPath(s: Settings, urlIn: string, checksum: nat): string
  {
    PosixJoin(s.cacheFilesUrlpath, NatToDecimal(checksum) + SplitExt(urlIn))
  }

  /** The keyword arguments the file encoder records: the storage options, the mode and
      the other `open` parameters the object carries. */
  function IoKwargs(s: Settings, obj: IoObject): Entries
  {
    [("storage_options", VDict(s.cacheFilesStorageOptions)), ("mode", VStr(obj.mode))] + obj.openKwargs
  }

  /** `dictify_io_object`: write-mode objects are refused; otherwise the file is stored
      under its checksum in the cache directory (unless something is already stored
      there) and the result is a call of `decode_io_object` on the stored file's
      description. Returns the outcome and the filesystem afterwards. */
  function DictifyIoObject(env: Env, s: Settings, disk: Disk, obj: IoObject, now: int): (r: (Result<Value>, Disk))
    ensures 'w' in obj.mode ==> r.0.Err? && r.0.error.ValueError? && r.1 == disk
    ensures r.0.Ok? ==> 'w' !in obj.mode && obj.url in disk
    ensures r.0.Ok? ==>
              var out := ArtifactPath(s, obj.url, env.checksum(disk[obj.url]));
              && out in r.1 && env.fsAvailable(Protocol(out))
              && (out in disk ==> r.1 == disk)
              && (out !in disk ==> r.1[out].content == disk[obj.url].content)
  {
    if 'w' in obj.mode then (Err(ValueError("write-mode objects can NOT be cached.")), disk)
    else if obj.url !in disk then (Err(FileNotFoundError(obj.url)), disk)
    else
      var out := ArtifactPath(s, obj.url, env.checksum(disk[obj.url]));
      if !env.fsAvailable(Protocol(out)) then (Err(ValueError("protocol not known: " + Protocol(out))), disk)
      else
        var stored := if out in disk then Ok(disk) else StoreIoObject(s, disk, obj.url, out, now);
        var after := stored.value;
        var fileJson := DictifyFile(env, s, after, out).value;
        (Encode.DictifyPythonCall(env, Encode.Function(DecodeIoObjectFunc), [fileJson], IoKwargs(s, obj)), after)
  }

  /** The parameters of `open` an open file carries as attributes, besides the file
      and its mode. */
  const OpenParams: seq<string> := ["buffering", "encoding", "errors", "newline", "closefd", "opener"]

  predicate OpenAttributes(obj: IoObject)
  {
    forall i :: 0 <= i < |obj.openKwargs| ==> obj.openKwargs[i].0 in OpenParams
  }

  lemma IoKwargsOptions(s: Settings, obj: IoObject)
    requires OpenAttributes(obj)
    ensures Lookup(IoKwargs(s, obj), "storage_options") == Some(VDict(s.cacheFilesStorageOptions))
    ensures !HasKey(IoKwargs(s, obj), "file_json")
  {
    var kwargs := IoKwargs(s, obj);
    assert forall i :: 2 <= i < |kwargs| ==> kwargs[i] == obj.openKwargs[i - 2];
    assert kwargs[0].0 == "storage_options";
    LookupOnlyValue(kwargs, "storage_options", VDict(s.cacheFilesStorageOptions));
  }

  /** The record the file encoder returns: a call of `decode_io_object` whose two
      positional arguments are the stored file's description and the storage options,
      and whose keywords are the open parameters. */
  lemma DictifyIoObjectRecord(env: Env, s: Settings, disk: Disk, obj: IoObject, now: int)
    requires OpenAttributes(obj)
    requires DictifyIoObject(env, s, disk, obj, now).0.Ok?
    ensures var r := DictifyIoObject(env, s, disk, obj, now);
            var out := ArtifactPath(s, obj.url, env.checksum(disk[obj.url]));
            && out in r.1
            && r.0.value == Encode.CallRecord(
                 "cacholote.extra_encoders:decode_io_object",
                 [DictifyFile(env, s, r.1, out).value, VDict(s.cacheFilesStorageOptions)],
                 Filter(IoKwargs(s, obj), ["file_json", "storage_options"]))
  {
    var kwargs := IoKwargs(s, obj);
    IoKwargsOptions(s, obj);
    var r := DictifyIoObject(env, s, disk, obj, now);
    var out := ArtifactPath(s, obj.url, env.checksum(disk[obj.url]));
    var fileJson := DictifyFile(env, s, r.1, out).value;
    assert r.0 == Encode.DictifyPythonCall(env, Encode.Function(DecodeIoObjectFunc), [fileJson], kwargs);
    BindOneFileArg(fileJson, kwargs);
    assert Bind(env, VFunc(DecodeIoObjectFunc), [fileJson], kwargs, false) == BindDecodeIoObject([fileJson], kwargs);
    Encode.DictifyPythonCallBound(env, DecodeIoObjectFunc, [fileJson], kwargs,
      [fileJson, VDict(s.cacheFilesStorageOptions)], Filter(kwargs, ["file_json", "storage_options"]));
    DecodeIoObjectFqn();
  }

  lemma DecodeIoObjectFqn()
    ensures DecodeIoObjectFunc.moduleName.value + ":" + DecodeIoObjectFunc.qualname == "cacholote.extra_encoders:decode_io_object"
  {
  }

  /** Binding one positional argument against `decode_io_object` takes the storage
      options from the keywords. */
  lemma BindOneFileArg(fileJson: Value, kwargs: Entries)
    requires !HasKey(kwargs, "file_json") && Lookup(kwargs, "storage_options").Some?
    ensures BindDecodeIoObject([fileJson], kwargs)
         == Bound([fileJson, Lookup(kwargs, "storage_options").value], Filter(kwargs, ["file_json", "storage_options"]))
  {
    var args := [fileJson];
    assert HasKey(kwargs, "storage_options");
    var r := BindDecodeIoObject(args, kwargs);
    assert r.Bound?;
    assert r.args == args + [Lookup(kwargs, "storage_options").value];
    assert r.kwargs == Filter(kwargs, ["file_json", "storage_options"]);
  }

  /** `decode_io_object`: opens the validated path of the description with the recorded
      keyword arguments (mode "rb" unless one is given). fsspec wraps a file opened in
      text mode in a `TextIOWrapper`; a binary local file is a `LocalFileOpener` and any
      other binary file an `AbstractBufferedFile`. */
  function DecodeIoObject(env: Env, disk: Disk, fileJson: Value, kwargs: Entries): (r: Result<Value>)
    ensures r.Ok? ==> r.value.VFile? && r.value.io.url in disk
    ensures r.Ok? <==> GetFsAndUrlpath(env, disk, fileJson, true).Ok?
    ensures r.Ok? ==> r.value.io.url == GetFsAndUrlpath(env, disk, fileJson, true).value
  {
    var url :- GetFsAndUrlpath(env, disk, fileJson, true);
    var mode := match Lookup(kwargs, "mode") case Some(VStr(m)) => m case _ => "rb";
    var kind := if 'b' !in mode then TextIOWrapper else if Protocol(url) == "file" then LocalFileOpener else AbstractBufferedFile;
    Ok(VFile(IoObject(kind, url, mode, Filter(kwargs, ["mode"]))))
  }
  /** Decoding what the file encoder recorded, on the filesystem it left behind, reopens
      the stored artifact in the object's own mode, with the object's own open
      parameters. */
  lemma DecodeDictifiedIoObject(env: Env, s: Settings, disk: Disk, obj: IoObject, now: int)
    requires OpenAttributes(obj)
    requires DictifyIoObject(env, s, disk, obj, now).0.Ok?
    ensures var after := DictifyIoObject(env, s, disk, obj, now).1;
            var out := ArtifactPath(s, obj.url, env.checksum(disk[obj.url]));
            var kwargs := Filter(IoKwargs(s, obj), ["file_json", "storage_options"]);
            var reopened := DecodeIoObject(env, after, DictifyFile(env, s, after, out).value, kwargs);
            && reopened.Ok?
            && reopened.value.io.url == out
            && reopened.value.io.mode == obj.mode
            && (forall k :: k in OpenParams ==> Lookup(reopened.value.io.openKwargs, k) == Lookup(obj.openKwargs, k))
  {
    var after := DictifyIoObject(env, s, disk, obj, now).1;
    var out := ArtifactPath(s, obj.url, env.checksum(disk[obj.url]));
    ReopenStored(env, s, after, out, obj);
  }

  /** The description of a stored file, with the keywords recorded for `obj`, reopens
      that file in `obj`'s mode with `obj`'s open parameters. */
  lemma ReopenStored(env: Env, s: Settings, after: Disk, out: string, obj: IoObject)
    requires OpenAttributes(obj)
    requires out in after && env.fsAvailable(Protocol(out))
    ensures var kwargs := Filter(IoKwargs(s, obj), ["file_json", "storage_options"]);
            var reopened := DecodeIoObject(env, after, DictifyFile(env, s, after, out).value, kwargs);
            && reopened.Ok?
            && reopened.value.io.url == out
            && reopened.value.io.mode == obj.mode
            && (forall k :: k in OpenParams ==> Lookup(reopened.value.io.openKwargs, k) == Lookup(obj.openKwargs, k))
  {
    GetFsAndUrlpathOfDictifyFile(env, s, after, out, true);
    ReopenWithRecordedKeywords(env, s, after, DictifyFile(env, s, after, out).value, out, obj);
  }

  lemma ReopenWithRecordedKeywords(env: Env, s: Settings, disk: Disk, fileJson: Value, url: string, obj: IoObject)
    requires OpenAttributes(obj)
    requires GetFsAndUrlpath(env, disk, fileJson, true) == Ok(url)
    ensures var kwargs := Filter(IoKwargs(s, obj), ["file_json", "storage_options"]);
            var reopened := DecodeIoObject(env, disk, fileJson, kwargs);
            && reopened.Ok?
            && reopened.value.io.url == url
            && reopened.value.io.mode == obj.mode
            && (forall k :: k in OpenParams ==> Lookup(reopened.value.io.openKwargs, k) == Lookup(obj.openKwargs, k))
  {
    var kwargs := Filter(IoKwargs(s, obj), ["file_json", "storage_options"]);
    IoKwargsLookups(s, obj);
    assert Lookup(kwargs, "mode") == Some(VStr(obj.mode)) by {
      assert "mode" !in ["file_json", "storage_options"];
    }
    DecodeIoObjectOpens(env, disk, fileJson, kwargs, url, obj.mode);
    RecordedOpenParams(s, obj);
  }

  /** An open parameter is neither dropped from the recorded keywords nor from the
      keywords the file is reopened with. */
  lemma RecordedOpenParams(s: Settings, obj: IoObject)
    requires OpenAttributes(obj)
    ensures forall k :: k in OpenParams ==>
              Lookup(Filter(Filter(IoKwargs(s, obj), ["file_json", "storage_options"]), ["mode"]), k) == Lookup(obj.openKwargs, k)
  {
    forall k | k in OpenParams
      ensures Lookup(Filter(Filter(IoKwargs(s, obj), ["file_json", "storage_options"]), ["mode"]), k) == Lookup(obj.openKwargs, k)
    {
      RecordedOpenParam(s, obj, k);
    }
  }

  lemma RecordedOpenParam(s: Settings, obj: IoObject, k: string)
    requires OpenAttributes(obj) && k in OpenParams
    ensures Lookup(Filter(Filter(IoKwargs(s, obj), ["file_json", "storage_options"]), ["mode"]), k) == Lookup(obj.openKwargs, k)
  {
    assert k != "mode" && k != "file_json" && k != "storage_options";
    IoKwargsLookups(s, obj);
    assert k !in ["mode"] && k !in ["file_json", "storage_options"];
  }

  /** `decode_io_object` opens the path the description validates to, in the recorded
      mode, with the other recorded keywords. */
  lemma DecodeIoObjectOpens(env: Env, disk: Disk, fileJson: Value, kwargs: Entries, url: string, mode: string)
    requires GetFsAndUrlpath(env, disk, fileJson, true) == Ok(url)
    requires Lookup(kwargs, "mode") == Some(VStr(mode))
    ensures var r := DecodeIoObject(env, disk, fileJson, kwargs);
            r.Ok? && r.value.io.url == url && r.value.io.mode == mode && r.value.io.openKwargs == Filter(kwargs, ["mode"])
  {
  }

  /** The recorded keywords hold the object's mode and its own open parameters. */
  lemma IoKwargsLookups(s: Settings, obj: IoObject)
    requires OpenAttributes(obj)
    ensures Lookup(IoKwargs(s, obj), "mode") == Some(VStr(obj.mode))
    ensures forall k :: k in OpenParams ==> Lookup(IoKwargs(s, obj), k) == Lookup(obj.openKwargs, k)
  {
    var all := IoKwargs(s, obj);
    assert all[1] == ("mode", VStr(obj.mode));
    assert forall i :: 2 <= i < |all| ==> all[i] == obj.openKwargs[i - 2];
    LookupOnlyValue(all, "mode", VStr(obj.mode));
    forall k | k in OpenParams
      ensures Lookup(all, k) == Lookup(obj.openKwargs, k)
    {
      LookupAfterPrefix(all[..2], obj.openKwargs, k);
      assert all == all[..2] + obj.openKwargs;
    }
  }

  /** A key the first entries do not hold is looked up in the rest. */
  lemma {:induction false} LookupAfterPrefix(front: Entries, back: Entries, k: string)
    requires forall i :: 0 <= i < |front| ==> front[i].0 != k
    ensures Lookup(front + back, k) == Lookup(back, k)
    decreases |back|
  {
    var all := front + back;
    if |back| == 0 {
      assert all == front;
    } else {
      assert all[|all| - 1] == back[|back| - 1];
      if back[|back| - 1].0 != k {
        assert all[..|all| - 1] == front + back[..|back| - 1];
        LookupAfterPrefix(front, back[..|back| - 1], k);
      }
    }
  }
}

=== FILE: isodates.dfy ===
/** The `datetime` values the codec carries: calendar dates and naive date-times with their
    ISO 8601 renderings (`isoformat`) and the inverse parsers (`fromisoformat`) for those
    renderings, and `timedelta` with the normalisation its constructor performs. */
module IsoDates {
  import opened Text
  import opened Results

  datatype Date = Date(year: int, month: int, day: int)

  /** A naive `datetime.datetime`; time-zone-aware values are not modelled. */
  datatype DateTime = DateTime(date: Date, hour: int, minute: int, second: int, micro: int)

  /** A `datetime.timedelta` as its three stored attributes. */
  datatype Timedelta = Timedelta(days: int, seconds: int, micros: int)

  const MaxYear := 9999
  const MaxTimedeltaDays := 999999999
  const MicrosPerSecond := 1000000
  const SecondsPerDay := 86400

  predicate IsLeap(y: int)
  {
    y % 4 == 0 && (y % 100 != 0 || y % 400 == 0)
  }

  function DaysInMonth(y: int, m: int): (n: int)
    requires 1 <= m <= 12
    ensures 28 <= n <= 31
  {
    if m == 2 then (if IsLeap(y) then 29 else 28)
    else if m == 4 || m == 6 || m == 9 || m == 11 then 30
    else 31
  }

  predicate ValidDate(d: Date)
  {
    1 <= d.year <= MaxYear && 1 <= d.month <= 12 && 1 <= d.day <= DaysInMonth(d.year, d.month)
  }

  predicate ValidDateTime(t: DateTime)
  {
    ValidDate(t.date) && 0 <= t.hour < 24 && 0 <= t.minute < 60 && 0 <= t.second < 60
    && 0 <= t.micro < MicrosPerSecond
  }

  /** The attribute ranges `timedelta` keeps after normalising. */
  predicate NormalTimedelta(t: Timedelta)
  {
    -MaxTimedeltaDays <= t.days <= MaxTimedeltaDays && 0 <= t.seconds < SecondsPerDay
    && 0 <= t.micros < MicrosPerSecond
  }

  /** The values Python's `date`, `datetime` and `timedelta` objects can hold. */
  type PyDate = d: Date | ValidDate(d) witness Date(1, 1, 1)
  type PyDateTime = t: DateTime | ValidDateTime(t) witness DateTime(Date(1, 1, 1), 0, 0, 0, 0)
  type PyTimedelta = t: Timedelta | NormalTimedelta(t) witness Timedelta(0, 0, 0)

  /** `datetime.datetime.max`, the expiration of entries stored without one. */
  const MaxDateTime := DateTime(Date(MaxYear, 12, 31), 23, 59, 59, MicrosPerSecond - 1)

  /** Chronological order of date-times. */
  predicate Before(a: DateTime, b: DateTime)
  {
    if a.date.year != b.date.year then a.date.year < b.date.year
    else if a.date.month != b.date.month then a.date.month < b.date.month
    else if a.date.day != b.date.day then a.date.day < b.date.day
    else if a.hour != b.hour then a.hour < b.hour
    else if a.minute != b.minute then a.minute < b.minute
    else if a.second != b.second then a.second < b.second
    else a.micro < b.micro
  }

  lemma BeforeIrreflexive(a: DateTime)
    ensures !Before(a, a)
  {
  }

  lemma BeforeTotal(a: DateTime, b: DateTime)
    ensures a == b || Before(a, b) || Before(b, a)
  {
  }

  lemma BeforeTransitive(a: DateTime, b: DateTime, c: DateTime)
    requires Before(a, b) && Before(b, c)
    ensures Before(a, c)
  {
  }

  /** No valid date-time comes after `datetime.max`. */
  lemma MaxIsLast(t: DateTime)
    requires ValidDateTime(t)
    ensures !Before(MaxDateTime, t)
  {
  }

  function Pow10(w: nat): (p: nat)
    ensures p >= 1
  {
    if w == 0 then 1 else 10 * Pow10(w - 1)
  }

  /** `n` in exactly `w` decimal digits with leading zeros, as `'%0{w}d' % n`. */
  function Digits(n: nat, w: nat): (r: string)
    requires n < Pow10(w)
    ensures |r| == w
    ensures forall k :: 0 <= k < |r| ==> '0' <= r[k] <= '9'
  {
    if w == 0 then "" else Digits(n / 10, w - 1) + [DecimalDigit(n % 10)]
  }

  predicate AllDigits(s: string)
  {
    forall k :: 0 <= k < |s| ==> '0' <= s[k] <= '9'
  }

  /** The value of a string of decimal digits. */
  function DigitsValue(s: string): (n: nat)
    requires AllDigits(s)
    ensures n < Pow10(|s|)
  {
    if |s| == 0 then 0 else 10 * DigitsValue(s[..|s| - 1]) + (s[|s| - 1] as int - '0' as int)
  }

  lemma {:induction false} DigitsValueOfDigits(n: nat, w: nat)
    requires n < Pow10(w)
    ensures AllDigits(Digits(n, w)) && DigitsValue(Digits(n, w)) == n
  {
    if w > 0 {
      DigitsValueOfDigits(n / 10, w - 1);
      var s := Digits(n, w);
      assert s[..|s| - 1] == Digits(n / 10, w - 1);
    }
  }

  /** `date.isoformat()`: YYYY-MM-DD. */
  function DateIsoFormat(d: Date): (r: string)
    requires ValidDate(d)
    ensures |r| == 10
  {
    Digits(d.year, 4) + "-" + Digits(d.month, 2) + "-" + Digits(d.day, 2)
  }

  /** `datetime.isoformat()` of a naive value: YYYY-MM-DDTHH:MM:SS, followed by
      .ffffff when the microseconds are not zero. */
  function DateTimeIsoFormat(t: DateTime): (r: string)
    requires ValidDateTime(t)
    ensures |r| == 19 || |r| == 26
  {
    DateIsoFormat(t.date) + "T" + Digits(t.hour, 2) + ":" + Digits(t.minute, 2) + ":"
    + Digits(t.second, 2) + (if t.micro != 0 then "." + Digits(t.micro, 6) else "")
  }

  function Field(s: string): Option<nat>
  {
    if AllDigits(s) then Some(DigitsValue(s)) else None
  }

  /** `date.fromisoformat` on the YYYY-MM-DD form; None for any other text. */
  function ParseDate(s: string): (r: Option<Date>)
    ensures r.Some? ==> ValidDate(r.value)
  {
    if |s| != 10 || s[4] != '-' || s[7] != '-' then None
    else
      var y, m, d := Field(s[..4]), Field(s[5..7]), Field(s[8..10]);
      if y.None? || m.None? || d.None? then None
      else
        var date := Date(y.value, m.value, d.value);
        if ValidDate(date) then Some(date) else None
  }

  /** `datetime.fromisoformat` on the two forms `isoformat` produces for naive values;
      None for any other text. */
  function ParseDateTime(s: string): (r: Option<DateTime>)
    ensures r.Some? ==> ValidDateTime(r.value)
  {
    if |s| != 19 && |s| != 26 then None
    else if s[10] != 'T' || s[13] != ':' || s[16] != ':' then None
    else if |s| == 26 && s[19] != '.' then None
    else
      var d := ParseDate(s[..10]);
      var h, mi, se := Field(s[11..13]), Field(s[14..16]), Field(s[17..19]);
      var us := if |s| == 26 then Field(s[20..]) else Some(0);
      if d.None? || h.None? || mi.None? || se.None? || us.None? then None
      else if |s| == 26 && us.value == 0 then None
      else
        var t := DateTime(d.value, h.value, mi.value, se.value, us.value);
        if ValidDateTime(t) then Some(t) else None
  }

  lemma FieldOfDigits(n: nat, w: nat)
    requires n < Pow10(w)
    ensures Field(Digits(n, w)) == Some(n)
  {
    DigitsValueOfDigits(n, w);
  }

  lemma {:induction false} ParseDateOfIsoFormat(d: Date)
    requires ValidDate(d)
    ensures ParseDate(DateIsoFormat(d)) == Some(d)
  {
    var s := DateIsoFormat(d);
    assert s[..4] == Digits(d.year, 4);
    assert s[5..7] == Digits(d.month, 2);
    assert s[8..10] == Digits(d.day, 2);
    FieldOfDigits(d.year, 4);
    FieldOfDigits(d.month, 2);
    FieldOfDigits(d.day, 2);
  }

  /** Where `isoformat` puts each field of a date-time. */
  lemma DateTimeIsoFormatFields(t: DateTime)
    requires ValidDateTime(t)
    ensures var s := DateTimeIsoFormat(t);
            && s[..10] == DateIsoFormat(t.date) && s[10] == 'T' && s[13] == ':' && s[16] == ':'
            && s[11..13] == Digits(t.hour, 2) && s[14..16] == Digits(t.minute, 2) && s[17..19] == Digits(t.second, 2)
            && (t.micro != 0 ==> |s| == 26 && s[19] == '.' && s[20..] == Digits(t.micro, 6))
            && (t.micro == 0 ==> |s| == 19)
  {
    var head := DateIsoFormat(t.date) + "T" + Digits(t.hour, 2) + ":" + Digits(t.minute, 2) + ":" + Digits(t.second, 2);
    var tail := if t.micro != 0 then "." + Digits(t.micro, 6) else "";
    assert DateTimeIsoFormat(t) == head + tail;
    assert (head + tail)[..19] == head;
  }

  lemma {:induction false} ParseDateTimeOfIsoFormat(t: DateTime)
    requires ValidDateTime(t)
    ensures ParseDateTime(DateTimeIsoFormat(t)) == Some(t)
  {
    DateTimeIsoFormatFields(t);
    ParseDateOfIsoFormat(t.date);
    FieldOfDigits(t.hour, 2);
    FieldOfDigits(t.minute, 2);
    FieldOfDigits(t.second, 2);
    if t.micro != 0 {
      FieldOfDigits(t.micro, 6);
    }
  }

  const MicrosPerDay := SecondsPerDay * MicrosPerSecond

  /** `timedelta(days, seconds, microseconds)` on integer arguments: the total is
      renormalised so that seconds and microseconds are within a day and a second (Python
      floors, as Dafny's division does for a positive divisor); OverflowError when the
      days leave the representable range. */
  function NewTimedelta(days: int, seconds: int, micros: int): (r: Result<Timedelta>)
    ensures r.Ok? ==> NormalTimedelta(r.value)
    ensures r.Ok? ==> (r.value.days * SecondsPerDay + r.value.seconds) * MicrosPerSecond + r.value.micros
                      == (days * SecondsPerDay + seconds) * MicrosPerSecond + micros
  {
    var total := (days * SecondsPerDay + seconds) * MicrosPerSecond + micros;
    var d := total / MicrosPerDay;
    var rest := total % MicrosPerDay;
    if d < -MaxTimedeltaDays || d > MaxTimedeltaDays then
      Err(OverflowError("days=" + IntToDecimal(d) + "; must have magnitude <= 999999999"))
    else
      Ok(Timedelta(d, rest / MicrosPerSecond, rest % MicrosPerSecond))
  }

  lemma MulAtLeast(a: int, m: int)
    requires a >= 1 && m > 0
    ensures a * m >= m
  {
    assert a * m == (a - 1) * m + m;
  }

  lemma DivModUnique(x: int, m: int, q: int, r: int)
    requires m > 0 && 0 <= r < m && x == q * m + r
    ensures x / m == q && x % m == r
  {
    var q', r' := x / m, x % m;
    assert x == q' * m + r';
    assert (q - q') * m == r' - r;
    if q > q' {
      MulAtLeast(q - q', m);
    } else if q < q' {
      MulAtLeast(q' - q, m);
    }
  }

  /** A normalised timedelta rebuilt from its own attributes is itself. */
  lemma NewTimedeltaOfNormal(t: Timedelta)
    requires NormalTimedelta(t)
    ensures NewTimedelta(t.days, t.seconds, t.micros) == Ok(t)
  {
    var rest := t.seconds * MicrosPerSecond + t.micros;
    var total := (t.days * SecondsPerDay + t.seconds) * MicrosPerSecond + t.micros;
    assert total == t.days * MicrosPerDay + rest;
    DivModUnique(total, MicrosPerDay, t.days, rest);
    DivModUnique(rest, MicrosPerSecond, t.seconds, t.micros);
  }
}

=== FILE: json.dfy ===
/** JSON documents as trees, and their rendering by Python's `json.dumps` with the
    default `ensure_ascii=True` and caller-chosen separators. Floats are not modelled. */
module Json {
  import opened Text

  datatype Json =
    | JNull
    | JBool(b: bool)
    | JInt(i: int)
    | JStr(s: string)
    | JArr(items: seq<Json>)
      /** Members in insertion order, as Python dicts keep them. */
    | JObj(fields: seq<(string, Json)>)

  /** The escape `json` uses for one character with `ensure_ascii=True`: the short
      escapes, `\uXXXX` for the rest outside printable ASCII, surrogate pairs above
      U+FFFF. */
  function EscapeChar(c: char): (r: string)
    ensures IsAscii(r)
  {
    var n := c as int;
    if c == '"' then "\\\""
    else if c == '\\' then "\\\\"
    else if c == '\n' then "\\n"
    else if c == '\r' then "\\r"
    else if c == '\t' then "\\t"
    else if n == 8 then "\\b"
    else if n == 12 then "\\f"
    else if 0x20 <= n <= 0x7e then [c]
    else if n < 0x10000 then "\\u" + Hex4(n)
    else
      var v := n - 0x10000;
      assert v < 0x100000;
      "\\u" + Hex4(0xD800 + v / 0x400) + "\\u" + Hex4(0xDC00 + v % 0x400)
  }

  function EscapeString(s: string): (r: string)
    ensures IsAscii(r)
  {
    if |s| == 0 then "" else EscapeChar(s[0]) + EscapeString(s[1..])
  }

  /** A JSON string literal. */
  function Quote(s: string): (r: string)
    ensures IsAscii(r)
  {
    "\"" + EscapeString(s) + "\""
  }

  /** `json.dumps(doc, separators=(itemSep, keySep))`. */
  function Serialize(doc: Json, itemSep: string, keySep: string): string
    decreases doc, 1
  {
    match doc
    case JNull => "null"
    case JBool(b) => if b then "true" else "false"
    case JInt(i) => IntToDecimal(i)
    case JStr(s) => Quote(s)
    case JArr(items) => "[" + SerializeItems(doc, items, itemSep, keySep) + "]"
    case JObj(fields) => "{" + SerializeFields(doc, fields, itemSep, keySep) + "}"
  }

  function SerializeItems(ghost parent: Json, items: seq<Json>, itemSep: string, keySep: string): string
    requires forall k :: 0 <= k < |items| ==> items[k] < parent
    decreases parent, 0, |items|
  {
    if |items| == 0 then ""
    else if |items| == 1 then Serialize(items[0], itemSep, keySep)
    else Serialize(items[0], itemSep, keySep) + itemSep + SerializeItems(parent, items[1..], itemSep, keySep)
  }

  function SerializeFields(ghost parent: Json, fields: seq<(string, Json)>, itemSep: string, keySep: string): string
    requires forall k :: 0 <= k < |fields| ==> fields[k].1 < parent
    decreases parent, 0, |fields|
  {
    if |fields| == 0 then ""
    else
      var member := Quote(fields[0].0) + keySep + Serialize(fields[0].1, itemSep, keySep);
      if |fields| == 1 then member
      else member + itemSep + SerializeFields(parent, fields[1..], itemSep, keySep)
  }

  lemma AsciiConcat(a: string, b: string)
    requires IsAscii(a) && IsAscii(b)
    ensures IsAscii(a + b)
  {
  }

  lemma NatToDecimalAscii(n: nat)
    ensures IsAscii(NatToDecimal(n))
  {
  }

  /** With ASCII separators, `json.dumps` output is pure ASCII, so its UTF-8 encoding
      is the code points themselves. */
  lemma {:induction false} SerializeAscii(doc: Json, itemSep: string, keySep: string)
    requires IsAscii(itemSep) && IsAscii(keySep)
    ensures IsAscii(Serialize(doc, itemSep, keySep))
    decreases doc, 1
  {
    match doc
    case JNull =>
    case JBool(b) =>
    case JInt(i) =>
      NatToDecimalAscii(if i < 0 then -i else i);
    case JStr(s) =>
    case JArr(items) =>
      SerializeItemsAscii(doc, items, itemSep, keySep);
    case JObj(fields) =>
      SerializeFieldsAscii(doc, fields, itemSep, keySep);
  }

  lemma {:induction false} SerializeItemsAscii(parent: Json, items: seq<Json>, itemSep: string, keySep: string)
    requires IsAscii(itemSep) && IsAscii(keySep)
    requires forall k :: 0 <= k < |items| ==> items[k] < parent
    ensures IsAscii(SerializeItems(parent, items, itemSep, keySep))
    decreases parent, 0, |items|
  {
    if |items| > 0 {
      SerializeAscii(items[0], itemSep, keySep);
      if |items| > 1 {
        SerializeItemsAscii(parent, items[1..], itemSep, keySep);
      }
    }
  }

  lemma {:induction false} SerializeFieldsAscii(parent: Json, fields: seq<(string, Json)>, itemSep: string, keySep: string)
    requires IsAscii(itemSep) && IsAscii(keySep)
    requires forall k :: 0 <= k < |fields| ==> fields[k].1 < parent
    ensures IsAscii(SerializeFields(parent, fields, itemSep, keySep))
    decreases parent, 0, |fields|
  {
    if |fields| > 0 {
      SerializeAscii(fields[0].1, itemSep, keySep);
      if |fields| > 1 {
        SerializeFieldsAscii(parent, fields[1..], itemSep, keySep);
      }
    }
  }
}

=== FILE: json_dumps.dfy ===
/** `json.dumps(obj, default=hook)` for a `default` hook that has no side effects, as
    both callcache generations of the encoder use it: values JSON represents are kept,
    anything else is replaced by what the hook returns, which is encoded in turn. */
module JsonDumps {
  import opened Results
  import opened Py
  import opened Json
  import opened Text
  import Codec

  /** The document tree `json.dumps` renders. `fuel` bounds the nesting of `default`
      calls (Python's recursion limit). */
  function ToJson(default: Value -> Result<Value>, v: Value, fuel: nat): (r: Result<Json>)
    decreases fuel, v, 1
  {
    match v
    case VNone => Ok(JNull)
    case VBool(b) => Ok(JBool(b))
    case VInt(i) => Ok(JInt(i))
    case VStr(str) => Ok(JStr(str))
    case VList(items) =>
      var docs :- ToJsonItems(default, v, items, fuel);
      Ok(JArr(docs))
    case VDict(entries) =>
      var fields :- ToJsonFields(default, v, entries, fuel);
      Ok(JObj(fields))
    case _ =>
      if fuel == 0 then Err(RecursionError)
      else
        var d :- default(v);
        ToJson(default, d, fuel - 1)
  }

  function ToJsonItems(default: Value -> Result<Value>, ghost parent: Value, items: seq<Value>, fuel: nat): (r: Result<seq<Json>>)
    requires forall k :: 0 <= k < |items| ==> items[k] < parent
    ensures r.Ok? ==> |r.value| == |items|
    decreases fuel, parent, 0, |items|
  {
    if |items| == 0 then Ok([])
    else
      var head :- ToJson(default, items[0], fuel);
      var tail :- ToJsonItems(default, parent, items[1..], fuel);
      Ok([head] + tail)
  }

  function ToJsonFields(default: Value -> Result<Value>, ghost parent: Value, entries: Entries, fuel: nat): (r: Result<seq<(string, Json)>>)
    requires forall k :: 0 <= k < |entries| ==> entries[k].1 < parent
    ensures r.Ok? ==> |r.value| == |entries|
    ensures r.Ok? ==> forall k :: 0 <= k < |entries| ==> r.value[k].0 == entries[k].0
    decreases fuel, parent, 0, |entries|
  {
    if |entries| == 0 then Ok([])
    else
      var head :- ToJson(default, entries[0].1, fuel);
      var tail :- ToJsonFields(default, parent, entries[1..], fuel);
      Ok([(entries[0].0, head)] + tail)
  }

  /** The hook raises nothing but TypeError. */
  ghost predicate RaisesOnlyTypeError(default: Value -> Result<Value>)
  {
    forall w :: default(w).Err? ==> default(w).error.TypeError?
  }

  /** With such a hook, the encoding fails only with TypeError, or with RecursionError
      when the nesting exceeds the bound. */
  lemma {:induction false} ToJsonErrors(default: Value -> Result<Value>, v: Value, fuel: nat)
    requires RaisesOnlyTypeError(default)
    ensures var r := ToJson(default, v, fuel);
            r.Err? ==> r.error.TypeError? || r.error == RecursionError
    decreases fuel, v, 1
  {
    match v
    case VList(items) => ToJsonItemsErrors(default, v, items, fuel);
    case VDict(entries) => ToJsonFieldsErrors(default, v, entries, fuel);
    case VNone =>
    case VBool(_) =>
    case VInt(_) =>
    case VStr(_) =>
    case _ =>
      if fuel > 0 && default(v).Ok? {
        ToJsonErrors(default, default(v).value, fuel - 1);
      }
  }

  lemma {:induction false} ToJsonItemsErrors(default: Value -> Result<Value>, parent: Value, items: seq<Value>, fuel: nat)
    requires RaisesOnlyTypeError(default)
    requires forall k :: 0 <= k < |items| ==> items[k] < parent
    ensures var r := ToJsonItems(default, parent, items, fuel);
            r.Err? ==> r.error.TypeError? || r.error == RecursionError
    decreases fuel, parent, 0, |items|
  {
    if |items| > 0 {
      ToJsonErrors(default, items[0], fuel);
      ToJsonItemsErrors(default, parent, items[1..], fuel);
    }
  }

  lemma {:induction false} ToJsonFieldsErrors(default: Value -> Result<Value>, parent: Value, entries: Entries, fuel: nat)
    requires RaisesOnlyTypeError(default)
    requires forall k :: 0 <= k < |entries| ==> entries[k].1 < parent
    ensures var r := ToJsonFields(default, parent, entries, fuel);
            r.Err? ==> r.error.TypeError? || r.error == RecursionError
    decreases fuel, parent, 0, |entries|
  {
    if |entries| > 0 {
      ToJsonErrors(default, entries[0].1, fuel);
      ToJsonFieldsErrors(default, parent, entries[1..], fuel);
    }
  }

  /** Plain values never reach the hook: the encoding is their document. */
  lemma {:induction false} ToJsonPlain(default: Value -> Result<Value>, v: Value, fuel: nat)
    requires Codec.Plain(v)
    ensures ToJson(default, v, fuel) == Ok(Codec.PlainJson(v))
    decreases v, 1
  {
    match v
    case VList(items) =>
      ToJsonItemsPlain(default, v, items, fuel);
      assert seq(|items|, k requires 0 <= k < |items| => Codec.PlainJson(items[k]))
          == ToJsonItems(default, v, items, fuel).value;
    case VDict(entries) =>
      ToJsonFieldsPlain(default, v, entries, fuel);
      assert seq(|entries|, k requires 0 <= k < |entries| => (entries[k].0, Codec.PlainJson(entries[k].1)))
          == ToJsonFields(default, v, entries, fuel).value;
    case _ =>
  }

  lemma {:induction false} ToJsonItemsPlain(default: Value -> Result<Value>, parent: Value, items: seq<Value>, fuel: nat)
    requires forall k :: 0 <= k < |items| ==> items[k] < parent && Codec.Plain(items[k])
    ensures var r := ToJsonItems(default, parent, items, fuel);
            r.Ok? && forall k :: 0 <= k < |items| ==> r.value[k] == Codec.PlainJson(items[k])
    decreases parent, 0, |items|
  {
    if |items| > 0 {
      ToJsonPlain(default, items[0], fuel);
      ToJsonItemsPlain(default, parent, items[1..], fuel);
    }
  }

  lemma {:induction false} ToJsonFieldsPlain(default: Value -> Result<Value>, parent: Value, entries: Entries, fuel: nat)
    requires forall k :: 0 <= k < |entries| ==> entries[k].1 < parent && Codec.Plain(entries[k].1)
    ensures var r := ToJsonFields(default, parent, entries, fuel);
            r.Ok? && forall k :: 0 <= k < |entries| ==> r.value[k] == (entries[k].0, Codec.PlainJson(entries[k].1))
    decreases parent, 0, |entries|
  {
    if |entries| > 0 {
      ToJsonPlain(default, entries[0].1, fuel);
      ToJsonFieldsPlain(default, parent, entries[1..], fuel);
    }
  }

  /** A value JSON cannot represent is written as the plain value the hook turns it
      into, with one level of the bound spent. */
  lemma ToJsonOfPlainDefault(default: Value -> Result<Value>, v: Value, d: Value, fuel: nat)
    requires !(v.VNone? || v.VBool? || v.VInt? || v.VStr? || v.VList? || v.VDict?)
    requires fuel >= 1 && default(v) == Ok(d) && Codec.Plain(d)
    ensures ToJson(default, v, fuel) == Ok(Codec.PlainJson(d))
  {
    ToJsonPlain(default, d, fuel - 1);
  }

  /** The separators `json.dumps` uses when it is passed `separators=None` (and no
      indent). */
  const DefaultSeparators := (", ", ": ")

  /** The separators in effect: the caller's, or `json.dumps`'s own. */
  function SeparatorsOf(separators: Option<(string, string)>): (string, string)
  {
    if separators.Some? then separators.value else DefaultSeparators
  }

  /** `json.dumps(v, separators=separators, default=default)`: the text of the document.
      Plain values are written as they are, never reaching the hook; the text is ASCII
      whenever the separators are; and a hook that raises nothing but TypeError makes
      `dumps` raise nothing else but RecursionError. */
  function Dumps(default: Value -> Result<Value>, v: Value, separators: Option<(string, string)>, fuel: nat): (r: Result<string>)
    ensures r.Ok? <==> ToJson(default, v, fuel).Ok?
    ensures r.Err? ==> r.error == ToJson(default, v, fuel).error
    ensures r.Ok? && separators.Some? ==>
              r.value == Serialize(ToJson(default, v, fuel).value, separators.value.0, separators.value.1)
    ensures r.Ok? && separators.None? ==>
              r.value == Serialize(ToJson(default, v, fuel).value, ", ", ": ")
    ensures Codec.Plain(v) ==> r == Ok(Serialize(Codec.PlainJson(v), SeparatorsOf(separators).0, SeparatorsOf(separators).1))
    ensures r.Ok? && IsAscii(SeparatorsOf(separators).0) && IsAscii(SeparatorsOf(separators).1) ==> IsAscii(r.value)
    ensures r.Err? && RaisesOnlyTypeError(default) ==> r.error.TypeError? || r.error == RecursionError
  {
    var seps := SeparatorsOf(separators);
    DumpsFacts(default, v, seps, fuel);
    var doc :- ToJson(default, v, fuel);
    Ok(Serialize(doc, seps.0, seps.1))
  }

  /** What `Dumps` states about plain values, ASCII text and the errors raised. */
  lemma DumpsFacts(default: Value -> Result<Value>, v: Value, seps: (string, string), fuel: nat)
    ensures Codec.Plain(v) ==> ToJson(default, v, fuel) == Ok(Codec.PlainJson(v))
    ensures ToJson(default, v, fuel).Ok? && IsAscii(seps.0) && IsAscii(seps.1) ==>
              IsAscii(Serialize(ToJson(default, v, fuel).value, seps.0, seps.1))
    ensures ToJson(default, v, fuel).Err? && RaisesOnlyTypeError(default) ==>
              ToJson(default, v, fuel).error.TypeError? || ToJson(default, v, fuel).error == RecursionError
  {
    if Codec.Plain(v) {
      ToJsonPlain(default, v, fuel);
    }
    if ToJson(default, v, fuel).Ok? && IsAscii(seps.0) && IsAscii(seps.1) {
      SerializeAscii(ToJson(default, v, fuel).value, seps.0, seps.1);
    }
    if RaisesOnlyTypeError(default) {
      ToJsonErrors(default, v, fuel);
    }
  }
}

=== FILE: legacy_callcache.dfy ===
/** callcache.py, the first generation: call signatures made unique through the
    callable's signature, their compact JSON text and digest, and an in-memory cache
    of results keyed by that digest. On a miss the wrapper calls the function again
    with the arguments read back from the signature, whose "args" and "kwargs" keys are
    left out when empty; the model keeps that as written and a corrected lookup that
    defaults them. */
module LegacyCallcache {
  import opened Results
  import opened Py
  import opened Json
  import Sorting
  import IsoDates
  import Encode
  import Decode
  import Codec
  import JsonDumps
  import CallcacheCache

  /** `uniquify_arguments(callable_, *args, **kwargs)`: the arguments as the callable's
      signature binds them with defaults applied, or as given when there is no signature
      or binding fails (the failure is swallowed); the keyword arguments sorted by name. */
  function UniquifyArguments(env: Env, f: Value, args: seq<Value>, kwargs: Entries): (r: (seq<Value>, Entries))
    ensures UniqueKeys(r.1) && Sorting.Sorted(r.1, Encode.KeyLe)
    ensures Bind(env, f, args, kwargs, true).Bound? ==>
              r.0 == Bind(env, f, args, kwargs, true).args
              && multiset(r.1) == multiset(DictOf(Bind(env, f, args, kwargs, true).kwargs))
    ensures !Bind(env, f, args, kwargs, true).Bound? ==> r.0 == args && multiset(r.1) == multiset(DictOf(kwargs))
  {
    match Bind(env, f, args, kwargs, true)
    case Bound(a, k) => (a, Encode.SortKwargs(k))
    case _ => (args, Encode.SortKwargs(kwargs))
  }

  /** Two spellings of a call that bind to the same arguments are made the same. */
  lemma SameBindingSameArguments(env: Env, f: Value, a1: seq<Value>, k1: Entries, a2: seq<Value>, k2: Entries)
    requires Bind(env, f, a1, k1, true).Bound?
    requires Bind(env, f, a1, k1, true) == Bind(env, f, a2, k2, true)
    ensures UniquifyArguments(env, f, a1, k1) == UniquifyArguments(env, f, a2, k2)
  {
  }

  /** The order the keyword arguments are passed in does not matter, whether or not the
      callable has a signature. */
  lemma KeywordOrderIrrelevant(env: Env, f: Value, args: seq<Value>, k1: Entries, k2: Entries)
    requires UniqueKeys(k1) && multiset(k1) == multiset(k2)
    requires Bind(env, f, args, k1, true) == Bind(env, f, args, k2, true)
    ensures UniquifyArguments(env, f, args, k1) == UniquifyArguments(env, f, args, k2)
  {
    if !Bind(env, f, args, k1, true).Bound? {
      Encode.SortKwargsIgnoresOrder(k1, k2);
    }
  }

  /** `inspect_fully_qualified_name(obj)`: "module:qualname"; an object with no module
      fails on `None.__name__` with AttributeError. */
  function InspectFullyQualifiedName(c: Callable): (r: Result<string>)
    ensures r.Err? <==> c.moduleName.None?
    ensures r.Err? ==> r.error.AttributeError?
    ensures r.Ok? ==> |r.value| == |c.moduleName.value| + 1 + |c.qualname| && r.value[|c.moduleName.value|] == ':'
    ensures r.Ok? ==> r.value[..|c.moduleName.value|] == c.moduleName.value
    ensures r.Ok? ==> r.value[|c.moduleName.value| + 1..] == c.qualname
  {
    match c.moduleName
    case None => Err(AttributeError("'NoneType' object has no attribute '__name__'"))
    case Some(m) => Ok(m + ":" + c.qualname)
  }

  /** The later encoder writes the same name, and raises ValueError where this one
      raises AttributeError. */
  lemma InspectAgreesWithLater(c: Callable)
    ensures InspectFullyQualifiedName(c).Ok? <==> Encode.InspectFullyQualifiedName(c).Ok?
    ensures InspectFullyQualifiedName(c).Ok? ==> InspectFullyQualifiedName(c) == Encode.InspectFullyQualifiedName(c)
    ensures Encode.InspectFullyQualifiedName(c).Err? ==> Encode.InspectFullyQualifiedName(c).error.ValueError?
  {
  }

  /** The callable as `uniquify_arguments` receives it: a name stays a string. */
  function TargetValue(t: Encode.Target): Value
  {
    match t
    case Named(fqn) => VStr(fqn)
    case Function(c) => VFunc(c)
  }

  /** The name a signature records: a string as it is, with no check for ':'. */
  function SignatureName(t: Encode.Target): (r: Result<string>)
    ensures t.Named? ==> r == Ok(t.fqn)
    ensures t.Function? ==> r == InspectFullyQualifiedName(t.c)
  {
    match t
    case Named(fqn) => Ok(fqn)
    case Function(c) => InspectFullyQualifiedName(c)
  }

  /** The signature dictionary of a callable name and made-unique arguments. */
  function Signature(fqn: string, a: seq<Value>, k: Entries): (r: Value)
    ensures r.VDict?
  {
    var e0 := [("callable", VStr(fqn))];
    var e1 := if |a| > 0 then e0 + [("args", VList(a))] else e0;
    var e2 := if |k| > 0 then e1 + [("kwargs", VDict(k))] else e1;
    VDict(e2)
  }

  /** `uniquify_call_signature(callable_, *args, **kwargs)`. */
  function UniquifyCallSignature(env: Env, t: Encode.Target, args: seq<Value>, kwargs: Entries): (r: Result<Value>)
    ensures r.Ok? <==> SignatureName(t).Ok?
    ensures r.Ok? ==>
              var unique := UniquifyArguments(env, TargetValue(t), args, kwargs);
              r.value == Signature(SignatureName(t).value, unique.0, unique.1)
  {
    var fqn :- SignatureName(t);
    var (a, k) := UniquifyArguments(env, TargetValue(t), args, kwargs);
    Ok(Signature(fqn, a, k))
  }

  /** The signature names the callable, and holds "args" and "kwargs" exactly when they
      are not empty. */
  lemma SignatureKeys(fqn: string, a: seq<Value>, k: Entries)
    ensures var e := Signature(fqn, a, k).entries;
            && Lookup(e, "callable") == Some(VStr(fqn))
            && Lookup(e, "args") == (if |a| > 0 then Some(VList(a)) else None)
            && Lookup(e, "kwargs") == (if |k| > 0 then Some(VDict(k)) else None)
            && KeysOf(e) == ["callable"] + (if |a| > 0 then ["args"] else []) + (if |k| > 0 then ["kwargs"] else [])
  {
    var e0 := [("callable", VStr(fqn))];
    var e1 := if |a| > 0 then e0 + [("args", VList(a))] else e0;
    var e2 := if |k| > 0 then e1 + [("kwargs", VDict(k))] else e1;
    assert Signature(fqn, a, k).entries == e2;
    SignatureChain(fqn, a, k, e0, e1, e2);
    SignatureKeysOf(fqn, a, k);
  }

  /** The lookups of the signature as it is built up, one optional member at a time. */
  lemma SignatureChain(fqn: string, a: seq<Value>, k: Entries, e0: Entries, e1: Entries, e2: Entries)
    requires e0 == [("callable", VStr(fqn))]
    requires e1 == if |a| > 0 then e0 + [("args", VList(a))] else e0
    requires e2 == if |k| > 0 then e1 + [("kwargs", VDict(k))] else e1
    ensures Lookup(e2, "callable") == Some(VStr(fqn))
    ensures Lookup(e2, "args") == (if |a| > 0 then Some(VList(a)) else None)
    ensures Lookup(e2, "kwargs") == (if |k| > 0 then Some(VDict(k)) else None)
  {
    assert |"callable"| == 8 && |"args"| == 4 && |"kwargs"| == 6;
    var pc, pa, pk := ("callable", VStr(fqn)), ("args", VList(a)), ("kwargs", VDict(k));
    assert [] + [pc] == e0;
    Encode.LookupSnoc([], pc, "callable");
    Encode.LookupSnoc([], pc, "args");
    Encode.LookupSnoc([], pc, "kwargs");
    if |a| > 0 {
      Encode.LookupSnoc(e0, pa, "callable");
      Encode.LookupSnoc(e0, pa, "args");
      Encode.LookupSnoc(e0, pa, "kwargs");
    }
    if |k| > 0 {
      Encode.LookupSnoc(e1, pk, "callable");
      Encode.LookupSnoc(e1, pk, "args");
      Encode.LookupSnoc(e1, pk, "kwargs");
    }
  }

  lemma SignatureKeysOf(fqn: string, a: seq<Value>, k: Entries)
    ensures KeysOf(Signature(fqn, a, k).entries)
         == ["callable"] + (if |a| > 0 then ["args"] else []) + (if |k| > 0 then ["kwargs"] else [])
  {
    var e := Signature(fqn, a, k).entries;
    if |a| > 0 && |k| > 0 {
      assert KeysOf(e) == ["callable", "args", "kwargs"];
    } else if |a| > 0 {
      assert KeysOf(e) == ["callable", "args"];
    } else if |k| > 0 {
      assert KeysOf(e) == ["callable", "kwargs"];
    } else {
      assert KeysOf(e) == ["callable"];
    }
  }

  /** `LocalFilesJSONENcoder.default`: a datetime becomes the signature of calling
      `datetime.fromisoformat` on its ISO text; anything else raises TypeError (the
      `super` call, whose arguments are swapped, raises it before the base class
      would). */
  function LocalFilesDefault(env: Env, v: Value): (r: Result<Value>)
    ensures v.VDateTime? ==> r == Ok(Signature("datetime:datetime.fromisoformat", [VStr(Codec.IsoFormat(v))], []))
    ensures !v.VDateTime? ==> r.Err? && r.error.TypeError?
  {
    if v.VDateTime? then
      var r := UniquifyCallSignature(env, Encode.Named("datetime:datetime.fromisoformat"), [VStr(Codec.IsoFormat(v))], []);
      assert Encode.SortKwargs([]) == [] by {
        assert |Encode.SortKwargs([])| == 0;
      }
      r
    else Err(TypeError("super() argument 1 must be a type"))
  }

  function LocalFilesHook(env: Env): (f: Value -> Result<Value>)
    ensures forall v :: f(v) == LocalFilesDefault(env, v)
  {
    v => LocalFilesDefault(env, v)
  }

  /** `jsonify(obj)`: compact JSON through the local-files encoder; the only errors
      are its TypeError and running out of nesting. */
  function Jsonify(env: Env, v: Value, fuel: nat): (r: Result<string>)
    ensures r.Err? ==> r.error.TypeError? || r.error == RecursionError
    ensures r == JsonDumps.Dumps(LocalFilesHook(env), v, Some((",", ":")), fuel)
  {
    JsonDumps.ToJsonErrors(LocalFilesHook(env), v, fuel);
    JsonDumps.Dumps(LocalFilesHook(env), v, Some((",", ":")), fuel)
  }

  /** A datetime is written as the document of its plain signature. */
  lemma JsonifyDateTime(env: Env, t: IsoDates.PyDateTime, fuel: nat)
    requires fuel >= 1
    ensures var sig := Signature("datetime:datetime.fromisoformat", [VStr(IsoDates.DateTimeIsoFormat(t))], []);
            && Codec.Plain(sig)
            && JsonDumps.ToJson(LocalFilesHook(env), VDateTime(t), fuel) == Ok(Codec.PlainJson(sig))
  {
    var sig := Signature("datetime:datetime.fromisoformat", [VStr(IsoDates.DateTimeIsoFormat(t))], []);
    var e0 := [("callable", VStr("datetime:datetime.fromisoformat"))];
    assert sig.entries == e0 + [("args", VList([VStr(IsoDates.DateTimeIsoFormat(t))]))];
    assert Codec.Plain(VList([VStr(IsoDates.DateTimeIsoFormat(t))]));
    Codec.PlainDictFields(sig.entries);
    JsonDumps.ToJsonOfPlainDefault(LocalFilesHook(env), VDateTime(t), sig, fuel);
  }

  /** `uniquify_call_signature_json(callable_, *args, **kwargs)`. */
  function UniquifyCallSignatureJson(env: Env, t: Encode.Target, args: seq<Value>, kwargs: Entries, fuel: nat): (r: Result<string>)
    ensures UniquifyCallSignature(env, t, args, kwargs).Err? ==> r == Err(UniquifyCallSignature(env, t, args, kwargs).error)
    ensures UniquifyCallSignature(env, t, args, kwargs).Ok? ==> r == Jsonify(env, UniquifyCallSignature(env, t, args, kwargs).value, fuel)
  {
    var sig :- UniquifyCallSignature(env, t, args, kwargs);
    Jsonify(env, sig, fuel)
  }

  /** `uniquify_call_signatures(callable_, *args, **kwargs)`: the signature, its JSON
      text, and the digest of that text. */
  function UniquifyCallSignatures(env: Env, t: Encode.Target, args: seq<Value>, kwargs: Entries, fuel: nat): (r: Result<(Value, string, string)>)
    ensures r.Ok? <==> UniquifyCallSignatureJson(env, t, args, kwargs, fuel).Ok?
    ensures r.Ok? ==> && Ok(r.value.0) == UniquifyCallSignature(env, t, args, kwargs)
                      && Ok(r.value.1) == UniquifyCallSignatureJson(env, t, args, kwargs, fuel)
                      && r.value.2 == CallcacheCache.Hexdigestify(env, r.value.1)
    ensures r.Err? ==> r.error == UniquifyCallSignatureJson(env, t, args, kwargs, fuel).error
  {
    var sig :- UniquifyCallSignature(env, t, args, kwargs);
    var text :- Jsonify(env, sig, fuel);
    Ok((sig, text, CallcacheCache.Hexdigestify(env, text)))
  }

  /** The module-level `CACHE`: digest to (signature text, result). */
  type Cache = map<string, (string, Value)>

  /** `invalidate_entry(hexdigest)`: `CACHE.pop(hexdigest, None)`. */
  function InvalidateEntry(cache: Cache, key: string): (r: (Cache, Option<(string, Value)>))
    ensures key !in r.0
    ensures r.0.Keys == cache.Keys - {key}
    ensures forall k :: k in r.0 ==> r.0[k] == cache[k]
    ensures key in cache <==> r.1.Some?
    ensures key in cache ==> r.1 == Some(cache[key])
  {
    if key in cache then (map k | k in cache && k != key :: cache[k], Some(cache[key]))
    else (cache, None)
  }

  /** Invalidating an entry just stored gives the cache back as it was before, and the
      entry. */
  lemma InvalidateAfterStore(cache: Cache, key: string, entry: (string, Value))
    requires key !in cache
    ensures InvalidateEntry(cache[key := entry], key) == (cache, Some(entry))
  {
    var r := InvalidateEntry(cache[key := entry], key);
    assert r.0.Keys == cache.Keys;
    assert forall k :: k in r.0 ==> r.0[k] == cache[k];
    assert r.0 == cache;
  }

  /** How the miss path reads the arguments back from the signature: as written, with
      `signature_dict["args"]` and `signature_dict["kwargs"]`; corrected, with the
      missing keys read as empty. */
  datatype Reading = ReadAsWritten | ReadCorrected

  function ReadBack(reading: Reading, sig: Entries): (r: Result<(seq<Value>, Entries)>)
    ensures reading.ReadAsWritten? && !HasKey(sig, "args") ==> r == Err(KeyError("args"))
    ensures reading.ReadAsWritten? && HasKey(sig, "args") && !HasKey(sig, "kwargs") ==> r.Err? && r.error.KeyError?
  {
    match reading
    case ReadAsWritten =>
      (match Lookup(sig, "args")
       case None => Err(KeyError("args"))
       case Some(av) =>
         match Lookup(sig, "kwargs")
         case None => Err(KeyError("kwargs"))
         case Some(kv) =>
           var a :- Decode.StarArgs(av);
           var k :- Decode.StarStarKwargs(kv);
           Ok((a, k)))
    case ReadCorrected =>
      var a :- Decode.StarArgs(Decode.GetOr(sig, "args", VList([])));
      var k :- Decode.StarStarKwargs(Decode.GetOr(sig, "kwargs", VDict([])));
      Ok((a, k))
  }

  /** The corrected reading gives back the made-unique arguments of any signature. */
  lemma CorrectedReadsArguments(fqn: string, a: seq<Value>, k: Entries)
    ensures ReadBack(ReadCorrected, Signature(fqn, a, k).entries) == Ok((a, k))
  {
    SignatureKeys(fqn, a, k);
  }

  /** As written, only signatures with both positional and keyword arguments read back:
      KeyError("args") without positional ones, KeyError("kwargs") without keyword
      ones. */
  lemma AsWrittenReadsOnlyFullSignatures(fqn: string, a: seq<Value>, k: Entries)
    ensures var r := ReadBack(ReadAsWritten, Signature(fqn, a, k).entries);
            && (|a| == 0 ==> r == Err(KeyError("args")))
            && (|a| > 0 && |k| == 0 ==> r == Err(KeyError("kwargs")))
            && (|a| > 0 && |k| > 0 ==> r == Ok((a, k)))
  {
    SignatureKeys(fqn, a, k);
  }

  /** The wrapper's answer, the cache after it, and the arguments the function was
      called with, if it was. */
  datatype Outcome = Outcome(result: Result<Value>, cache: Cache, calledWith: Option<(seq<Value>, Entries)>)

  /** `cacheable(func)` applied to `c(*args, **kwargs)`; `func` is what calling the
      function on some arguments returns or raises. A TypeError while building the
      signatures calls the function on the arguments as given, without caching; other
      errors propagate. A digest not in the cache calls the function on the arguments
      read back from the signature and stores (signature text, result); a digest in the
      cache answers its stored result. */
  function Cacheable(env: Env, reading: Reading, cache: Cache, c: Callable, args: seq<Value>, kwargs: Entries,
                     func: (seq<Value>, Entries) -> Result<Value>, fuel: nat): (r: Outcome)
    ensures r.calledWith.None? ==> r.cache == cache
    ensures r.result.Err? ==> r.cache == cache
    ensures forall k :: k in cache ==> k in r.cache && r.cache[k] == cache[k]
    ensures r.calledWith.Some? ==> r.result == func(r.calledWith.value.0, r.calledWith.value.1)
  {
    match UniquifyCallSignatures(env, Encode.Function(c), args, kwargs, fuel)
    case Err(e) =>
      if e.TypeError? then Outcome(func(args, kwargs), cache, Some((args, kwargs)))
      else Outcome(Err(e), cache, None)
    case Ok((sig, text, key)) =>
      if key in cache then Outcome(Ok(cache[key].1), cache, None)
      else
        match ReadBack(reading, sig.entries)
        case Err(e) => Outcome(Err(e), cache, None)
        case Ok((a, k)) =>
          match func(a, k)
          case Err(e) => Outcome(Err(e), cache, Some((a, k)))
          case Ok(v) => Outcome(Ok(v), cache[key := (text, v)], Some((a, k)))
  }

  /** A digest already cached answers the stored result without calling the function
      or changing the cache. */
  lemma HitReturnsStored(env: Env, reading: Reading, cache: Cache, c: Callable, args: seq<Value>, kwargs: Entries,
                         func: (seq<Value>, Entries) -> Result<Value>, fuel: nat)
    requires UniquifyCallSignatures(env, Encode.Function(c), args, kwargs, fuel).Ok?
    requires UniquifyCallSignatures(env, Encode.Function(c), args, kwargs, fuel).value.2 in cache
    ensures var key := UniquifyCallSignatures(env, Encode.Function(c), args, kwargs, fuel).value.2;
            Cacheable(env, reading, cache, c, args, kwargs, func, fuel) == Outcome(Ok(cache[key].1), cache, None)
  {
  }

  /** A signature that cannot be written (TypeError) calls the function on the
      arguments as given, and stores nothing. */
  lemma UncacheableCallsThrough(env: Env, reading: Reading, cache: Cache, c: Callable, args: seq<Value>, kwargs: Entries,
                                func: (seq<Value>, Entries) -> Result<Value>, fuel: nat)
    requires var s := UniquifyCallSignatures(env, Encode.Function(c), args, kwargs, fuel); s.Err? && s.error.TypeError?
    ensures Cacheable(env, reading, cache, c, args, kwargs, func, fuel) == Outcome(func(args, kwargs), cache, Some((args, kwargs)))
  {
  }

  /** As written, a miss on a call whose made-unique arguments lack positional or
      keyword arguments raises KeyError and never calls the function. */
  lemma AsWrittenMissRaises(env: Env, cache: Cache, c: Callable, args: seq<Value>, kwargs: Entries,
                            func: (seq<Value>, Entries) -> Result<Value>, fuel: nat)
    requires UniquifyCallSignatures(env, Encode.Function(c), args, kwargs, fuel).Ok?
    requires UniquifyCallSignatures(env, Encode.Function(c), args, kwargs, fuel).value.2 !in cache
    requires var unique := UniquifyArguments(env, VFunc(c), args, kwargs); |unique.0| == 0 || |unique.1| == 0
    ensures var r := Cacheable(env, ReadAsWritten, cache, c, args, kwargs, func, fuel);
            && r.result.Err? && r.result.error.KeyError?
            && r.calledWith.None? && r.cache == cache
  {
    var (a, k) := UniquifyArguments(env, VFunc(c), args, kwargs);
    var fqn := InspectFullyQualifiedName(c).value;
    AsWrittenReadsOnlyFullSignatures(fqn, a, k);
  }

  /** Corrected, a miss calls the function once on the made-unique arguments and
      stores the signature text with the result. */
  lemma CorrectedMissStores(env: Env, cache: Cache, c: Callable, args: seq<Value>, kwargs: Entries,
                            func: (seq<Value>, Entries) -> Result<Value>, fuel: nat)
    requires UniquifyCallSignatures(env, Encode.Function(c), args, kwargs, fuel).Ok?
    requires UniquifyCallSignatures(env, Encode.Function(c), args, kwargs, fuel).value.2 !in cache
    ensures var signature := UniquifyCallSignatures(env, Encode.Function(c), args, kwargs, fuel).value;
            var text := signature.1;
            var key := signature.2;
            var unique := UniquifyArguments(env, VFunc(c), args, kwargs);
            var r := Cacheable(env, ReadCorrected, cache, c, args, kwargs, func, fuel);
            && r.calledWith == Some(unique)
            && r.result == func(unique.0, unique.1)
            && (r.result.Ok? ==> r.cache == cache[key := (text, r.result.value)])
  {
    var unique := UniquifyArguments(env, VFunc(c), args, kwargs);
    var fqn := InspectFullyQualifiedName(c).value;
    var signature := UniquifyCallSignatures(env, Encode.Function(c), args, kwargs, fuel).value;
    assert signature.0 == Signature(fqn, unique.0, unique.1);
    assert ReadBack(ReadCorrected, signature.0.entries) == Ok(unique) by {
      CorrectedReadsArguments(fqn, unique.0, unique.1);
    }
  }

  /** Corrected, a call repeated after a successful miss answers the same result
      without calling the function again, whatever it would now return. */
  lemma {:induction false} CorrectedSecondCallHits(env: Env, cache: Cache, c: Callable, args: seq<Value>, kwargs: Entries,
                                                   func: (seq<Value>, Entries) -> Result<Value>,
                                                   later: (seq<Value>, Entries) -> Result<Value>, fuel: nat)
    requires UniquifyCallSignatures(env, Encode.Function(c), args, kwargs, fuel).Ok?
    requires UniquifyCallSignatures(env, Encode.Function(c), args, kwargs, fuel).value.2 !in cache
    requires var unique := UniquifyArguments(env, VFunc(c), args, kwargs); func(unique.0, unique.1).Ok?
    ensures var first := Cacheable(env, ReadCorrected, cache, c, args, kwargs, func, fuel);
            var second := Cacheable(env, ReadCorrected, first.cache, c, args, kwargs, later, fuel);
            && second.calledWith.None?
            && second.cache == first.cache
            && second.result == first.result
  {
    CorrectedMissStores(env, cache, c, args, kwargs, func, fuel);
    var key := UniquifyCallSignatures(env, Encode.Function(c), args, kwargs, fuel).value.2;
    var first := Cacheable(env, ReadCorrected, cache, c, args, kwargs, func, fuel);
    assert key in first.cache;
    HitReturnsStored(env, ReadCorrected, first.cache, c, args, kwargs, later, fuel);
  }
}

=== FILE: overrides.dfy ===
/** The dictionary operations the settings contexts of both generations are built
    from: `dict.update`, and the comprehension `{key: settings[key] for key in kwargs}`
    that saves the values about to be overridden. */
module Overrides {
  import opened Results
  import opened Py

  /** `d.update(kwargs)`: each pair put in turn, so a key already present keeps its
      place and a new key is appended. */
  function Update(d: Entries, kwargs: Entries): (r: Entries)
    ensures forall k :: HasKey(r, k) <==> HasKey(d, k) || HasKey(kwargs, k)
    ensures UniqueKeys(d) ==> UniqueKeys(r)
    ensures KeysOf(d) <= KeysOf(r)
    decreases |kwargs|
  {
    if |kwargs| == 0 then d
    else
      var init := kwargs[..|kwargs| - 1];
      var last := kwargs[|kwargs| - 1];
      var prev := Update(d, init);
      var r := Put(prev, last.0, last.1);
      forall k ensures HasKey(r, k) <==> HasKey(d, k) || HasKey(kwargs, k) {
        HasKeyInit(kwargs, k);
        assert HasKey(r, k) <==> Lookup(r, k).Some?;
        assert HasKey(prev, k) <==> Lookup(prev, k).Some?;
      }
      r
  }

  /** A key of the arguments is a key of all but the last pair, or the last one's. */
  lemma HasKeyInit(kwargs: Entries, k: string)
    requires |kwargs| > 0
    ensures HasKey(kwargs, k) <==> HasKey(kwargs[..|kwargs| - 1], k) || kwargs[|kwargs| - 1].0 == k
  {
    var init := kwargs[..|kwargs| - 1];
    if HasKey(init, k) {
      var i :| 0 <= i < |init| && init[i].0 == k;
      assert kwargs[i] == init[i];
    }
    if HasKey(kwargs, k) && kwargs[|kwargs| - 1].0 != k {
      var i :| 0 <= i < |kwargs| && kwargs[i].0 == k;
      assert init[i] == kwargs[i];
    }
  }

  /** After the update a key holds the value the arguments give it, and the value it
      had before when they do not name it. */
  lemma {:induction false} UpdateLookup(d: Entries, kwargs: Entries, k: string)
    ensures Lookup(Update(d, kwargs), k) == if HasKey(kwargs, k) then Lookup(kwargs, k) else Lookup(d, k)
    decreases |kwargs|
  {
    if |kwargs| > 0 {
      var init := kwargs[..|kwargs| - 1];
      var last := kwargs[|kwargs| - 1];
      UpdateLookup(d, init, k);
      HasKeyInit(kwargs, k);
    }
  }

  /** Updating only keys already present keeps the keys and their order. */
  lemma {:induction false} UpdateKeepsKeys(d: Entries, kwargs: Entries)
    requires forall i :: 0 <= i < |kwargs| ==> HasKey(d, kwargs[i].0)
    ensures KeysOf(Update(d, kwargs)) == KeysOf(d)
    decreases |kwargs|
  {
    if |kwargs| > 0 {
      var init := kwargs[..|kwargs| - 1];
      assert forall i :: 0 <= i < |init| ==> init[i] == kwargs[i];
      UpdateKeepsKeys(d, init);
      assert HasKey(Update(d, init), kwargs[|kwargs| - 1].0);
    }
  }

  /** `{key: d[key] for key in keys}`: KeyError naming the first key `d` lacks. */
  function Saved(d: Entries, keys: seq<string>): (r: Result<Entries>)
    ensures r.Ok? <==> forall i :: 0 <= i < |keys| ==> HasKey(d, keys[i])
    ensures r.Err? ==> r.error.KeyError? && exists i :: 0 <= i < |keys| && !HasKey(d, keys[i]) && r.error.msg == keys[i]
    ensures r.Ok? ==> KeysOf(r.value) == keys
    ensures r.Ok? ==> forall k :: k in keys ==> Lookup(r.value, k) == Lookup(d, k)
  {
    if |keys| == 0 then Ok([])
    else
      var k := keys[0];
      match Lookup(d, k)
      case None => Err(KeyError(k))
      case Some(v) =>
        var rest :- Saved(d, keys[1..]);
        SavedCons(d, keys, v, rest);
        Ok([(k, v)] + rest)
  }

  /** One step of `Saved`: the first key's entry in front of the saved rest. */
  lemma SavedCons(d: Entries, keys: seq<string>, v: Value, rest: Entries)
    requires |keys| > 0 && Lookup(d, keys[0]) == Some(v)
    requires KeysOf(rest) == keys[1..]
    requires forall k :: k in keys[1..] ==> Lookup(rest, k) == Lookup(d, k)
    ensures KeysOf([(keys[0], v)] + rest) == keys
    ensures forall k :: k in keys ==> Lookup([(keys[0], v)] + rest, k) == Lookup(d, k)
  {
    var k := keys[0];
    var r := [(k, v)] + rest;
    assert KeysOf(r) == [k] + KeysOf(rest);
    forall k' | k' in keys ensures Lookup(r, k') == Lookup(d, k') {
      if k' in keys[1..] {
        SavedLookupCons((k, v), rest, k');
      } else {
        assert k' == k;
        forall i | 0 <= i < |rest| ensures rest[i].0 != k {
          assert KeysOf(rest)[i] == rest[i].0;
        }
        SavedLookupHead((k, v), rest);
      }
    }
  }

  lemma SavedLookupCons(x: (string, Value), rest: Entries, k: string)
    requires HasKey(rest, k)
    ensures Lookup([x] + rest, k) == Lookup(rest, k)
    decreases |rest|
  {
    var s := [x] + rest;
    if rest[|rest| - 1].0 != k {
      assert s[..|s| - 1] == [x] + rest[..|rest| - 1];
      var i :| 0 <= i < |rest| && rest[i].0 == k;
      assert rest[..|rest| - 1][i] == rest[i];
      SavedLookupCons(x, rest[..|rest| - 1], k);
    }
  }

  lemma SavedLookupHead(x: (string, Value), rest: Entries)
    requires !HasKey(rest, x.0)
    ensures Lookup([x] + rest, x.0) == Some(x.1)
    decreases |rest|
  {
    var s := [x] + rest;
    if |rest| > 0 {
      assert s[..|s| - 1] == [x] + rest[..|rest| - 1];
      var pre := rest[..|rest| - 1];
      forall i | 0 <= i < |pre| ensures pre[i].0 != x.0 {
        assert pre[i] == rest[i];
      }
      SavedLookupHead(x, rest[..|rest| - 1]);
    } else {
      assert s == [x];
    }
  }

  /** Updating with the arguments and then with the values saved before gives back the
      original settings, key for key and in the same order. */
  lemma {:induction false} UpdateThenRestore(d: Entries, kwargs: Entries)
    requires Saved(d, KeysOf(kwargs)).Ok?
    ensures var saved := Saved(d, KeysOf(kwargs)).value;
            && (forall k :: Lookup(Update(Update(d, kwargs), saved), k) == Lookup(d, k))
            && KeysOf(Update(Update(d, kwargs), saved)) == KeysOf(d)
  {
    var saved := Saved(d, KeysOf(kwargs)).value;
    var mid := Update(d, kwargs);
    forall k ensures Lookup(Update(mid, saved), k) == Lookup(d, k) {
      UpdateLookup(mid, saved, k);
      UpdateLookup(d, kwargs, k);
      HasKeyOfKeys(saved, k);
      HasKeyOfKeys(kwargs, k);
    }
    forall i | 0 <= i < |kwargs| ensures HasKey(d, kwargs[i].0) {
      assert KeysOf(kwargs)[i] == kwargs[i].0;
    }
    UpdateKeepsKeys(d, kwargs);
    forall i | 0 <= i < |saved| ensures HasKey(mid, saved[i].0) {
      assert KeysOf(saved)[i] == saved[i].0;
      assert HasKey(d, saved[i].0);
    }
    UpdateKeepsKeys(mid, saved);
  }

  lemma HasKeyOfKeys(d: Entries, k: string)
    ensures HasKey(d, k) <==> k in KeysOf(d)
  {
    if k in KeysOf(d) {
      var i :| 0 <= i < |d| && KeysOf(d)[i] == k;
    }
  }

  /** A lookup in `a + b` finds `b`'s value when `b` has the key. */
  lemma {:induction false} LookupAppend(a: Entries, b: Entries, k: string)
    ensures Lookup(a + b, k) == if HasKey(b, k) then Lookup(b, k) else Lookup(a, k)
    decreases |b|
  {
    if |b| == 0 {
      assert a + b == a;
    } else {
      var init := b[..|b| - 1];
      assert (a + b)[..|a + b| - 1] == a + init;
      HasKeyInit(b, k);
      LookupAppend(a, init, k);
    }
  }
}

=== FILE: python.dfy ===
/** Python values as the codec sees them, the filesystem the file encoders work on, and
    the foreign primitives the code calls but whose source is not part of this model
    (the import machinery, `inspect.signature(...).bind`, calling an arbitrary callable,
    pickle, SHA3-224, fsspec checksums and file type detection). Those primitives are
    the fields of `Env`, passed to every operation that needs them. */
module Py {
  import opened Results
  import opened Text
  import opened IsoDates

  /** A function, class or builtin: the name of the module `inspect.getmodule` finds for
      it (None when it finds none) and its `__qualname__`. */
  datatype Callable = Callable(moduleName: Option<string>, qualname: string)

  /** The file object classes the IO encoder is registered for. */
  datatype IoKind = BufferedReader | TextIOWrapper | AbstractBufferedFile | LocalFileOpener

  /** Python values. Tuples and lists are both `VList` (JSON does not tell them apart);
      dictionaries have string keys, in insertion order. */
  datatype Value =
    | VNone
    | VBool(b: bool)
    | VInt(i: int)
    | VStr(s: string)
    | VList(items: seq<Value>)
    | VDict(entries: seq<(string, Value)>)
    | VBytes(data: seq<byte>)
    | VDate(date: PyDate)
    | VDateTime(datetime: PyDateTime)
    | VTimedelta(delta: PyTimedelta)
    | VFunc(callable: Callable)
    | VFile(io: IoObject)
    | VModule(name: string)
    | VOpaque(id: nat)

  /** An open file: its class, the URL it reads (`obj.name` for the two `io` classes,
      which are local, `obj.path` on `obj.fs` for the fsspec ones), its mode, and those of
      its attributes that are parameters of `open`. */
  datatype IoObject = IoObject(kind: IoKind, url: string, mode: string, openKwargs: seq<(string, Value)>)

  type Entries = seq<(string, Value)>

  /** `d.get(k)`: the value stored under `k`; the last one when a key repeats. */
  function Lookup(entries: Entries, k: string): (r: Option<Value>)
    ensures r.Some? <==> exists i :: 0 <= i < |entries| && entries[i].0 == k
    ensures r.Some? ==> exists i :: 0 <= i < |entries| && entries[i] == (k, r.value)
  {
    if |entries| == 0 then None
    else if entries[|entries| - 1].0 == k then Some(entries[|entries| - 1].1)
    else
      var r := Lookup(entries[..|entries| - 1], k);
      assert forall i :: 0 <= i < |entries| - 1 ==> entries[..|entries| - 1][i] == entries[i];
      r
  }

  predicate HasKey(entries: Entries, k: string)
  {
    exists i :: 0 <= i < |entries| && entries[i].0 == k
  }

  function KeysOf(entries: Entries): (r: seq<string>)
    ensures |r| == |entries|
    ensures forall i :: 0 <= i < |r| ==> r[i] == entries[i].0
  {
    seq(|entries|, i requires 0 <= i < |entries| => entries[i].0)
  }

  predicate UniqueKeys(entries: Entries)
  {
    forall i, j :: 0 <= i < j < |entries| ==> entries[i].0 != entries[j].0
  }

  /** `d[k] = v`: overwrite in place when `k` is present, append otherwise. */
  function Put(entries: Entries, k: string, v: Value): (r: Entries)
    ensures Lookup(r, k) == Some(v)
    ensures forall k' :: k' != k ==> Lookup(r, k') == Lookup(entries, k')
    ensures UniqueKeys(entries) ==> UniqueKeys(r)
    ensures KeysOf(entries) <= KeysOf(r)
    ensures HasKey(entries, k) ==> KeysOf(r) == KeysOf(entries)
  {
    if HasKey(entries, k) then
      var r := seq(|entries|, i requires 0 <= i < |entries| => if entries[i].0 == k then (k, v) else entries[i]);
      PutInPlace(entries, k, v, r);
      r
    else
      var r := entries + [(k, v)];
      assert r[..|r| - 1] == entries;
      assert KeysOf(r)[..|entries|] == KeysOf(entries);
      r
  }

  lemma {:induction false} PutInPlace(entries: Entries, k: string, v: Value, r: Entries)
    requires |r| == |entries|
    requires forall i :: 0 <= i < |entries| ==> r[i] == if entries[i].0 == k then (k, v) else entries[i]
    requires HasKey(entries, k)
    ensures Lookup(r, k) == Some(v)
    ensures forall k' :: k' != k ==> Lookup(r, k') == Lookup(entries, k')
    ensures KeysOf(entries) == KeysOf(r)
  {
    forall k' | k' != k
      ensures Lookup(r, k') == Lookup(entries, k')
    {
      LookupPointwise(entries, r, k');
    }
    var j :| 0 <= j < |entries| && entries[j].0 == k;
    assert r[j] == (k, v);
    LookupOnlyValue(r, k, v);
  }

  /** Two tables that agree on every entry with key `k` agree on `k`. */
  lemma {:induction false} LookupPointwise(a: Entries, b: Entries, k: string)
    requires |a| == |b|
    requires forall i :: 0 <= i < |a| ==> a[i].0 == b[i].0
    requires forall i :: 0 <= i < |a| && a[i].0 == k ==> a[i] == b[i]
    ensures Lookup(a, k) == Lookup(b, k)
  {
    if |a| > 0 {
      LookupPointwise(a[..|a| - 1], b[..|b| - 1], k);
    }
  }

  /** When every entry under `k` holds `v`, that is what a lookup finds. */
  lemma LookupOnlyValue(r: Entries, k: string, v: Value)
    requires forall i :: 0 <= i < |r| && r[i].0 == k ==> r[i].1 == v
    requires HasKey(r, k)
    ensures Lookup(r, k) == Some(v)
  {
  }

  /** `dict(pairs)`, which is also how `json.loads` builds an object: one entry per key, in
      order of first occurrence, holding the value of the last occurrence. */
  function DictOf(pairs: Entries): (r: Entries)
    ensures UniqueKeys(r)
    ensures forall k :: Lookup(r, k) == Lookup(pairs, k)
  {
    if |pairs| == 0 then []
    else
      var init := pairs[..|pairs| - 1];
      var last := pairs[|pairs| - 1];
      var r := Put(DictOf(init), last.0, last.1);
      assert forall k :: k != last.0 ==> Lookup(pairs, k) == Lookup(init, k);
      r
  }

  /** A file or directory in an fsspec filesystem; a directory (a zarr store) is one
      entry holding its total size. */
  datatype FileInfo = FileInfo(content: seq<byte>, mtime: int, isDir: bool)

  /** All filesystems the program reaches, keyed by URL; the filesystem of a URL is its
      protocol. */
  type Disk = map<string, FileInfo>

  function Size(f: FileInfo): nat
  {
    |f.content|
  }

  /** The outcome of `inspect.signature(obj).bind(*args, **kwargs)`: no signature
      available (ValueError), a binding error, or the bound arguments. */
  datatype BindOutcome =
    | NoSignature
    | BindFailed(error: Error)
    | Bound(args: seq<Value>, kwargs: Entries)

  /** The foreign primitives.
      - `importModule`: `importlib.import_module`.
      - `getAttr`: `getattr(obj, name)`.
      - `bind`: signature binding of a callable the model does not know, with
        `apply_defaults()` when the flag is set.
      - `call`: calling a callable the model does not know.
      - `pickle`: `pickle.dumps`.
      - `sha3`: the SHA3-224 digest of a byte string.
      - `checksum`: fsspec's `fs.checksum` of a file.
      - `guessType`: `mimetypes.guess_type(path, strict=False)[0]`.
      - `magic`: `magic.from_buffer(data, mime=True)` when python-magic is installed.
      - `fsAvailable`: whether fsspec can build a filesystem for a protocol. */
  datatype Env = Env(
    importModule: string -> Result<Value>,
    getAttr: (Value, string) -> Result<Value>,
    bind: (Callable, seq<Value>, Entries, bool) -> BindOutcome,
    call: (Value, seq<Value>, Entries) -> Result<Value>,
    pickle: Value -> Result<seq<byte>>,
    sha3: seq<byte> -> seq<byte>,
    checksum: FileInfo -> nat,
    guessType: string -> Option<string>,
    magic: Option<seq<byte> -> string>,
    fsAvailable: string -> bool)

  /** Python's `callable(obj)`. */
  predicate IsCallable(v: Value)
  {
    v.VFunc?
  }

  /** The callables the codec emits and whose behaviour the model defines. */
  const TimedeltaClass := Callable(Some("datetime"), "timedelta")
  const A2bBase64Func := Callable(Some("binascii"), "a2b_base64")
  const DateFromIsoFormat := Callable(Some("datetime"), "date.fromisoformat")
  const DateTimeFromIsoFormat := Callable(Some("datetime"), "datetime.fromisoformat")
  const PickleLoads := Callable(Some("_pickle"), "loads")
  const DecodeIoObjectFunc := Callable(Some("cacholote.extra_encoders"), "decode_io_object")

  /** Builtins with one positional-only parameter. */
  predicate OneArgBuiltin(c: Callable)
  {
    c == A2bBase64Func || c == DateFromIsoFormat || c == DateTimeFromIsoFormat || c == PickleLoads
  }

  /** Binding against `decode_io_object(file_json, storage_options, **kwargs)`. */
  function BindDecodeIoObject(args: seq<Value>, kwargs: Entries): (r: BindOutcome)
    ensures !r.NoSignature?
    ensures r.Bound? ==> |args| <= 2 && |r.args| == 2 && r.args[..|args|] == args
    ensures r.Bound? ==> !HasKey(r.kwargs, "file_json") && !HasKey(r.kwargs, "storage_options")
  {
    var params := ["file_json", "storage_options"];
    if |args| > 2 then BindFailed(TypeError("too many positional arguments"))
    else if (|args| >= 1 && HasKey(kwargs, "file_json")) || (|args| == 2 && HasKey(kwargs, "storage_options")) then
      BindFailed(TypeError("multiple values for argument"))
    else if (|args| == 0 && !HasKey(kwargs, "file_json")) || (|args| <= 1 && !HasKey(kwargs, "storage_options")) then
      BindFailed(TypeError("missing a required argument"))
    else
      var filled :=
        if |args| == 0 then [Lookup(kwargs, "file_json").value, Lookup(kwargs, "storage_options").value]
        else if |args| == 1 then [Lookup(kwargs, "storage_options").value]
        else [];
      var rest := Filter(kwargs, params);
      assert (args + filled)[..|args|] == args;
      Bound(args + filled, rest)
  }

  /** The entries whose key is not one of `drop`. */
  function Filter(entries: Entries, drop: seq<string>): (r: Entries)
    ensures forall i :: 0 <= i < |r| ==> r[i].0 !in drop && r[i] in entries
    ensures forall k :: k !in drop ==> Lookup(r, k) == Lookup(entries, k)
  {
    if |entries| == 0 then []
    else
      var init := entries[..|entries| - 1];
      var last := entries[|entries| - 1];
      var r := Filter(init, drop);
      assert forall i :: 0 <= i < |init| ==> init[i] in entries;
      if last.0 in drop then r
      else
        assert (r + [last])[..|r|] == r;
        r + [last]
  }

  /** `inspect.signature(obj).bind(*args, **kwargs)` (followed by `apply_defaults()` when
      the flag is set). The model knows the signatures of the callables it defines:
      `timedelta` has none, the one-argument builtins bind one positional argument as
      given, and `decode_io_object` binds its two named parameters positionally; any
      other callable is bound by the environment. Anything that is not callable raises
      TypeError. */
  function Bind(env: Env, f: Value, args: seq<Value>, kwargs: Entries, applyDefaults: bool): (r: BindOutcome)
    ensures !IsCallable(f) ==> r.BindFailed? && r.error.TypeError?
  {
    if !f.VFunc? then BindFailed(TypeError("not a callable object"))
    else if f.callable == TimedeltaClass then NoSignature
    else if OneArgBuiltin(f.callable) && |args| == 1 && |kwargs| == 0 then Bound(args, [])
    else if f.callable == DecodeIoObjectFunc then BindDecodeIoObject(args, kwargs)
    else env.bind(f.callable, args, kwargs, applyDefaults)
  }

  /** Follows the dotted attribute path from `obj`, left to right. */
  function GetAttrPath(env: Env, obj: Value, names: seq<string>): Result<Value>
    decreases |names|
  {
    if |names| == 0 then Ok(obj)
    else
      var next :- env.getAttr(obj, names[0]);
      GetAttrPath(env, next, names[1..])
  }

  /** `import_object(fully_qualified_name)`: the name must contain ':'; the module named
      before the first ':' is imported and the dotted path after it is walked. The three
      copies in the source (cacholote/decode.py, callcache/decode.py and callcache.py)
      are the same code. */
  function ImportObject(env: Env, fqn: string): (r: Result<Value>)
    ensures ':' !in fqn ==> r.Err? && r.error.ValueError?
  {
    if ':' !in fqn then Err(ValueError(fqn + " not in the form 'module:qualname'"))
    else
      var (moduleName, objectName) := Partition(fqn, ':');
      var imported :- env.importModule(moduleName);
      GetAttrPath(env, imported, Split(objectName, '.'))
  }

  /** The standard library names the encoders emit resolve to the model's callables. */
  predicate StdlibPresent(env: Env)
  {
    && ImportObject(env, "datetime:timedelta") == Ok(VFunc(TimedeltaClass))
    && ImportObject(env, "datetime:date.fromisoformat") == Ok(VFunc(DateFromIsoFormat))
    && ImportObject(env, "datetime:datetime.fromisoformat") == Ok(VFunc(DateTimeFromIsoFormat))
    && ImportObject(env, "binascii:a2b_base64") == Ok(VFunc(A2bBase64Func))
  }

  /** A name built as `module:attr1.attr2...` imports `module` and walks exactly the
      attributes it was built from. */
  lemma ImportObjectOfJoined(env: Env, moduleName: string, attrs: seq<string>)
    requires ':' !in moduleName
    requires |attrs| >= 1
    requires forall k :: 0 <= k < |attrs| ==> '.' !in attrs[k]
    ensures var imported := env.importModule(moduleName);
            ImportObject(env, moduleName + ":" + Join(attrs, '.'))
            == if imported.Err? then Err(imported.error) else GetAttrPath(env, imported.value, attrs)
  {
    var fqn := moduleName + ":" + Join(attrs, '.');
    assert fqn[|moduleName|] == ':';
    PartitionOfJoined(moduleName, ':', Join(attrs, '.'));
    SplitJoin(attrs, '.');
  }
}

=== FILE: results.dfy ===
/** Outcomes of operations that can raise.

    `Error` names the Python exceptions that the modelled code raises itself or lets
    through from the primitives it calls; `Result` is the failure-compatible wrapper
    used with `:-` throughout the model. */
module Results {

  datatype Option<+T> = None | Some(value: T)

  datatype Error =
    | ValueError(msg: string)
    | KeyError(msg: string)
    | TypeError(msg: string)
    | IndexError(msg: string)
    | AttributeError(msg: string)
    | ImportError(msg: string)
    | FileNotFoundError(msg: string)
    | IsADirectoryError(msg: string)
    | IntegrityError(msg: string)
    | TimeoutError(msg: string)
    | OverflowError(msg: string)
    | RecursionError
    | EncodeError(msg: string)
      /** A local variable read before any assignment to it. */
    | UnboundLocalError(msg: string)
    | DecodeError(cause: Error)
      /** An exception raised inside a callable whose body is not part of this model. */
    | Raised(msg: string)

  datatype Result<+T> = Ok(value: T) | Err(error: Error) {

    predicate IsFailure() {
      Err?
    }

    function PropagateFailure<U>(): Result<U>
      requires Err?
    {
      Err(error)
    }

    function Extract(): T
      requires Ok?
    {
      value
    }
  }
}

=== FILE: settings.dfy ===
/** The engine settings the cache and the file encoders read (`config.get()` and
    `config.SETTINGS[...]`). */
module EngineSettings {
  import opened Results
  import opened Py

  datatype Settings = Settings(
    useCache: bool,
    /** An ISO date-time string: only entries with this expiration are used and new
        entries get it. */
    expiration: Option<string>,
    tag: Option<string>,
    raiseAllEncodingErrors: bool,
    cacheFilesUrlpath: string,
    cacheFilesUrlpathReadonly: Option<string>,
    cacheFilesStorageOptions: Entries,
    ioDeleteOriginal: bool)
}

=== FILE: sorting.dfy ===
/** Stable insertion sort by a caller-supplied order, used for Python's `sorted(...)`
    over keyword names and file times and for SQL `ORDER BY` over cache rows. */
module Sorting {

  ghost predicate Sorted<T>(s: seq<T>, le: (T, T) -> bool)
  {
    forall i, j :: 0 <= i < j < |s| ==> le(s[i], s[j])
  }

  ghost predicate TotalPreorder<T(!new)>(le: (T, T) -> bool)
  {
    && (forall x, y :: le(x, y) || le(y, x))
    && (forall x, y, z :: le(x, y) && le(y, z) ==> le(x, z))
  }

  /** Inserts `x` before the first element it may precede. */
  function Insert<T>(x: T, s: seq<T>, le: (T, T) -> bool): (r: seq<T>)
    ensures multiset(r) == multiset(s) + multiset{x}
    ensures |r| == |s| + 1
  {
    if |s| == 0 then [x]
    else if le(x, s[0]) then [x] + s
    else
      var t := Insert(x, s[1..], le);
      assert s == [s[0]] + s[1..];
      [s[0]] + t
  }

  /** Insertion sort; elements that compare equal keep their original order. */
  function SortBy<T>(s: seq<T>, le: (T, T) -> bool): (r: seq<T>)
    ensures multiset(r) == multiset(s)
    ensures |r| == |s|
  {
    if |s| == 0 then []
    else
      assert s == [s[0]] + s[1..];
      Insert(s[0], SortBy(s[1..], le), le)
  }

  lemma {:induction false} InsertSorted<T(!new)>(x: T, s: seq<T>, le: (T, T) -> bool)
    requires TotalPreorder(le)
    requires Sorted(s, le)
    ensures Sorted(Insert(x, s, le), le)
  {
    if |s| > 0 && !le(x, s[0]) {
      InsertSorted(x, s[1..], le);
      var t := Insert(x, s[1..], le);
      assert le(s[0], x);
      forall k | 0 <= k < |t|
        ensures le(s[0], t[k])
      {
        assert t[k] in multiset(t);
        assert t[k] in multiset(s[1..]) + multiset{x};
        if t[k] != x {
          assert t[k] in multiset(s[1..]);
          var m :| 0 <= m < |s[1..]| && s[1..][m] == t[k];
          assert le(s[0], s[m + 1]);
        }
      }
    }
  }

  /** The result of `SortBy` is ordered by `le`. */
  lemma {:induction false} SortBySorted<T(!new)>(s: seq<T>, le: (T, T) -> bool)
    requires TotalPreorder(le)
    ensures Sorted(SortBy(s, le), le)
  {
    if |s| > 0 {
      SortBySorted(s[1..], le);
      InsertSorted(s[0], SortBy(s[1..], le), le);
    }
  }

  lemma TailMultiset<T>(s: seq<T>)
    requires |s| > 0
    ensures multiset(s[1..]) == multiset(s) - multiset{s[0]}
  {
    assert s == [s[0]] + s[1..];
  }

  /** The first elements of two sorted orderings of the same elements tie. */
  lemma HeadsTie<T>(a: seq<T>, b: seq<T>, le: (T, T) -> bool)
    requires Sorted(a, le) && Sorted(b, le)
    requires multiset(a) == multiset(b)
    requires |a| > 0
    ensures |b| > 0
    ensures a[0] == b[0] || (le(a[0], b[0]) && le(b[0], a[0]))
  {
    assert a[0] in multiset(b);
    var k :| 0 <= k < |b| && b[k] == a[0];
    assert b[0] in multiset(a);
    var m :| 0 <= m < |a| && a[m] == b[0];
    assert le(b[0], b[k]) || k == 0;
    assert le(a[0], a[m]) || m == 0;
  }

  /** Two orderings of the same elements that are both sorted are equal, when no two
      distinct elements tie. */
  lemma {:induction false} SortedUnique<T>(a: seq<T>, b: seq<T>, le: (T, T) -> bool)
    requires Sorted(a, le) && Sorted(b, le)
    requires multiset(a) == multiset(b)
    requires forall i, j :: 0 <= i < |a| && 0 <= j < |a| && le(a[i], a[j]) && le(a[j], a[i]) ==> a[i] == a[j]
    ensures a == b
  {
    assert |a| == |multiset(a)| == |b|;
    if |a| > 0 {
      HeadsTie(a, b, le);
      assert b[0] in multiset(a);
      var m :| 0 <= m < |a| && a[m] == b[0];
      assert a[0] == b[0];
      TailMultiset(a);
      TailMultiset(b);
      var a', b' := a[1..], b[1..];
      forall i, j | 0 <= i < |a'| && 0 <= j < |a'| && le(a'[i], a'[j]) && le(a'[j], a'[i])
        ensures a'[i] == a'[j]
      {
        assert a'[i] == a[i + 1] && a'[j] == a[j + 1];
      }
      assert Sorted(a', le) by {
        forall i, j | 0 <= i < j < |a'| ensures le(a'[i], a'[j]) {
          assert a'[i] == a[i + 1] && a'[j] == a[j + 1];
        }
      }
      assert Sorted(b', le) by {
        forall i, j | 0 <= i < j < |b'| ensures le(b'[i], b'[j]) {
          assert b'[i] == b[i + 1] && b'[j] == b[j + 1];
        }
      }
      SortedUnique(a', b', le);
      assert a == [a[0]] + a' && b == [b[0]] + b';
    }
  }
}

=== FILE: text.dfy ===
/** Character-level helpers shared by the codec, the digest and the path handling:
    Python's `str.partition`, `str.split`, string ordering, decimal and hexadecimal
    rendering, UTF-8, and the `posixpath` functions the source uses. */
module Text {

  newtype byte = x: int | 0 <= x < 256

  /** Position of the first `c` in `s`, or `|s|` when `c` does not occur. */
  function IndexOf(s: string, c: char): (i: nat)
    ensures i <= |s|
    ensures i < |s| ==> s[i] == c
    ensures c !in s[..i]
    ensures i == |s| <==> c !in s
  {
    if |s| == 0 then 0
    else if s[0] == c then 0
    else
      var k := IndexOf(s[1..], c);
      assert s[..1 + k] == [s[0]] + s[1..][..k];
      1 + k
  }

  /** Position of the last `c` in `s`, or -1 (Python's `str.rfind`). */
  function LastIndexOf(s: string, c: char): (i: int)
    ensures -1 <= i < |s|
    ensures 0 <= i ==> s[i] == c
    ensures forall k :: i < k < |s| ==> s[k] != c
  {
    if |s| == 0 then -1
    else if s[|s| - 1] == c then |s| - 1
    else LastIndexOf(s[..|s| - 1], c)
  }

  /** Python's `s.partition(c)` without the separator: the text before the first `c`
      and the text after it; `(s, "")` when `c` does not occur. */
  function Partition(s: string, c: char): (r: (string, string))
    ensures c !in r.0
    ensures c in s ==> r.0 + [c] + r.1 == s
    ensures c !in s ==> r == (s, "")
  {
    var i := IndexOf(s, c);
    if i == |s| then (s, "")
    else
      assert s == s[..i] + [c] + s[i + 1..];
      (s[..i], s[i + 1..])
  }

  /** Splitting at the first separator recovers the parts that were joined, provided
      the first part does not contain the separator. */
  lemma PartitionOfJoined(head: string, c: char, tail: string)
    requires c !in head
    ensures Partition(head + [c] + tail, c) == (head, tail)
  {
    IndexOfJoined(head, c, tail);
  }

  /** The first separator in `head + [c] + tail` is the one after `head`. */
  lemma IndexOfJoined(head: string, c: char, tail: string)
    requires c !in head
    ensures var s := head + [c] + tail;
            && IndexOf(s, c) == |head| && s[..|head|] == head && s[|head| + 1..] == tail
  {
    var s := head + [c] + tail;
    assert s[|head|] == c;
    assert s[..|head|] == head;
    assert s[|head| + 1..] == tail;
  }

  /** Python's `s.split(c)`: always at least one part, none containing `c`. */
  function Split(s: string, c: char): (r: seq<string>)
    ensures |r| >= 1
    ensures forall k :: 0 <= k < |r| ==> c !in r[k]
    decreases |s|
  {
    var i := IndexOf(s, c);
    if i == |s| then [s] else [s[..i]] + Split(s[i + 1..], c)
  }

  /** Python's `c.join(parts)`. */
  function Join(parts: seq<string>, c: char): string
  {
    if |parts| == 0 then ""
    else if |parts| == 1 then parts[0]
    else parts[0] + [c] + Join(parts[1..], c)
  }

  /** `split` and `join` are inverse: joining the parts restores the text. */
  lemma {:induction false} JoinSplit(s: string, c: char)
    ensures Join(Split(s, c), c) == s
    decreases |s|
  {
    var i := IndexOf(s, c);
    if i < |s| {
      var rest := Split(s[i + 1..], c);
      var parts := [s[..i]] + rest;
      assert Split(s, c) == parts;
      assert parts[1..] == rest;
      JoinSplit(s[i + 1..], c);
      assert Join(parts, c) == s[..i] + [c] + Join(rest, c);
      assert s == s[..i] + [c] + s[i + 1..];
    }
  }

  /** Conversely, splitting joined parts that do not contain the separator recovers them. */
  lemma {:induction false} SplitJoin(parts: seq<string>, c: char)
    requires |parts| >= 1
    requires forall k :: 0 <= k < |parts| ==> c !in parts[k]
    ensures Split(Join(parts, c), c) == parts
    decreases |parts|
  {
    var s := Join(parts, c);
    assert c !in parts[0];
    if |parts| == 1 {
      assert s == parts[0];
    } else {
      var rest := Join(parts[1..], c);
      assert s == parts[0] + [c] + rest;
      IndexOfJoined(parts[0], c, rest);
      assert Split(s, c) == [parts[0]] + Split(rest, c);
      assert forall k :: 0 <= k < |parts[1..]| ==> parts[1..][k] == parts[k + 1];
      SplitJoin(parts[1..], c);
      assert parts == [parts[0]] + parts[1..];
    }
  }

  /** Python's ordering of `str` values: lexicographic by code point. */
  predicate StrLt(a: string, b: string)
  {
    if |a| == 0 then |b| > 0
    else if |b| == 0 then false
    else if a[0] != b[0] then a[0] < b[0]
    else StrLt(a[1..], b[1..])
  }

  lemma StrLtIrreflexive(a: string)
    ensures !StrLt(a, a)
  {
  }

  lemma StrLtTransitive(a: string, b: string, c: string)
    requires StrLt(a, b) && StrLt(b, c)
    ensures StrLt(a, c)
  {
  }

  lemma StrLtTotal(a: string, b: string)
    ensures a == b || StrLt(a, b) || StrLt(b, a)
  {
    if |a| > 0 && |b| > 0 && a[0] == b[0] {
      StrLtTotal(a[1..], b[1..]);
      if a[1..] == b[1..] {
        assert a == [a[0]] + a[1..] && b == [b[0]] + b[1..];
      }
    }
  }

  lemma StrLtAsymmetric(a: string, b: string)
    requires StrLt(a, b)
    ensures !StrLt(b, a)
  {
  }

  function DecimalDigit(d: nat): (c: char)
    requires d < 10
    ensures '0' <= c <= '9'
  {
    ('0' as int + d) as char
  }

  /** Decimal rendering of a natural number, as Python's `str(n)`. */
  function NatToDecimal(n: nat): string
  {
    if n < 10 then [DecimalDigit(n)] else NatToDecimal(n / 10) + [DecimalDigit(n % 10)]
  }

  /** Python's `repr` of a string holding no quote or backslash: the text in single
      quotes. */
  function Quoted(s: string): (r: string)
    ensures |r| == |s| + 2 && r[0] == '\'' && r[|r| - 1] == '\'' && r[1..|r| - 1] == s
  {
    "'" + s + "'"
  }

  /** The `repr`s of the items of a list or set of such strings, separated by ", ". */
  function QuotedItems(items: seq<string>): (r: string)
    ensures items == [] <==> r == []
  {
    if |items| == 0 then ""
    else if |items| == 1 then Quoted(items[0])
    else Quoted(items[0]) + ", " + QuotedItems(items[1..])
  }

  /** Decimal rendering of an integer, as Python's `str(i)` and `json.dumps(i)`. */
  function IntToDecimal(i: int): string
  {
    if i < 0 then "-" + NatToDecimal(-i) else NatToDecimal(i)
  }

  predicate IsHexDigit(c: char)
  {
    '0' <= c <= '9' || 'a' <= c <= 'f'
  }

  function HexDigit(d: nat): (c: char)
    requires d < 16
    ensures IsHexDigit(c) && c as int < 128
  {
    if d < 10 then ('0' as int + d) as char else ('a' as int + d - 10) as char
  }

  /** Lower-case hexadecimal rendering of bytes, two digits each (`hashlib`'s `hexdigest`). */
  function HexLower(bs: seq<byte>): (r: string)
    ensures |r| == 2 * |bs|
    ensures forall k :: 0 <= k < |r| ==> IsHexDigit(r[k])
  {
    if |bs| == 0 then ""
    else [HexDigit(bs[0] as nat / 16), HexDigit(bs[0] as nat % 16)] + HexLower(bs[1..])
  }

  /** Four lower-case hexadecimal digits, as `'{0:04x}'.format(n)`. */
  function Hex4(n: nat): (r: string)
    requires n < 0x10000
    ensures |r| == 4
    ensures IsAscii(r)
  {
    [HexDigit(n / 0x1000), HexDigit(n / 0x100 % 16), HexDigit(n / 16 % 16), HexDigit(n % 16)]
  }

  predicate IsAscii(s: string)
  {
    forall k :: 0 <= k < |s| ==> s[k] as int < 128
  }

  /** UTF-8 encoding of one code point. */
  function Utf8Char(c: char): (r: seq<byte>)
    ensures 1 <= |r| <= 4
    ensures c as int < 128 ==> r == [c as int as byte]
  {
    var n := c as int;
    if n < 0x80 then [n as byte]
    else if n < 0x800 then [(0xC0 + n / 0x40) as byte, (0x80 + n % 0x40) as byte]
    else if n < 0x10000 then
      [(0xE0 + n / 0x1000) as byte, (0x80 + n / 0x40 % 0x40) as byte, (0x80 + n % 0x40) as byte]
    else
      [(0xF0 + n / 0x40000 % 8) as byte, (0x80 + n / 0x1000 % 0x40) as byte,
       (0x80 + n / 0x40 % 0x40) as byte, (0x80 + n % 0x40) as byte]
  }

  /** `text.encode()` with Python's default UTF-8 codec. */
  function Utf8Encode(s: string): (r: seq<byte>)
    ensures |r| >= |s|
  {
    if |s| == 0 then [] else Utf8Char(s[0]) + Utf8Encode(s[1..])
  }

  /** On ASCII text UTF-8 is the identity on code points. */
  lemma {:induction false} Utf8OfAscii(s: string)
    requires IsAscii(s)
    ensures |Utf8Encode(s)| == |s|
    ensures forall k :: 0 <= k < |s| ==> Utf8Encode(s)[k] == s[k] as int as byte
  {
    if |s| > 0 {
      Utf8OfAscii(s[1..]);
    }
  }

  /** `posixpath.basename`: the text after the last '/'. */
  function Basename(p: string): (r: string)
    ensures '/' !in r
  {
    p[LastIndexOf(p, '/') + 1..]
  }

  /** `posixpath.join(a, b)` for two components. */
  function PosixJoin(a: string, b: string): string
  {
    if |b| > 0 && b[0] == '/' then b
    else if |a| == 0 || a[|a| - 1] == '/' then a + b
    else a + "/" + b
  }

  /** True when some character of `p[lo..hi]` is not a dot. */
  predicate HasNonDot(p: string, lo: int, hi: int)
    requires 0 <= lo <= hi <= |p|
  {
    exists k :: lo <= k < hi && p[k] != '.'
  }

  /** The extension part of `posixpath.splitext(p)`: from the last dot of the base name,
      unless the base name is only leading dots before it. */
  function SplitExt(p: string): (ext: string)
    ensures |ext| > 0 ==> ext[0] == '.' && '/' !in ext
  {
    var s := LastIndexOf(p, '/');
    var d := LastIndexOf(p, '.');
    if d > s && HasNonDot(p, s + 1, d) then p[d..] else ""
  }

  /** The protocol fsspec infers from a URL: the text before "://", or "file". */
  function Protocol(url: string): string
  {
    ProtocolAt(url, 0)
  }

  function ProtocolAt(url: string, k: nat): string
    requires k <= |url|
    decreases |url| - k
  {
    if k + 3 > |url| then "file"
    else if url[k..k + 3] == "://" then url[..k]
    else ProtocolAt(url, k + 1)
  }
}

=== FILE: utils.dfy ===
/** The helpers of cacholote/utils.py: the text digest used as cache key, the chunked
    copy between open files, and the lock-file protocol that serialises writers of one
    cache file. */
module Utils {
  import opened Results
  import opened Text
  import opened Py

  /** The number of hexadecimal digits cacholote keeps of a digest (the width of the
      `key` column). */
  const KeyLength := 32

  /** SHA3-224 digests are 28 bytes long. */
  const Sha3DigestBytes := 28

  ghost predicate Sha3Is224(env: Env)
  {
    forall bs :: |env.sha3(bs)| == Sha3DigestBytes
  }

  /** Python's `s[:n]` for `n >= 0`: the first `n` items, or all of them. */
  function Prefix<T>(s: seq<T>, n: nat): (r: seq<T>)
    ensures |r| == if n <= |s| then n else |s|
    ensures r <= s
  {
    if n <= |s| then s[..n] else s
  }

  /** The full lower-case hexadecimal SHA3-224 digest of the UTF-8 text. */
  function FullHexdigest(env: Env, text: string): (r: string)
    ensures forall k :: 0 <= k < |r| ==> IsHexDigit(r[k])
    ensures Sha3Is224(env) ==> |r| == 2 * Sha3DigestBytes
  {
    HexLower(env.sha3(Utf8Encode(text)))
  }

  /** `hexdigestify`: the first 32 hexadecimal digits of the SHA3-224 digest. */
  function Hexdigestify(env: Env, text: string): (r: string)
    ensures forall k :: 0 <= k < |r| ==> IsHexDigit(r[k])
    ensures Sha3Is224(env) ==> |r| == KeyLength
    ensures r <= FullHexdigest(env, text)
  {
    Prefix(FullHexdigest(env, text), KeyLength)
  }

  /** `io.DEFAULT_BUFFER_SIZE`. */
  const DefaultBufferSize := 8192

  /** The file `copy_buffered_file` reads: a binary file yields bytes, a text file
      yields strings that are encoded before they are written. */
  datatype Source = BinarySource(bytes: seq<byte>) | TextSource(text: string)

  function SourceLength(src: Source): nat
  {
    match src
    case BinarySource(bs) => |bs|
    case TextSource(t) => |t|
  }

  /** `f.read(n)` from position `pos`: at most `n` items when `n` is positive, nothing
      when it is 0, the rest of the file when it is negative; the chunk written is the
      encoding of what was read. */
  function ReadChunk(src: Source, pos: nat, n: int): (chunk: seq<byte>)
    requires pos <= SourceLength(src)
    ensures n == 0 || pos == SourceLength(src) <==> |chunk| == 0
  {
    var end := if n < 0 || pos + n > SourceLength(src) then SourceLength(src) else pos + n;
    match src
    case BinarySource(bs) => bs[pos..end]
    case TextSource(t) => (Utf8LongerLemma(t[pos..end]); Utf8Encode(t[pos..end]))
  }

  /** The bytes a reader of the whole file writes out. */
  function Encoded(src: Source): seq<byte>
  {
    match src
    case BinarySource(bs) => bs
    case TextSource(t) => Utf8Encode(t)
  }

  lemma Utf8LongerLemma(s: string)
    ensures |Utf8Encode(s)| == 0 <==> |s| == 0
  {
  }

  lemma {:induction false} Utf8Concat(a: string, b: string)
    ensures Utf8Encode(a + b) == Utf8Encode(a) + Utf8Encode(b)
  {
    if |a| > 0 {
      assert (a + b)[1..] == a[1..] + b;
      Utf8Concat(a[1..], b);
    } else {
      assert a + b == b;
    }
  }

  /** `copy_buffered_file(f_in, f_out, buffer_size)`: reads with the requested size
      (8192 when none is given) until the first empty read, writing each chunk. A
      buffer size of 0 reads nothing, so nothing is written; otherwise the output is
      the whole file, encoded. */
  method CopyBufferedFile(src: Source, bufferSize: Option<int>) returns (written: seq<byte>, requests: seq<int>)
    ensures var n := if bufferSize.None? then DefaultBufferSize else bufferSize.value;
            |requests| >= 1 && forall k :: 0 <= k < |requests| ==> requests[k] == n
    ensures bufferSize == Some(0) ==> written == []
    ensures bufferSize != Some(0) ==> written == Encoded(src)
  {
    var n := if bufferSize.None? then DefaultBufferSize else bufferSize.value;
    var pos := 0;
    written := [];
    requests := [];
    while true
      invariant pos <= SourceLength(src)
      invariant n == 0 ==> pos == 0 && written == []
      invariant n != 0 ==> written == PrefixEncoded(src, pos)
      invariant forall k :: 0 <= k < |requests| ==> requests[k] == n
      invariant |requests| >= 1 || pos == 0
      decreases SourceLength(src) - pos, if n == 0 && |requests| == 0 then 1 else 0
    {
      requests := requests + [n];
      var chunk := ReadChunk(src, pos, n);
      if |chunk| == 0 {
        break;
      }
      var end := if n < 0 || pos + n > SourceLength(src) then SourceLength(src) else pos + n;
      PrefixEncodedStep(src, pos, end);
      written := written + chunk;
      pos := end;
    }
    if n != 0 {
      assert pos == SourceLength(src);
      PrefixEncodedWhole(src);
    }
  }

  /** The encoding of the first `pos` items of the file. */
  function PrefixEncoded(src: Source, pos: nat): seq<byte>
    requires pos <= SourceLength(src)
  {
    match src
    case BinarySource(bs) => bs[..pos]
    case TextSource(t) => Utf8Encode(t[..pos])
  }

  lemma PrefixEncodedStep(src: Source, pos: nat, end: nat)
    requires pos <= end <= SourceLength(src)
    ensures PrefixEncoded(src, end) == PrefixEncoded(src, pos) + ReadChunkAt(src, pos, end)
  {
    match src
    case BinarySource(bs) =>
      assert bs[..end] == bs[..pos] + bs[pos..end];
    case TextSource(t) =>
      assert t[..end] == t[..pos] + t[pos..end];
      Utf8Concat(t[..pos], t[pos..end]);
  }

  function ReadChunkAt(src: Source, pos: nat, end: nat): seq<byte>
    requires pos <= end <= SourceLength(src)
  {
    match src
    case BinarySource(bs) => bs[pos..end]
    case TextSource(t) => Utf8Encode(t[pos..end])
  }

  lemma PrefixEncodedWhole(src: Source)
    ensures PrefixEncoded(src, SourceLength(src)) == Encoded(src)
  {
    match src
    case BinarySource(bs) => assert bs[..|bs|] == bs;
    case TextSource(t) => assert t[..|t|] == t;
  }

  /** A lock on one file of a filesystem: the lock is a sibling file. */
  datatype FileLock = FileLock(urlpath: string, timeout: Option<real>)

  /** `lockfile`: the locked path with ".lock" appended. */
  function Lockfile(l: FileLock): (r: string)
    ensures |r| == |l.urlpath| + 5 && r[..|l.urlpath|] == l.urlpath && r[|l.urlpath|..] == ".lock"
  {
    l.urlpath + ".lock"
  }

  predicate IsLocked(disk: Disk, l: FileLock)
  {
    Lockfile(l) in disk
  }

  /** `acquire`: touching the lock file (an empty file stamped `now`). */
  function Acquire(disk: Disk, l: FileLock, now: int): (r: Disk)
    ensures IsLocked(r, l)
    ensures forall p :: p != Lockfile(l) ==> (p in r <==> p in disk) && (p in disk ==> r[p] == disk[p])
  {
    disk[Lockfile(l) := FileInfo([], now, false)]
  }

  /** `release`: the lock file is removed when it exists. */
  function Release(disk: Disk, l: FileLock): (r: Disk)
    ensures !IsLocked(r, l)
    ensures forall p :: p != Lockfile(l) ==> (p in r <==> p in disk) && (p in disk ==> r[p] == disk[p])
    ensures !IsLocked(disk, l) ==> r == disk
  {
    if Lockfile(l) in disk then disk - {Lockfile(l)} else disk
  }

  /** Releasing twice is releasing once. */
  lemma ReleaseIdempotent(disk: Disk, l: FileLock)
    ensures Release(Release(disk, l), l) == Release(disk, l)
  {
  }

  /** Acquiring and then releasing restores a filesystem that had no lock file. */
  lemma ReleaseUndoesAcquire(disk: Disk, l: FileLock, now: int)
    requires !IsLocked(disk, l)
    ensures Release(Acquire(disk, l, now), l) == disk
  {
    assert Release(Acquire(disk, l, now), l).Keys == disk.Keys;
  }

  /** What `wait_until_released` observes at each test of `is_locked`: whether the lock
      file exists and the seconds elapsed since the wait started. */
  datatype Check = Check(locked: bool, elapsed: real)

  datatype WaitOutcome =
    | Released(warnings: nat, sleeps: seq<real>)
    | TimedOut(warnings: nat, message: string)
      /** The observations ran out while the file was still locked. */
    | StillWaiting(warnings: nat, sleeps: seq<real>)

  function LockedMessage(l: FileLock): string
  {
    "'" + l.urlpath + "' is locked: '" + Lockfile(l) + "'"
  }

  /** `time.sleep(min(1, self.timeout or 1))`: a zero or absent timeout sleeps one
      second. */
  function SleepSeconds(l: FileLock): (r: real)
    ensures l.timeout.None? || l.timeout.value == 0.0 || l.timeout.value >= 1.0 ==> r == 1.0
    ensures l.timeout.Some? && 0.0 < l.timeout.value < 1.0 ==> r == l.timeout.value
    ensures l.timeout.None? || l.timeout.value >= 0.0 ==> 0.0 < r <= 1.0
  {
    if l.timeout.None? || l.timeout.value == 0.0 then 1.0
    else if l.timeout.value < 1.0 then l.timeout.value
    else 1.0
  }

  /** `wait_until_released` over the observations `checks`, with `warned` as the flag
      so far: while locked, the timeout is checked first, then a warning is issued once,
      then the wait sleeps. */
  function WaitUntilReleased(l: FileLock, checks: seq<Check>, warned: bool): (r: WaitOutcome)
    ensures r.warnings <= 1
    ensures warned ==> r.warnings == 1
    ensures r.TimedOut? ==> l.timeout.Some? && exists k :: 0 <= k < |checks| && checks[k].locked && checks[k].elapsed > l.timeout.value
    ensures r.Released? ==> exists k :: 0 <= k < |checks| && !checks[k].locked
    ensures r.StillWaiting? ==> forall k :: 0 <= k < |checks| ==> checks[k].locked
    ensures (r.Released? || r.StillWaiting?) ==> forall k :: 0 <= k < |r.sleeps| ==> r.sleeps[k] == SleepSeconds(l)
    decreases |checks|
  {
    if |checks| == 0 then StillWaiting(if warned then 1 else 0, [])
    else if !checks[0].locked then Released(if warned then 1 else 0, [])
    else if l.timeout.Some? && checks[0].elapsed > l.timeout.value then
      TimedOut(if warned then 1 else 0, LockedMessage(l))
    else
      match WaitUntilReleased(l, checks[1..], true)
      case Released(w, sl) => Released(w, [SleepSeconds(l)] + sl)
      case StillWaiting(w, sl) => StillWaiting(w, [SleepSeconds(l)] + sl)
      case TimedOut(w, m) => TimedOut(w, m)
  }

  /** A lock that is free at the first check is passed without a warning or a sleep;
      one that is held at the first check warns exactly once. */
  lemma {:induction false} WaitWarnsOnceIfLocked(l: FileLock, checks: seq<Check>)
    requires |checks| > 0
    ensures !checks[0].locked ==> WaitUntilReleased(l, checks, false) == Released(0, [])
    ensures checks[0].locked && (l.timeout.None? || checks[0].elapsed <= l.timeout.value) ==>
              WaitUntilReleased(l, checks, false).warnings == 1
  {
    if checks[0].locked && (l.timeout.None? || checks[0].elapsed <= l.timeout.value) {
      var _ := WaitUntilReleased(l, checks[1..], true);
    }
  }

  /** The observations before the wait ended: each found the file locked, within the
      timeout. */
  predicate Waited(l: FileLock, checks: seq<Check>)
  {
    forall j :: 0 <= j < |checks| ==> checks[j].locked && (l.timeout.None? || checks[j].elapsed <= l.timeout.value)
  }

  /** The wait ends at the first observation that finds the file free (released) or
      locked past the timeout (timed out); the observations before it were all locked
      within the timeout. */
  lemma {:induction false} WaitEndsAt(l: FileLock, checks: seq<Check>, warned: bool)
    ensures WaitUntilReleased(l, checks, warned).Released? ==>
              exists k :: 0 <= k < |checks| && !checks[k].locked && Waited(l, checks[..k])
    ensures WaitUntilReleased(l, checks, warned).TimedOut? ==>
              exists k :: 0 <= k < |checks| && checks[k].locked && l.timeout.Some? && checks[k].elapsed > l.timeout.value &&
                          Waited(l, checks[..k])
    decreases |checks|
  {
    if |checks| > 0 && checks[0].locked && (l.timeout.None? || checks[0].elapsed <= l.timeout.value) {
      var rest := checks[1..];
      WaitEndsAt(l, rest, true);
      var r := WaitUntilReleased(l, rest, true);
      if r.Released? {
        var k :| 0 <= k < |rest| && !rest[k].locked && Waited(l, rest[..k]);
        WaitedCons(l, checks, k);
      } else if r.TimedOut? {
        var k :| 0 <= k < |rest| && rest[k].locked && l.timeout.Some? && rest[k].elapsed > l.timeout.value && Waited(l, rest[..k]);
        WaitedCons(l, checks, k);
      }
    } else if |checks| > 0 {
      assert checks[..0] == [];
    }
  }

  lemma WaitedCons(l: FileLock, checks: seq<Check>, k: nat)
    requires k + 1 <= |checks| && Waited(l, checks[..1]) && Waited(l, checks[1..][..k])
    ensures Waited(l, checks[..k + 1])
  {
    assert checks[..k + 1] == checks[..1] + checks[1..][..k];
  }

  /** `__enter__`: wait for the lock to be released, take it, and report whether the
      locked file exists. The wait returns only once it has ended, so the observations
      must end it. */
  function Enter(disk: Disk, l: FileLock, checks: seq<Check>, now: int): (r: Result<(Disk, bool)>)
    requires !WaitUntilReleased(l, checks, false).StillWaiting?
    ensures r.Ok? ==> IsLocked(r.value.0, l) && (r.value.1 <==> l.urlpath in disk)
    ensures r.Ok? ==> exists k :: 0 <= k < |checks| && !checks[k].locked && Waited(l, checks[..k])
    ensures r.Err? ==> r.error.TimeoutError?
    ensures r.Err? ==> exists k :: 0 <= k < |checks| && checks[k].locked && l.timeout.Some? && checks[k].elapsed > l.timeout.value &&
                                   Waited(l, checks[..k])
  {
    WaitEndsAt(l, checks, false);
    match WaitUntilReleased(l, checks, false)
    case Released(_, _) => Ok((Acquire(disk, l, now), l.urlpath in disk))
    case TimedOut(_, msg) => Err(TimeoutError(msg))
  }

  /** `__exit__`: always releases. */
  function Exit(disk: Disk, l: FileLock): (r: Disk)
    ensures !IsLocked(r, l)
  {
    Release(disk, l)
  }

  /** Entering and leaving a lock that was free leaves every other file as it was and
      no lock behind. */
  lemma EnterExit(disk: Disk, l: FileLock, checks: seq<Check>, now: int)
    requires !IsLocked(disk, l)
    requires !WaitUntilReleased(l, checks, false).StillWaiting?
    requires Enter(disk, l, checks, now).Ok?
    ensures Exit(Enter(disk, l, checks, now).value.0, l) == disk
  {
    ReleaseUndoesAcquire(disk, l, now);
  }
}
